=== FILE: README.md ===
# Advent of Code 2024, days 1 to 16, in Dafny

This project models the sixteen puzzle solvers of an Advent of Code 2024
repository, one per file `src/2024/NN-12/index.ts`. Each solver parses a
small text format and computes two answers. Each Dafny module below
restates one solver and proves what its answers mean:

| day | module | puzzle |
|---|---|---|
| 01 | `ListDistance` | total distance and similarity of two location lists |
| 02 | `ReportSafety` | safe reports, with one tolerated deletion |
| 03 | `MulScanner` | `mul(a,b)` instructions with `do()`/`don't()` |
| 04 | `WordSearch` | XMAS in eight directions and X-shaped MAS |
| 05 | `PageOrdering` | page updates checked against ordering rules |
| 06 | `GuardPatrol` | the guard's walk and the obstacles that trap it |
| 07 | `OperatorEquations` | `+`, `*` and `||` between numbers, left to right |
| 08 | `Antinodes` | antinodes of antenna pairs and their harmonics |
| 09 | `DiskCompaction` | block-wise and file-wise disk compaction, checksum |
| 10 | `TrailCounting` | trailhead scores and ratings on a height map |
| 11 | `StoneBlinks` | stones that split or multiply on every blink |
| 12 | `GardenFences`, `GardenRegions` | fence perimeter and sides of garden regions |
| 13 | `ClawMachines` | Cramer's rule for the claw-machine buttons |
| 14 | `RobotMotion` | robots on a wrapping grid, counted by quadrant |
| 15 | `WarehouseRobot`, `WideWarehouse` | a robot pushing boxes, then double-width boxes |
| 16 | `MazeSearch` | least-score paths through a reindeer maze |

Shared modules hold what several days use:

- `Options`: the optional value that stands for JavaScript's `undefined` and `NaN`.
- `Text`: `split`/`join`, decimal digits, and `Number` on decimal text.
- `Arith`: JavaScript's truncating `%` next to Dafny's Euclidean one.
- `OrderedMaps`: a JavaScript `Map` as an insertion-ordered association list.
- `Sorting`: sorting specified by a key; a sorted permutation is unique.
- `Grids`: character grids, row-major search, headings, and JavaScript array writes.

Inputs are modelled as strings or as already-split grids. Numbers are
unbounded integers. Keys the source builds as strings (`"i:j"`, `"i:j:dir"`,
route strings) become tuples and sequences. Engine sorts, the regular
expression of day 3 and the priority queue of day 16 are specified by what
they guarantee, not by their algorithm.

## Model

| member | source | states |
|---|---|---|
| ListDistance.ParseLines | src/2024/01-12/index.ts:11-16 | every line gives one left and one right number, split at the three-space separator, so the two lists have the line count as length; the result is no value exactly when some line does not read as two numbers |
| ListDistance.ParseInput | src/2024/01-12/index.ts:7-19 | the two lists have one entry per non-empty line, the k-th entries being the two numbers of the k-th line; no value exactly when some non-empty line does not read as two numbers |
| ListDistance.ParseRender | src/2024/01-12/index.ts:7-19 | reading two rendered equal-length lists gives the same lists back |
| ListDistance.GetCounts | src/2024/01-12/index.ts:21-29 | every value maps to its exact number of occurrences; the keys are the values present; the counts sum to the list length |
| ListDistance.SolvePart2 | src/2024/01-12/index.ts:44-53 | the answer is the sum over left entries of the entry times its occurrences on the right; absent values add 0 |
| ListDistance.SimilarityPermutation | src/2024/01-12/index.ts:44-53 | similarity does not depend on the order of the left list |
| ListDistance.SolvePart2Permutation | src/2024/01-12/index.ts:44-53 | part two is unchanged by any permutation of either list |
| ListDistance.SolvePart1 | src/2024/01-12/index.ts:31-42 | both lists end as permutations of themselves sorted by the default comparator, and the answer is the sum of pointwise distances of the sorted lists |
| ListDistance.DefaultSortIsTextual | src/2024/01-12/index.ts:34-35 | the default comparator orders by decimal text: 10 sorts before 9 |
| ListDistance.EngineSortAgrees | src/2024/01-12/index.ts:34-35 | any sorted permutation the engine returns is the unique one, so the answer does not depend on the engine |
| ListDistance.DistanceSymmetric | src/2024/01-12/index.ts:37-39 | swapping the two lists leaves the distance unchanged |
| ListDistance.SolvePart1Properties | src/2024/01-12/index.ts:31-42 | part one is symmetric in the two lists and unchanged by permuting either |
| ReportSafety.ParseLines | src/2024/02-12/index.ts:8 | one report per line, holding the numbers of that line's space-separated pieces; no value exactly when some piece is not a number |
| ReportSafety.ParseInput | src/2024/02-12/index.ts:7-12 | one report per line with the final line dropped, the k-th report holding the numbers of the k-th line; no value exactly when a piece of a kept line is not a number |
| ReportSafety.ParseRender | src/2024/02-12/index.ts:7-12 | reading rendered non-empty reports gives them back |
| ReportSafety.EmptyLineIsZero | src/2024/02-12/index.ts:8 | an empty line reads as the report `[0]`, since `Number("")` is 0 |
| ReportSafety.IsSafeLevel | src/2024/02-12/index.ts:14-34 | safe exactly when every adjacent pair differs by 1 to 3 in the direction of the first pair; reports of length 0 or 1 are safe; an equal adjacent pair makes a report unsafe |
| ReportSafety.RemoveAt | src/2024/02-12/index.ts:56-57 | the copy with one entry spliced out keeps every other entry in order |
| ReportSafety.SolvePart1 | src/2024/02-12/index.ts:36-44 | the number of safe reports |
| ReportSafety.SafeAfterOneDeletion | src/2024/02-12/index.ts:55-63 | true exactly when deleting some one entry makes the report safe |
| ReportSafety.SolvePart2 | src/2024/02-12/index.ts:46-67 | counts each report once when it is safe or becomes safe after one deletion |
| ReportSafety.TolerableAtLeastSafe | src/2024/02-12/index.ts:40-53 | part two is at least part one |
| MulScanner.DigitRun | src/2024/03-12/index.ts:10 | the longest run of digits from a position, stopping at the first non-digit |
| MulScanner.DigitRunIs | src/2024/03-12/index.ts:10 | a run of digits followed by a non-digit or the end is exactly what the greedy `\d+` takes |
| MulScanner.MulAt | src/2024/03-12/index.ts:10 | a match starts with `m` and spans at least the 8 characters of `mul(d,d)` |
| MulScanner.MulAtComplete | src/2024/03-12/index.ts:10-13 | whenever `mul(x,y)` with non-empty digit strings stands at a position, the match is read there with the values of `x` and `y` as operands and the text's full length |
| MulScanner.MulAtSound | src/2024/03-12/index.ts:10-13 | every match read is such a `mul(x,y)` text, with the operands its digit strings' values |
| MulScanner.MulAtExact | src/2024/03-12/index.ts:10 | a match is read at a position exactly when `mul(x,y)` with non-empty digit strings stands there |
| MulScanner.MulsFrom | src/2024/03-12/index.ts:10 | the global scan finds no match in fewer than the eight characters of `mul(d,d)` |
| MulScanner.MulsFromRead | src/2024/03-12/index.ts:10 | where a match is read, the scan takes it and resumes behind it |
| MulScanner.MulsFromMatch | src/2024/03-12/index.ts:10 | the global scan takes a `mul(x,y)` standing at the cursor as the next match and resumes right behind it |
| MulScanner.MulsFromNoMatch | src/2024/03-12/index.ts:10 | where no `mul(x,y)` stands, the scan moves on by one character |
| MulScanner.MulsFromBound | src/2024/03-12/index.ts:10 | matches do not overlap: at most one per eight characters |
| MulScanner.SolvePart1 | src/2024/03-12/index.ts:7-17 | the loop adds up the products of the operands of every match of the scan |
| MulScanner.InstrsFrom | src/2024/03-12/index.ts:23 | the part-2 scan finds no instruction in fewer than the four characters of `do()` |
| MulScanner.InstrsFromRead | src/2024/03-12/index.ts:23 | where a mul match is read, the part-2 scan takes it before the toggles |
| MulScanner.InstrsFromMatch | src/2024/03-12/index.ts:23 | in the part-2 scan the `mul` alternative wins: a `mul(x,y)` standing at the cursor is the next instruction |
| MulScanner.SolvePart2 | src/2024/03-12/index.ts:19-36 | the sum of products of the muls that are enabled by the latest toggle before them |
| MulScanner.TogglesIdempotent | src/2024/03-12/index.ts:24-27 | a repeated `don't()` or `do()` acts like one; the scan starts enabled |
| MulScanner.TogglesInvisible | src/2024/03-12/index.ts:7-36 | adding the toggle alternatives to the pattern leaves the mul matches unchanged |
| MulScanner.EnabledSumNoToggles | src/2024/03-12/index.ts:28-32 | with no toggles every mul is enabled |
| MulScanner.EnabledSumAtMost | src/2024/03-12/index.ts:28-32 | the enabled sum never exceeds the sum of all products |
| MulScanner.PartsCompare | src/2024/03-12/index.ts:7-36 | part two is at most part one, and equal to it when the input has no toggles |
| MulScanner.ReadsWellFormed | src/2024/03-12/index.ts:10-13 | `mul(12,3)` contributes 36 |
| MulScanner.IgnoresMalformed | src/2024/03-12/index.ts:10 | spaces, missing digits and wrong brackets contribute nothing |
| MulScanner.NoMatch | src/2024/03-12/index.ts:10 | an `m` that does not start a well-formed mul yields no match |
| WordSearch.ParseInput | src/2024/04-12/index.ts:7-9 | the rows joined with newlines give the input back, and no row holds a newline |
| WordSearch.Dir | src/2024/04-12/index.ts:11-113 | each of the eight directions is a non-zero step of at most one row and one column |
| WordSearch.DirsDistinct | src/2024/04-12/index.ts:11-113 | no two of the eight directions coincide |
| WordSearch.Check | src/2024/04-12/index.ts:11-113 | a direction check is true only when all four cells it reads are on the grid, even on rows of different lengths |
| WordSearch.GuardMeaning | src/2024/04-12/index.ts:11-113 | each bounds test holds exactly when all four cells of the word are on the grid |
| WordSearch.CheckMeaning | src/2024/04-12/index.ts:11-113 | a direction check is true exactly when the four cells in that direction are on the grid and read X, M, A, S |
| WordSearch.CountAtCell | src/2024/04-12/index.ts:160-173 | a cell contributes the number of directions spelling XMAS from it, at most 8, and 0 unless it holds X |
| WordSearch.CountRow | src/2024/04-12/index.ts:161-173 | one row of the scan adds that row's (cell, direction) occurrences to the count |
| WordSearch.SolvePart1 | src/2024/04-12/index.ts:157-176 | the number of (cell, direction) occurrences of XMAS |
| WordSearch.CheckXmas | src/2024/04-12/index.ts:115-155 | a true check has M and S at the two ends of each diagonal, in some order |
| WordSearch.CheckXmasMeaning | src/2024/04-12/index.ts:115-155 | true exactly when all four diagonal neighbours are on the grid and each diagonal reads M and S in some order around an A |
| WordSearch.CountCrossesRow | src/2024/04-12/index.ts:182-186 | one row of the scan adds that row's X-of-MAS centres to the count |
| WordSearch.SolvePart2 | src/2024/04-12/index.ts:178-190 | the number of cells centring an X of MAS, each counted once |
| PageOrdering.ParseRuleLines | src/2024/05-12/index.ts:10-13 | one stored entry per line, in order |
| PageOrdering.ParseRules | src/2024/05-12/index.ts:7-16 | one stored entry per non-empty line, in order; a line with a non-number side is stored as a rule with a NaN side |
| PageOrdering.RuleWithoutBar | src/2024/05-12/index.ts:10-13 | a line without `\|` is stored with a NaN right side |
| PageOrdering.Usable | src/2024/05-12/index.ts:28-44 | the rules with two numeric sides are exactly the stored entries that are not NaN |
| PageOrdering.EntriesSearch | src/2024/05-12/index.ts:30-38 | the comparator's search over the stored entries finds (a, b) exactly when that numeric rule was stored |
| PageOrdering.NaNRulesNeverMatch | src/2024/05-12/index.ts:28-44 | the comparator over all stored entries, NaN ones included, answers as Compare over the numeric rules alone |
| PageOrdering.ParseRuleRoundTrip | src/2024/05-12/index.ts:10-13 | the line `a\|b` reads as the rule (a, b) |
| PageOrdering.ParseUpdates | src/2024/05-12/index.ts:18-26 | one non-empty update per non-empty line, the k-th holding the numbers of the k-th line's comma-separated pieces; no value exactly when some piece is not a number |
| PageOrdering.ParseUpdateRoundTrip | src/2024/05-12/index.ts:18-26 | a comma-joined update reads back as the same pages |
| PageOrdering.HasRule | src/2024/05-12/index.ts:30-40 | true exactly when the rule list holds the pair |
| PageOrdering.Compare | src/2024/05-12/index.ts:28-44 | −1 when rule a\|b exists; 1 when only b\|a exists; 0 when neither exists |
| PageOrdering.CompareAntisymmetric | src/2024/05-12/index.ts:28-44 | with no rule in both orders, comparing b with a negates comparing a with b |
| PageOrdering.CompareWithCycle | src/2024/05-12/index.ts:30-34 | with a rule in both orders the comparator answers −1 both ways |
| PageOrdering.IsSameArray | src/2024/05-12/index.ts:46-48 | true exactly when the two updates are equal |
| PageOrdering.SolvePart1 | src/2024/05-12/index.ts:50-56 | the sum of middle pages of exactly the updates that sorting leaves unchanged |
| PageOrdering.SolvePart2 | src/2024/05-12/index.ts:58-68 | the sum of middle pages of the sorted versions of exactly the updates that sorting changes |
| PageOrdering.PartsPartition | src/2024/05-12/index.ts:50-68 | the two parts together sum the middle page of every sorted update |
| GuardPatrol.FindStart | src/2024/06-12/index.ts:9-24 | the first `^` of the last line holding one, or (0, 0) when no line does |
| GuardPatrol.ObstacleAsEdit | src/2024/06-12/index.ts:125-136 | writing `#` at the tried cell is the walk with that obstacle, and writing `.` back restores the original walk |
| GuardPatrol.Step | src/2024/06-12/index.ts:30-81 | a step either turns clockwise in place or moves one cell ahead onto a cell that is off the map or free |
| GuardPatrol.NeverOnObstacle | src/2024/06-12/index.ts:73-81 | while on the map the guard never stands on an obstacle |
| GuardPatrol.CycleRepeats | src/2024/06-12/index.ts:93-111 | once state m recurs at pass n, every later state is one of the first n |
| GuardPatrol.CycleNeverLeaves | src/2024/06-12/index.ts:93-111 | a state that recurs on the map means the guard never leaves |
| GuardPatrol.RecurrenceTraps | src/2024/06-12/index.ts:102-105 | meeting an already-seen (cell, heading) state means the guard is trapped |
| GuardPatrol.ExitLeaves | src/2024/06-12/index.ts:96-99 | stepping off the map means the walk is not a loop |
| GuardPatrol.HasCycle | src/2024/06-12/index.ts:87-112 | true exactly when the guard never leaves the map, after at most 4·rows·columns+1 passes |
| GuardPatrol.Dedup | src/2024/06-12/index.ts:66-71 | the same cells, each once, in first-visit order |
| GuardPatrol.GetVisitedCells | src/2024/06-12/index.ts:58-85 | every cell the guard reaches, each once, the start first |
| GuardPatrol.SolvePart1 | src/2024/06-12/index.ts:114-118 | the number of distinct cells the guard reaches |
| GuardPatrol.SolvePart2 | src/2024/06-12/index.ts:120-139 | the number of cells that trap the guard when an obstacle is placed there |
| OperatorEquations.ParseLine | src/2024/07-12/index.ts:14-28 | an equation has a target and at least one number |
| OperatorEquations.ParseLines | src/2024/07-12/index.ts:14-28 | one equation per line, the k-th being the reading of the k-th line; no value exactly when some line does not read |
| OperatorEquations.ParseInput | src/2024/07-12/index.ts:14-28 | one equation per non-empty line, the k-th being the reading of the k-th line, each with at least one number; no value exactly when some non-empty line does not read |
| OperatorEquations.ParseRenderLine | src/2024/07-12/index.ts:14-28 | reading a rendered equation gives it back |
| OperatorEquations.ConcatMeaning | src/2024/07-12/index.ts:30-40 | `\|\|` gives a·10^digits(b)+b for a natural b; a negative b reads as NaN |
| OperatorEquations.ReachSound | src/2024/07-12/index.ts:42-60 | every value the backtracking reaches comes from some operator choice applied left to right |
| OperatorEquations.ReachComplete | src/2024/07-12/index.ts:42-60 | every operator choice's value is reached |
| OperatorEquations.IsValid | src/2024/07-12/index.ts:42-60 | true exactly when some choice of operators turns the numbers into the target |
| OperatorEquations.MoreOperators | src/2024/07-12/index.ts:62-82 | adding operators never invalidates an equation |
| OperatorEquations.ReachCard | src/2024/07-12/index.ts:45-55 | the reached values number at most \|ops\|^(n−1) |
| OperatorEquations.Solve | src/2024/07-12/index.ts:62-82 | the sum of targets of the valid equations |
| OperatorEquations.SolvePart1 | src/2024/07-12/index.ts:62-71 | the total over `+` and `*` |
| OperatorEquations.SolvePart2 | src/2024/07-12/index.ts:73-82 | the total over `+`, `*` and `\|\|` |
| OperatorEquations.PartsOrder | src/2024/07-12/index.ts:62-82 | part two is at least part one when targets are natural |
| OperatorEquations.NeedsConcat | src/2024/07-12/index.ts:30-40 | 156: 15 6 needs concatenation |
| Antinodes.ParseInput | src/2024/08-12/index.ts:7-12 | the grid rows are the non-empty lines |
| Antinodes.Antennas | src/2024/08-12/index.ts:14-30 | the cells holding a character, in row-major order |
| Antinodes.GroupMeaning | src/2024/08-12/index.ts:14-30 | grouping the scan gives each non-`.` character its cells and nothing else |
| Antinodes.GetAntennas | src/2024/08-12/index.ts:14-30 | every non-`.` character maps to all its cells in row-major order; no other key |
| Antinodes.GetPairs | src/2024/08-12/index.ts:32-42 | every pair i<j exactly once, n(n−1)/2 pairs |
| Antinodes.AntinodesOf | src/2024/08-12/index.ts:48-53 | the two points 2b−a and 2a−b |
| Antinodes.WalkClosed | src/2024/08-12/index.ts:55-61 | k steps of the harmonic walk land at a + k·d |
| Antinodes.Ray | src/2024/08-12/index.ts:91-107 | every point of the walk from a start before it leaves the map |
| Antinodes.RayConvex | src/2024/08-12/index.ts:91-107 | when two points of a ray are on the map, every point between is too, so stopping at the first off-map point misses nothing |
| Antinodes.PairsCoverList | src/2024/08-12/index.ts:63-112 | the antinodes of the pair list are those of the antenna list |
| Antinodes.EntriesCoverAll | src/2024/08-12/index.ts:63-112 | the antinodes over the map's entries are those over all frequencies |
| Antinodes.CollectOne | src/2024/08-12/index.ts:66-79 | the set of on-map antinodes of the pairs |
| Antinodes.CollectTwo | src/2024/08-12/index.ts:87-109 | the set of on-map harmonic points of the pairs, both directions |
| Antinodes.Frequency | src/2024/08-12/index.ts:63-112 | the pairs of one frequency contribute exactly what that frequency's antenna list does |
| Antinodes.Solve | src/2024/08-12/index.ts:63-112 | the number of distinct antinodes on the map |
| Antinodes.SolvePart1 | src/2024/08-12/index.ts:63-82 | the number of distinct on-map antinodes across all frequencies |
| Antinodes.SolvePart2 | src/2024/08-12/index.ts:84-112 | the number of distinct on-map harmonic points across all frequencies |
| Antinodes.PartTwoMeaning | src/2024/08-12/index.ts:91-107 | every on-map point a + k·(a−b) is counted, so both antennas count and part one's set is inside part two's |
| DiskCompaction.BlockText | src/2024/09-12/index.ts:11-26 | a free block is `.` and a file block reads back as its id |
| DiskCompaction.BlockTextInjective | src/2024/09-12/index.ts:11-26 | distinct blocks have distinct texts |
| DiskCompaction.ParseInput | src/2024/09-12/index.ts:7-9 | the disk map is the input without its final character |
| DiskCompaction.GetBlocks | src/2024/09-12/index.ts:11-26 | the block layout of the disk map |
| DiskCompaction.LayoutLength | src/2024/09-12/index.ts:11-26 | the layout's length is the sum of the digits |
| DiskCompaction.LayoutFileCount | src/2024/09-12/index.ts:11-26 | file k occurs exactly as often as digit 2k says |
| DiskCompaction.GetCheckSum | src/2024/09-12/index.ts:28-37 | the sum of position times id over the file blocks |
| DiskCompaction.ChecksumUpdate | src/2024/09-12/index.ts:28-37 | rewriting one block changes the checksum by that position's weights only |
| DiskCompaction.Move | src/2024/09-12/index.ts:50-53 | moving a block leaves `.` behind and nothing else changes |
| DiskCompaction.MovePermutes | src/2024/09-12/index.ts:50-53 | moving a block onto a free one keeps the multiset of blocks |
| DiskCompaction.MoveChecksum | src/2024/09-12/index.ts:50-53 | moving a block left never raises the checksum |
| DiskCompaction.FreeDown | src/2024/09-12/index.ts:44-46 | the right cursor stops on a file block, or at the left cursor, with only free blocks passed |
| DiskCompaction.FilesUp | src/2024/09-12/index.ts:48-50 | the left cursor stops on a free block, or at the right cursor, with only file blocks passed |
| DiskCompaction.SkipFreeDown | src/2024/09-12/index.ts:44-46 | the first inner `while` loop stops where `FreeDown` says |
| DiskCompaction.SkipFilesUp | src/2024/09-12/index.ts:48-50 | the second inner `while` loop stops where `FilesUp` says |
| DiskCompaction.IdRound | src/2024/09-12/index.ts:43-56 | one round of the outer loop keeps the pass's result, the compact ends, the permutation and the checksum bound, and the cursors close in or the round's move is the last one at them |
| DiskCompaction.NormalizeByIds | src/2024/09-12/index.ts:39-57 | the loop computes the two-cursor pass `IdPass` over the whole layout; the result is a same-length permutation with no free block before a file block, every block moved only left, checksum not raised |
| DiskCompaction.IdPassExample | src/2024/09-12/index.ts:39-57 | on layout `0 . 1 2` the pass gives `0 2 1 .`, with checksum 4, and not `0 1 2 .` |
| DiskCompaction.SolvePart1 | src/2024/09-12/index.ts:141-146 | the checksum of the two-cursor pass over a copy of the input, which is a compacted permutation of it; at most the input's checksum |
| DiskCompaction.FindLeftmostAsWritten | src/2024/09-12/index.ts:59-75 | a returned start begins a free window of the asked length that ends by `end` |
| DiskCompaction.FindLeftmost | src/2024/09-12/index.ts:59-75 | returns the leftmost free window of the asked length ending by `end`, or −1 when none exists |
| DiskCompaction.SearchesAgree | src/2024/09-12/index.ts:59-75 | the two searches agree whenever the asked window is longer than one block, block 0 is not free, or the range is empty |
| DiskCompaction.LeftmostMissesStart | src/2024/09-12/index.ts:59-75 | on disk `0113` the search as written returns −1 for a one-block window before index 1, although block 0 is such a window; the corrected search returns 0 |
| DiskCompaction.Find | src/2024/09-12/index.ts:59-75 | a found start, by either search, begins a free window of the asked length ending by `end` |
| DiskCompaction.RunBelow | src/2024/09-12/index.ts:85-93 | the cursor stops at the highest position at or below the start that does not hold the block, or −1, and every block it passed holds it |
| DiskCompaction.WalkDown | src/2024/09-12/index.ts:85-93 | the inner `while` loop stops where `RunBelow` says |
| DiskCompaction.PlacedMeaning | src/2024/09-12/index.ts:98-101 | a placed run fills the window, last block first; the run's old blocks are free; every other block is unchanged |
| DiskCompaction.MoveRun | src/2024/09-12/index.ts:97-102 | the copy loop puts the run into the window, last block first, frees the run's old blocks and changes nothing else; a permutation with checksum not raised |
| DiskCompaction.FilePassStep | src/2024/09-12/index.ts:82-103 | one round of the pass: skip free blocks, measure the run below, place it when the search finds a window, continue below the run |
| DiskCompaction.FileRound | src/2024/09-12/index.ts:83-102 | one round of the outer loop moves the cursor down and keeps the pass's result, the permutation and the checksum bound |
| DiskCompaction.NormalizeByFiles | src/2024/09-12/index.ts:77-103 | the loop computes the file pass from the last block, with the search passed in; the result is a same-length permutation that moves blocks only left, checksum not raised |
| DiskCompaction.FilePassMoves | src/2024/09-12/index.ts:77-103 | on disk `131` file 1 moves into the free space after file 0 and nothing else moves |
| DiskCompaction.PartTwoAsWritten | src/2024/09-12/index.ts:77-103 | on disk `0113` the pass with the search as written moves nothing and the checksum is 1 |
| DiskCompaction.PartTwoCorrected | src/2024/09-12/index.ts:77-103 | on disk `0113` the pass with the corrected search moves file 1 to index 0 and the checksum is 0 |
| DiskCompaction.SolvePart2 | src/2024/09-12/index.ts:148-153 | the checksum of the file pass with the search as written, a left-moving permutation of the input; at most the input's checksum |
| DiskCompaction.SolvePart2Corrected | src/2024/09-12/index.ts:148-153 | the same with the corrected search |
| TrailCounting.HeightOf | src/2024/10-12/index.ts:7-12 | a digit reads as its height, at most 9 |
| TrailCounting.ParseInput | src/2024/10-12/index.ts:7-12 | one row per non-empty line, heights at most 9 |
| TrailCounting.TrailsMeaning | src/2024/10-12/index.ts:39-67 | the routes of a BFS level are the trails of that length |
| TrailCounting.TrailHeight | src/2024/10-12/index.ts:43-53 | heights rise by exactly one per step along a trail |
| TrailCounting.SummitsMeaning | src/2024/10-12/index.ts:39-69 | `reached` holds exactly the height-9 cells some trail ends on |
| TrailCounting.ScoreMeaning | src/2024/10-12/index.ts:39-69 | the score counts the height-9 cells reachable by a trail |
| TrailCounting.RatingMeaning | src/2024/10-12/index.ts:55-61 | the rating counts the distinct trails ending at height 9 |
| TrailCounting.SummitsAtMostPaths | src/2024/10-12/index.ts:39-69 | `reached` is at most `paths` |
| TrailCounting.ExpandLevel | src/2024/10-12/index.ts:39-67 | one BFS level extends the trails by one step, never rejects a route, and counts the new height-9 ends |
| TrailCounting.BfsLevel | src/2024/10-12/index.ts:39-67 | one level of the search turns the trails, path count and summits of length k into those of length k+1, and a non-empty level lies below the map's top height |
| TrailCounting.Bfs | src/2024/10-12/index.ts:27-70 | returns the rating and the score of the trailhead |
| TrailCounting.SumTrailheads | src/2024/10-12/index.ts:72-100 | the sum of the trailhead values over the map |
| TrailCounting.SolvePart1 | src/2024/10-12/index.ts:72-85 | the sum of scores over height-0 cells |
| TrailCounting.SolvePart2 | src/2024/10-12/index.ts:87-100 | the sum of ratings over height-0 cells |
| TrailCounting.PartsOrder | src/2024/10-12/index.ts:72-100 | part one is at most part two |
| StoneBlinks.ParseInput | src/2024/11-12/index.ts:7-9 | at least one stone, none containing a space |
| StoneBlinks.ParseJoin | src/2024/11-12/index.ts:7-9 | reading space-joined stones gives them back |
| StoneBlinks.Successors | src/2024/11-12/index.ts:11-25 | `0` becomes `1`; an even-length stone gives two stones, any other one |
| StoneBlinks.SplitHalves | src/2024/11-12/index.ts:14-20 | the halves are re-rendered without leading zeros and recombine to the stone's value |
| StoneBlinks.Multiplied | src/2024/11-12/index.ts:21-23 | any other stone becomes its value times 2024 |
| StoneBlinks.StaysCanonical | src/2024/11-12/index.ts:11-25 | stones without leading zeros stay without them |
| StoneBlinks.ExpandPermutes | src/2024/11-12/index.ts:27-39 | the order of the stones does not change the multiset after a blink |
| StoneBlinks.FlatMapPermutes | src/2024/11-12/index.ts:27-39 | for any per-stone rule, rows with the same stones give rows with the same stones |
| StoneBlinks.BlinkRepresents | src/2024/11-12/index.ts:27-39 | the blinked counts describe the blinked row of stones |
| StoneBlinks.BlinkMeaning | src/2024/11-12/index.ts:34-38 | the new map holds exactly the counts of the blinked row, with no old entries left |
| StoneBlinks.BlinkTotal | src/2024/11-12/index.ts:27-39 | the total after a blink is the weighted count, and never decreases |
| StoneBlinks.MakeBlink | src/2024/11-12/index.ts:27-39 | one blink of the count map |
| StoneBlinks.GetTotalCount | src/2024/11-12/index.ts:41-49 | the sum of the counts |
| StoneBlinks.CountStones | src/2024/11-12/index.ts:51-56 | the initial map describes the input stones and totals their number |
| StoneBlinks.Solve | src/2024/11-12/index.ts:51-77 | the number of stones after the blinks, at least the initial number |
| StoneBlinks.SolvePart1 | src/2024/11-12/index.ts:51-63 | the number of stones after 25 blinks |
| StoneBlinks.SolvePart2 | src/2024/11-12/index.ts:65-77 | the number of stones after 75 blinks |
| GardenFences.FenceMeaning | src/2024/12-12/index.ts:22-38 | a side has a fence exactly when the neighbour there is off the map or a different plant |
| GardenFences.CalcFence | src/2024/12-12/index.ts:107-141 | the four flags are the fenced sides and the count is their number, at most 4 |
| GardenFences.FencesAtCard | src/2024/12-12/index.ts:107-141 | the count of fenced sides adds one per flag |
| GardenFences.SetFencesForPlot | src/2024/12-12/index.ts:143-163 | the running count grows by the plot's fence count |
| GardenFences.SetFencesRecords | src/2024/12-12/index.ts:143-163 | adding a plot keeps the record exact: the count sums the per-plot counts and each fenced side sits in its list |
| GardenFences.CountBreaks | src/2024/12-12/index.ts:40-105 | the number of breaks in a sorted side list is the number of extra straight segments |
| GardenFences.SortedBreaks | src/2024/12-12/index.ts:40-105 | counting breaks in any sorted permutation gives the segment count |
| GardenFences.CalcSides | src/2024/12-12/index.ts:40-105 | 4 plus the breaks of the four sorted side lists |
| GardenFences.CalcSidesOfRecord | src/2024/12-12/index.ts:40-105 | on an exact record that number is 4 plus, for each side, the segments beyond the first |
| GardenFences.FencedOnEverySide | src/2024/12-12/index.ts:22-38 | a non-empty region closed under same-plant neighbours has a fenced plot on each of its four sides |
| GardenFences.StartsExist | src/2024/12-12/index.ts:40-105 | a non-empty set of fenced plots on one side begins at least one segment |
| GardenFences.SidesAreSegments | src/2024/12-12/index.ts:40-105 | for such a region on a rectangular map, the 4 plus the extra segments is exactly the number of straight fence segments |
| GardenRegions.RegionFresh | src/2024/12-12/index.ts:165-209 | a region holds only unvisited plots on the map |
| GardenRegions.RegionPlant | src/2024/12-12/index.ts:165-209 | every plot of a region holds the start's plant |
| GardenRegions.RegionClosed | src/2024/12-12/index.ts:165-209 | a same-plant neighbour of a region plot is in the region or already visited |
| GardenRegions.FindRegion | src/2024/12-12/index.ts:165-209 | visits exactly the unvisited plots joined to the start through the same plant, counts them, and records their fences |
| GardenRegions.TotalPrice | src/2024/12-12/index.ts:211-244 | the sum over regions of area times perimeter or sides |
| GardenRegions.SolvePart1 | src/2024/12-12/index.ts:211-226 | the sum over regions of area times perimeter |
| GardenRegions.SolvePart2 | src/2024/12-12/index.ts:228-244 | the sum over regions of area times number of sides |
| GardenRegions.RegionsPartition | src/2024/12-12/index.ts:213-224 | every plot belongs to exactly one non-empty region, so the areas sum to the plot count |
| GardenRegions.TowardIsLink | src/2024/12-12/index.ts:165-209 | a same-plant step to one of the four sides on a rectangular map is a step of the fill |
| GardenRegions.StepOutOfClosed | src/2024/12-12/index.ts:165-209 | a same-plant step from outside a closed set of plots never enters it |
| GardenRegions.RegionIsClosed | src/2024/12-12/index.ts:165-209 | a region grown around a closed visited set is closed under same-plant neighbours, and so is the visited set with it added |
| GardenRegions.SweepClosed | src/2024/12-12/index.ts:213-224 | every region the scan finds is closed under same-plant neighbours |
| GardenRegions.RegionsClosed | src/2024/12-12/index.ts:228-244 | every region of a rectangular garden is closed, so its count of sides is its number of straight fence segments |
| ClawMachines.GetCoordinates | src/2024/13-12/index.ts:18-32 | a line without a `, ` separator is rejected, where JavaScript throws on the missing second half |
| ClawMachines.ParsePuzzle | src/2024/13-12/index.ts:18-49 | a block is an error exactly when it has fewer than three lines or one of them lacks the `, ` separator, where JavaScript throws |
| ClawMachines.ParseBlocks | src/2024/13-12/index.ts:34-49 | one puzzle per blank-line-separated block; an error exactly when some block is one |
| ClawMachines.ParseInput | src/2024/13-12/index.ts:34-49 | one puzzle per block of the split at blank lines, and an error exactly when some block is one |
| ClawMachines.ButtonLineReads | src/2024/13-12/index.ts:18-24 | a button line reads as its two offsets |
| ClawMachines.PrizeLineReads | src/2024/13-12/index.ts:26-32 | a prize line reads as its two coordinates |
| ClawMachines.ParsePuzzleRoundTrip | src/2024/13-12/index.ts:34-49 | a rendered puzzle reads back as itself |
| ClawMachines.MinSolution | src/2024/13-12/index.ts:51-65 | a non-zero result is 3x+y for presses (x, y) reaching the prize; whenever such presses exist, the determinant is non-zero and button A's x offset is non-zero, the result is their cost |
| ClawMachines.CramerComplete | src/2024/13-12/index.ts:52-58 | Cramer's rule finds every solution when the determinant is non-zero |
| ClawMachines.CramerUnique | src/2024/13-12/index.ts:52-58 | that solution is the only one |
| ClawMachines.FindMinSolution | src/2024/13-12/index.ts:51-65 | a non-zero result is the cost of presses that reach the prize |
| ClawMachines.FindMinIsCost | src/2024/13-12/index.ts:51-65 | the result is the machine's cost: 3x+y for exact divisions, 0 otherwise |
| ClawMachines.WinUnique | src/2024/13-12/index.ts:52-58 | with a non-zero determinant two winning press counts are equal |
| ClawMachines.NegativePressesCount | src/2024/13-12/index.ts:60-64 | negative presses are not rejected: a machine can cost −1 |
| ClawMachines.SolvePart1 | src/2024/13-12/index.ts:67-73 | the sum of the machines' costs |
| ClawMachines.Far | src/2024/13-12/index.ts:78-84 | both prize coordinates move by 10^13 and the buttons stay |
| ClawMachines.SolvePart2 | src/2024/13-12/index.ts:75-88 | the sum of the costs with the far prizes |
| RobotMotion.ParsePair | src/2024/14-12/index.ts:21-22 | a pair reads only when the field has two comma-separated numbers after its tag; otherwise a coordinate is `undefined` or NaN |
| RobotMotion.ParseRobot | src/2024/14-12/index.ts:19-31 | a line is an error exactly when it has no second field, where `v.slice` throws; a line with a missing or non-numeric coordinate is still a robot, one that lands nowhere |
| RobotMotion.ParseRobots | src/2024/14-12/index.ts:17-35 | one entry per line, each the line's reading; an error exactly when some line has no second field |
| RobotMotion.ParseInput | src/2024/14-12/index.ts:17-35 | one entry per non-empty line; an error exactly when some line has no second field |
| RobotMotion.UnreadableLines | src/2024/14-12/index.ts:19-31 | `p=3 v=1,2` reads as a robot that lands nowhere; `p=3,4` is an error |
| RobotMotion.ParseRobotRoundTrip | src/2024/14-12/index.ts:17-35 | the line `p=x,y v=vx,vy` reads back as its robot, with four numbers |
| RobotMotion.ParseInputRoundTrip | src/2024/14-12/index.ts:17-35 | reading rendered robots, one per line, gives them back |
| RobotMotion.FinishPosition | src/2024/14-12/index.ts:57-68 | ((x+vx·t) mod w, (y+vy·t) mod h), inside the room even for negative velocities |
| RobotMotion.Advance | src/2024/14-12/index.ts:148-149 | the robot moves to its finish position and keeps its velocity |
| RobotMotion.AdvanceCompose | src/2024/14-12/index.ts:57-68 | moving s seconds then t seconds is moving s+t seconds |
| RobotMotion.StepsAdvance | src/2024/14-12/index.ts:57-149 | k one-second steps equal one move of k seconds |
| RobotMotion.Quadrant | src/2024/14-12/index.ts:37-55 | on the map, −1 exactly on a middle line, otherwise 0 to 3 by the halves |
| RobotMotion.EveryRobotCounted | src/2024/14-12/index.ts:70-85 | every robot ends in exactly one quadrant, or on a middle line, or at NaN |
| RobotMotion.MiddleLines | src/2024/14-12/index.ts:37-55 | on the 101 by 103 room the middle lines are column 50 and row 51 |
| RobotMotion.SolvePart1 | src/2024/14-12/index.ts:70-85 | the product of the four quadrant counts after 100 seconds; a robot with a NaN coordinate is in none |
| WarehouseRobot.HeadingOf | src/2024/15-12/index.ts:44-58 | `>`, `<` and `v` have their own headings; every other character moves up |
| WarehouseRobot.Next | src/2024/15-12/index.ts:44-58 | exactly one cell in the move's direction |
| WarehouseRobot.NextBack | src/2024/15-12/index.ts:44-58 | the opposite move returns to the same cell |
| WarehouseRobot.Inside | src/2024/15-12/index.ts:40-42 | inside a walled map, a free cell is off the outer ring and its neighbours are on the map |
| WarehouseRobot.RunIsMaximal | src/2024/15-12/index.ts:92-99 | the run ahead is all boxes and the cell after it is not a box inside the ring |
| WarehouseRobot.Push | src/2024/15-12/index.ts:60-71 | pushing keeps the number of rows |
| WarehouseRobot.RobotStep | src/2024/15-12/index.ts:73-87 | the robot advances one cell exactly when the target is `.`; otherwise nothing changes |
| WarehouseRobot.PushBlocked | src/2024/15-12/index.ts:63-64 | when the cell after the run is a wall, no box moves |
| WarehouseRobot.PushShifts | src/2024/15-12/index.ts:60-71 | a push frees the first cell, fills the rest of the run and the cell after it with boxes, and changes nothing else |
| WarehouseRobot.GpsSum | src/2024/15-12/index.ts:122-133 | the sum of 100·row+column over the box cells |
| WarehouseRobot.PushCounts | src/2024/15-12/index.ts:60-71 | a push keeps the number of boxes and moves the GPS sum by the run length times the move's stride |
| WarehouseRobot.StepKeeps | src/2024/15-12/index.ts:73-87 | a robot step keeps the walls, the boxes and the GPS sum |
| WarehouseRobot.MoveKeeps | src/2024/15-12/index.ts:89-106 | a move keeps the walls and the number of boxes; the robot advances exactly when the pushed grid frees its target |
| WarehouseRobot.CollectRun | src/2024/15-12/index.ts:92-99 | the cells of the box run ahead of the robot, nearest first |
| WarehouseRobot.ShiftStep | src/2024/15-12/index.ts:65-68 | moving one more box of the line from the far end gives the map with one more box moved |
| WarehouseRobot.MoveBlocks | src/2024/15-12/index.ts:60-71 | the writes for the collected run give the pushed grid |
| WarehouseRobot.MoveRobot | src/2024/15-12/index.ts:89-106 | a move keeps the number of rows, and the robot stays or goes one cell in the move's direction |
| WarehouseRobot.Simulate | src/2024/15-12/index.ts:161-169 | a whole run of moves keeps the number of rows |
| WarehouseRobot.MakeMove | src/2024/15-12/index.ts:89-106 | one move: push, then step |
| WarehouseRobot.FindRobot | src/2024/15-12/index.ts:25-38 | the first `@` in row-major order, or (−1, −1) |
| WarehouseRobot.SimulateKeeps | src/2024/15-12/index.ts:161-169 | a whole run of moves keeps the walls and the number of boxes |
| WarehouseRobot.SolvePart1 | src/2024/15-12/index.ts:161-169 | the GPS sum after all moves |
| WideWarehouse.Widen | src/2024/15-12/index.ts:135-159 | every cell becomes two; `O` becomes `[]` and no other cell gives a bracket |
| WideWarehouse.Double | src/2024/15-12/index.ts:135-159 | the doubled map keeps the rows and doubles each row's width |
| WideWarehouse.DoubleCell | src/2024/15-12/index.ts:135-159 | cell j of a doubled row is half j%2 of the widened cell j/2, or a hole past the row |
| WideWarehouse.DoubleNarrow | src/2024/15-12/index.ts:135-159 | narrowing a doubled rectangular map gives it back |
| WideWarehouse.DoublePaired | src/2024/15-12/index.ts:135-159 | every `[` of the doubled map has `]` right after it and every `]` has `[` right before |
| WideWarehouse.DoubleGps | src/2024/15-12/index.ts:135-260 | the doubled map's GPS sum is the original boxes' sum with columns doubled |
| WideWarehouse.BoxAt | src/2024/15-12/index.ts:108-120 | a `]` gives the box ending there; anything else gives the box starting there |
| WideWarehouse.BoxAtWhole | src/2024/15-12/index.ts:108-120 | on a paired map a box cell gives both halves of its box |
| WideWarehouse.Pushes | src/2024/15-12/index.ts:184-211 | one queue entry pushes at most two boxes, each one row wide |
| WideWarehouse.NextLevelCloser | src/2024/15-12/index.ts:181-218 | each level comes closer to the map's edge, so the search ends |
| WideWarehouse.Levels | src/2024/15-12/index.ts:171-221 | every level is non-empty and holds whole boxes |
| WideWarehouse.BlocksToMove | src/2024/15-12/index.ts:171-221 | the levels, farthest first |
| WideWarehouse.OtherMovePushesNothing | src/2024/15-12/index.ts:184-211 | a character other than the four moves pushes nothing |
| WideWarehouse.ShiftBoxMoves | src/2024/15-12/index.ts:234-243 | one box moves one cell as a unit and nothing else changes |
| WideWarehouse.MoveLevel | src/2024/15-12/index.ts:223-247 | true exactly when no box of the level is blocked; on false the boxes before the first blocked one stay moved |
| WideWarehouse.MoveBlocksByLevel | src/2024/15-12/index.ts:223-247 | the loop computes that level move |
| WideWarehouse.ShiftAll | src/2024/15-12/index.ts:224-244 | the writes of a level keep the number of rows; a write to a missing row is dropped |
| WideWarehouse.PushLevels | src/2024/15-12/index.ts:268-272 | pushing the levels keeps the number of rows |
| WideWarehouse.WideMove | src/2024/15-12/index.ts:265-275 | a move keeps the number of rows, and the robot stays or goes one cell in the move's direction |
| WideWarehouse.WideSimulate | src/2024/15-12/index.ts:262-276 | a whole run of moves keeps the number of rows |
| WideWarehouse.PushAll | src/2024/15-12/index.ts:268-272 | levels move in turn until one is blocked |
| WideWarehouse.SolvePart2 | src/2024/15-12/index.ts:262-278 | the `[` GPS sum after all moves |
| MazeSearch.NextDirs | src/2024/16-12/index.ts:12-42 | three successors: forward one cell at cost 1, and the two quarter turns in place at cost 1000 |
| MazeSearch.NextDirsShape | src/2024/16-12/index.ts:12-42 | each successor is a step to an adjacent cell or a turn in place, with three different headings |
| MazeSearch.Admit | src/2024/16-12/index.ts:88-96 | a successor is pushed only when open and unseen, and the seen set grows by exactly the pushed states, one each |
| MazeSearch.AdmitFrom | src/2024/16-12/index.ts:88-96 | every pushed entry is the child of an open successor |
| MazeSearch.AdmitCovers | src/2024/16-12/index.ts:88-96 | every open successor's state is seen afterwards, pushed now or seen before |
| MazeSearch.WalkIncreasing | src/2024/16-12/index.ts:86-98 | scores strictly increase along a tile list |
| MazeSearch.WalkDistinct | src/2024/16-12/index.ts:97-98 | no tile repeats along a tile list |
| MazeSearch.ChildValid | src/2024/16-12/index.ts:86-98 | a child's tiles extend its parent's by one stamp of higher score |
| MazeSearch.Record | src/2024/16-12/index.ts:71-78 | a strictly better `E` pop resets the paths; an equal or worse one is appended; other pops change nothing |
| MazeSearch.PopMin | src/2024/16-12/index.ts:69 | some entry of least score |
| MazeSearch.SearchStep | src/2024/16-12/index.ts:67-108 | one pop keeps the search invariant |
| MazeSearch.PopStates | src/2024/16-12/index.ts:69 | popping an entry loses no queued state but its own |
| MazeSearch.SuccsMarked | src/2024/16-12/index.ts:81-107 | after a round every open successor of the popped state is in `visited` |
| MazeSearch.CoverageStep | src/2024/16-12/index.ts:67-108 | one round keeps the completeness invariant: started and marked states are queued or popped, popped states have their open successors marked, a popped `E` leaves a score |
| MazeSearch.ClosedHoldsRoute | src/2024/16-12/index.ts:81-107 | a set of states closed under open successors holds the end of every route starting in it |
| MazeSearch.SearchRound | src/2024/16-12/index.ts:67-108 | one round keeps the search invariant and the completeness invariant, and uses up one of the states not yet seen, so the loop ends |
| MazeSearch.FindMinScore | src/2024/16-12/index.ts:63-111 | no score exactly when no paths; every path is a walk ending on `E`; the first path scores the best and the paths are in score order; whenever a route of steps and turns leads from a starting entry to an `E`, a score is found |
| MazeSearch.FindStart | src/2024/16-12/index.ts:51-61 | the first `S` in row-major order, or (−1, −1) |
| MazeSearch.Initial | src/2024/16-12/index.ts:118-122 | the start node is a valid walk from the start tile |
| MazeSearch.SolvePart1 | src/2024/16-12/index.ts:113-126 | a found score is the score of a walk from the start to `E`, and a score is found whenever some route leads from the start, facing east, to an `E` |
| MazeSearch.CountTiles | src/2024/16-12/index.ts:140-148 | the number of distinct tiles across the paths |
| MazeSearch.TilesAtLeast | src/2024/16-12/index.ts:140-148 | the distinct tiles are at least as many as any one walk's tiles |
| MazeSearch.SolvePart2 | src/2024/16-12/index.ts:128-149 | the number of distinct tiles over the walks the search records, returned with them: walks from the start to `E` in non-decreasing score order, at least one whenever some route from the start reaches an `E`; the count is at least the first walk's length, 0 with no walks |
| Grids.FindFirst | src/2024/16-12/index.ts:51-61 | the first cell holding a character in row-major order, or none when no cell does |
| Grids.Store | src/2024/15-12/index.ts:234-243 | a JavaScript array write: the row grows with holes up to the column; writes to a missing row or a negative column do nothing |
| Text.SplitJoin | src/2024/02-12/index.ts:8 | splitting joined pieces that lack the separator gives the pieces back |
| Text.ParseNumber | src/2024/01-12/index.ts:12 | `Number` on a digit string is its decimal value |
| Arith.JsRem | src/2024/13-12/index.ts:51-65 | JavaScript's `%` takes the dividend's sign and stays below the divisor in size |
| Arith.JsRemWraps | src/2024/14-12/index.ts:61-66 | adding the modulus to a negative remainder gives the Euclidean remainder |
| OrderedMaps.Bump | src/2024/01-12/index.ts:25 | the key's count grows by the amount and every other key is unchanged |
| Sorting.SortByPermutation | src/2024/01-12/index.ts:34-35 | permuted inputs sort to the same output under an injective key |

## Left out

- File reading, `main`, timing and console output: they are I/O around the solvers.
- Engine sorts: `sort` in day 1 and `toSorted` in day 5 are specified by their results, not by their algorithm.
- ListDistance.SolvePart1: the sorted lists are results of the method. The contract says they are the default-comparator sorted permutations, and ListDistance.EngineSortAgrees shows that this fixes them.
- PageOrdering.SolvePart1: the sorted updates are an input. Only the relation between each update and its sorted version is required, because the comparator may not be transitive.
- PageOrdering.SolvePart2: the same as PageOrdering.SolvePart1.
- Floating-point numbers: every number is an unbounded integer. Precision loss past 2^53 is not modelled (day 7 concatenation, day 11 ×2024, day 13 +10^13).
- `Number` conversion: it is modelled for `""` and for optionally signed decimal digits. Other text is modelled as no value, although JavaScript reads some of it as a number (`"1.5"`, `" 7"`, `"1e3"`, hexadecimal forms). The puzzle inputs hold only digit runs.
- The regular expression of day 3: replaced by a leftmost, non-overlapping scanner.
- String keys (`"i:j"`, `"i:j:dir"`, tiles, routes, JSON): modelled as tuples and sequences. These encodings are injective, so sets and maps keep the same members.
- ListDistance.ParseLines: a line without the three-space separator, or with a piece that is not a number, makes the model reject the whole input. JavaScript does not throw there: it pushes `undefined` or NaN into the lists (src/2024/01-12/index.ts:11-16), sorts them with the textual default comparator, and the distance and similarity sums become NaN.
- ListDistance.ParseInput: the same as ListDistance.ParseLines.
- ReportSafety.ParseInput: a piece that is not a number makes the model reject the whole input. JavaScript keeps NaN in the report (src/2024/02-12/index.ts:8). Every comparison with a NaN step is false, so `isSafeLevel` lets that step pass, and such a report can still be counted as safe.
- PageOrdering.ParseUpdates: a page that is not a number makes the model reject the whole input. JavaScript keeps NaN (src/2024/05-12/index.ts:22). NaN is not equal to itself, so the update never counts as ordered, and the part-two sum takes a middle page that may be NaN.
- OperatorEquations.ParseLine: a line without `: ` is no value. JavaScript throws there on `b.split`, so this case matches. A target or a number that is not a number is also no value, where JavaScript keeps the equation with NaN (src/2024/07-12/index.ts:16-17).
- OperatorEquations.ParseInput: a NaN equation makes the model reject the whole input. In JavaScript such an equation is kept. It adds nothing to the total, unless its NaN target is matched by a NaN value, in which case the total becomes NaN.
- GuardPatrol.GetVisitedCells: a walk that loops forever does not terminate in JavaScript. The model returns no value instead.
- GuardPatrol.FindStart: it is the start-marker scan of `makeMatrix`. The rest of that function is the split into a grid.
- ClawMachines.MinSolution: a zero determinant makes JavaScript compute NaN, which is not 0, so the result is 0. The model returns 0 in that case too. A zero x offset for button A also makes the division at src/2024/13-12/index.ts:57-58 yield NaN or an infinity, and the result is then 0 even when presses that reach the prize exist. The contract promises the cost only when that offset is non-zero.
- ClawMachines.FindMinSolution: presses are not required to be non-negative, following the source.
- Day 14 part two: left out. It is a picture search over JSON-string keys, a diagonal recursion whose termination the source does not guarantee, a 10000-iteration cap, and file output. Only the stepping it uses is modelled (RobotMotion.StepsAdvance).
- Day 15 `parseInput`: the model starts from the grid and the move list.
- WideWarehouse.SolvePart2: a read of a missing row, which throws in JavaScript, is modelled as undefined. A write to a missing row or a negative column is dropped, and the number 0 that fills a grown row is modelled as a hole character. No grid invariant is proved for part two, because the level-by-level push is not atomic.
- WarehouseRobot.RobotStep: a robot on the first row that moves up reads the missing row −1. It moves up on `^` and on any character that is not `<`, `>` or `v`. A robot on the last row that moves `v` reads a missing row past the end. JavaScript throws in both cases (src/2024/15-12/index.ts:74-75). The model finds no `.` there and leaves the robot in place. On a map whose outer ring is wall the robot is off that ring (WarehouseRobot.Inside), and WarehouseRobot.SimulateKeeps shows that the moves keep the ring.
- WarehouseRobot.SolvePart1: two inputs make JavaScript throw where the model returns a GPS sum. One is a robot on the first or last row, as described for WarehouseRobot.RobotStep. The other is a map with no `@`: `findRobotPosition` returns (−1, −1) (src/2024/15-12/index.ts:37), and every move except `v` then reads `matrix[-1]` or `matrix[-2]` and throws (src/2024/15-12/index.ts:74-76).
- Day 16 `parseInput`: it is a line split, and the model starts from the grid.
- The `heap-js` priority queue: modelled as extract-min with any tie-breaking. MazeSearch.PopMin states only that the popped entry has the least score.
- MazeSearch.FindMinScore: the bound of 4·rows·columns+1 on the pops is shown only through termination. The search's `visited` set starts empty, so the start state can be pushed again.
- MazeSearch.SolvePart1: states that a found score belongs to a real walk to `E`, not that no walk is cheaper. States are marked seen when first pushed, not when first popped, so a turn at cost 1000 can claim a state before a cheaper route reaches it.
- MazeSearch.SolvePart1: a map with no `S` makes JavaScript throw on `matrix[-1]`. The model searches from (−1, −1), finds nothing and returns no score.
- MazeSearch.SolvePart2: a map with no `S` makes JavaScript throw on `matrix[-1]`. The model searches from (−1, −1), finds no path and counts 0 tiles.
- MazeSearch.SolvePart2: a tile is a (cell, score) stamp, as the source's `"i:j:score"` strings are, so part two counts stamps rather than cells.

## Findings

| source | as written | input that shows it | evidently intended | confidence | as-written member | corrected member |
|---|---|---|---|---|---|---|
| src/2024/09-12/index.ts:59-75 | the scan starts at index 1, so the free block at 0 is only counted when block 1 continues its run: for a one-block request, the window at position 0 is missed when block 1 is not free or the end is at most 1 | disk map `0113` (layout `. 1 . . .`), minLength 1, end 1: returns −1 although block 0 is free | return the leftmost free window of the asked length, 0 included | not executed | DiskCompaction.FindLeftmostAsWritten | DiskCompaction.FindLeftmost |

=== FILE: arith.dfy ===
/** Integer arithmetic the way JavaScript does it on whole numbers, and
    the facts about Dafny's Euclidean division the models lean on. */
module Arith {
  function Abs(a: int): nat {
    if a < 0 then -a else a
  }

  function Max(a: int, b: int): int {
    if a < b then b else a
  }

  function Min(a: int, b: int): int {
    if a < b then a else b
  }

  lemma MulSucc(a: int, b: int)
    ensures a * (b + 1) == a * b + a && (b + 1) * a == b * a + a
  {
  }

  /** JavaScript's `%`: the remainder has the sign of the dividend. */
  function JsRem(a: int, b: int): (r: int)
    requires b != 0
    ensures Abs(r) < Abs(b) && (r == 0 || (r < 0 <==> a < 0))
  {
    var r := Abs(a) % Abs(b);
    if a < 0 then -r else r
  }

  /** A JavaScript remainder is zero exactly when the division is exact. */
  lemma JsRemZero(a: int, b: int)
    requires b != 0
    ensures JsRem(a, b) == 0 <==> a % b == 0
  {
    if a % b == 0 {
      ExactToAbs(a, b);
    }
    if Abs(a) % Abs(b) == 0 {
      AbsToExact(a, b);
    }
  }

  lemma ExactToAbs(a: int, b: int)
    requires b != 0 && a % b == 0
    ensures Abs(a) % Abs(b) == 0
  {
    var k := a / b;
    assert a == b * k;
    MulAbs(b, k);
    ExactDivision(Abs(k), Abs(b));
  }

  lemma AbsToExact(a: int, b: int)
    requires b != 0 && Abs(a) % Abs(b) == 0
    ensures a % b == 0
  {
    var q := Abs(a) / Abs(b);
    assert Abs(a) == Abs(b) * q;
    SignedProduct(a, b, q);
    ExactDivision(if (a < 0) == (b < 0) then q else -q, b);
  }

  lemma MulAbs(b: int, k: int)
    ensures Abs(b * k) == Abs(k) * Abs(b)
  {
    if b < 0 && k < 0 {
      assert b * k == (-b) * (-k);
    } else if b < 0 {
      assert -(b * k) == (-b) * k;
    } else if k < 0 {
      assert -(b * k) == b * (-k);
    }
  }

  lemma SignedProduct(a: int, b: int, q: int)
    requires b != 0 && Abs(a) == Abs(b) * q
    ensures a == (if (a < 0) == (b < 0) then q else -q) * b
  {
    if b < 0 {
      assert Abs(b) * q == -(q * b);
    } else {
      assert Abs(b) * q == q * b;
    }
  }

  /** Dividing a multiple of `d` by `d` is exact. */
  lemma ExactDivision(k: int, d: int)
    requires d != 0
    ensures (k * d) % d == 0 && (k * d) / d == k
  {
    var q, r := (k * d) / d, (k * d) % d;
    assert k * d == d * q + r && 0 <= r < Abs(d);
    assert d * (k - q) == r;
    MulAbs(d, k - q);
    SmallMultiple(Abs(k - q), Abs(d));
  }

  lemma SmallMultiple(a: nat, b: nat)
    requires b > 0 && a * b < b
    ensures a == 0
  {
    assert a * b == (a - 1) * b + b;
  }

  lemma Cancel(a: int, u: int, v: int)
    requires a != 0 && a * u == a * v
    ensures u == v
  {
    assert a * (u - v) == 0;
  }

  /** Euclidean remainder and quotient are determined by any
      decomposition with a remainder in range. */
  lemma ModUnique(a: int, d: int, q: int, r: int)
    requires d > 0 && a == d * q + r && 0 <= r < d
    ensures a % d == r && a / d == q
  {
    var q', r' := a / d, a % d;
    assert d * (q - q') == r' - r;
    MulAbs(d, q - q');
    SmallMultiple(Abs(q - q'), d);
  }

  /** `r < 0 ? d + r : r` after a JavaScript `%`: the remainder moved
      into `[0, d)`. */
  function WrapRem(a: int, d: int): (r: int)
    requires d > 0
    ensures r == a % d
  {
    var r := JsRem(a, d);
    JsRemWraps(a, d);
    if r < 0 then d + r else r
  }

  lemma JsRemWraps(a: int, d: int)
    requires d > 0
    ensures (if JsRem(a, d) < 0 then d + JsRem(a, d) else JsRem(a, d)) == a % d
  {
    var m := (-a) % d;
    if a < 0 {
      assert -a == d * ((-a) / d) + m;
      if m == 0 {
        ModUnique(a, d, -((-a) / d), 0);
      } else {
        ModUnique(a, d, -((-a) / d) - 1, d - m);
      }
    }
  }

  /** Adding before or after reducing gives the same remainder. */
  lemma ModAdd(a: int, b: int, d: int)
    requires d > 0
    ensures (a % d + b) % d == (a + b) % d
  {
    var q := a / d;
    assert a == d * q + a % d;
    var q2 := (a % d + b) / d;
    assert a % d + b == d * q2 + (a % d + b) % d;
    assert a + b == d * (q + q2) + (a % d + b) % d;
    ModUnique(a + b, d, q + q2, (a % d + b) % d);
  }
}

=== FILE: day01_list_distance.dfy ===
/** Day 1 of 2024: two columns of location ids. Part 1 pairs the columns
    after sorting each and sums the distances; part 2 weighs every left id by
    how often it occurs on the right. */
module ListDistance {
  import opened Options
  import opened Text
  import opened OrderedMaps
  import opened Sorting

  // ---------------------------------------------------------------------
  // Input
  // ---------------------------------------------------------------------

  /** One line `a   b`: the first two pieces around the three-space
      separator, each read by `Number`. A missing second piece (`undefined`)
      or a piece that is not a number is None. */
  function ParseLine(line: string): Option<(int, int)> {
    var parts := SplitOn(line, "   ");
    if |parts| < 2 then None
    else match (ParseNumber(parts[0]), ParseNumber(parts[1]))
      case (Some(a), Some(b)) => Some((a, b))
      case _ => None
  }

  function ParseLines(lines: seq<string>): (r: Option<(seq<int>, seq<int>)>)
    ensures r.Some? ==> |r.value.0| == |r.value.1| == |lines|
    ensures r.Some? ==> forall k :: 0 <= k < |lines| ==>
      ParseLine(lines[k]) == Some((r.value.0[k], r.value.1[k]))
    ensures r.None? <==> exists k :: 0 <= k < |lines| && ParseLine(lines[k]).None?
  {
    if lines == [] then Some(([], []))
    else match (ParseLine(lines[0]), ParseLines(lines[1..]))
      case (Some(p), Some(rest)) => Some(([p.0] + rest.0, [p.1] + rest.1))
      case _ => None
  }

  /** `parseInput`: one pair per non-empty line, in order. */
  function ParseInput(input: string): (r: Option<(seq<int>, seq<int>)>)
    ensures r.Some? ==> |r.value.0| == |r.value.1| == |NonEmptyLines(input)|
    ensures r.Some? ==> forall k :: 0 <= k < |r.value.0| ==>
      ParseLine(NonEmptyLines(input)[k]) == Some((r.value.0[k], r.value.1[k]))
    ensures r.None? <==> exists k :: 0 <= k < |NonEmptyLines(input)| && ParseLine(NonEmptyLines(input)[k]).None?
  {
    ParseLines(NonEmptyLines(input))
  }

  /** The input text that lists the pairs one per line. */
  function Render(left: seq<int>, right: seq<int>): string
    requires |left| == |right|
  {
    Join(RenderLines(left, right), "\n")
  }

  function RenderLines(left: seq<int>, right: seq<int>): (lines: seq<string>)
    requires |left| == |right|
    ensures |lines| == |left|
  {
    if left == [] then []
    else [ShowInt(left[0]) + "   " + ShowInt(right[0])] + RenderLines(left[1..], right[1..])
  }

  lemma ShowIntNoBlank(x: int)
    ensures ' ' !in ShowInt(x) && '\n' !in ShowInt(x) && ShowInt(x) != []
  {
    ShowIntChars(x);
    var s := ShowInt(x);
    forall k | 0 <= k < |s| ensures s[k] != ' ' && s[k] != '\n' { }
  }

  lemma RenderLineParses(a: int, b: int)
    ensures ParseLine(ShowInt(a) + "   " + ShowInt(b)) == Some((a, b))
    ensures '\n' !in ShowInt(a) + "   " + ShowInt(b)
  {
    ShowIntNoBlank(a);
    ShowIntNoBlank(b);
    SplitOnTwo(ShowInt(a), ShowInt(b), "   ");
    ParseShowInt(a);
    ParseShowInt(b);
    assert '\n' !in "   ";
  }

  lemma {:induction false} RenderLinesParse(left: seq<int>, right: seq<int>)
    requires |left| == |right|
    ensures ParseLines(RenderLines(left, right)) == Some((left, right))
    ensures forall p :: p in RenderLines(left, right) ==> p != [] && '\n' !in p
  {
    RenderLinesPlain(left, right);
    if left != [] {
      RenderLineParses(left[0], right[0]);
      RenderLinesParse(left[1..], right[1..]);
      var lines := RenderLines(left, right);
      assert lines[1..] == RenderLines(left[1..], right[1..]);
      assert ParseLine(lines[0]) == Some((left[0], right[0]));
      assert left == [left[0]] + left[1..] && right == [right[0]] + right[1..];
    }
  }

  lemma {:induction false} RenderLinesPlain(left: seq<int>, right: seq<int>)
    requires |left| == |right|
    ensures forall p :: p in RenderLines(left, right) ==> p != [] && '\n' !in p
  {
    if left != [] {
      RenderLineParses(left[0], right[0]);
      RenderLinesPlain(left[1..], right[1..]);
      var lines := RenderLines(left, right);
      assert lines[1..] == RenderLines(left[1..], right[1..]);
      forall p | p in lines ensures p != [] && '\n' !in p {
        if p != lines[0] {
          assert p in lines[1..];
        }
      }
    }
  }

  /** Reading back the rendered columns gives the columns. */
  lemma ParseRender(left: seq<int>, right: seq<int>)
    requires |left| == |right|
    ensures ParseInput(Render(left, right)) == Some((left, right))
  {
    var lines := RenderLines(left, right);
    RenderLinesParse(left, right);
    if lines == [] {
      assert Split([], '\n') == [[]];
      assert NonEmptyLines(Render(left, right)) == [];
    } else {
      SplitJoin(lines, '\n');
      DropEmptyKeeps(lines);
      assert NonEmptyLines(Render(left, right)) == lines;
    }
  }

  // ---------------------------------------------------------------------
  // Counting
  // ---------------------------------------------------------------------

  /** `getCounts`: each value mapped to its number of occurrences, keys in
      first-occurrence order. */
  method GetCounts(nums: seq<int>) returns (m: Entries<int, nat>)
    ensures KeysDistinct(m)
    ensures forall x :: GetOrZero(m, x) == multiset(nums)[x]
    ensures KeySet(m) == set k | 0 <= k < |nums| :: nums[k]
    ensures SumValues(m) == |nums|
  {
    m := [];
    for i := 0 to |nums|
      invariant KeysDistinct(m)
      invariant forall x :: GetOrZero(m, x) == multiset(nums[..i])[x]
      invariant KeySet(m) == set k | 0 <= k < i :: nums[k]
      invariant SumValues(m) == i
    {
      BumpKeepsKeysDistinct(m, nums[i], 1);
      SumValuesBump(m, nums[i], 1);
      assert nums[..i + 1] == nums[..i] + [nums[i]];
      m := Bump(m, nums[i], 1);
    }
    assert nums[..|nums|] == nums;
  }

  // ---------------------------------------------------------------------
  // Part 2
  // ---------------------------------------------------------------------

  /** The similarity score: every left id times its multiplicity on the right. */
  function Similarity(left: seq<int>, right: multiset<int>): int {
    if left == [] then 0
    else Similarity(left[..|left| - 1], right) + left[|left| - 1] * right[left[|left| - 1]]
  }

  /** `solvePart2`. */
  method SolvePart2(left: seq<int>, right: seq<int>) returns (r: int)
    ensures r == Similarity(left, multiset(right))
  {
    var counts := GetCounts(right);
    r := 0;
    for i := 0 to |left|
      invariant r == Similarity(left[..i], multiset(right))
    {
      assert left[..i + 1][..i] == left[..i];
      r := r + left[i] * GetOrZero(counts, left[i]);
    }
    assert left[..|left|] == left;
  }

  /** Taking one element out of the middle. */
  lemma {:induction false} SimilarityRemove(s: seq<int>, i: nat, right: multiset<int>)
    requires i < |s|
    ensures Similarity(s, right) == Similarity(s[..i] + s[i + 1..], right) + s[i] * right[s[i]]
    decreases |s|
  {
    var t := s[..i] + s[i + 1..];
    if i < |s| - 1 {
      var s' := s[..|s| - 1];
      SimilarityRemove(s', i, right);
      assert s'[..i] + s'[i + 1..] == t[..|t| - 1];
      assert t[|t| - 1] == s[|s| - 1];
    } else {
      assert t == s[..|s| - 1];
    }
  }

  /** The score depends only on the multiset of left ids. */
  lemma {:induction false} SimilarityPermutation(a: seq<int>, b: seq<int>, right: multiset<int>)
    requires multiset(a) == multiset(b)
    ensures Similarity(a, right) == Similarity(b, right)
    decreases |a|
  {
    assert |a| == |multiset(a)| == |multiset(b)| == |b|;
    if a != [] {
      var x := a[|a| - 1];
      var a' := a[..|a| - 1];
      assert a == a' + [x];
      assert x in multiset(b);
      var i :| 0 <= i < |b| && b[i] == x;
      var b' := b[..i] + b[i + 1..];
      assert b == b[..i] + [x] + b[i + 1..];
      assert multiset(b) == multiset(b[..i]) + multiset{x} + multiset(b[i + 1..]);
      assert multiset(b') == multiset(b[..i]) + multiset(b[i + 1..]);
      assert multiset(a) == multiset(a') + multiset{x};
      assert multiset(a') == multiset(a) - multiset{x};
      assert multiset(b') == multiset(b) - multiset{x};
      SimilarityRemove(b, i, right);
      SimilarityPermutation(a', b', right);
    }
  }

  /** Part 2 is unchanged by reordering either column. */
  lemma SolvePart2Permutation(left: seq<int>, right: seq<int>, left': seq<int>, right': seq<int>)
    requires multiset(left) == multiset(left') && multiset(right) == multiset(right')
    ensures Similarity(left, multiset(right)) == Similarity(left', multiset(right'))
  {
    SimilarityPermutation(left, left', multiset(right));
  }

  // ---------------------------------------------------------------------
  // Part 1
  // ---------------------------------------------------------------------

  /** The default `sort` comparator: numbers compared as their decimal
      strings, code unit by code unit. */
  function DefaultKey(x: int): seq<int> {
    var s := ShowInt(x);
    seq(|s|, k requires 0 <= k < |s| => s[k] as int)
  }

  lemma DefaultKeyInjective()
    ensures Injective(DefaultKey)
  {
    forall x, y | DefaultKey(x) == DefaultKey(y) ensures x == y {
      var sx, sy := ShowInt(x), ShowInt(y);
      assert |sx| == |DefaultKey(x)| == |DefaultKey(y)| == |sy|;
      forall k | 0 <= k < |sx| ensures sx[k] == sy[k] {
        assert DefaultKey(x)[k] == DefaultKey(y)[k];
      }
      assert sx == sy;
      ShowIntInjective(x, y);
    }
  }

  /** `left.sort()` as the engine leaves it. */
  function DefaultSort(s: seq<int>): seq<int> {
    SortBy(s, DefaultKey)
  }

  /** String order is not numeric order: 10 sorts before 9. */
  lemma DefaultSortIsTextual()
    ensures DefaultSort([9, 10]) == [10, 9]
  {
    var t: seq<int> := [10, 9];
    assert ShowNat(10) == "10" && ShowNat(9) == "9";
    assert DefaultKey(10) == ['1' as int, '0' as int];
    assert DefaultKey(9) == ['9' as int];
    assert SortedBy(t, DefaultKey);
    assert multiset(t) == multiset([9, 10]);
    DefaultKeyInjective();
    SortedIsSortBy([9, 10], t, DefaultKey);
  }

  /** The sum of the distances of the pairs at equal positions. */
  function Distance(a: seq<int>, b: seq<int>): (d: nat)
    requires |a| == |b|
  {
    if a == [] then 0
    else (if a[0] >= b[0] then a[0] - b[0] else b[0] - a[0]) + Distance(a[1..], b[1..])
  }

  /** `solvePart1`: both columns sorted in place, then the distances summed. */
  method SolvePart1(left: seq<int>, right: seq<int>) returns (r: nat, sortedLeft: seq<int>, sortedRight: seq<int>)
    requires |left| == |right|
    ensures SortedBy(sortedLeft, DefaultKey) && multiset(sortedLeft) == multiset(left)
    ensures SortedBy(sortedRight, DefaultKey) && multiset(sortedRight) == multiset(right)
    ensures |sortedLeft| == |sortedRight|
    ensures r == Distance(sortedLeft, sortedRight)
  {
    sortedLeft := DefaultSort(left);
    sortedRight := DefaultSort(right);
    r := 0;
    for i := |left| downto 0
      invariant r == Distance(sortedLeft[i..], sortedRight[i..])
    {
      assert sortedLeft[i..][1..] == sortedLeft[i + 1..];
      assert sortedRight[i..][1..] == sortedRight[i + 1..];
      r := r + if sortedLeft[i] >= sortedRight[i] then sortedLeft[i] - sortedRight[i] else sortedRight[i] - sortedLeft[i];
    }
  }

  /** Whatever sorted permutations an engine returns, part 1 is the distance
      of the reference sorts. */
  lemma EngineSortAgrees(left: seq<int>, sortedLeft: seq<int>)
    requires SortedBy(sortedLeft, DefaultKey) && multiset(sortedLeft) == multiset(left)
    ensures sortedLeft == DefaultSort(left)
  {
    DefaultKeyInjective();
    SortedIsSortBy(left, sortedLeft, DefaultKey);
  }

  lemma {:induction false} DistanceSymmetric(a: seq<int>, b: seq<int>)
    requires |a| == |b|
    ensures Distance(a, b) == Distance(b, a)
  {
    if a != [] {
      DistanceSymmetric(a[1..], b[1..]);
    }
  }

  /** Part 1 is symmetric in the columns and unchanged by reordering either. */
  lemma SolvePart1Properties(left: seq<int>, right: seq<int>, left': seq<int>, right': seq<int>)
    requires |left| == |right|
    requires multiset(left) == multiset(left') && multiset(right) == multiset(right')
    ensures |DefaultSort(left)| == |DefaultSort(right)|
    ensures Distance(DefaultSort(left), DefaultSort(right)) == Distance(DefaultSort(right), DefaultSort(left))
    ensures DefaultSort(left) == DefaultSort(left') && DefaultSort(right) == DefaultSort(right')
  {
    DistanceSymmetric(DefaultSort(left), DefaultSort(right));
    DefaultKeyInjective();
    SortByPermutation(left, left', DefaultKey);
    SortByPermutation(right, right', DefaultKey);
  }
}

=== FILE: day02_report_safety.dfy ===
/** Day 2 of 2024: reports of levels. A report is safe when it moves
    steadily in one direction by 1 to 3 per step; part 2 also accepts a report
    that becomes safe after deleting one level. */
module ReportSafety {
  import opened Options
  import opened Text

  // ---------------------------------------------------------------------
  // Input
  // ---------------------------------------------------------------------

  function ParseLines(lines: seq<string>): (r: Option<seq<seq<int>>>)
    ensures r.Some? ==> |r.value| == |lines|
    ensures r.Some? ==> forall k :: 0 <= k < |lines| ==> ParseNumbers(Split(lines[k], ' ')) == Some(r.value[k])
    ensures r.None? <==> exists k :: 0 <= k < |lines| && ParseNumbers(Split(lines[k], ' ')).None?
  {
    if lines == [] then Some([])
    else match (ParseNumbers(Split(lines[0], ' ')), ParseLines(lines[1..]))
      case (Some(x), Some(rest)) => Some([x] + rest)
      case _ => None
  }

  /** `parseInput`: every line but the last becomes a report; the last piece
      (empty after a final newline) is popped. */
  function ParseInput(input: string): (r: Option<seq<seq<int>>>)
    ensures r.Some? ==> |r.value| == |Split(input, '\n')| - 1
    ensures r.Some? ==> forall k :: 0 <= k < |r.value| ==>
      ParseNumbers(Split(Split(input, '\n')[k], ' ')) == Some(r.value[k])
    ensures r.None? <==> exists k :: 0 <= k < |Split(input, '\n')| - 1 && ParseNumbers(Split(Split(input, '\n')[k], ' ')).None?
  {
    var lines := Split(input, '\n');
    ParseLines(lines[..|lines| - 1])
  }

  /** An empty line inside the input is read as the report `[0]`, because
      `Number('')` is 0. */
  lemma EmptyLineIsZero()
    ensures ParseNumbers(Split("", ' ')) == Some([0])
  {
    assert Split("", ' ') == [""] by {
      assert IndexOfFrom("", " ", 0) == None;
    }
    assert ParseNumber("") == Some(0);
    var none: seq<string> := [];
    var zero: seq<int> := [0];
    assert [""][1..] == none;
    assert ParseNumbers(none) == Some([]);
    assert zero + [] == zero;
  }

  function RenderLines(levels: seq<seq<int>>): (r: seq<string>)
    ensures |r| == |levels|
  {
    if levels == [] then [] else [Join(ShowAll(levels[0]), " ")] + RenderLines(levels[1..])
  }

  /** The input text: one report per line, levels separated by one space, each
      line ended by a newline. */
  function Render(levels: seq<seq<int>>): string {
    Join(RenderLines(levels) + [""], "\n")
  }

  lemma {:induction false} ParseRenderLines(levels: seq<seq<int>>)
    requires forall k :: 0 <= k < |levels| ==> levels[k] != []
    ensures ParseLines(RenderLines(levels)) == Some(levels)
    ensures forall p :: p in RenderLines(levels) ==> '\n' !in p
  {
    if levels != [] {
      var xs := levels[0];
      ParseShowAll(xs);
      ShowAllLacks(xs, ' ');
      ShowAllLacks(xs, '\n');
      SplitJoin(ShowAll(xs), ' ');
      JoinFree(ShowAll(xs), " ", '\n');
      ParseRenderLines(levels[1..]);
      assert RenderLines(levels)[1..] == RenderLines(levels[1..]);
      assert levels == [xs] + levels[1..];
      forall p | p in RenderLines(levels) ensures '\n' !in p {
        if p != Join(ShowAll(xs), " ") {
          assert p in RenderLines(levels[1..]);
        }
      }
    }
  }

  /** Reading back rendered reports gives the reports, as long as none of them
      is empty (an empty report would come back as `[0]`). */
  lemma ParseRender(levels: seq<seq<int>>)
    requires forall k :: 0 <= k < |levels| ==> levels[k] != []
    ensures ParseInput(Render(levels)) == Some(levels)
  {
    var lines := RenderLines(levels);
    ParseRenderLines(levels);
    SplitJoin(lines + [""], '\n');
    assert (lines + [""])[..|lines|] == lines;
  }

  // ---------------------------------------------------------------------
  // Safety
  // ---------------------------------------------------------------------

  /** `level[0] < level[1]`, false when the report is shorter than two. */
  predicate Increasing(level: seq<int>) {
    |level| >= 2 && level[0] < level[1]
  }

  /** Every step goes in the direction the first step sets, by 1 to 3. */
  predicate Safe(level: seq<int>) {
    forall i :: 0 <= i < |level| - 1 ==>
      if Increasing(level) then 1 <= level[i + 1] - level[i] <= 3
      else 1 <= level[i] - level[i + 1] <= 3
  }

  /** `isSafeLevel`: the source's three early exits per adjacent pair. */
  method IsSafeLevel(level: seq<int>) returns (r: bool)
    ensures r <==> Safe(level)
    ensures |level| <= 1 ==> r
    ensures (exists i :: 0 <= i < |level| - 1 && level[i] == level[i + 1]) ==> !r
  {
    var increasing := |level| >= 2 && level[0] < level[1];
    var i := 0;
    while i < |level| - 1
      invariant 0 <= i <= if |level| == 0 then 0 else |level| - 1
      invariant forall k :: 0 <= k < i ==>
        if Increasing(level) then 1 <= level[k + 1] - level[k] <= 3
        else 1 <= level[k] - level[k + 1] <= 3
    {
      var diff := if level[i] >= level[i + 1] then level[i] - level[i + 1] else level[i + 1] - level[i];
      if diff < 1 || diff > 3 {
        return false;
      }
      if increasing && level[i] > level[i + 1] {
        return false;
      }
      if !increasing && level[i] < level[i + 1] {
        return false;
      }
      i := i + 1;
    }
    return true;
  }

  /** `clone.splice(i, 1)`. */
  function RemoveAt(level: seq<int>, i: nat): (r: seq<int>)
    requires i < |level|
    ensures |r| == |level| - 1
    ensures forall k :: 0 <= k < |r| ==> r[k] == if k < i then level[k] else level[k + 1]
  {
    level[..i] + level[i + 1..]
  }

  /** Safe as it stands, or after deleting one level. */
  predicate Tolerable(level: seq<int>) {
    Safe(level) || exists i :: 0 <= i < |level| && Safe(RemoveAt(level, i))
  }

  function CountSafe(levels: seq<seq<int>>): (n: nat)
    ensures n <= |levels|
  {
    if levels == [] then 0
    else CountSafe(levels[..|levels| - 1]) + if Safe(levels[|levels| - 1]) then 1 else 0
  }

  function CountTolerable(levels: seq<seq<int>>): (n: nat)
    ensures n <= |levels|
  {
    if levels == [] then 0
    else CountTolerable(levels[..|levels| - 1]) + if Tolerable(levels[|levels| - 1]) then 1 else 0
  }

  /** `solvePart1`: the number of safe reports. */
  method SolvePart1(levels: seq<seq<int>>) returns (r: nat)
    ensures r == CountSafe(levels)
  {
    r := 0;
    for j := 0 to |levels|
      invariant r == CountSafe(levels[..j])
    {
      assert levels[..j + 1][..j] == levels[..j];
      var safe := IsSafeLevel(levels[j]);
      r := r + if safe then 1 else 0;
    }
    assert levels[..|levels|] == levels;
  }

  /** The inner loop of `solvePart2`: try each deletion until one is safe. */
  method SafeAfterOneDeletion(level: seq<int>) returns (r: bool)
    ensures r <==> exists i :: 0 <= i < |level| && Safe(RemoveAt(level, i))
  {
    for i := 0 to |level|
      invariant forall k :: 0 <= k < i ==> !Safe(RemoveAt(level, k))
    {
      var safe := IsSafeLevel(RemoveAt(level, i));
      if safe {
        return true;
      }
    }
    return false;
  }

  /** `solvePart2`: each report counted once, when it is tolerable. */
  method SolvePart2(levels: seq<seq<int>>) returns (r: nat)
    ensures r == CountTolerable(levels)
  {
    r := 0;
    for j := 0 to |levels|
      invariant r == CountTolerable(levels[..j])
    {
      assert levels[..j + 1][..j] == levels[..j];
      var safe := IsSafeLevel(levels[j]);
      if safe {
        r := r + 1;
      } else {
        var fixable := SafeAfterOneDeletion(levels[j]);
        r := r + if fixable then 1 else 0;
      }
    }
    assert levels[..|levels|] == levels;
  }

  /** Tolerating one bad level never loses a report: part 2 is at least part 1. */
  lemma {:induction false} TolerableAtLeastSafe(levels: seq<seq<int>>)
    ensures CountSafe(levels) <= CountTolerable(levels)
  {
    if levels != [] {
      TolerableAtLeastSafe(levels[..|levels| - 1]);
    }
  }
}

=== FILE: day03_mul_scanner.dfy ===
/** Day 3 of 2024: corrupted memory. Part 1 sums the products of every
    well-formed `mul(a,b)` instruction; part 2 also honours `don't()` and
    `do()`, which switch the following instructions off and on.

    The global regular-expression matches are modelled by a scanner that
    tries each position from left to right and, after a match, resumes right
    behind it: leftmost, non-overlapping. */
module MulScanner {
  import opened Options
  import opened Text

  /** A recognised instruction. */
  datatype Instr = Mul(a: nat, b: nat) | Do | Dont

  /** The length of the maximal run of digits starting at `j`. */
  function DigitRun(s: string, j: nat): (n: nat)
    requires j <= |s|
    ensures j + n <= |s|
    ensures forall q :: j <= q < j + n ==> IsDigitChar(s[q])
    ensures j + n < |s| ==> !IsDigitChar(s[j + n])
    decreases |s| - j
  {
    if j < |s| && IsDigitChar(s[j]) then 1 + DigitRun(s, j + 1) else 0
  }

  /** `mul\(\d+,\d+\)` anchored at `i`: both operands and the length of the
      match. The digit runs are maximal, as the greedy `\d+` followed by a
      non-digit forces. */
  function MulAt(s: string, i: nat): (r: Option<(nat, nat, nat)>)
    requires i <= |s|
    ensures r.Some? ==> i + r.value.2 <= |s| && r.value.2 >= 8
    ensures r.Some? ==> s[i] == 'm'
  {
    if !OccursAt(s, "mul(", i) then None
    else
      var j := i + 4;
      var n1 := DigitRun(s, j);
      if n1 == 0 || j + n1 >= |s| || s[j + n1] != ',' then None
      else
        var k := j + n1 + 1;
        var n2 := DigitRun(s, k);
        if n2 == 0 || k + n2 >= |s| || s[k + n2] != ')' then None
        else
          assert s[i] == s[i..i + 4][0];
          assert IsDigits(s[j..j + n1]) && IsDigits(s[k..k + n2]);
          Some((DigitsValue(s[j..j + n1]), DigitsValue(s[k..k + n2]), k + n2 + 1 - i))
  }

  // ---------------------------------------------------------------------
  // What a match is
  // ---------------------------------------------------------------------

  /** Every character in `[a, b)` is a digit. */
  predicate DigitsBetween(s: string, a: nat, b: nat) {
    forall q :: a <= q < b && q < |s| ==> IsDigitChar(s[q])
  }

  /** The text `mul(x,y)` stands at `i`, where `x` is a non-empty digit
      string of length `n1` and `y` one of length `n2`: what
      `mul\(\d+,\d+\)` matches there. */
  predicate MulMatch(s: string, i: nat, n1: nat, n2: nat) {
    OccursAt(s, "mul(", i) && n1 >= 1 && n2 >= 1 && i + n1 + n2 + 6 <= |s|
    && DigitsBetween(s, i + 4, i + 4 + n1) && s[i + 4 + n1] == ','
    && DigitsBetween(s, i + 5 + n1, i + 5 + n1 + n2) && s[i + 5 + n1 + n2] == ')'
  }

  /** A digit run of length `m` followed by a non-digit (or the end) is
      what `DigitRun` measures. */
  lemma {:induction false} DigitRunIs(s: string, j: nat, m: nat)
    requires j + m <= |s| && DigitsBetween(s, j, j + m)
    requires j + m < |s| ==> !IsDigitChar(s[j + m])
    ensures DigitRun(s, j) == m
    decreases m
  {
    if m > 0 {
      DigitRunIs(s, j + 1, m - 1);
    }
  }

  /** Whenever `mul(x,y)` stands at `i`, `MulAt` reads it: the values of
      the two digit strings, and the full length of the text. */
  lemma MulAtComplete(s: string, i: nat, n1: nat, n2: nat)
    requires MulMatch(s, i, n1, n2)
    ensures MulAt(s, i) == Some((DigitsValue(s[i + 4..i + 4 + n1]),
                                 DigitsValue(s[i + 5 + n1..i + 5 + n1 + n2]), n1 + n2 + 6))
  {
    DigitRunIs(s, i + 4, n1);
    DigitRunIs(s, i + 5 + n1, n2);
  }

  /** Whatever `MulAt` reads is such a text, with the operands its digit
      strings' values. */
  lemma MulAtSound(s: string, i: nat) returns (n1: nat, n2: nat)
    requires i <= |s| && MulAt(s, i).Some?
    ensures MulMatch(s, i, n1, n2)
    ensures MulAt(s, i) == Some((DigitsValue(s[i + 4..i + 4 + n1]),
                                 DigitsValue(s[i + 5 + n1..i + 5 + n1 + n2]), n1 + n2 + 6))
  {
    n1 := DigitRun(s, i + 4);
    n2 := DigitRun(s, i + 5 + n1);
  }

  /** `MulAt` finds a match exactly when the text `mul(x,y)` with two
      non-empty digit strings stands at `i`. */
  lemma MulAtExact(s: string, i: nat)
    requires i <= |s|
    ensures MulAt(s, i).Some? <==> exists n1, n2 :: MulMatch(s, i, n1, n2)
  {
    if MulAt(s, i).Some? {
      var n1, n2 := MulAtSound(s, i);
    }
    if exists n1, n2 :: MulMatch(s, i, n1, n2) {
      var n1, n2 :| MulMatch(s, i, n1, n2);
      MulAtComplete(s, i, n1, n2);
    }
  }

  /** The matches of the part-1 pattern from position `i` on, as operand pairs. */
  function MulsFrom(s: string, i: nat): (r: seq<(nat, nat)>)
    requires i <= |s|
    ensures r != [] ==> i + 8 <= |s|
    decreases |s| - i
  {
    if i == |s| then []
    else match MulAt(s, i)
      case Some((a, b, len)) => [(a, b)] + MulsFrom(s, i + len)
      case None => MulsFrom(s, i + 1)
  }

  /** The scan's step at a position where a match is read. */
  lemma {:induction false} MulsFromRead(s: string, i: nat, a: nat, b: nat, len: nat)
    requires i < |s| && MulAt(s, i) == Some((a, b, len))
    ensures i + len <= |s| && MulsFrom(s, i) == [(a, b)] + MulsFrom(s, i + len)
  {
  }

  /** A `mul(x,y)` standing at `i` is the next match, and the scan resumes
      right behind it. */
  lemma {:induction false} MulsFromMatch(s: string, i: nat, n1: nat, n2: nat)
    requires MulMatch(s, i, n1, n2)
    ensures MulsFrom(s, i)
      == [(DigitsValue(s[i + 4..i + 4 + n1]), DigitsValue(s[i + 5 + n1..i + 5 + n1 + n2]))]
         + MulsFrom(s, i + n1 + n2 + 6)
  {
    MulAtComplete(s, i, n1, n2);
    MulsFromRead(s, i, DigitsValue(s[i + 4..i + 4 + n1]), DigitsValue(s[i + 5 + n1..i + 5 + n1 + n2]), n1 + n2 + 6);
  }

  /** Where no `mul(x,y)` stands at `i`, the scan moves on by one. */
  lemma MulsFromNoMatch(s: string, i: nat)
    requires i < |s| && forall n1, n2 :: !MulMatch(s, i, n1, n2)
    ensures MulsFrom(s, i) == MulsFrom(s, i + 1)
  {
    MulAtExact(s, i);
  }

  /** Matches do not overlap and each spans at least `mul(d,d)`: the scan
      from `i` finds at most one match per eight characters. */
  lemma {:induction false} MulsFromBound(s: string, i: nat)
    requires i <= |s|
    ensures 8 * |MulsFrom(s, i)| <= |s| - i
    decreases |s| - i
  {
    if i < |s| {
      var m := MulAt(s, i);
      if m.Some? {
        assert |MulsFrom(s, i)| == 1 + |MulsFrom(s, i + m.value.2)|;
        MulsFromBound(s, i + m.value.2);
      } else {
        assert MulsFrom(s, i) == MulsFrom(s, i + 1);
        MulsFromBound(s, i + 1);
      }
    }
  }

  /** The matches of the part-2 pattern from position `i` on; the alternatives
      are tried in the source's order at every position. */
  function InstrsFrom(s: string, i: nat): (r: seq<Instr>)
    requires i <= |s|
    ensures r != [] ==> i + 4 <= |s|
    decreases |s| - i
  {
    if i == |s| then []
    else match MulAt(s, i)
      case Some((a, b, len)) => [Mul(a, b)] + InstrsFrom(s, i + len)
      case None =>
        if OccursAt(s, "don't()", i) then [Dont] + InstrsFrom(s, i + 7)
        else if OccursAt(s, "do()", i) then [Do] + InstrsFrom(s, i + 4)
        else InstrsFrom(s, i + 1)
  }

  /** The scan's step at a position where a match is read. */
  lemma {:induction false} InstrsFromRead(s: string, i: nat, a: nat, b: nat, len: nat)
    requires i < |s| && MulAt(s, i) == Some((a, b, len))
    ensures i + len <= |s| && InstrsFrom(s, i) == [Mul(a, b)] + InstrsFrom(s, i + len)
  {
  }

  /** The `mul` alternative is tried first: a `mul(x,y)` standing at `i`
      is the next instruction of the part-2 scan. */
  lemma {:induction false} InstrsFromMatch(s: string, i: nat, n1: nat, n2: nat)
    requires MulMatch(s, i, n1, n2)
    ensures InstrsFrom(s, i)
      == [Mul(DigitsValue(s[i + 4..i + 4 + n1]), DigitsValue(s[i + 5 + n1..i + 5 + n1 + n2]))]
         + InstrsFrom(s, i + n1 + n2 + 6)
  {
    MulAtComplete(s, i, n1, n2);
    InstrsFromRead(s, i, DigitsValue(s[i + 4..i + 4 + n1]), DigitsValue(s[i + 5 + n1..i + 5 + n1 + n2]), n1 + n2 + 6);
  }

  function SumProducts(ms: seq<(nat, nat)>): nat {
    if ms == [] then 0 else ms[0].0 * ms[0].1 + SumProducts(ms[1..])
  }

  /** The `mul` instructions of a scan, toggles dropped. */
  function MulsOf(instrs: seq<Instr>): (r: seq<(nat, nat)>)
    ensures |r| <= |instrs|
  {
    if instrs == [] then []
    else match instrs[0]
      case Mul(a, b) => [(a, b)] + MulsOf(instrs[1..])
      case _ => MulsOf(instrs[1..])
  }

  /** The sum of the products of every `mul` the part-1 pattern matches. */
  function MulSum(input: string): nat {
    SumProducts(MulsFrom(input, 0))
  }

  /** `solvePart1`: each match adds the product of its operands. */
  method SolvePart1(input: string) returns (r: nat)
    ensures r == MulSum(input)
  {
    var muls := MulsFrom(input, 0);
    r := 0;
    for k := 0 to |muls|
      invariant r + SumProducts(muls[k..]) == SumProducts(muls)
    {
      assert muls[k..][1..] == muls[k + 1..];
      r := r + muls[k].0 * muls[k].1;
    }
  }

  /** Whether instructions after `instrs` are enabled: the last toggle was
      `do()`, or there was none. */
  predicate Enabled(instrs: seq<Instr>) {
    if instrs == [] then true
    else match instrs[|instrs| - 1]
      case Do => true
      case Dont => false
      case Mul(_, _) => Enabled(instrs[..|instrs| - 1])
  }

  /** The sum over the `mul` instructions that are enabled where they stand. */
  function EnabledSum(instrs: seq<Instr>): nat {
    if instrs == [] then 0
    else
      var last := instrs[|instrs| - 1];
      var before := instrs[..|instrs| - 1];
      EnabledSum(before) + if last.Mul? && Enabled(before) then last.a * last.b else 0
  }

  /** One more instruction: how the flag and the sum move on. */
  lemma EnabledStep(instrs: seq<Instr>, k: nat)
    requires k < |instrs|
    ensures Enabled(instrs[..k + 1]) == if instrs[k].Mul? then Enabled(instrs[..k]) else instrs[k].Do?
    ensures EnabledSum(instrs[..k + 1])
      == EnabledSum(instrs[..k]) + if instrs[k].Mul? && Enabled(instrs[..k]) then instrs[k].a * instrs[k].b else 0
  {
    assert instrs[..k + 1][..k] == instrs[..k];
  }

  /** `solvePart2`: the flag starts enabled and each match is handled in turn. */
  method SolvePart2(input: string) returns (r: nat)
    ensures r == EnabledSum(InstrsFrom(input, 0))
  {
    var instrs := InstrsFrom(input, 0);
    var enabled := true;
    r := 0;
    for k := 0 to |instrs|
      invariant enabled == Enabled(instrs[..k])
      invariant r == EnabledSum(instrs[..k])
    {
      EnabledStep(instrs, k);
      match instrs[k]
      case Dont => enabled := false;
      case Do => enabled := true;
      case Mul(a, b) =>
        if enabled {
          r := r + a * b;
        }
    }
    assert instrs[..|instrs|] == instrs;
  }

  /** Repeating a toggle changes nothing. */
  lemma TogglesIdempotent(instrs: seq<Instr>)
    ensures Enabled(instrs + [Dont, Dont]) == Enabled(instrs + [Dont]) == false
    ensures Enabled(instrs + [Do, Do]) == Enabled(instrs + [Do]) == true
  {
  }

  /** No `mul` match starts at a position whose character is not 'm'. */
  lemma {:induction false} SkipNonM(s: string, i: nat, j: nat)
    requires i <= j <= |s|
    requires forall p :: i <= p < j ==> s[p] != 'm'
    ensures MulsFrom(s, i) == MulsFrom(s, j)
    decreases j - i
  {
    if i < j {
      SkipNonM(s, i + 1, j);
    }
  }

  lemma TogglesHoldNoM(s: string, i: nat, t: string)
    requires t == "don't()" || t == "do()"
    requires OccursAt(s, t, i)
    ensures forall p :: i <= p < i + |t| ==> s[p] != 'm'
  {
    forall p | i <= p < i + |t| ensures s[p] != 'm' {
      assert s[p] == s[i..i + |t|][p - i];
    }
  }

  /** Dropping the toggles from the part-2 scan gives exactly the part-1 scan:
      a toggle holds no 'm', so skipping over it misses no `mul`. */
  lemma {:induction false} TogglesInvisible(s: string, i: nat)
    requires i <= |s|
    ensures MulsOf(InstrsFrom(s, i)) == MulsFrom(s, i)
    decreases |s| - i
  {
    if i < |s| {
      match MulAt(s, i)
      case Some((a, b, len)) =>
        TogglesInvisible(s, i + len);
        assert InstrsFrom(s, i)[1..] == InstrsFrom(s, i + len);
      case None =>
        if OccursAt(s, "don't()", i) {
          TogglesInvisible(s, i + 7);
          TogglesHoldNoM(s, i, "don't()");
          SkipNonM(s, i, i + 7);
          assert InstrsFrom(s, i)[1..] == InstrsFrom(s, i + 7);
        } else if OccursAt(s, "do()", i) {
          TogglesInvisible(s, i + 4);
          TogglesHoldNoM(s, i, "do()");
          SkipNonM(s, i, i + 4);
          assert InstrsFrom(s, i)[1..] == InstrsFrom(s, i + 4);
        } else {
          TogglesInvisible(s, i + 1);
        }
    }
  }

  predicate NoToggles(instrs: seq<Instr>) {
    forall k :: 0 <= k < |instrs| ==> instrs[k].Mul?
  }

  /** Without toggles every instruction is enabled. */
  lemma {:induction false} EnabledSumNoToggles(instrs: seq<Instr>)
    requires NoToggles(instrs)
    ensures Enabled(instrs)
    ensures EnabledSum(instrs) == SumProducts(MulsOf(instrs))
  {
    if instrs != [] {
      var before := instrs[..|instrs| - 1];
      EnabledSumNoToggles(before);
      SumProductsSnoc(MulsOf(before), instrs[|instrs| - 1]);
      MulsOfSnoc(before, instrs[|instrs| - 1]);
      assert instrs == before + [instrs[|instrs| - 1]];
    }
  }

  /** Switching instructions off never adds anything. */
  lemma {:induction false} EnabledSumAtMost(instrs: seq<Instr>)
    ensures EnabledSum(instrs) <= SumProducts(MulsOf(instrs))
  {
    if instrs != [] {
      var before := instrs[..|instrs| - 1];
      EnabledSumAtMost(before);
      SumProductsSnoc(MulsOf(before), instrs[|instrs| - 1]);
      MulsOfSnoc(before, instrs[|instrs| - 1]);
      assert instrs == before + [instrs[|instrs| - 1]];
    }
  }

  lemma SumProductsSnoc(ms: seq<(nat, nat)>, x: Instr)
    ensures SumProducts(ms + if x.Mul? then [(x.a, x.b)] else []) ==
      SumProducts(ms) + if x.Mul? then x.a * x.b else 0
  {
    if ms != [] {
      var tail := ms + if x.Mul? then [(x.a, x.b)] else [];
      assert tail[1..] == ms[1..] + if x.Mul? then [(x.a, x.b)] else [];
      SumProductsSnoc(ms[1..], x);
    }
  }

  lemma MulsOfSnoc(instrs: seq<Instr>, x: Instr)
    ensures MulsOf(instrs + [x]) == MulsOf(instrs) + if x.Mul? then [(x.a, x.b)] else []
  {
    if instrs != [] {
      assert (instrs + [x])[1..] == instrs[1..] + [x];
      MulsOfSnoc(instrs[1..], x);
    }
  }

  /** Part 2 never exceeds part 1, and with no `do()`/`don't()` match in the
      input the two agree. */
  lemma PartsCompare(input: string)
    ensures EnabledSum(InstrsFrom(input, 0)) <= MulSum(input)
    ensures NoToggles(InstrsFrom(input, 0)) ==> EnabledSum(InstrsFrom(input, 0)) == MulSum(input)
  {
    TogglesInvisible(input, 0);
    EnabledSumAtMost(InstrsFrom(input, 0));
    if NoToggles(InstrsFrom(input, 0)) {
      EnabledSumNoToggles(InstrsFrom(input, 0));
    }
  }

  /** A well-formed instruction is read, with its operands. */
  lemma ReadsWellFormed()
    ensures MulSum("mul(12,3)") == 36
  {
    var s := "mul(12,3)";
    assert OccursAt(s, "mul(", 0);
    assert DigitRun(s, 4) == 2;
    assert DigitRun(s, 7) == 1;
    assert s[4..6] == "12" && s[7..8] == "3";
    assert DigitsValue("12") == 12 && DigitsValue("3") == 3;
    assert MulAt(s, 0) == Some((12, 3, 9));
  }

  /** Malformed instructions are ignored: a space inside, a missing operand,
      the wrong closing bracket. */
  lemma IgnoresMalformed()
    ensures MulSum("mul(1, 2)") == 0
    ensures MulSum("mul(,2)") == 0
    ensures MulSum("mul(2,3]") == 0
  {
    IgnoresSpace();
    IgnoresMissingOperand();
    IgnoresWrongBracket();
  }

  lemma IgnoresSpace()
    ensures MulSum("mul(1, 2)") == 0
  {
    var s := "mul(1, 2)";
    assert OccursAt(s, "mul(", 0);
    assert IsDigitChar(s[4]) && !IsDigitChar(s[5]);
    assert DigitRun(s, 5) == 0;
    assert DigitRun(s, 4) == 1 && s[5] == ',';
    assert !IsDigitChar(s[6]);
    assert DigitRun(s, 6) == 0;
    Ignored(s);
  }

  lemma IgnoresMissingOperand()
    ensures MulSum("mul(,2)") == 0
  {
    var s := "mul(,2)";
    assert OccursAt(s, "mul(", 0);
    assert !IsDigitChar(s[4]);
    assert DigitRun(s, 4) == 0;
    Ignored(s);
  }

  lemma IgnoresWrongBracket()
    ensures MulSum("mul(2,3]") == 0
  {
    var s := "mul(2,3]";
    assert OccursAt(s, "mul(", 0);
    assert IsDigitChar(s[4]) && !IsDigitChar(s[5]);
    assert DigitRun(s, 5) == 0;
    assert DigitRun(s, 4) == 1 && s[5] == ',';
    assert IsDigitChar(s[6]) && !IsDigitChar(s[7]);
    assert DigitRun(s, 7) == 0;
    assert DigitRun(s, 6) == 1 && s[7] != ')';
    Ignored(s);
  }

  /** A string holding one malformed instruction and no other 'm' scores 0. */
  lemma Ignored(s: string)
    requires |s| >= 1 && s[0] == 'm'
    requires forall p :: 0 < p < |s| ==> s[p] != 'm'
    requires MulAt(s, 0).None?
    ensures MulSum(s) == 0
  {
    NoMatch(s);
  }

  lemma NoMatch(s: string)
    requires |s| >= 1 && s[0] == 'm'
    requires forall p :: 0 < p < |s| ==> s[p] != 'm'
    requires MulAt(s, 0).None?
    ensures MulsFrom(s, 0) == []
  {
    SkipNonM(s, 1, |s|);
  }
}

=== FILE: day04_word_search.dfy ===
/** Day 4 of 2024: a word search. Part 1 counts the occurrences of XMAS in
    the eight directions; part 2 counts the 'A' cells at the centre of two
    crossing diagonal MAS words. */
module WordSearch {
  import opened Options
  import opened Text
  import opened Grids

  /** `parseInput`: one row per line, one cell per character. */
  function ParseInput(input: string): (g: Grid)
    ensures Join(g, "\n") == input
    ensures forall i :: 0 <= i < |g| ==> '\n' !in g[i]
  {
    JoinSplitOn(input, "\n");
    SplitPiecesLack(input, '\n');
    var g := Split(input, '\n');
    assert forall i :: 0 <= i < |g| ==> g[i] in g;
    g
  }

  // ---------------------------------------------------------------------
  // Part 1
  // ---------------------------------------------------------------------

  /** The direction of each `check*` predicate, as (row step, column step), in
      the order `solvePart1` calls them: front, back, down, up, right-down,
      right-up, left-down, left-up. */
  function Dir(k: int): (d: (int, int))
    requires 0 <= k < 8
    ensures -1 <= d.0 <= 1 && -1 <= d.1 <= 1 && d != (0, 0)
  {
    [(0, 1), (0, -1), (1, 0), (-1, 0), (1, 1), (-1, 1), (1, -1), (-1, -1)][k]
  }

  lemma DirsDistinct(k: int, l: int)
    requires 0 <= k < 8 && 0 <= l < 8 && Dir(k) == Dir(l)
    ensures k == l
  {
  }

  /** The bounds test each `check*` makes before reading: the last row
      against the grid's height, the last column against the length of the
      first row. Directions that keep the row (or column) test nothing for it. */
  predicate Guard(g: Grid, i: int, j: int, d: (int, int))
    requires |g| >= 1
  {
    (d.0 == 1 ==> i + 3 < |g|) && (d.0 == -1 ==> i - 3 >= 0) &&
    (d.1 == 1 ==> j + 3 < |g[0]|) && (d.1 == -1 ==> j - 3 >= 0)
  }

  /** `x` moved `n` steps in the direction `s` (-1, 0 or 1). */
  function Along(x: int, n: int, s: int): int
    requires -1 <= s <= 1
  {
    if s == 1 then x + n else if s == -1 then x - n else x
  }

  /** One of the eight `check*` predicates: X, M, A, S read in direction `d`
      from `(i, j)`. A cell past the end of a shorter row reads `undefined`. */
  predicate Check(g: Grid, i: int, j: int, d: (int, int))
    requires 0 <= i < |g|
    requires -1 <= d.0 <= 1 && -1 <= d.1 <= 1
    ensures Check(g, i, j, d) ==>
      forall n :: 0 <= n <= 3 ==> InGrid(g, Along(i, n, d.0), Along(j, n, d.1))
  {
    Guard(g, i, j, d) &&
    At(g, i, j) == Some('X') &&
    At(g, Along(i, 1, d.0), Along(j, 1, d.1)) == Some('M') &&
    At(g, Along(i, 2, d.0), Along(j, 2, d.1)) == Some('A') &&
    At(g, Along(i, 3, d.0), Along(j, 3, d.1)) == Some('S')
  }

  /** On a rectangular grid the guard is exactly "all four cells are in the
      grid": every cell a check reads exists. */
  lemma GuardMeaning(g: Grid, i: int, j: int, d: (int, int))
    requires Rectangular(g) && InGrid(g, i, j)
    requires -1 <= d.0 <= 1 && -1 <= d.1 <= 1
    ensures Guard(g, i, j, d) <==> forall n :: 0 <= n < 4 ==> InGrid(g, Along(i, n, d.0), Along(j, n, d.1))
  {
    if Guard(g, i, j, d) {
      forall n | 0 <= n < 4 ensures InGrid(g, Along(i, n, d.0), Along(j, n, d.1)) {
        assert |g[Along(i, n, d.0)]| == |g[0]| == |g[i]|;
      }
    }
    if forall n :: 0 <= n < 4 ==> InGrid(g, Along(i, n, d.0), Along(j, n, d.1)) {
      assert InGrid(g, Along(i, 3, d.0), Along(j, 3, d.1));
      assert |g[Along(i, 3, d.0)]| == |g[0]|;
    }
  }

  /** On a rectangular grid a check holds iff the four cells from `(i, j)` in
      its direction are in the grid and spell XMAS. */
  lemma CheckMeaning(g: Grid, i: int, j: int, d: (int, int))
    requires Rectangular(g) && InGrid(g, i, j)
    requires -1 <= d.0 <= 1 && -1 <= d.1 <= 1
    ensures Check(g, i, j, d) <==>
      forall n :: 0 <= n < 4 ==> InGrid(g, Along(i, n, d.0), Along(j, n, d.1)) && g[Along(i, n, d.0)][Along(j, n, d.1)] == "XMAS"[n]
  {
    GuardMeaning(g, i, j, d);
    if forall n :: 0 <= n < 4 ==> InGrid(g, Along(i, n, d.0), Along(j, n, d.1)) && g[Along(i, n, d.0)][Along(j, n, d.1)] == "XMAS"[n] {
      assert Along(i, 0, d.0) == i && Along(j, 0, d.1) == j;
      assert g[Along(i, 0, d.0)][Along(j, 0, d.1)] == 'X';
      assert g[Along(i, 1, d.0)][Along(j, 1, d.1)] == 'M';
      assert g[Along(i, 2, d.0)][Along(j, 2, d.1)] == 'A';
      assert g[Along(i, 3, d.0)][Along(j, 3, d.1)] == 'S';
    }
    if Check(g, i, j, d) {
      forall n | 0 <= n < 4
        ensures InGrid(g, Along(i, n, d.0), Along(j, n, d.1)) && g[Along(i, n, d.0)][Along(j, n, d.1)] == "XMAS"[n]
      {
        assert Along(i, 0, d.0) == i && Along(j, 0, d.1) == j;
      }
    }
  }

  /** The occurrences found at one cell, tagged with the cell: the directions
      among the first `n` in which XMAS reads. */
  function CellOccurrences(g: Grid, i: int, j: int, n: int): set<(int, int, int)>
    requires 0 <= i < |g| && 0 <= n <= 8
  {
    set k | 0 <= k < n && Check(g, i, j, Dir(k)) :: (i, j, k)
  }

  /** The occurrences at cells before `(i, j)` in row-major order. */
  function OccurrencesBefore(g: Grid, i: int, j: int): set<(int, int, int)> {
    set r, c, k | 0 <= r < |g| && 0 <= c < |g[r]| && RowMajorBefore(r, c, i, j) && 0 <= k < 8 && Check(g, r, c, Dir(k)) :: (r, c, k)
  }

  /** Every (cell, direction) in which XMAS reads. */
  function Occurrences(g: Grid): set<(int, int, int)> {
    OccurrencesBefore(g, |g|, 0)
  }

  lemma CellOccurrencesStep(g: Grid, i: int, j: int, n: int)
    requires 0 <= i < |g| && 0 <= n < 8
    ensures CellOccurrences(g, i, j, n + 1) ==
      CellOccurrences(g, i, j, n) + if Check(g, i, j, Dir(n)) then {(i, j, n)} else {}
    ensures (i, j, n) !in CellOccurrences(g, i, j, n)
  {
  }

  lemma OccurrencesStep(g: Grid, i: int, j: int)
    requires 0 <= i < |g| && 0 <= j < |g[i]|
    ensures OccurrencesBefore(g, i, j + 1) == OccurrencesBefore(g, i, j) + CellOccurrences(g, i, j, 8)
    ensures OccurrencesBefore(g, i, j) !! CellOccurrences(g, i, j, 8)
  {
  }

  lemma OccurrencesStepCard(g: Grid, i: int, j: int)
    requires 0 <= i < |g| && 0 <= j < |g[i]|
    ensures |OccurrencesBefore(g, i, j + 1)| == |OccurrencesBefore(g, i, j)| + |CellOccurrences(g, i, j, 8)|
  {
    OccurrencesStep(g, i, j);
  }

  lemma OccurrencesNextRow(g: Grid, i: int)
    requires 0 <= i < |g|
    ensures OccurrencesBefore(g, i + 1, 0) == OccurrencesBefore(g, i, |g[i]|)
  {
  }

  /** The eight checks at one 'X' cell, in the source's order. */
  method CountAtCell(g: Grid, i: int, j: int) returns (n: nat)
    requires 0 <= i < |g|
    ensures n == |CellOccurrences(g, i, j, 8)|
    ensures n <= 8
    ensures At(g, i, j) != Some('X') ==> n == 0
  {
    n := 0;
    for k := 0 to 8
      invariant n == |CellOccurrences(g, i, j, k)| && n <= k
    {
      CellOccurrencesStep(g, i, j, k);
      if Check(g, i, j, Dir(k)) {
        n := n + 1;
      }
    }
  }

  /** One row of `solvePart1`'s scan. */
  method CountRow(g: Grid, i: int, acc: nat) returns (result: nat)
    requires 0 <= i < |g| && acc == |OccurrencesBefore(g, i, 0)|
    ensures result == |OccurrencesBefore(g, i + 1, 0)|
  {
    result := acc;
    for j := 0 to |g[i]|
      invariant result == |OccurrencesBefore(g, i, j)|
    {
      OccurrencesStepCard(g, i, j);
      if g[i][j] == 'X' {
        var n := CountAtCell(g, i, j);
        result := result + n;
      } else {
        assert CellOccurrences(g, i, j, 8) == {};
      }
    }
    OccurrencesNextRow(g, i);
  }

  /** `solvePart1`: the number of (cell, direction) pairs reading XMAS. */
  method SolvePart1(g: Grid) returns (result: nat)
    ensures result == |Occurrences(g)|
  {
    result := 0;
    for i := 0 to |g|
      invariant result == |OccurrencesBefore(g, i, 0)|
    {
      result := CountRow(g, i, result);
    }
  }

  // ---------------------------------------------------------------------
  // Part 2
  // ---------------------------------------------------------------------

  /** `checkXmas`: the four diagonal neighbours are inside the bounds the
      source tests and read one of its four M/S arrangements. */
  predicate CheckXmas(g: Grid, i: int, j: int)
    ensures CheckXmas(g, i, j) ==>
      {At(g, i - 1, j - 1), At(g, i + 1, j + 1)} == {Some('M'), Some('S')} &&
      {At(g, i - 1, j + 1), At(g, i + 1, j - 1)} == {Some('M'), Some('S')}
  {
    if i - 1 >= 0 && i + 1 < |g| && j - 1 >= 0 && j + 1 < |g[0]| then
      var tl, tr, bl, br := At(g, i - 1, j - 1), At(g, i - 1, j + 1), At(g, i + 1, j - 1), At(g, i + 1, j + 1);
      (tl == Some('M') && tr == Some('S') && bl == Some('M') && br == Some('S')) ||
      (tl == Some('S') && tr == Some('S') && bl == Some('M') && br == Some('M')) ||
      (tl == Some('S') && tr == Some('M') && bl == Some('S') && br == Some('M')) ||
      (tl == Some('M') && tr == Some('M') && bl == Some('S') && br == Some('S'))
    else false
  }

  /** The four arrangements are exactly "each diagonal reads M and S in some
      order". */
  lemma CheckXmasMeaning(g: Grid, i: int, j: int)
    ensures CheckXmas(g, i, j) <==>
      i - 1 >= 0 && i + 1 < |g| && j - 1 >= 0 && j + 1 < |g[0]| &&
      {At(g, i - 1, j - 1), At(g, i + 1, j + 1)} == {Some('M'), Some('S')} &&
      {At(g, i - 1, j + 1), At(g, i + 1, j - 1)} == {Some('M'), Some('S')}
  {
    if i - 1 >= 0 && i + 1 < |g| && j - 1 >= 0 && j + 1 < |g[0]| {
      var tl, tr, bl, br := At(g, i - 1, j - 1), At(g, i - 1, j + 1), At(g, i + 1, j - 1), At(g, i + 1, j + 1);
      if {tl, br} == {Some('M'), Some('S')} && {tr, bl} == {Some('M'), Some('S')} {
        assert tl in {tl, br} && br in {tl, br} && tr in {tr, bl} && bl in {tr, bl};
        assert Some('M') in {tl, br} && Some('S') in {tl, br};
        assert Some('M') in {tr, bl} && Some('S') in {tr, bl};
      }
    }
  }

  /** The centres of crossing MAS pairs. */
  function CrossesBefore(g: Grid, i: int, j: int): set<(int, int)>
  {
    set r, c | 0 <= r < |g| && 0 <= c < |g[r]| && RowMajorBefore(r, c, i, j) && g[r][c] == 'A' && CheckXmas(g, r, c) :: (r, c)
  }

  /** Whether cell (i, j) is the centre of a crossing MAS pair. */
  predicate IsCross(g: Grid, i: int, j: int)
    requires 0 <= i < |g| && 0 <= j < |g[i]|
  {
    g[i][j] == 'A' && CheckXmas(g, i, j)
  }

  lemma CrossesSetStep(g: Grid, i: int, j: int)
    requires 0 <= i < |g| && 0 <= j < |g[i]|
    ensures CrossesBefore(g, i, j + 1) == CrossesBefore(g, i, j) + if IsCross(g, i, j) then {(i, j)} else {}
  {
  }

  lemma CrossesStep(g: Grid, i: int, j: int)
    requires 0 <= i < |g| && 0 <= j < |g[i]|
    ensures |CrossesBefore(g, i, j + 1)| == |CrossesBefore(g, i, j)| + if IsCross(g, i, j) then 1 else 0
  {
    CrossesSetStep(g, i, j);
    assert (i, j) !in CrossesBefore(g, i, j);
  }

  lemma CrossesNextRow(g: Grid, i: int)
    requires 0 <= i < |g|
    ensures CrossesBefore(g, i + 1, 0) == CrossesBefore(g, i, |g[i]|)
  {
  }

  /** One row of `solvePart2`'s scan. */
  method CountCrossesRow(g: Grid, i: int, acc: nat) returns (result: nat)
    requires 0 <= i < |g| && acc == |CrossesBefore(g, i, 0)|
    ensures result == |CrossesBefore(g, i + 1, 0)|
  {
    result := acc;
    for j := 0 to |g[i]|
      invariant result == |CrossesBefore(g, i, j)|
    {
      CrossesStep(g, i, j);
      if IsCross(g, i, j) {
        result := result + 1;
      }
    }
    CrossesNextRow(g, i);
  }

  /** `solvePart2`: every 'A' cell counted once if it is such a centre. */
  method SolvePart2(g: Grid) returns (result: nat)
    ensures result == |CrossesBefore(g, |g|, 0)|
    ensures result <= |CellsOf(g)|
  {
    result := 0;
    for i := 0 to |g|
      invariant result == |CrossesBefore(g, i, 0)|
    {
      result := CountCrossesRow(g, i, result);
    }
    assert CrossesBefore(g, |g|, 0) <= CellsOf(g);
    SubsetCard(CrossesBefore(g, |g|, 0), CellsOf(g));
  }

}

=== FILE: day05_page_ordering.dfy ===
/** Day 5 of 2024: page-ordering rules `a|b` ("a before b") and updates.
    The comparator built from the rules is handed to the engine's sort; an
    update is correctly ordered when sorting leaves it unchanged. Part 1 sums
    the middle pages of those updates, part 2 the middle pages of the sorted
    versions of the others.

    The rules need not describe a total order, so the engine's sort is not
    modelled: the parts take its output for each update as a parameter and ask
    only that it be a permutation of the update. */
module PageOrdering {
  import opened Options
  import opened Text

  type Rule = (int, int)

  // ---------------------------------------------------------------------
  // Input
  // ---------------------------------------------------------------------

  /** One rule line: `Number` of the pieces before and after the first '|'.
      A line without '|' has an `undefined` right side. None stands for a
      rule with a NaN side, which JavaScript stores all the same. */
  function ParseRule(line: string): Option<Rule> {
    var parts := Split(line, '|');
    if |parts| < 2 then None
    else match (ParseNumber(parts[0]), ParseNumber(parts[1]))
      case (Some(a), Some(b)) => Some((a, b))
      case _ => None
  }

  function ParseRuleLines(lines: seq<string>): (r: seq<Option<Rule>>)
    ensures |r| == |lines|
    ensures forall k :: 0 <= k < |lines| ==> r[k] == ParseRule(lines[k])
  {
    if lines == [] then [] else [ParseRule(lines[0])] + ParseRuleLines(lines[1..])
  }

  /** `parseRules`: one stored entry per non-empty line, whether or not it
      reads as two numbers. */
  function ParseRules(text: string): (r: seq<Option<Rule>>)
    ensures |r| == |NonEmptyLines(text)|
    ensures forall k :: 0 <= k < |r| ==> r[k] == ParseRule(NonEmptyLines(text)[k])
  {
    ParseRuleLines(NonEmptyLines(text))
  }

  /** A rule line without '|' is stored with a NaN side. */
  lemma RuleWithoutBar()
    ensures ParseRule("47") == None
  {
    SplitOnFree("47", ['|']);
  }

  /** The rules of the stored entries that have no NaN side, in order. */
  function Usable(entries: seq<Option<Rule>>): (rules: seq<Rule>)
    ensures forall x :: x in rules <==> Some(x) in entries
  {
    if entries == [] then []
    else
      assert forall e :: e in entries <==> e == entries[0] || e in entries[1..];
      match entries[0]
      case Some(x) => [x] + Usable(entries[1..])
      case None => Usable(entries[1..])
  }

  /** The comparator's search over the stored entries: an entry with a NaN
      side is `===` to no page, so it never matches. */
  function HasEntry(entries: seq<Option<Rule>>, a: int, b: int): bool {
    if entries == [] then false
    else match entries[0]
      case Some(x) => (x.0 == a && x.1 == b) || HasEntry(entries[1..], a, b)
      case None => HasEntry(entries[1..], a, b)
  }

  /** Reading a rendered rule gives the rule back. */
  lemma ParseRuleRoundTrip(a: int, b: int)
    ensures ParseRule(ShowInt(a) + "|" + ShowInt(b)) == Some((a, b))
  {
    ShowAllLacks([a, b], '|');
    assert ShowAll([a, b]) == [ShowInt(a), ShowInt(b)];
    assert ShowInt(a) in ShowAll([a, b]) && ShowInt(b) in ShowAll([a, b]);
    SplitOnTwo(ShowInt(a), ShowInt(b), "|");
    ParseShowInt(a);
    ParseShowInt(b);
  }

  function ParseUpdateLines(lines: seq<string>): (r: Option<seq<seq<int>>>)
    ensures r.Some? ==> |r.value| == |lines|
    ensures r.Some? ==> forall k :: 0 <= k < |lines| ==> ParseNumbers(Split(lines[k], ',')) == Some(r.value[k])
    ensures r.None? <==> exists k :: 0 <= k < |lines| && ParseNumbers(Split(lines[k], ',')).None?
  {
    if lines == [] then Some([])
    else match (ParseNumbers(Split(lines[0], ',')), ParseUpdateLines(lines[1..]))
      case (Some(x), Some(rest)) => Some([x] + rest)
      case _ => None
  }

  /** `parseUpdates`: one update per non-empty line, pages separated by ','.
      Every update has at least one page. */
  function ParseUpdates(text: string): (r: Option<seq<seq<int>>>)
    ensures r.Some? ==> |r.value| == |NonEmptyLines(text)|
    ensures r.Some? ==> forall k :: 0 <= k < |r.value| ==> ParseNumbers(Split(NonEmptyLines(text)[k], ',')) == Some(r.value[k])
    ensures r.None? <==> exists k :: 0 <= k < |NonEmptyLines(text)| && ParseNumbers(Split(NonEmptyLines(text)[k], ',')).None?
    ensures r.Some? ==> forall k :: 0 <= k < |r.value| ==> r.value[k] != []
  {
    ParseUpdateLines(NonEmptyLines(text))
  }

  /** Reading a rendered update gives the update back. */
  lemma ParseUpdateRoundTrip(pages: seq<int>)
    requires pages != []
    ensures ParseNumbers(Split(Join(ShowAll(pages), ","), ',')) == Some(pages)
  {
    ShowAllLacks(pages, ',');
    SplitJoin(ShowAll(pages), ',');
    ParseShowAll(pages);
  }

  // ---------------------------------------------------------------------
  // The comparator
  // ---------------------------------------------------------------------

  /** `rules.filter((r) => r[0] === a).find((r) => r[1] === b)`: a linear
      search for the rule `a|b`. */
  function HasRule(rules: seq<Rule>, a: int, b: int): (r: bool)
    ensures r <==> (a, b) in rules
  {
    if rules == [] then false
    else if rules[0].0 == a && rules[0].1 == b then true
    else HasRule(rules[1..], a, b)
  }

  /** `makeSorter(rules)(a, b)`. */
  function Compare(rules: seq<Rule>, a: int, b: int): (r: int)
    ensures r == -1 <==> (a, b) in rules
    ensures r == 1 <==> (a, b) !in rules && (b, a) in rules
    ensures r == 0 <==> (a, b) !in rules && (b, a) !in rules
  {
    if HasRule(rules, a, b) then -1
    else if HasRule(rules, b, a) then 1
    else 0
  }

  /** Entries with a NaN side change nothing: the search over the stored
      entries finds a rule exactly when the usable rules hold it, so the
      comparator built from the entries is `Compare` over the usable rules. */
  lemma {:induction false} NaNRulesNeverMatch(entries: seq<Option<Rule>>, a: int, b: int)
    ensures HasEntry(entries, a, b) <==> (a, b) in Usable(entries)
    ensures (if HasEntry(entries, a, b) then -1 else if HasEntry(entries, b, a) then 1 else 0)
      == Compare(Usable(entries), a, b)
  {
    EntriesSearch(entries, a, b);
    EntriesSearch(entries, b, a);
  }

  lemma {:induction false} EntriesSearch(entries: seq<Option<Rule>>, a: int, b: int)
    ensures HasEntry(entries, a, b) <==> Some((a, b)) in entries
  {
    if entries != [] {
      EntriesSearch(entries[1..], a, b);
      assert forall e :: e in entries <==> e == entries[0] || e in entries[1..];
    }
  }

  /** No two pages are ordered both ways by the rules. */
  predicate Consistent(rules: seq<Rule>) {
    forall k :: 0 <= k < |rules| ==> (rules[k].1, rules[k].0) !in rules
  }

  /** For consistent rules the comparator is antisymmetric. */
  lemma CompareAntisymmetric(rules: seq<Rule>, a: int, b: int)
    requires Consistent(rules)
    ensures Compare(rules, a, b) == -Compare(rules, b, a)
  {
    if (a, b) in rules {
      var k :| 0 <= k < |rules| && rules[k] == (a, b);
      assert (b, a) !in rules;
    }
    if (b, a) in rules {
      var k :| 0 <= k < |rules| && rules[k] == (b, a);
      assert (a, b) !in rules;
    }
  }

  /** A rule in both directions breaks antisymmetry: the comparator says
      "before" both ways. */
  lemma CompareWithCycle(rules: seq<Rule>, a: int, b: int)
    requires (a, b) in rules && (b, a) in rules
    ensures Compare(rules, a, b) == Compare(rules, b, a) == -1
  {
  }

  /** `isSameArray`. */
  method IsSameArray(a: seq<int>, b: seq<int>) returns (r: bool)
    ensures r <==> a == b
  {
    if |a| != |b| {
      return false;
    }
    for ix := 0 to |a|
      invariant a[..ix] == b[..ix]
    {
      if a[ix] != b[ix] {
        return false;
      }
      assert a[..ix + 1] == a[..ix] + [a[ix]] && b[..ix + 1] == b[..ix] + [b[ix]];
    }
    assert a == a[..|a|] && b == b[..|b|];
    return true;
  }

  // ---------------------------------------------------------------------
  // The parts
  // ---------------------------------------------------------------------

  /** `current[Math.floor(current.length / 2)]`. */
  function Middle(pages: seq<int>): int
    requires pages != []
  {
    pages[|pages| / 2]
  }

  /** What the engine's sort may return for each update. */
  predicate SortedOutputs(updates: seq<seq<int>>, sorted: seq<seq<int>>) {
    |sorted| == |updates| &&
    forall k :: 0 <= k < |updates| ==> updates[k] != [] && multiset(sorted[k]) == multiset(updates[k])
  }

  lemma SortedOutputsNonEmpty(updates: seq<seq<int>>, sorted: seq<seq<int>>, k: int)
    requires SortedOutputs(updates, sorted) && 0 <= k < |updates|
    ensures sorted[k] != []
  {
    assert |sorted[k]| == |multiset(sorted[k])| == |multiset(updates[k])| == |updates[k]|;
  }

  /** The middle pages of the updates the sort leaves unchanged. */
  function UnchangedMiddles(updates: seq<seq<int>>, sorted: seq<seq<int>>): int
    requires SortedOutputs(updates, sorted)
  {
    if updates == [] then 0
    else
      var n := |updates| - 1;
      UnchangedMiddles(updates[..n], sorted[..n]) + if updates[n] == sorted[n] then Middle(updates[n]) else 0
  }

  /** The middle pages of the sorted versions of the updates the sort changes. */
  function ReorderedMiddles(updates: seq<seq<int>>, sorted: seq<seq<int>>): int
    requires SortedOutputs(updates, sorted)
  {
    if updates == [] then 0
    else
      var n := |updates| - 1;
      SortedOutputsNonEmpty(updates, sorted, n);
      ReorderedMiddles(updates[..n], sorted[..n]) + if updates[n] != sorted[n] then Middle(sorted[n]) else 0
  }

  /** The middle pages of all sorted updates. */
  function AllMiddles(sorted: seq<seq<int>>): int
    requires forall k :: 0 <= k < |sorted| ==> sorted[k] != []
  {
    if sorted == [] then 0 else AllMiddles(sorted[..|sorted| - 1]) + Middle(sorted[|sorted| - 1])
  }

  lemma SortedOutputsPrefix(updates: seq<seq<int>>, sorted: seq<seq<int>>, n: int)
    requires SortedOutputs(updates, sorted) && 0 <= n <= |updates|
    ensures SortedOutputs(updates[..n], sorted[..n])
  {
  }

  /** `solvePart1`. */
  method SolvePart1(updates: seq<seq<int>>, sorted: seq<seq<int>>) returns (r: int)
    requires SortedOutputs(updates, sorted)
    ensures r == UnchangedMiddles(updates, sorted)
  {
    r := 0;
    for k := 0 to |updates|
      invariant r == UnchangedMiddles(updates[..k], sorted[..k])
    {
      SortedOutputsPrefix(updates, sorted, k + 1);
      assert updates[..k + 1][..k] == updates[..k] && sorted[..k + 1][..k] == sorted[..k];
      var same := IsSameArray(updates[k], sorted[k]);
      if same {
        r := r + Middle(updates[k]);
      }
    }
    assert updates[..|updates|] == updates && sorted[..|sorted|] == sorted;
  }

  /** `solvePart2`: unchanged updates are mapped to `[]` and filtered out. */
  method SolvePart2(updates: seq<seq<int>>, sorted: seq<seq<int>>) returns (r: int)
    requires SortedOutputs(updates, sorted)
    ensures r == ReorderedMiddles(updates, sorted)
  {
    r := 0;
    for k := 0 to |updates|
      invariant r == ReorderedMiddles(updates[..k], sorted[..k])
    {
      SortedOutputsPrefix(updates, sorted, k + 1);
      SortedOutputsNonEmpty(updates, sorted, k);
      assert updates[..k + 1][..k] == updates[..k] && sorted[..k + 1][..k] == sorted[..k];
      var same := IsSameArray(updates[k], sorted[k]);
      var kept := if same then [] else sorted[k];
      if |kept| > 0 {
        r := r + Middle(kept);
      }
    }
    assert updates[..|updates|] == updates && sorted[..|sorted|] == sorted;
  }

  /** Every update lands in exactly one part: together they sum the middle
      pages of all sorted updates. */
  lemma {:induction false} PartsPartition(updates: seq<seq<int>>, sorted: seq<seq<int>>)
    requires SortedOutputs(updates, sorted)
    ensures forall k :: 0 <= k < |sorted| ==> sorted[k] != []
    ensures UnchangedMiddles(updates, sorted) + ReorderedMiddles(updates, sorted) == AllMiddles(sorted)
  {
    forall k | 0 <= k < |sorted| ensures sorted[k] != [] {
      SortedOutputsNonEmpty(updates, sorted, k);
    }
    if updates != [] {
      var n := |updates| - 1;
      SortedOutputsPrefix(updates, sorted, n);
      PartsPartition(updates[..n], sorted[..n]);
    }
  }
}

=== FILE: day06_guard_patrol.dfy ===
/** Day 6 of 2024: a guard walks a lab map, turning right in front of every
    '#'. Part 1 counts the cells the guard visits before leaving the map;
    part 2 counts the visited cells where one extra obstacle traps the guard
    in a loop.

    Part 2 writes '#' into the matrix, runs the walk and writes '.' back.
    The model passes the extra obstacle to the walk instead; `ObstacleAsEdit`
    shows that this is the same map, before and after the write-back. */
module GuardPatrol {
  import opened Options
  import opened Text
  import opened Grids

  type Cell = (int, int)
  type State = (Cell, Heading)

  // ---------------------------------------------------------------------
  // The map
  // ---------------------------------------------------------------------

  /** The position of the '^' marker as `makeMatrix` records it: the last
      line that contains one, at its first '^' in that line; (0, 0) if no
      line does. */
  function FindStart(lines: seq<string>): (c: Cell)
    ensures (forall k :: 0 <= k < |lines| ==> '^' !in lines[k]) ==> c == (0, 0)
    ensures (exists k :: 0 <= k < |lines| && '^' in lines[k]) ==>
      0 <= c.0 < |lines| && 0 <= c.1 < |lines[c.0]| && lines[c.0][c.1] == '^' &&
      (forall k :: c.0 < k < |lines| ==> '^' !in lines[k]) &&
      (forall j :: 0 <= j < c.1 ==> lines[c.0][j] != '^')
  {
    if lines == [] then (0, 0)
    else
      var last := |lines| - 1;
      if '^' in lines[last] then (last, FirstIndex(lines[last], '^'))
      else
        var c := FindStart(lines[..last]);
        assert forall k :: 0 <= k < last ==> lines[..last][k] == lines[k];
        c
  }

  /** `makeMatrix`: the rows and the start. */
  function MakeMatrix(input: string): (Grid, Cell) {
    var lines := Split(input, '\n');
    (lines, FindStart(lines))
  }

  /** `isInBound`. */
  predicate InBound(g: Grid, c: Cell) {
    0 <= c.0 < |g| && 0 <= c.1 < Width(g)
  }

  /** A '#' in the map, or the extra obstacle of part 2. */
  predicate Blocked(g: Grid, obstacle: Option<Cell>, c: Cell) {
    obstacle == Some(c) || At(g, c.0, c.1) == Some('#')
  }

  /** Writing '#' into a cell of the map is the same as passing it as the
      extra obstacle, and writing '.' back afterwards restores the map as far
      as the walk can tell, for any cell that did not hold '#'. */
  lemma ObstacleAsEdit(g: Grid, o: Cell, c: Cell)
    requires InGrid(g, o.0, o.1) && g[o.0][o.1] != '#'
    ensures Blocked(SetCell(g, o.0, o.1, '#'), None, c) == Blocked(g, Some(o), c)
    ensures Blocked(SetCell(SetCell(g, o.0, o.1, '#'), o.0, o.1, '.'), None, c) == Blocked(g, None, c)
  {
  }

  // ---------------------------------------------------------------------
  // The walk
  // ---------------------------------------------------------------------

  /** One pass of the loop body: turn right in place if the cell ahead is in
      bounds and blocked, otherwise step onto it. */
  function Step(g: Grid, obstacle: Option<Cell>, s: State): (r: State)
    ensures r.0 == s.0 || r.0 == (s.0.0 + Offset(s.1).0, s.0.1 + Offset(s.1).1)
    ensures r.0 == s.0 ==> r.1 == TurnRight(s.1)
    ensures r.0 != s.0 ==> r.1 == s.1 && (!InBound(g, r.0) || !Blocked(g, obstacle, r.0))
  {
    var (c, h) := s;
    var next := (c.0 + Offset(h).0, c.1 + Offset(h).1);
    if InBound(g, next) && Blocked(g, obstacle, next) then (c, TurnRight(h))
    else (next, h)
  }

  /** The state after `k` passes. */
  function Iterate(g: Grid, obstacle: Option<Cell>, s0: State, k: nat): State {
    if k == 0 then s0 else Step(g, obstacle, Iterate(g, obstacle, s0, k - 1))
  }

  /** The guard is still on the map after each of the first `k + 1` states. */
  ghost predicate InBoundUpTo(g: Grid, obstacle: Option<Cell>, s0: State, k: nat) {
    forall k' :: 0 <= k' <= k ==> InBound(g, Iterate(g, obstacle, s0, k').0)
  }

  /** The guard never leaves the map. */
  ghost predicate NeverLeaves(g: Grid, obstacle: Option<Cell>, s0: State) {
    forall k: nat :: InBound(g, Iterate(g, obstacle, s0, k).0)
  }

  /** The cells the guard stands on before leaving. */
  ghost function Reached(g: Grid, obstacle: Option<Cell>, s0: State): set<Cell> {
    set c | c in Box(|g|, Width(g)) && exists k: nat :: InBoundUpTo(g, obstacle, s0, k) && Iterate(g, obstacle, s0, k).0 == c
  }

  /** The guard never stands on a blocked cell while on the map, provided it
      does not start on one. */
  lemma {:induction false} NeverOnObstacle(g: Grid, obstacle: Option<Cell>, s0: State, k: nat)
    requires !Blocked(g, obstacle, s0.0)
    requires InBoundUpTo(g, obstacle, s0, k)
    ensures !Blocked(g, obstacle, Iterate(g, obstacle, s0, k).0)
  {
    if k > 0 {
      NeverOnObstacle(g, obstacle, s0, k - 1);
    }
  }

  /** `k` applications of `f` to `s`: the walk with the step left abstract,
      so that reasoning about recurrence does not look inside a step. */
  function Orbit(f: State -> State, s: State, k: nat): State {
    if k == 0 then s else f(Orbit(f, s, k - 1))
  }

  /** The step of the walk on `g`, as a value. */
  function StepOf(g: Grid, obstacle: Option<Cell>): State -> State {
    s => Step(g, obstacle, s)
  }

  lemma {:induction false} IterateOrbit(g: Grid, obstacle: Option<Cell>, s0: State, k: nat)
    ensures Iterate(g, obstacle, s0, k) == Orbit(StepOf(g, obstacle), s0, k)
  {
    if k > 0 {
      IterateOrbit(g, obstacle, s0, k - 1);
    }
  }

  /** Equal states stay equal: what follows state `a` follows state `b`. */
  lemma {:induction false} OrbitShift(f: State -> State, s: State, a: nat, b: nat, t: nat)
    requires Orbit(f, s, a) == Orbit(f, s, b)
    ensures Orbit(f, s, a + t) == Orbit(f, s, b + t)
  {
    if t > 0 {
      OrbitShift(f, s, a, b, t - 1);
      assert Orbit(f, s, a + t) == f(Orbit(f, s, a + (t - 1)));
      assert Orbit(f, s, b + t) == f(Orbit(f, s, b + (t - 1)));
    }
  }

  /** Once state `m` recurs at `n`, every later state is one of the first
      `n`. */
  lemma OrbitRepeats(f: State -> State, s: State, m: nat, n: nat, k: nat) returns (j: nat)
    requires m < n && Orbit(f, s, m) == Orbit(f, s, n)
    ensures j < n && Orbit(f, s, j) == Orbit(f, s, k)
  {
    j := k;
    while j >= n
      invariant Orbit(f, s, j) == Orbit(f, s, k)
    {
      var t := j - n;
      OrbitShift(f, s, n, m, t);
      assert n + t == j;
      j := m + t;
    }
  }

  /** Once a state of the walk recurs, every later state is one of the
      earlier ones: state `k` is state `j`. */
  lemma CycleRepeats(g: Grid, obstacle: Option<Cell>, s0: State, m: nat, n: nat, k: nat)
    returns (j: nat)
    requires m < n && Iterate(g, obstacle, s0, m) == Iterate(g, obstacle, s0, n)
    ensures j < n && Iterate(g, obstacle, s0, j) == Iterate(g, obstacle, s0, k)
  {
    var f := StepOf(g, obstacle);
    IterateOrbit(g, obstacle, s0, m);
    IterateOrbit(g, obstacle, s0, n);
    j := OrbitRepeats(f, s0, m, n, k);
    IterateOrbit(g, obstacle, s0, j);
    IterateOrbit(g, obstacle, s0, k);
  }

  /** A state that recurs while on the map traps the guard for ever. */
  lemma CycleNeverLeaves(g: Grid, obstacle: Option<Cell>, s0: State, m: nat, n: nat)
    requires m < n && Iterate(g, obstacle, s0, m) == Iterate(g, obstacle, s0, n)
    requires forall k :: 0 <= k < n ==> InBound(g, Iterate(g, obstacle, s0, k).0)
    ensures NeverLeaves(g, obstacle, s0)
  {
    forall k: nat ensures InBound(g, Iterate(g, obstacle, s0, k).0) {
      var j := CycleRepeats(g, obstacle, s0, m, n, k);
    }
  }

  /** The cells of the first `n` states, as a set. */
  ghost function RunSet(g: Grid, obstacle: Option<Cell>, s0: State, n: nat): set<Cell> {
    set k | 0 <= k < n :: Iterate(g, obstacle, s0, k).0
  }

  /** When the guard leaves after `n` states, the reached cells are those of
      the first `n` states. */
  lemma ReachedAtExit(g: Grid, obstacle: Option<Cell>, s0: State, n: nat)
    requires forall k :: 0 <= k < n ==> InBound(g, Iterate(g, obstacle, s0, k).0)
    requires !InBound(g, Iterate(g, obstacle, s0, n).0)
    ensures Reached(g, obstacle, s0) == RunSet(g, obstacle, s0, n)
  {
    BoxCard(|g|, Width(g));
    forall c | c in Reached(g, obstacle, s0) ensures c in RunSet(g, obstacle, s0, n) {
      var k: nat :| InBoundUpTo(g, obstacle, s0, k) && Iterate(g, obstacle, s0, k).0 == c;
      assert n <= k ==> InBound(g, Iterate(g, obstacle, s0, n).0);
    }
    forall c | c in RunSet(g, obstacle, s0, n) ensures c in Reached(g, obstacle, s0) {
      var k :| 0 <= k < n && Iterate(g, obstacle, s0, k).0 == c;
      assert InBoundUpTo(g, obstacle, s0, k);
    }
  }

  /** The states of the first `n` passes, as a set. */
  ghost function StatesUpTo(g: Grid, obstacle: Option<Cell>, s0: State, n: nat): set<State> {
    set k | 0 <= k < n :: Iterate(g, obstacle, s0, k)
  }

  lemma StatesUpToNext(g: Grid, obstacle: Option<Cell>, s0: State, n: nat)
    ensures StatesUpTo(g, obstacle, s0, n + 1) == StatesUpTo(g, obstacle, s0, n) + {Iterate(g, obstacle, s0, n)}
  {
  }

  /** A loop that has seen `n` distinct states, all on the map, has seen no
      more than the map holds. */
  lemma StatesUpToBound(g: Grid, obstacle: Option<Cell>, s0: State, n: nat)
    requires forall k :: 0 <= k < n ==> InBound(g, Iterate(g, obstacle, s0, k).0)
    ensures StatesUpTo(g, obstacle, s0, n) <= BoxStates(|g|, Width(g))
    ensures |StatesUpTo(g, obstacle, s0, n)| <= 4 * |g| * Width(g)
  {
    BoxStatesCard(|g|, Width(g));
    SubsetCard(StatesUpTo(g, obstacle, s0, n), BoxStates(|g|, Width(g)));
  }

  /** The state after `n` passes recurring among the earlier ones traps the
      guard, when all of those were on the map. */
  lemma RecurrenceTraps(g: Grid, obstacle: Option<Cell>, s0: State, n: nat)
    requires forall k :: 0 <= k < n ==> InBound(g, Iterate(g, obstacle, s0, k).0)
    requires Iterate(g, obstacle, s0, n) in StatesUpTo(g, obstacle, s0, n)
    ensures NeverLeaves(g, obstacle, s0)
  {
    var m :| 0 <= m < n && Iterate(g, obstacle, s0, m) == Iterate(g, obstacle, s0, n);
    CycleNeverLeaves(g, obstacle, s0, m, n);
  }

  /** Leaving the map after `n` passes means the guard does not stay. */
  lemma ExitLeaves(g: Grid, obstacle: Option<Cell>, s0: State, n: nat)
    requires !InBound(g, Iterate(g, obstacle, s0, n).0)
    ensures !NeverLeaves(g, obstacle, s0)
  {
  }

  lemma InBoundExtend(g: Grid, obstacle: Option<Cell>, s0: State, n: nat)
    requires forall k :: 0 <= k < n ==> InBound(g, Iterate(g, obstacle, s0, k).0)
    requires InBound(g, Iterate(g, obstacle, s0, n).0)
    ensures forall k :: 0 <= k < n + 1 ==> InBound(g, Iterate(g, obstacle, s0, k).0)
  {
  }

  /** `hasCycle`: walk from `s0`, remembering every (cell, heading) state,
      until a state recurs (true) or the guard leaves the map (false). Also
      returns how many times the loop body ran. */
  method HasCycle(g: Grid, obstacle: Option<Cell>, s0: State) returns (r: bool, passes: nat)
    ensures r <==> NeverLeaves(g, obstacle, s0)
    ensures passes <= 4 * |g| * Width(g) + 1
  {
    var visited: set<State> := {};
    var s := s0;
    passes := 0;
    while InBound(g, s.0)
      invariant s == Iterate(g, obstacle, s0, passes)
      invariant forall k :: 0 <= k < passes ==> InBound(g, Iterate(g, obstacle, s0, k).0)
      invariant visited == StatesUpTo(g, obstacle, s0, passes)
      invariant |visited| == passes
      decreases 4 * |g| * Width(g) - passes
    {
      StatesUpToBound(g, obstacle, s0, passes);
      if s in visited {
        RecurrenceTraps(g, obstacle, s0, passes);
        return true, passes + 1;
      }
      StatesUpToNext(g, obstacle, s0, passes);
      InBoundExtend(g, obstacle, s0, passes);
      StatesUpToBound(g, obstacle, s0, passes + 1);
      visited := visited + {s};
      s := Step(g, obstacle, s);
      passes := passes + 1;
    }
    StatesUpToBound(g, obstacle, s0, passes);
    ExitLeaves(g, obstacle, s0, passes);
    return false, passes;
  }

  // ---------------------------------------------------------------------
  // Visited cells
  // ---------------------------------------------------------------------

  /** The elements of `s` in order of first occurrence. */
  function Dedup(s: seq<Cell>): (r: seq<Cell>)
    ensures forall x :: x in r <==> x in s
    ensures forall i, j :: 0 <= i < j < |r| ==> r[i] != r[j]
    ensures |s| > 0 ==> |r| > 0 && r[0] == s[0]
  {
    if s == [] then []
    else
      var p := Dedup(s[..|s| - 1]);
      assert forall x :: x in s <==> x in s[..|s| - 1] || x == s[|s| - 1];
      if s[|s| - 1] in p then p else p + [s[|s| - 1]]
  }

  /** The cells of the first `n` states. */
  function RunCells(g: Grid, obstacle: Option<Cell>, s0: State, n: nat): (r: seq<Cell>)
    ensures |r| == n
    ensures forall k :: 0 <= k < n ==> r[k] == Iterate(g, obstacle, s0, k).0
  {
    if n == 0 then [] else RunCells(g, obstacle, s0, n - 1) + [Iterate(g, obstacle, s0, n - 1).0]
  }

  lemma {:induction false} DistinctCard(s: seq<Cell>)
    requires forall i, j :: 0 <= i < j < |s| ==> s[i] != s[j]
    ensures |set x | x in s| == |s|
  {
    if s != [] {
      var p := s[..|s| - 1];
      DistinctCard(p);
      assert (set x | x in s) == (set x | x in p) + {s[|s| - 1]};
    }
  }

  /** One more state adds its cell to the deduplicated run unless already there. */
  lemma DedupRunNext(g: Grid, obstacle: Option<Cell>, s0: State, n: nat)
    ensures var c := Iterate(g, obstacle, s0, n).0;
      Dedup(RunCells(g, obstacle, s0, n + 1)) ==
        if c in Dedup(RunCells(g, obstacle, s0, n)) then Dedup(RunCells(g, obstacle, s0, n))
        else Dedup(RunCells(g, obstacle, s0, n)) + [c]
  {
    assert RunCells(g, obstacle, s0, n + 1)[..n] == RunCells(g, obstacle, s0, n);
  }

  /** When the guard leaves after `n` states, the deduplicated run holds
      exactly the reached cells, the start first. */
  lemma CellsAtExit(g: Grid, obstacle: Option<Cell>, s0: State, n: nat)
    requires forall k :: 0 <= k < n ==> InBound(g, Iterate(g, obstacle, s0, k).0)
    requires !InBound(g, Iterate(g, obstacle, s0, n).0)
    ensures forall c :: c in Dedup(RunCells(g, obstacle, s0, n)) <==> c in Reached(g, obstacle, s0)
    ensures InBound(g, s0.0) ==> |Dedup(RunCells(g, obstacle, s0, n))| > 0 && Dedup(RunCells(g, obstacle, s0, n))[0] == s0.0
  {
    ReachedAtExit(g, obstacle, s0, n);
    var run := RunCells(g, obstacle, s0, n);
    forall c ensures c in run <==> c in RunSet(g, obstacle, s0, n) {
      if c in run {
        var k :| 0 <= k < n && run[k] == c;
      }
    }
    if InBound(g, s0.0) {
      assert n > 0;
      assert run[0] == s0.0;
    }
  }

  /** `getVisitedCells` from the start heading up. The source loops for ever
      when the guard never leaves; the model notices the first repeated
      state and returns None there. */
  method GetVisitedCells(g: Grid, start: Cell) returns (r: Option<seq<Cell>>)
    ensures r.None? <==> NeverLeaves(g, None, (start, Up))
    ensures r.Some? ==> forall c :: c in r.value <==> c in Reached(g, None, (start, Up))
    ensures r.Some? ==> forall i, j :: 0 <= i < j < |r.value| ==> r.value[i] != r.value[j]
    ensures r.Some? && InBound(g, start) ==> |r.value| > 0 && r.value[0] == start
  {
    var s0 := (start, Up);
    var states: set<State> := {};
    var cells: seq<Cell> := [];
    var seen: set<Cell> := {};
    var s := s0;
    var steps: nat := 0;
    while InBound(g, s.0)
      invariant s == Iterate(g, None, s0, steps)
      invariant forall k :: 0 <= k < steps ==> InBound(g, Iterate(g, None, s0, k).0)
      invariant states == StatesUpTo(g, None, s0, steps)
      invariant |states| == steps
      invariant cells == Dedup(RunCells(g, None, s0, steps))
      invariant forall c :: c in seen <==> c in cells
      decreases 4 * |g| * Width(g) - steps
    {
      StatesUpToBound(g, None, s0, steps);
      if s in states {
        RecurrenceTraps(g, None, s0, steps);
        return None;
      }
      StatesUpToNext(g, None, s0, steps);
      InBoundExtend(g, None, s0, steps);
      StatesUpToBound(g, None, s0, steps + 1);
      states := states + {s};
      DedupRunNext(g, None, s0, steps);
      if s.0 !in seen {
        seen := seen + {s.0};
        cells := cells + [s.0];
      }
      s := Step(g, None, s);
      steps := steps + 1;
    }
    CellsAtExit(g, None, s0, steps);
    ExitLeaves(g, None, s0, steps);
    return Some(cells);
  }

  /** `solvePart1`: the number of distinct cells visited; None where the
      source would not return. */
  method SolvePart1(g: Grid, start: Cell) returns (r: Option<nat>)
    ensures r.None? <==> NeverLeaves(g, None, (start, Up))
    ensures r.Some? ==> r.value == |Reached(g, None, (start, Up))|
  {
    var cells := GetVisitedCells(g, start);
    if cells.None? {
      return None;
    }
    DistinctCard(cells.value);
    assert (set x | x in cells.value) == Reached(g, None, (start, Up));
    return Some(|cells.value|);
  }

  /** The cells where a single extra obstacle traps the guard: any cell the
      guard visits, except the start. */
  ghost function TrappingCells(g: Grid, start: Cell): set<Cell> {
    set c | c in Reached(g, None, (start, Up)) && c != start && NeverLeaves(g, Some(c), (start, Up))
  }

  /** The trapping cells among the first `p` entries of `cs`. */
  ghost function TrapsAmong(g: Grid, start: Cell, cs: seq<Cell>, p: nat): set<Cell>
    requires p <= |cs|
  {
    set q | 0 <= q < p && cs[q] != start && NeverLeaves(g, Some(cs[q]), (start, Up)) :: cs[q]
  }

  lemma TrapsAmongNext(g: Grid, start: Cell, cs: seq<Cell>, p: nat)
    requires p < |cs|
    requires forall i, j :: 0 <= i < j < |cs| ==> cs[i] != cs[j]
    ensures cs[p] !in TrapsAmong(g, start, cs, p)
    ensures TrapsAmong(g, start, cs, p + 1) ==
      if cs[p] != start && NeverLeaves(g, Some(cs[p]), (start, Up)) then TrapsAmong(g, start, cs, p) + {cs[p]}
      else TrapsAmong(g, start, cs, p)
  {
  }

  lemma TrapsAmongAll(g: Grid, start: Cell, cs: seq<Cell>)
    requires forall c :: c in cs <==> c in Reached(g, None, (start, Up))
    ensures TrapsAmong(g, start, cs, |cs|) == TrappingCells(g, start)
  {
  }

  /** `solvePart2`. */
  method SolvePart2(g: Grid, start: Cell) returns (r: Option<nat>)
    ensures r.None? <==> NeverLeaves(g, None, (start, Up))
    ensures r.Some? ==> r.value == |TrappingCells(g, start)|
  {
    var cells := GetVisitedCells(g, start);
    if cells.None? {
      return None;
    }
    var cs := cells.value;
    var count := 0;
    for p := 0 to |cs|
      invariant count == |TrapsAmong(g, start, cs, p)|
    {
      TrapsAmongNext(g, start, cs, p);
      if cs[p] == start {
        continue;
      }
      var trapped, _ := HasCycle(g, Some(cs[p]), (start, Up));
      if trapped {
        count := count + 1;
      }
    }
    TrapsAmongAll(g, start, cs);
    return Some(count);
  }
}

=== FILE: day07_operator_equations.dfy ===
/** Day 7 of 2024: bridge calibration. Each line holds a test value and a list
    of numbers; an equation is valid when some choice of operators, placed
    between the numbers and evaluated strictly left to right, yields the test
    value. Part 1 allows `+` and `*`, part 2 also `||`, which glues the decimal
    renderings of its operands together. Each part sums the test values of the
    valid equations.

    `isValid` collects every value its backtracking reaches in a set. A
    concatenation whose text is not a number yields NaN, and NaN stays NaN
    under all three operators and equals no test value; the model drops such
    branches. */
module OperatorEquations {
  import opened Options
  import opened Text

  datatype Equation = Equation(target: int, nums: seq<int>)

  datatype Operator = Add | Mul | Concat

  // ---------------------------------------------------------------------
  // Input
  // ---------------------------------------------------------------------

  /** One line: the test value before the first ": ", the numbers after it
      separated by single blanks. A line without ": " makes the source fail on
      an `undefined` right side; None stands for that and for NaN. */
  function ParseLine(line: string): (r: Option<Equation>)
    ensures r.Some? ==> |r.value.nums| >= 1
  {
    var parts := SplitOn(line, ": ");
    if |parts| < 2 then None
    else match (ParseNumber(parts[0]), ParseNumbers(Split(parts[1], ' ')))
      case (Some(t), Some(nums)) => Some(Equation(t, nums))
      case _ => None
  }

  function ParseLines(lines: seq<string>): (r: Option<seq<Equation>>)
    ensures r.Some? ==> |r.value| == |lines|
    ensures r.Some? ==> forall k :: 0 <= k < |lines| ==> ParseLine(lines[k]) == Some(r.value[k])
    ensures r.None? <==> exists k :: 0 <= k < |lines| && ParseLine(lines[k]).None?
  {
    if lines == [] then Some([])
    else match (ParseLine(lines[0]), ParseLines(lines[1..]))
      case (Some(e), Some(rest)) => Some([e] + rest)
      case _ => None
  }

  /** `parseInput`: one equation per non-empty line. */
  function ParseInput(input: string): (r: Option<seq<Equation>>)
    ensures r.Some? ==> forall k :: 0 <= k < |r.value| ==> |r.value[k].nums| >= 1
    ensures r.Some? ==> |r.value| == |NonEmptyLines(input)|
    ensures r.Some? ==> forall k :: 0 <= k < |r.value| ==> ParseLine(NonEmptyLines(input)[k]) == Some(r.value[k])
    ensures r.None? <==> exists k :: 0 <= k < |NonEmptyLines(input)| && ParseLine(NonEmptyLines(input)[k]).None?
  {
    ParseLines(NonEmptyLines(input))
  }

  /** The text of an equation in the puzzle's format. */
  function Render(e: Equation): string {
    ShowInt(e.target) + ": " + Join(ShowAll(e.nums), " ")
  }

  /** Reading a rendered equation gives it back. */
  lemma ParseRenderLine(e: Equation)
    requires |e.nums| >= 1
    ensures ParseLine(Render(e)) == Some(e)
  {
    var p := ShowInt(e.target);
    var q := Join(ShowAll(e.nums), " ");
    ShowIntChars(e.target);
    assert ':' !in p by {
      forall k | 0 <= k < |p| ensures p[k] != ':' { }
    }
    ShowAllLacks(e.nums, ':');
    JoinFree(ShowAll(e.nums), " ", ':');
    SplitOnTwo(p, q, ": ");
    ParseShowInt(e.target);
    ShowAllLacks(e.nums, ' ');
    SplitJoin(ShowAll(e.nums), ' ');
    ParseShowAll(e.nums);
  }

  // ---------------------------------------------------------------------
  // Operators
  // ---------------------------------------------------------------------

  /** `calc`; `||` reads the concatenated renderings back with `+`, which is
      NaN (None) when the text is not a number. */
  function Calc(a: int, b: int, op: Operator): Option<int> {
    match op
    case Add => Some(a + b)
    case Mul => Some(a * b)
    case Concat => ParseNumber(ShowInt(a) + ShowInt(b))
  }

  /** Concatenation shifts the left operand by the digit count of the right
      one; a negative right operand puts a '-' inside the text, which is not
      a number. */
  lemma ConcatMeaning(a: int, b: int)
    ensures b >= 0 && a >= 0 ==> Calc(a, b, Concat) == Some(a * Pow10(|ShowNat(b)|) + b)
    ensures b >= 0 && a < 0 ==> Calc(a, b, Concat) == Some(a * Pow10(|ShowNat(b)|) - b)
    ensures b < 0 ==> Calc(a, b, Concat) == None
  {
    if b >= 0 && a >= 0 {
      ConcatNatural(a, b);
    } else if b >= 0 {
      ConcatNegativeLeft(a, b);
    } else {
      ConcatNegativeRight(a, b);
    }
  }

  lemma ConcatNatural(a: nat, b: nat)
    ensures Calc(a, b, Concat) == Some(a * Pow10(|ShowNat(b)|) + b)
  {
    ValueOfShowNat(a);
    ValueOfShowNat(b);
    DigitsValueAppend(ShowNat(a), ShowNat(b));
  }

  lemma ConcatNegativeLeft(a: int, b: nat)
    requires a < 0
    ensures Calc(a, b, Concat) == Some(a * Pow10(|ShowNat(b)|) - b)
  {
    var t := ShowNat(-a) + ShowNat(b);
    ValueOfShowNat(-a);
    ValueOfShowNat(b);
    DigitsValueAppend(ShowNat(-a), ShowNat(b));
    assert ShowInt(a) + ShowInt(b) == "-" + t;
    ParseNegative(t);
    var p := Pow10(|ShowNat(b)|);
    assert DigitsValue(t) == (-a) * p + b;
    assert (-a) * p == -(a * p);
  }

  lemma ParseNegative(t: string)
    requires IsDigits(t) && |t| >= 1
    ensures ParseNumber("-" + t) == Some(0 - DigitsValue(t) as int)
  {
    var s := "-" + t;
    assert s[1..] == t;
    assert !IsDigitChar(s[0]);
  }

  lemma ConcatNegativeRight(a: int, b: int)
    requires b < 0
    ensures Calc(a, b, Concat) == None
  {
    var s := ShowInt(a) + ShowInt(b);
    ShowIntChars(a);
    var i := |ShowInt(a)|;
    assert s[i] == '-';
    assert !IsDigits(s);
    assert |s| >= 2 ==> s[1..][i - 1] == '-';
  }

  // ---------------------------------------------------------------------
  // The backtracking search
  // ---------------------------------------------------------------------

  /** The values `backtrack(current, index)` adds to `vals`. */
  function Reach(nums: seq<int>, ops: seq<Operator>, current: int, index: nat): set<int>
    requires index <= |nums|
    decreases |nums| - index, |ops| + 1
  {
    if index == |nums| then {current} else Branch(nums, ops, ops, current, index)
  }

  /** The loop of `backtrack` over the operators in `rest`. */
  function Branch(nums: seq<int>, ops: seq<Operator>, rest: seq<Operator>, current: int, index: nat): set<int>
    requires index < |nums|
    decreases |nums| - index, |rest|
  {
    if rest == [] then {}
    else
      var here := match Calc(current, nums[index], rest[0])
        case Some(v) => Reach(nums, ops, v, index + 1)
        case None => {};
      here + Branch(nums, ops, rest[1..], current, index)
  }

  /** Evaluating `nums[index..]` onto `current` left to right, with `choice`
      giving the operator before each number. */
  function EvalFrom(nums: seq<int>, current: int, index: nat, choice: seq<Operator>): Option<int>
    requires index + |choice| == |nums|
    decreases |choice|
  {
    if choice == [] then Some(current)
    else match Calc(current, nums[index], choice[0])
      case Some(v) => EvalFrom(nums, v, index + 1, choice[1..])
      case None => None
  }

  predicate Uses(choice: seq<Operator>, ops: seq<Operator>) {
    forall i :: 0 <= i < |choice| ==> choice[i] in ops
  }

  /** Some placement of operators from `ops` between the numbers yields
      `target`. */
  ghost predicate Solvable(nums: seq<int>, target: int, ops: seq<Operator>)
    requires |nums| >= 1
  {
    exists choice :: |choice| == |nums| - 1 && Uses(choice, ops) && EvalFrom(nums, nums[0], 1, choice) == Some(target)
  }

  /** Every value the search reaches comes from some operator placement. */
  lemma {:induction false} ReachSound(nums: seq<int>, ops: seq<Operator>, current: int, index: nat, v: int)
    requires index <= |nums| && v in Reach(nums, ops, current, index)
    ensures exists choice :: |choice| == |nums| - index && Uses(choice, ops) && EvalFrom(nums, current, index, choice) == Some(v)
    decreases |nums| - index, |ops| + 1
  {
    if index == |nums| {
      assert EvalFrom(nums, current, index, []) == Some(v);
      assert Uses([], ops);
    } else {
      var choice := BranchSound(nums, ops, ops, current, index, v);
      assert Uses(choice, ops) by {
        forall i | 0 <= i < |choice| ensures choice[i] in ops {
          if i > 0 {
            assert choice[i] == choice[1..][i - 1];
          }
        }
      }
    }
  }

  lemma {:induction false} BranchSound(nums: seq<int>, ops: seq<Operator>, rest: seq<Operator>, current: int, index: nat, v: int)
    returns (choice: seq<Operator>)
    requires index < |nums| && v in Branch(nums, ops, rest, current, index)
    ensures |choice| == |nums| - index && choice[0] in rest && Uses(choice[1..], ops)
    ensures EvalFrom(nums, current, index, choice) == Some(v)
    decreases |nums| - index, |rest|
  {
    var here := match Calc(current, nums[index], rest[0])
      case Some(w) => Reach(nums, ops, w, index + 1)
      case None => {};
    if v in here {
      var w := Calc(current, nums[index], rest[0]).value;
      ReachSound(nums, ops, w, index + 1, v);
      var tail :| |tail| == |nums| - index - 1 && Uses(tail, ops) && EvalFrom(nums, w, index + 1, tail) == Some(v);
      choice := [rest[0]] + tail;
      assert choice[1..] == tail;
    } else {
      choice := BranchSound(nums, ops, rest[1..], current, index, v);
    }
  }

  /** Every operator placement's value is reached by the search. */
  lemma {:induction false} ReachComplete(nums: seq<int>, ops: seq<Operator>, current: int, index: nat, choice: seq<Operator>, v: int)
    requires index + |choice| == |nums| && Uses(choice, ops)
    requires EvalFrom(nums, current, index, choice) == Some(v)
    ensures v in Reach(nums, ops, current, index)
    decreases |choice|
  {
    if choice != [] {
      var w := Calc(current, nums[index], choice[0]).value;
      assert Uses(choice[1..], ops) by {
        forall i | 0 <= i < |choice| - 1 ensures choice[1..][i] in ops {
          assert choice[1..][i] == choice[i + 1];
        }
      }
      ReachComplete(nums, ops, w, index + 1, choice[1..], v);
      BranchContains(nums, ops, ops, current, index, choice[0], w, v);
    }
  }

  lemma {:induction false} BranchContains(nums: seq<int>, ops: seq<Operator>, rest: seq<Operator>, current: int, index: nat, op: Operator, w: int, v: int)
    requires index < |nums| && op in rest
    requires Calc(current, nums[index], op) == Some(w) && v in Reach(nums, ops, w, index + 1)
    ensures v in Branch(nums, ops, rest, current, index)
    decreases |rest|
  {
    if rest[0] != op {
      assert op in rest[1..];
      BranchContains(nums, ops, rest[1..], current, index, op, w, v);
    }
  }

  /** `isValid`: the test value is among the values the search reaches, which
      holds exactly when some placement of the operators yields it. */
  function IsValid(nums: seq<int>, target: int, ops: seq<Operator>): (r: bool)
    requires |nums| >= 1
    ensures r <==> Solvable(nums, target, ops)
  {
    if target in Reach(nums, ops, nums[0], 1) then
      ReachSound(nums, ops, nums[0], 1, target);
      true
    else
      assert !Solvable(nums, target, ops) by {
        if Solvable(nums, target, ops) {
          var choice :| |choice| == |nums| - 1 && Uses(choice, ops) && EvalFrom(nums, nums[0], 1, choice) == Some(target);
          ReachComplete(nums, ops, nums[0], 1, choice, target);
        }
      }
      false
  }

  /** More operators never make an equation invalid. */
  lemma MoreOperators(nums: seq<int>, target: int, ops: seq<Operator>, more: seq<Operator>)
    requires |nums| >= 1
    requires forall o :: o in ops ==> o in more
    requires Solvable(nums, target, ops)
    ensures Solvable(nums, target, more)
  {
    var choice :| |choice| == |nums| - 1 && Uses(choice, ops) && EvalFrom(nums, nums[0], 1, choice) == Some(target);
    assert Uses(choice, more);
  }

  // ---------------------------------------------------------------------
  // Size of the search
  // ---------------------------------------------------------------------

  function Power(b: nat, e: nat): nat {
    if e == 0 then 1 else b * Power(b, e - 1)
  }

  lemma UnionCard(a: set<int>, b: set<int>)
    ensures |a + b| <= |a| + |b|
  {
    assert a + b == a + (b - a);
    assert |b - a| <= |b| by {
      assert b == (b - a) + (b * a);
    }
  }

  /** The search reaches at most one value per operator placement. */
  lemma {:induction false} ReachCard(nums: seq<int>, ops: seq<Operator>, current: int, index: nat)
    requires index <= |nums|
    ensures |Reach(nums, ops, current, index)| <= Power(|ops|, |nums| - index)
    decreases |nums| - index, |ops| + 1
  {
    if index < |nums| {
      BranchCard(nums, ops, ops, current, index);
    }
  }

  lemma {:induction false} BranchCard(nums: seq<int>, ops: seq<Operator>, rest: seq<Operator>, current: int, index: nat)
    requires index < |nums|
    ensures |Branch(nums, ops, rest, current, index)| <= |rest| * Power(|ops|, |nums| - index - 1)
    decreases |nums| - index, |rest|
  {
    if rest != [] {
      var here := match Calc(current, nums[index], rest[0])
        case Some(w) => Reach(nums, ops, w, index + 1)
        case None => {};
      if Calc(current, nums[index], rest[0]).Some? {
        ReachCard(nums, ops, Calc(current, nums[index], rest[0]).value, index + 1);
      }
      BranchCard(nums, ops, rest[1..], current, index);
      UnionCard(here, Branch(nums, ops, rest[1..], current, index));
      var p := Power(|ops|, |nums| - index - 1);
      assert |rest| * p == p + (|rest| - 1) * p;
    }
  }

  // ---------------------------------------------------------------------
  // The parts
  // ---------------------------------------------------------------------

  /** The calibration total: the test values of the equations that some
      placement of `ops` makes true. */
  ghost function Total(eqs: seq<Equation>, ops: seq<Operator>): int
    requires forall k :: 0 <= k < |eqs| ==> |eqs[k].nums| >= 1
  {
    if eqs == [] then 0
    else
      var e := eqs[|eqs| - 1];
      Total(eqs[..|eqs| - 1], ops) + if Solvable(e.nums, e.target, ops) then e.target else 0
  }

  method Solve(eqs: seq<Equation>, ops: seq<Operator>) returns (r: int)
    requires forall k :: 0 <= k < |eqs| ==> |eqs[k].nums| >= 1
    ensures r == Total(eqs, ops)
  {
    r := 0;
    for k := 0 to |eqs|
      invariant r == Total(eqs[..k], ops)
    {
      assert eqs[..k + 1][..k] == eqs[..k];
      if IsValid(eqs[k].nums, eqs[k].target, ops) {
        r := r + eqs[k].target;
      }
    }
    assert eqs[..|eqs|] == eqs;
  }

  /** `solvePart1`. */
  method SolvePart1(eqs: seq<Equation>) returns (r: int)
    requires forall k :: 0 <= k < |eqs| ==> |eqs[k].nums| >= 1
    ensures r == Total(eqs, [Add, Mul])
  {
    r := Solve(eqs, [Add, Mul]);
  }

  /** `solvePart2`. */
  method SolvePart2(eqs: seq<Equation>) returns (r: int)
    requires forall k :: 0 <= k < |eqs| ==> |eqs[k].nums| >= 1
    ensures r == Total(eqs, [Add, Mul, Concat])
  {
    r := Solve(eqs, [Add, Mul, Concat]);
  }

  /** With non-negative test values, part 2 is at least part 1: every
      equation part 1 counts, part 2 counts too. */
  lemma {:induction false} PartsOrder(eqs: seq<Equation>)
    requires forall k :: 0 <= k < |eqs| ==> |eqs[k].nums| >= 1 && eqs[k].target >= 0
    ensures Total(eqs, [Add, Mul]) <= Total(eqs, [Add, Mul, Concat])
  {
    if eqs != [] {
      var e := eqs[|eqs| - 1];
      PartsOrder(eqs[..|eqs| - 1]);
      if Solvable(e.nums, e.target, [Add, Mul]) {
        MoreOperators(e.nums, e.target, [Add, Mul], [Add, Mul, Concat]);
      }
    }
  }

  /** `156: 15 6` needs the concatenation operator. */
  lemma NeedsConcat()
    ensures !IsValid([15, 6], 156, [Add, Mul])
    ensures IsValid([15, 6], 156, [Add, Mul, Concat])
  {
    ConcatMeaning(15, 6);
    assert ShowNat(6) == "6";
    assert Reach([15, 6], [Add, Mul], 15, 1) == {21, 90};
  }
}

=== FILE: day08_antinodes.dfy ===
/** Day 8 of 2024: resonant collinearity. Every character other than '.' on
    the map is an antenna of that frequency. Part 1 counts the in-bounds cells
    where, for two antennas of one frequency, the reflection of one through
    the other lands; part 2 counts the in-bounds cells on the rays that start
    at each antenna of a pair and step away from the other.

    The bounds are those of `isInBoundaries`: the number of rows and the
    length of the first row. */
module Antinodes {
  import opened Options
  import opened Text
  import opened Grids
  import opened OrderedMaps

  type Cell = (int, int)

  /** `parseInput`: the non-empty lines, each as its characters. */
  function ParseInput(input: string): (g: Grid)
    ensures forall i :: 0 <= i < |g| ==> g[i] != [] && '\n' !in g[i]
  {
    NonEmptyLines(input)
  }

  predicate InBound(g: Grid, p: Cell) {
    0 <= p.0 < |g| && 0 <= p.1 < Width(g)
  }

  // ---------------------------------------------------------------------
  // Row-major enumeration and grouping
  // ---------------------------------------------------------------------

  /** The cells `(i, 0), ..., (i, n - 1)`. */
  function RowCells(i: int, n: nat): (r: seq<Cell>)
    ensures |r| == n
    ensures forall k :: 0 <= k < n ==> r[k] == (i, k)
  {
    if n == 0 then [] else RowCells(i, n - 1) + [(i, n - 1)]
  }

  /** The cells of the first `rows` rows in the order of the nested loops. */
  function RowMajor(g: Grid, rows: nat): seq<Cell>
    requires rows <= |g|
  {
    if rows == 0 then [] else RowMajor(g, rows - 1) + RowCells(rows - 1, |g[rows - 1]|)
  }

  /** Strictly increasing in row-major order. */
  predicate Ordered(s: seq<Cell>) {
    forall x, y :: 0 <= x < y < |s| ==> RowMajorBefore(s[x].0, s[x].1, s[y].0, s[y].1)
  }

  lemma RowCellsMembers(i: int, n: nat)
    ensures forall c :: c in RowCells(i, n) <==> c.0 == i && 0 <= c.1 < n
  {
    var r := RowCells(i, n);
    forall c: Cell | c.0 == i && 0 <= c.1 < n ensures c in r {
      assert r[c.1] == c;
    }
  }

  /** The enumeration lists exactly the cells of those rows, in row-major
      order. */
  lemma {:induction false} RowMajorMeaning(g: Grid, rows: nat)
    requires rows <= |g|
    ensures forall c :: c in RowMajor(g, rows) <==> 0 <= c.0 < rows && 0 <= c.1 < |g[c.0]|
    ensures Ordered(RowMajor(g, rows))
  {
    if rows > 0 {
      RowMajorMeaning(g, rows - 1);
      var p := RowMajor(g, rows - 1);
      var q := RowCells(rows - 1, |g[rows - 1]|);
      RowCellsMembers(rows - 1, |g[rows - 1]|);
      var s := p + q;
      assert s == RowMajor(g, rows);
      forall x, y | 0 <= x < y < |s| ensures RowMajorBefore(s[x].0, s[x].1, s[y].0, s[y].1) {
        if y < |p| {
          assert s[x] == p[x] && s[y] == p[y];
        } else if x < |p| {
          assert s[x] == p[x] && p[x] in p;
          assert s[y] == q[y - |p|];
        } else {
          assert s[x] == q[x - |p|] && s[y] == q[y - |p|];
        }
      }
    }
  }

  /** The cells of `cells` that hold `ch`, in the same order. */
  function CellsWith(g: Grid, cells: seq<Cell>, ch: char): (r: seq<Cell>)
    requires forall c :: c in cells ==> InGrid(g, c.0, c.1)
    ensures forall c :: c in r <==> c in cells && InGrid(g, c.0, c.1) && g[c.0][c.1] == ch
  {
    if cells == [] then []
    else
      var n := |cells| - 1;
      var c := cells[n];
      assert cells == cells[..n] + [c];
      assert c in cells && InGrid(g, c.0, c.1);
      CellsWith(g, cells[..n], ch) + if g[c.0][c.1] == ch then [c] else []
  }

  lemma {:induction false} CellsWithOrdered(g: Grid, cells: seq<Cell>, ch: char)
    requires forall c :: c in cells ==> InGrid(g, c.0, c.1)
    requires Ordered(cells)
    ensures Ordered(CellsWith(g, cells, ch))
  {
    if cells != [] {
      var n := |cells| - 1;
      var c := cells[n];
      assert cells == cells[..n] + [c];
      var p := CellsWith(g, cells[..n], ch);
      CellsWithOrdered(g, cells[..n], ch);
      var r := p + if g[c.0][c.1] == ch then [c] else [];
      forall x, y | 0 <= x < y < |r| ensures RowMajorBefore(r[x].0, r[x].1, r[y].0, r[y].1) {
        if y < |p| {
          assert r[x] == p[x] && r[y] == p[y];
        } else {
          assert r[x] == p[x] && p[x] in p;
          var i :| 0 <= i < n && cells[..n][i] == p[x];
          assert r[y] == cells[n];
        }
      }
    }
  }

  /** The antennas of frequency `ch` in row-major order. */
  function Antennas(g: Grid, ch: char): (r: seq<Cell>)
    ensures forall c :: c in r <==> InGrid(g, c.0, c.1) && g[c.0][c.1] == ch
    ensures Ordered(r)
  {
    RowMajorMeaning(g, |g|);
    CellsWithOrdered(g, RowMajor(g, |g|), ch);
    CellsWith(g, RowMajor(g, |g|), ch)
  }

  /** The map the nested loops of `getAntennas` build from `cells`. */
  function Group(g: Grid, cells: seq<Cell>): Entries<char, seq<Cell>>
    requires forall c :: c in cells ==> InGrid(g, c.0, c.1)
  {
    if cells == [] then []
    else
      var n := |cells| - 1;
      var c := cells[n];
      assert cells == cells[..n] + [c];
      assert c in cells && InGrid(g, c.0, c.1);
      var m := Group(g, cells[..n]);
      if g[c.0][c.1] != '.' then Push(m, g[c.0][c.1], c) else m
  }

  /** Grouping files every cell under its own character, in order, and never
      makes '.' a key. */
  lemma {:induction false} GroupMeaning(g: Grid, cells: seq<Cell>, ch: char)
    requires forall c :: c in cells ==> InGrid(g, c.0, c.1)
    ensures KeysDistinct(Group(g, cells))
    ensures Get(Group(g, cells), ch) ==
      if ch == '.' || CellsWith(g, cells, ch) == [] then None else Some(CellsWith(g, cells, ch))
  {
    if cells != [] {
      var n := |cells| - 1;
      var c := cells[n];
      assert cells == cells[..n] + [c];
      var m := Group(g, cells[..n]);
      GroupMeaning(g, cells[..n], ch);
      var prefix := CellsWith(g, cells[..n], ch);
      assert CellsWith(g, cells, ch) == prefix + if g[c.0][c.1] == ch then [c] else [];
      if g[c.0][c.1] != '.' {
        var k := g[c.0][c.1];
        assert Group(g, cells) == Push(m, k, c);
        SetKeepsKeysDistinct(m, k, Get(m, k).GetOr([]) + [c]);
        if k == ch {
          assert Get(m, k).GetOr([]) == prefix;
        } else {
          assert Get(Push(m, k, c), ch) == Get(m, ch);
          assert CellsWith(g, cells, ch) == prefix;
        }
      } else {
        assert Group(g, cells) == m;
        if ch != '.' {
          assert CellsWith(g, cells, ch) == prefix;
        }
      }
    }
  }

  /** `getAntennas`: each frequency maps to its antennas in row-major order,
      and nothing else is a key. */
  method GetAntennas(g: Grid) returns (m: Entries<char, seq<Cell>>)
    ensures KeysDistinct(m)
    ensures forall ch :: Get(m, ch) == if ch == '.' || Antennas(g, ch) == [] then None else Some(Antennas(g, ch))
  {
    m := [];
    for i := 0 to |g|
      invariant ScanInGrid(g, RowMajor(g, i))
      invariant m == Group(g, RowMajor(g, i))
    {
      ScanStep(g, i, 0);
      for j := 0 to |g[i]|
        invariant ScanInGrid(g, RowMajor(g, i) + RowCells(i, j))
        invariant m == Group(g, RowMajor(g, i) + RowCells(i, j))
      {
        ScanStep(g, i, j + 1);
        GroupSnoc(g, RowMajor(g, i) + RowCells(i, j), (i, j));
        if g[i][j] != '.' {
          m := Push(m, g[i][j], (i, j));
        }
      }
    }
    RowMajorMeaning(g, |g|);
    forall ch ensures Get(m, ch) == if ch == '.' || Antennas(g, ch) == [] then None else Some(Antennas(g, ch)) {
      GroupMeaning(g, RowMajor(g, |g|), ch);
    }
    GroupMeaning(g, RowMajor(g, |g|), '.');
  }

  ghost predicate ScanInGrid(g: Grid, cells: seq<Cell>) {
    forall c :: c in cells ==> InGrid(g, c.0, c.1)
  }

  /** The cells scanned up to `(i, j)` are on the map, one cell at a time. */
  lemma ScanStep(g: Grid, i: nat, j: nat)
    requires i < |g| && j <= |g[i]|
    ensures ScanInGrid(g, RowMajor(g, i) + RowCells(i, j))
    ensures j == 0 ==> RowMajor(g, i) + RowCells(i, j) == RowMajor(g, i)
    ensures j == |g[i]| ==> RowMajor(g, i) + RowCells(i, j) == RowMajor(g, i + 1)
    ensures j > 0 ==> RowMajor(g, i) + RowCells(i, j) == RowMajor(g, i) + RowCells(i, j - 1) + [(i, j - 1)]
  {
    RowMajorMeaning(g, i);
    RowCellsMembers(i, j);
  }

  lemma GroupSnoc(g: Grid, cells: seq<Cell>, c: Cell)
    requires ScanInGrid(g, cells) && InGrid(g, c.0, c.1)
    ensures ScanInGrid(g, cells + [c])
    ensures Group(g, cells + [c]) == if g[c.0][c.1] != '.' then Push(Group(g, cells), g[c.0][c.1], c) else Group(g, cells)
  {
    assert (cells + [c])[..|cells|] == cells;
  }

  // ---------------------------------------------------------------------
  // Pairs
  // ---------------------------------------------------------------------

  ghost predicate Distinct<T>(s: seq<T>) {
    forall x, y :: 0 <= x < y < |s| ==> s[x] != s[y]
  }

  /** The pairs the inner loop pushes for `i`, up to but excluding `j`. */
  function RowPairs(cs: seq<Cell>, i: nat, j: nat): (r: seq<(Cell, Cell)>)
    requires i < j <= |cs|
    ensures |r| == j - i - 1
    ensures forall k :: 0 <= k < |r| ==> r[k] == (cs[i], cs[i + 1 + k])
  {
    if j == i + 1 then [] else RowPairs(cs, i, j - 1) + [(cs[i], cs[j - 1])]
  }

  /** The pairs the outer loop has pushed before reaching `i`. */
  function PairsBefore(cs: seq<Cell>, i: nat): seq<(Cell, Cell)>
    requires i <= |cs|
  {
    if i == 0 then [] else PairsBefore(cs, i - 1) + RowPairs(cs, i - 1, |cs|)
  }

  lemma {:induction false} PairsBeforeMembers(cs: seq<Cell>, i: nat)
    requires i <= |cs|
    ensures forall p :: p in PairsBefore(cs, i) <==> exists a, b :: 0 <= a < i && a < b < |cs| && p == (cs[a], cs[b])
  {
    if i > 0 {
      PairsBeforeMembers(cs, i - 1);
      var p := PairsBefore(cs, i - 1);
      var q := RowPairs(cs, i - 1, |cs|);
      var s := p + q;
      forall x | x in s ensures exists a, b :: 0 <= a < i && a < b < |cs| && x == (cs[a], cs[b]) {
        if x in q {
          var k :| 0 <= k < |q| && q[k] == x;
          assert x == (cs[i - 1], cs[i + k]);
        }
      }
      forall a, b | 0 <= a < i && a < b < |cs| ensures (cs[a], cs[b]) in s {
        if a == i - 1 {
          assert q[b - i] == (cs[a], cs[b]);
        }
      }
    }
  }

  lemma {:induction false} PairsBeforeCount(cs: seq<Cell>, i: nat)
    requires i <= |cs|
    ensures 2 * |PairsBefore(cs, i)| == 2 * i * |cs| - i * (i + 1)
  {
    if i > 0 {
      PairsBeforeCount(cs, i - 1);
      var n := |cs|;
      assert |PairsBefore(cs, i)| == |PairsBefore(cs, i - 1)| + (n - i);
      CountStep(n, i, |PairsBefore(cs, i - 1)|);
    }
  }

  lemma CountStep(n: int, i: int, l: int)
    requires 2 * l == 2 * (i - 1) * n - (i - 1) * i
    ensures 2 * (l + (n - i)) == 2 * i * n - i * (i + 1)
  {
    assert (i - 1) * n == i * n - n;
    assert (i - 1) * i == i * i - i;
    assert i * (i + 1) == i * i + i;
  }

  lemma AllRowsCount(n: int)
    ensures 2 * (n - 1) * n - (n - 1) * (n - 1 + 1) == n * (n - 1)
  {
  }

  /** Every pair pushed before `i` starts with an element before `i`. */
  lemma {:induction false} PairsBeforeFirst(cs: seq<Cell>, i: nat, x: int)
    requires i <= |cs| && 0 <= x < |PairsBefore(cs, i)|
    ensures exists a :: 0 <= a < i && PairsBefore(cs, i)[x].0 == cs[a]
  {
    var p := PairsBefore(cs, i - 1);
    var q := RowPairs(cs, i - 1, |cs|);
    assert PairsBefore(cs, i) == p + q;
    if x < |p| {
      PairsBeforeFirst(cs, i - 1, x);
      var a :| 0 <= a < i - 1 && p[x].0 == cs[a];
      assert PairsBefore(cs, i)[x] == p[x];
    } else {
      var k := x - |p|;
      assert PairsBefore(cs, i)[x] == q[k];
      assert q[k].0 == cs[i - 1];
    }
  }

  lemma PairsDistinctAt(cs: seq<Cell>, i: nat, x: int, y: int)
    requires 0 < i <= |cs| && Distinct(cs) && Distinct(PairsBefore(cs, i - 1))
    requires 0 <= x < y < |PairsBefore(cs, i)|
    ensures PairsBefore(cs, i)[x] != PairsBefore(cs, i)[y]
  {
    var p := PairsBefore(cs, i - 1);
    var q := RowPairs(cs, i - 1, |cs|);
    var s := p + q;
    assert PairsBefore(cs, i) == s;
    if y < |p| {
      assert s[x] == p[x] && s[y] == p[y];
    } else if x < |p| {
      assert s[x] == p[x];
      PairsBeforeFirst(cs, i - 1, x);
      assert s[y] == q[y - |p|] && q[y - |p|].0 == cs[i - 1];
    } else {
      assert s[x] == q[x - |p|] && s[y] == q[y - |p|];
    }
  }

  lemma {:induction false} PairsBeforeDistinct(cs: seq<Cell>, i: nat)
    requires i <= |cs| && Distinct(cs)
    ensures Distinct(PairsBefore(cs, i))
  {
    if i > 0 {
      PairsBeforeDistinct(cs, i - 1);
      forall x, y | 0 <= x < y < |PairsBefore(cs, i)| ensures PairsBefore(cs, i)[x] != PairsBefore(cs, i)[y] {
        PairsDistinctAt(cs, i, x, y);
      }
    }
  }

  /** `getPairs`: every unordered pair of positions exactly once. */
  method GetPairs(cs: seq<Cell>) returns (pairs: seq<(Cell, Cell)>)
    ensures forall p :: p in pairs <==> exists a, b :: 0 <= a < b < |cs| && p == (cs[a], cs[b])
    ensures 2 * |pairs| == |cs| * (|cs| - 1)
    ensures Distinct(cs) ==> Distinct(pairs)
  {
    pairs := [];
    var i := 0;
    while i < |cs| - 1
      invariant i <= |cs|
      invariant |cs| > 0 ==> i <= |cs| - 1
      invariant pairs == PairsBefore(cs, i)
    {
      for j := i + 1 to |cs|
        invariant pairs == PairsBefore(cs, i) + RowPairs(cs, i, j)
      {
        pairs := pairs + [(cs[i], cs[j])];
      }
      i := i + 1;
    }
    PairsBeforeMembers(cs, i);
    PairsBeforeCount(cs, i);
    if Distinct(cs) {
      PairsBeforeDistinct(cs, i);
    }
    if |cs| > 0 {
      assert i == |cs| - 1;
      AllRowsCount(|cs|);
    }
  }

  // ---------------------------------------------------------------------
  // Antinodes
  // ---------------------------------------------------------------------

  /** `getCoordinatesOfAntinodes`, with its division by -1. The first point
      is the reflection of `a` through `b`, the second that of `b` through
      `a`. */
  function AntinodesOf(a: Cell, b: Cell): (r: (Cell, Cell))
    ensures r.0.0 - b.0 == b.0 - a.0 && r.0.1 - b.1 == b.1 - a.1
    ensures r.1.0 - a.0 == a.0 - b.0 && r.1.1 - a.1 == a.1 - b.1
  {
    (((a.0 - 2 * b.0) / -1, (a.1 - 2 * b.1) / -1), ((b.0 - 2 * a.0) / -1, (b.1 - 2 * a.1) / -1))
  }

  /** `a + k * d`, stepwise. */
  function Walk(a: Cell, d: Cell, k: nat): Cell {
    if k == 0 then a else var p := Walk(a, d, k - 1); (p.0 + d.0, p.1 + d.1)
  }

  lemma {:induction false} WalkClosed(a: Cell, d: Cell, k: nat)
    ensures Walk(a, d, k) == (a.0 + k * d.0, a.1 + k * d.1)
  {
    if k > 0 {
      WalkClosed(a, d, k - 1);
    }
  }

  /** The walk from `a` stays in bounds for its first `k + 1` points. */
  ghost predicate WalkInBound(g: Grid, a: Cell, d: Cell, k: nat) {
    forall k' :: 0 <= k' <= k ==> InBound(g, Walk(a, d, k'))
  }

  /** The points one of the `while` loops of part 2 adds: the walk from `a`
      by `d` until it first leaves the map. */
  ghost function RaySet(g: Grid, a: Cell, d: Cell): set<Cell> {
    set p | p in Box(|g|, Width(g)) && exists k: nat :: WalkInBound(g, a, d, k) && p == Walk(a, d, k)
  }

  /** A measure that shrinks with every step of a non-zero walk on the map. */
  function RayMeasure(g: Grid, p: Cell, d: Cell): nat {
    if !InBound(g, p) then 0
    else if d.0 > 0 then |g| - p.0
    else if d.0 < 0 then p.0 + 1
    else if d.1 > 0 then Width(g) - p.1
    else p.1 + 1
  }

  /** The first `n` points of the walk. */
  ghost function WalkSet(a: Cell, d: Cell, n: nat): set<Cell> {
    set k | 0 <= k < n :: Walk(a, d, k)
  }

  /** When the walk leaves after `n` points, the ray is those `n` points. */
  lemma RayAtExit(g: Grid, a: Cell, d: Cell, n: nat)
    requires forall k :: 0 <= k < n ==> InBound(g, Walk(a, d, k))
    requires !InBound(g, Walk(a, d, n))
    ensures RaySet(g, a, d) == WalkSet(a, d, n)
  {
    BoxCard(|g|, Width(g));
    forall p | p in RaySet(g, a, d) ensures p in WalkSet(a, d, n) {
      var k: nat :| WalkInBound(g, a, d, k) && p == Walk(a, d, k);
      assert n <= k ==> InBound(g, Walk(a, d, n));
    }
    forall k | 0 <= k < n ensures Walk(a, d, k) in RaySet(g, a, d) {
      assert WalkInBound(g, a, d, k);
    }
  }

  /** One `while` loop of part 2: walk from `start` by `d`, collecting the
      points, until the map is left. */
  method Ray(g: Grid, start: Cell, d: Cell) returns (pts: set<Cell>)
    requires d != (0, 0)
    ensures pts == RaySet(g, start, d)
  {
    var p := start;
    ghost var k: nat := 0;
    pts := {};
    while InBound(g, p)
      invariant p == Walk(start, d, k)
      invariant forall k' :: 0 <= k' < k ==> InBound(g, Walk(start, d, k'))
      invariant pts == WalkSet(start, d, k)
      decreases RayMeasure(g, p, d)
    {
      assert WalkSet(start, d, k + 1) == pts + {p};
      pts := pts + {p};
      p := (p.0 + d.0, p.1 + d.1);
      k := k + 1;
    }
    RayAtExit(g, start, d, k);
  }

  /** A box is convex: a walk that starts and ends on the map stays on it. */
  lemma RayConvex(g: Grid, a: Cell, d: Cell, k: nat)
    requires InBound(g, a) && InBound(g, Walk(a, d, k))
    ensures WalkInBound(g, a, d, k)
  {
    forall k' | 0 <= k' <= k ensures InBound(g, Walk(a, d, k')) {
      WalkClosed(a, d, k);
      WalkClosed(a, d, k');
      Between(a.0, d.0, k', k);
      Between(a.1, d.1, k', k);
    }
  }

  lemma Between(x: int, d: int, k': nat, k: nat)
    requires k' <= k
    ensures d >= 0 ==> x <= x + k' * d <= x + k * d
    ensures d < 0 ==> x + k * d <= x + k' * d <= x
  {
    assert k * d - k' * d == (k - k') * d;
  }

  // ---------------------------------------------------------------------
  // The parts
  // ---------------------------------------------------------------------

  datatype Part = One | Two

  function Diff(a: Cell, b: Cell): Cell {
    (a.0 - b.0, a.1 - b.1)
  }

  /** What a pair contributes on the side of `a`: the reflection of `b`
      through `a` (part 1), or the ray from `a` away from `b` (part 2). */
  ghost function Contribution(g: Grid, part: Part, a: Cell, b: Cell): set<Cell> {
    match part
    case One => var p := Walk(a, Diff(a, b), 1); if InBound(g, p) then {p} else {}
    case Two => RaySet(g, a, Diff(a, b))
  }

  /** Two different antennas of the same frequency. */
  ghost predicate SameFrequency(g: Grid, a: Cell, b: Cell) {
    InGrid(g, a.0, a.1) && InGrid(g, b.0, b.1) && a != b && g[a.0][a.1] == g[b.0][b.1] && g[a.0][a.1] != '.'
  }

  /** The answer's cells: everything some pair of same-frequency antennas
      contributes. */
  ghost function PartSet(g: Grid, part: Part): set<Cell> {
    set p | p in Box(|g|, Width(g)) && exists a, b :: SameFrequency(g, a, b) && p in Contribution(g, part, a, b)
  }

  /** What the loops of one list of antennas contribute. */
  ghost function ListSet(g: Grid, part: Part, cs: seq<Cell>): set<Cell> {
    set p | p in Box(|g|, Width(g)) &&
      exists i, j :: 0 <= i < |cs| && 0 <= j < |cs| && i != j && p in Contribution(g, part, cs[i], cs[j])
  }

  /** What a list of pairs contributes, both sides of each pair. */
  ghost function PairsSet(g: Grid, part: Part, pairs: seq<(Cell, Cell)>): set<Cell> {
    if pairs == [] then {}
    else
      var n := |pairs| - 1;
      PairsSet(g, part, pairs[..n]) + Contribution(g, part, pairs[n].0, pairs[n].1) + Contribution(g, part, pairs[n].1, pairs[n].0)
  }

  /** What the first entries of the antenna map contribute. */
  ghost function EntriesSet(g: Grid, part: Part, m: Entries<char, seq<Cell>>): set<Cell> {
    if m == [] then {} else EntriesSet(g, part, m[..|m| - 1]) + ListSet(g, part, m[|m| - 1].1)
  }

  lemma ContributionInBox(g: Grid, part: Part, a: Cell, b: Cell)
    ensures Contribution(g, part, a, b) <= Box(|g|, Width(g))
  {
    BoxCard(|g|, Width(g));
  }

  lemma {:induction false} PairsSetMeaning(g: Grid, part: Part, pairs: seq<(Cell, Cell)>, x: Cell)
    ensures x in PairsSet(g, part, pairs) <==>
      exists q :: q in pairs && (x in Contribution(g, part, q.0, q.1) || x in Contribution(g, part, q.1, q.0))
  {
    if pairs != [] {
      var n := |pairs| - 1;
      PairsSetMeaning(g, part, pairs[..n], x);
      assert pairs == pairs[..n] + [pairs[n]];
      if exists q :: q in pairs && (x in Contribution(g, part, q.0, q.1) || x in Contribution(g, part, q.1, q.0)) {
        var q :| q in pairs && (x in Contribution(g, part, q.0, q.1) || x in Contribution(g, part, q.1, q.0));
        if q != pairs[n] {
          assert q in pairs[..n];
        }
      }
    }
  }

  /** The pairs of a list contribute what the list does. */
  lemma PairsCoverList(g: Grid, part: Part, cs: seq<Cell>, pairs: seq<(Cell, Cell)>)
    requires forall p :: p in pairs <==> exists a, b :: 0 <= a < b < |cs| && p == (cs[a], cs[b])
    ensures PairsSet(g, part, pairs) == ListSet(g, part, cs)
  {
    forall x | x in PairsSet(g, part, pairs) ensures x in ListSet(g, part, cs) {
      PairsSetMeaning(g, part, pairs, x);
      var q :| q in pairs && (x in Contribution(g, part, q.0, q.1) || x in Contribution(g, part, q.1, q.0));
      var a, b :| 0 <= a < b < |cs| && q == (cs[a], cs[b]);
      ContributionInBox(g, part, q.0, q.1);
      ContributionInBox(g, part, q.1, q.0);
      if x in Contribution(g, part, cs[a], cs[b]) {
        assert 0 <= a < |cs| && 0 <= b < |cs| && a != b;
      } else {
        assert 0 <= b < |cs| && 0 <= a < |cs| && b != a;
      }
    }
    forall x | x in ListSet(g, part, cs) ensures x in PairsSet(g, part, pairs) {
      var i, j :| 0 <= i < |cs| && 0 <= j < |cs| && i != j && x in Contribution(g, part, cs[i], cs[j]);
      PairsSetMeaning(g, part, pairs, x);
      if i < j {
        assert (cs[i], cs[j]) in pairs;
      } else {
        assert (cs[j], cs[i]) in pairs;
      }
    }
  }

  /** The antenna map as `getAntennas` leaves it. */
  ghost predicate AntennaMap(g: Grid, m: Entries<char, seq<Cell>>) {
    KeysDistinct(m) &&
    forall ch :: Get(m, ch) == if ch == '.' || Antennas(g, ch) == [] then None else Some(Antennas(g, ch))
  }

  lemma EntriesSound(g: Grid, part: Part, m: Entries<char, seq<Cell>>, x: Cell)
    requires AntennaMap(g, m)
    requires x in EntriesSet(g, part, m)
    ensures x in PartSet(g, part)
  {
    var k := EntryOf(g, part, m, x);
    GetAt(m, k);
    var cs := m[k].1;
    assert cs == Antennas(g, m[k].0);
    var i, j :| 0 <= i < |cs| && 0 <= j < |cs| && i != j && x in Contribution(g, part, cs[i], cs[j]);
    assert cs[i] in cs && cs[j] in cs;
    if i < j {
      assert RowMajorBefore(cs[i].0, cs[i].1, cs[j].0, cs[j].1);
    } else {
      assert RowMajorBefore(cs[j].0, cs[j].1, cs[i].0, cs[i].1);
    }
    assert SameFrequency(g, cs[i], cs[j]);
  }

  lemma EntriesComplete(g: Grid, part: Part, m: Entries<char, seq<Cell>>, x: Cell)
    requires AntennaMap(g, m)
    requires x in PartSet(g, part)
    ensures x in EntriesSet(g, part, m)
  {
    var a, b :| SameFrequency(g, a, b) && x in Contribution(g, part, a, b);
    var ch := g[a.0][a.1];
    var cs := Antennas(g, ch);
    assert a in cs && b in cs;
    assert Get(m, ch).Some?;
    var k :| 0 <= k < |m| && m[k].0 == ch;
    GetAt(m, k);
    var i :| 0 <= i < |cs| && cs[i] == a;
    var j :| 0 <= j < |cs| && cs[j] == b;
    assert x in ListSet(g, part, cs);
    EntryIn(g, part, m, k, x);
  }

  /** The lists of the antenna map together contribute exactly the answer's
      cells. */
  lemma EntriesCoverAll(g: Grid, part: Part, m: Entries<char, seq<Cell>>)
    requires AntennaMap(g, m)
    ensures EntriesSet(g, part, m) == PartSet(g, part)
  {
    forall x | x in EntriesSet(g, part, m) ensures x in PartSet(g, part) {
      EntriesSound(g, part, m, x);
    }
    forall x | x in PartSet(g, part) ensures x in EntriesSet(g, part, m) {
      EntriesComplete(g, part, m, x);
    }
  }

  lemma {:induction false} EntryOf(g: Grid, part: Part, m: Entries<char, seq<Cell>>, x: Cell) returns (k: int)
    requires x in EntriesSet(g, part, m)
    ensures 0 <= k < |m| && x in ListSet(g, part, m[k].1)
  {
    var n := |m| - 1;
    if x in ListSet(g, part, m[n].1) {
      k := n;
    } else {
      k := EntryOf(g, part, m[..n], x);
    }
  }

  lemma {:induction false} EntryIn(g: Grid, part: Part, m: Entries<char, seq<Cell>>, k: int, x: Cell)
    requires 0 <= k < |m| && x in ListSet(g, part, m[k].1)
    ensures x in EntriesSet(g, part, m)
  {
    var n := |m| - 1;
    if k < n {
      EntryIn(g, part, m[..n], k, x);
    }
  }

  /** The inner loop of `solvePart1` over the pairs of one frequency. */
  method CollectOne(g: Grid, pairs: seq<(Cell, Cell)>) returns (found: set<Cell>)
    ensures found == PairsSet(g, One, pairs)
  {
    found := {};
    for q := 0 to |pairs|
      invariant found == PairsSet(g, One, pairs[..q])
    {
      assert pairs[..q + 1][..q] == pairs[..q];
      var (a, b) := pairs[q];
      var (first, second) := AntinodesOf(a, b);
      assert first == Walk(b, Diff(b, a), 1) && second == Walk(a, Diff(a, b), 1);
      if InBound(g, first) {
        found := found + {first};
      }
      if InBound(g, second) {
        found := found + {second};
      }
    }
    assert pairs[..|pairs|] == pairs;
  }

  /** The body of the pair loop of `solvePart2`: `up` is chosen by comparing
      the row of `a` with its own column, and the two walks start at `down`
      and at `up`, each stepping away from the other. Whichever antenna is
      `up`, the result is the two rays of the pair. */
  method PairRays(g: Grid, a: Cell, b: Cell) returns (found: set<Cell>)
    requires a != b
    ensures found == Contribution(g, Two, a, b) + Contribution(g, Two, b, a)
  {
    var up := if a.0 < a.1 then a else b;
    var down := if a.0 < a.1 then b else a;
    var diff := (up.0 - down.0, up.1 - down.1);
    assert (-diff.0, -diff.1) == Diff(down, up) && diff == Diff(up, down);
    var fromDown := Ray(g, down, (-diff.0, -diff.1));
    var fromUp := Ray(g, up, diff);
    found := fromDown + fromUp;
  }

  /** The inner loop of `solvePart2` over the pairs of one frequency. */
  method CollectTwo(g: Grid, pairs: seq<(Cell, Cell)>) returns (found: set<Cell>)
    requires forall k :: 0 <= k < |pairs| ==> pairs[k].0 != pairs[k].1
    ensures found == PairsSet(g, Two, pairs)
  {
    found := {};
    for q := 0 to |pairs|
      invariant found == PairsSet(g, Two, pairs[..q])
    {
      assert pairs[..q + 1][..q] == pairs[..q];
      var more := PairRays(g, pairs[q].0, pairs[q].1);
      found := found + more;
    }
    assert pairs[..|pairs|] == pairs;
  }

  /** The lists of the antenna map are free of repeats. */
  lemma EntryDistinct(g: Grid, m: Entries<char, seq<Cell>>, k: int)
    requires AntennaMap(g, m) && 0 <= k < |m|
    ensures Distinct(m[k].1)
  {
    GetAt(m, k);
    var cs := m[k].1;
    assert cs == Antennas(g, m[k].0);
    forall x, y | 0 <= x < y < |cs| ensures cs[x] != cs[y] {
      assert RowMajorBefore(cs[x].0, cs[x].1, cs[y].0, cs[y].1);
    }
  }

  lemma EntriesSetSnoc(g: Grid, part: Part, m: Entries<char, seq<Cell>>, k: int)
    requires 0 <= k < |m|
    ensures EntriesSet(g, part, m[..k + 1]) == EntriesSet(g, part, m[..k]) + ListSet(g, part, m[k].1)
  {
    assert m[..k + 1][..k] == m[..k];
  }

  lemma EntriesSetAll(g: Grid, part: Part, m: Entries<char, seq<Cell>>)
    ensures EntriesSet(g, part, m[..|m|]) == EntriesSet(g, part, m)
  {
    assert m[..|m|] == m;
  }

  /** The body of the outer loop: what the pairs of frequency `k` add. */
  method Frequency(g: Grid, part: Part, antennas: Entries<char, seq<Cell>>, k: int) returns (more: set<Cell>)
    requires AntennaMap(g, antennas) && 0 <= k < |antennas|
    ensures more == ListSet(g, part, antennas[k].1)
  {
    var pairs := GetPairs(antennas[k].1);
    if part == One {
      more := CollectOne(g, pairs);
    } else {
      EntryDistinct(g, antennas, k);
      assert forall q :: 0 <= q < |pairs| ==> pairs[q] in pairs;
      more := CollectTwo(g, pairs);
    }
    PairsCoverList(g, part, antennas[k].1, pairs);
  }

  /** `solvePart1` (and, with `part` Two, `solvePart2`): the outer loop over
      the frequencies. */
  method Solve(g: Grid, part: Part) returns (count: nat)
    ensures count == |PartSet(g, part)|
  {
    var antennas := GetAntennas(g);
    var found: set<Cell> := {};
    for k := 0 to |antennas|
      invariant found == EntriesSet(g, part, antennas[..k])
    {
      EntriesSetSnoc(g, part, antennas, k);
      var more := Frequency(g, part, antennas, k);
      found := found + more;
    }
    EntriesSetAll(g, part, antennas);
    EntriesCoverAll(g, part, antennas);
    count := |found|;
  }

  /** `solvePart1`. */
  method SolvePart1(g: Grid) returns (count: nat)
    ensures count == |PartSet(g, One)|
  {
    count := Solve(g, One);
  }

  /** `solvePart2`. */
  method SolvePart2(g: Grid) returns (count: nat)
    ensures count == |PartSet(g, Two)|
  {
    count := Solve(g, Two);
  }

  /** On a rectangular map, part 2 counts every cell of every ray in full,
      the antennas of each pair included, and every part-1 cell. */
  lemma PartOneInTwo(g: Grid)
    requires Rectangular(g)
    ensures PartSet(g, One) <= PartSet(g, Two)
  {
    BoxCard(|g|, Width(g));
    forall x | x in PartSet(g, One) ensures x in PartSet(g, Two) {
      var a', b' :| SameFrequency(g, a', b') && x in Contribution(g, One, a', b');
      var d := Diff(a', b');
      assert Walk(a', d, 0) == a' && InBound(g, a');
      assert Walk(a', d, 1) == x && InBound(g, x);
      assert WalkInBound(g, a', d, 1);
      assert x in Contribution(g, Two, a', b');
    }
  }

  lemma PartTwoMeaning(g: Grid, a: Cell, b: Cell, k: nat)
    requires Rectangular(g) && SameFrequency(g, a, b)
    requires InBound(g, Walk(a, Diff(a, b), k))
    ensures Walk(a, Diff(a, b), k) in PartSet(g, Two)
    ensures PartSet(g, One) <= PartSet(g, Two)
  {
    BoxCard(|g|, Width(g));
    RayConvex(g, a, Diff(a, b), k);
    assert Walk(a, Diff(a, b), k) in Contribution(g, Two, a, b);
    PartOneInTwo(g);
  }

}

=== FILE: day09_disk_compaction.dfy ===
/** Day 9 of 2024, "Disk Fragmenter": a dense disk map of digits is expanded
    into blocks (files with ids and free space), the blocks are compacted
    (part 1 block by block, part 2 whole file by whole file), and the answer
    is the checksum of the compacted disk. */
module DiskCompaction {
  import opened Options
  import opened Text

  // ---------------------------------------------------------------------
  // Blocks
  // ---------------------------------------------------------------------

  /** One block of the expanded disk. The source stores a block as the
      string "." or the decimal id of its file; `BlockText` is that
      encoding. */
  datatype Block = Free | File(id: nat)

  /** The string the source stores for a block. Free space is exactly ".",
      and `Number` reads a file block back as its id, so comparing and
      reading the strings is comparing and reading the blocks. */
  function BlockText(b: Block): (r: string)
    ensures r == "." <==> b.Free?
    ensures b.File? ==> ParseNumber(r) == Some(b.id as int)
  {
    match b
    case Free => "."
    case File(id) => ValueOfShowNat(id); ShowNat(id)
  }

  lemma BlockTextInjective(a: Block, b: Block)
    requires BlockText(a) == BlockText(b)
    ensures a == b
  {
    if a.File? && b.File? {
      ShowNatInjective(a.id, b.id);
    }
  }

  /** `parseInput`: the input without its final character (the newline). */
  function ParseInput(input: string): (disk: string)
    ensures |disk| == if input == [] then 0 else |input| - 1
    ensures disk <= input
  {
    if input == [] then [] else input[..|input| - 1]
  }

  // ---------------------------------------------------------------------
  // Expanding the disk map
  // ---------------------------------------------------------------------

  /** How many blocks one character of the disk map stands for. `Number` of
      any other character is 0 or NaN, and the emitting loop runs zero times
      for both. */
  function DiskDigit(c: char): nat {
    if IsDigitChar(c) then DigitOf(c) else 0
  }

  function Repeat(b: Block, n: nat): (r: seq<Block>)
    ensures |r| == n
    ensures forall k :: 0 <= k < n ==> r[k] == b
  {
    if n == 0 then [] else Repeat(b, n - 1) + [b]
  }

  /** What character `i` of the disk map expands to: the even characters are
      the files, numbered 0, 1, 2, ..., and the odd ones free space. */
  function Segment(i: nat, c: char): seq<Block> {
    Repeat(if i % 2 == 0 then File(i / 2) else Free, DiskDigit(c))
  }

  /** The expanded disk, segment after segment. */
  function Layout(disk: string): seq<Block>
    decreases |disk|
  {
    if disk == [] then [] else Layout(disk[..|disk| - 1]) + Segment(|disk| - 1, disk[|disk| - 1])
  }

  function DigitSum(disk: string): nat
    decreases |disk|
  {
    if disk == [] then 0 else DigitSum(disk[..|disk| - 1]) + DiskDigit(disk[|disk| - 1])
  }

  /** `getBlocks`: the id counter goes up after every odd character. */
  method GetBlocks(disk: string) returns (blocks: seq<Block>)
    ensures blocks == Layout(disk)
  {
    blocks := [];
    var lastBlockId: nat := 0;
    for i := 0 to |disk|
      invariant blocks == Layout(disk[..i])
      invariant lastBlockId == i / 2
    {
      assert disk[..i + 1][..i] == disk[..i];
      var current := DiskDigit(disk[i]);
      var block := if i % 2 == 0 then File(lastBlockId) else Free;
      ghost var before := blocks;
      for j := 0 to current
        invariant blocks == before + Repeat(block, j)
      {
        blocks := blocks + [block];
      }
      lastBlockId := lastBlockId + if i % 2 == 1 then 1 else 0;
    }
    assert disk[..|disk|] == disk;
  }

  /** The disk has as many blocks as the digits of its map add up to. */
  lemma {:induction false} LayoutLength(disk: string)
    ensures |Layout(disk)| == DigitSum(disk)
    decreases |disk|
  {
    if disk != [] {
      LayoutLength(disk[..|disk| - 1]);
    }
  }

  lemma {:induction false} RepeatCount(b: Block, n: nat, x: Block)
    ensures multiset(Repeat(b, n))[x] == if x == b then n else 0
  {
    if n > 0 {
      RepeatCount(b, n - 1, x);
    }
  }

  lemma CountAppend<T>(a: seq<T>, b: seq<T>, x: T)
    ensures multiset(a + b)[x] == multiset(a)[x] + multiset(b)[x]
  {
  }

  /** Character `n` of the map is file `k`'s exactly when `n` is `2k`. */
  lemma FileIndex(n: nat, k: nat)
    ensures (if n % 2 == 0 then File(n / 2) else Free) == File(k) <==> n == 2 * k
  {
  }

  /** File `k` has exactly as many blocks as character `2k` of the map says,
      and files past the end of the map have none. */
  lemma {:induction false} LayoutFileCount(disk: string, k: nat)
    ensures multiset(Layout(disk))[File(k)] == if 2 * k < |disk| then DiskDigit(disk[2 * k]) else 0
    decreases |disk|
  {
    if disk != [] {
      var n := |disk| - 1;
      var prefix := disk[..n];
      var b := if n % 2 == 0 then File(n / 2) else Free;
      LayoutFileCount(prefix, k);
      RepeatCount(b, DiskDigit(disk[n]), File(k));
      assert Layout(disk) == Layout(prefix) + Repeat(b, DiskDigit(disk[n]));
      CountAppend(Layout(prefix), Repeat(b, DiskDigit(disk[n])), File(k));
      FileIndex(n, k);
      var before, added := multiset(Layout(prefix))[File(k)], multiset(Repeat(b, DiskDigit(disk[n])))[File(k)];
      if 2 * k < n {
        assert prefix[2 * k] == disk[2 * k];
        assert before == DiskDigit(disk[2 * k]) && added == 0;
      } else if 2 * k == n {
        assert before == 0 && added == DiskDigit(disk[2 * k]);
      } else {
        assert before == 0 && added == 0;
      }
    }
  }

  // ---------------------------------------------------------------------
  // Checksum
  // ---------------------------------------------------------------------

  /** What the block at position `p` adds to the checksum. */
  function Weight(b: Block, p: nat): nat {
    if b.File? then b.id * p else 0
  }

  /** The sum of position times id over the file blocks. */
  function Checksum(blocks: seq<Block>): nat
    decreases |blocks|
  {
    if blocks == [] then 0
    else Checksum(blocks[..|blocks| - 1]) + Weight(blocks[|blocks| - 1], |blocks| - 1)
  }

  /** `getCheckSum`. */
  method GetCheckSum(blocks: seq<Block>) returns (result: nat)
    ensures result == Checksum(blocks)
  {
    result := 0;
    for i := 0 to |blocks|
      invariant result == Checksum(blocks[..i])
    {
      assert blocks[..i + 1][..i] == blocks[..i];
      if blocks[i] != Free {
        result := result + blocks[i].id * i;
      }
    }
    assert blocks[..|blocks|] == blocks;
  }

  /** Replacing one block changes the checksum by exactly the difference of
      the two blocks' weights at that position. */
  lemma {:induction false} ChecksumUpdate(blocks: seq<Block>, p: nat, x: Block)
    requires p < |blocks|
    ensures Checksum(blocks[p := x]) == Checksum(blocks) - Weight(blocks[p], p) + Weight(x, p)
    decreases |blocks|
  {
    var n := |blocks| - 1;
    if p == n {
      assert blocks[p := x][..n] == blocks[..n];
    } else {
      assert blocks[p := x][..n] == blocks[..n][p := x];
      ChecksumUpdate(blocks[..n], p, x);
    }
  }

  lemma WeightMonotone(x: Block, a: nat, b: nat)
    requires a <= b
    ensures Weight(x, a) <= Weight(x, b)
  {
    if x.File? {
      assert x.id * a <= x.id * b by {
        assert x.id * b - x.id * a == x.id * (b - a);
      }
    }
  }

  // ---------------------------------------------------------------------
  // Moving blocks
  // ---------------------------------------------------------------------

  /** No free block comes before a file block. */
  predicate Compact(blocks: seq<Block>) {
    forall i, j :: 0 <= i < j < |blocks| && blocks[i] == Free ==> blocks[j] == Free
  }

  /** Every file block of `now` sits at or to the left of a block of the
      same file in `orig`: blocks only ever moved left. */
  ghost predicate MovedLeft(orig: seq<Block>, now: seq<Block>) {
    forall i :: 0 <= i < |now| && now[i].File? ==> exists j :: i <= j < |orig| && orig[j] == now[i]
  }

  /** `src` names, for every file block of `now`, a position at or to the
      right of it where `orig` holds the same block. */
  ghost predicate Sources(orig: seq<Block>, now: seq<Block>, src: seq<int>) {
    |src| == |now| && forall i :: 0 <= i < |now| && now[i].File? ==> i <= src[i] < |orig| && orig[src[i]] == now[i]
  }

  lemma SourcesMovedLeft(orig: seq<Block>, now: seq<Block>, src: seq<int>)
    requires Sources(orig, now, src)
    ensures MovedLeft(orig, now)
  {
    forall i | 0 <= i < |now| && now[i].File?
      ensures exists j :: i <= j < |orig| && orig[j] == now[i]
    {
      assert orig[src[i]] == now[i];
    }
  }

  /** The identity names every block's own position. */
  lemma SourcesRefl(blocks: seq<Block>)
    ensures Sources(blocks, blocks, seq(|blocks|, i => i))
  {
  }

  /** Block `b` moved to position `a`, with free space left at `b`. */
  function Move(blocks: seq<Block>, a: nat, b: nat): (r: seq<Block>)
    requires a < |blocks| && b < |blocks| && a != b
    ensures |r| == |blocks| && r[a] == blocks[b] && r[b] == Free
    ensures forall i :: 0 <= i < |blocks| && i != a && i != b ==> r[i] == blocks[i]
  {
    blocks[a := blocks[b]][b := Free]
  }

  /** Moving a block into free space permutes the blocks. */
  lemma MovePermutes(blocks: seq<Block>, a: nat, b: nat)
    requires a < |blocks| && b < |blocks| && a != b && blocks[a] == Free
    ensures multiset(Move(blocks, a, b)) == multiset(blocks)
  {
  }

  /** Moving a block left keeps every file block at or left of its source. */
  lemma MoveSources(orig: seq<Block>, blocks: seq<Block>, src: seq<int>, a: nat, b: nat)
    requires a < b < |blocks| && Sources(orig, blocks, src)
    ensures Sources(orig, Move(blocks, a, b), src[a := src[b]])
  {
  }

  /** Moving a block left into free space does not grow the checksum. */
  lemma MoveChecksum(blocks: seq<Block>, a: nat, b: nat)
    requires a < b < |blocks| && blocks[a] == Free
    ensures Checksum(Move(blocks, a, b)) <= Checksum(blocks)
  {
    var x := blocks[b];
    ChecksumUpdate(blocks, a, x);
    ChecksumUpdate(blocks[a := x], b, Free);
    WeightMonotone(x, a, b);
  }

  // ---------------------------------------------------------------------
  // Part 1: block by block
  // ---------------------------------------------------------------------

  /** Where the first inner loop of `normalizeBlocksByIds` stops: the
      highest position of `left .. right` holding a file block, or `left`. */
  function FreeDown(r: seq<Block>, left: nat, right: nat): (k: nat)
    requires left <= right < |r|
    ensures left <= k <= right
    ensures k == left || r[k] != Free
    ensures forall t :: k < t <= right ==> r[t] == Free
    decreases right - left
  {
    if right > left && r[right] == Free then FreeDown(r, left, right - 1) else right
  }

  /** Where the second inner loop stops: the lowest free position of
      `left .. right`, or `right`. */
  function FilesUp(r: seq<Block>, left: nat, right: nat): (k: nat)
    requires left <= right < |r|
    ensures left <= k <= right
    ensures k == right || r[k] == Free
    ensures forall t :: left <= t < k ==> r[t].File?
    decreases right - left
  {
    if left < right && r[left] != Free then FilesUp(r, left + 1, right) else left
  }

  /** A round from these cursors starts with a move. */
  predicate IdMovable(r: seq<Block>, left: int, right: int) {
    0 <= left < right < |r| && r[left] == Free && r[right] != Free
  }

  /** The compaction `normalizeBlocksByIds` performs from the cursors `left`
      and `right` on. A round brings the right cursor down to a file block
      and the left cursor up to a free block, moves the one into the other
      when both are found, and goes on from there until the cursors meet. */
  function IdPass(r: seq<Block>, left: nat, right: int): seq<Block>
    requires left <= right + 1 <= |r|
    decreases right - left, if IdMovable(r, left, right) then 1 else 0
  {
    if left >= right then r
    else
      var right' := FreeDown(r, left, right);
      var left' := FilesUp(r, left, right');
      if r[left'] == Free && r[right'] != Free then IdPass(Move(r, left', right'), left', right')
      else IdPass(r, left', right')
  }

  /** The first inner loop of `normalizeBlocksByIds`: `right` moves down over
      free blocks, but not below `left`. */
  method SkipFreeDown(r: seq<Block>, left: nat, right: nat) returns (right': nat)
    requires left <= right < |r|
    ensures right' == FreeDown(r, left, right)
  {
    right' := right;
    while right' > left && r[right'] == Free
      invariant left <= right' <= right
      invariant FreeDown(r, left, right') == FreeDown(r, left, right)
    {
      right' := right' - 1;
    }
  }

  /** The second inner loop: `left` moves up over file blocks, but not past
      `right`. */
  method SkipFilesUp(r: seq<Block>, left: nat, right: nat) returns (left': nat)
    requires left <= right < |r|
    ensures left' == FilesUp(r, left, right)
  {
    left' := left;
    while left' < right && r[left'] != Free
      invariant left <= left' <= right
      invariant FilesUp(r, left', right) == FilesUp(r, left, right)
    {
      left' := left' + 1;
    }
  }

  /** What `normalizeBlocksByIds` keeps true between rounds: the pass from
      the cursors ends where the pass over `orig` does, everything left of
      `left` is a file block and everything right of `right` is free, and
      `r` is a permutation of `orig` whose file blocks come from at or right
      of their positions, with a checksum no higher. */
  ghost predicate IdsLoop(orig: seq<Block>, r: seq<Block>, src: seq<int>, left: int, right: int) {
    |r| == |orig| && 0 <= left <= right + 1 <= |r| &&
    IdPass(r, left, right) == IdPass(orig, 0, |orig| - 1) &&
    (forall k :: 0 <= k < left ==> r[k].File?) &&
    (forall k :: right < k < |r| ==> r[k] == Free) &&
    multiset(r) == multiset(orig) && Sources(orig, r, src) && Checksum(r) <= Checksum(orig)
  }

  /** One round of the outer loop of `normalizeBlocksByIds`. The cursors
      close in, or they stay and the round's move makes the next round
      start without one. */
  method IdRound(ghost orig: seq<Block>, r: seq<Block>, ghost src: seq<int>, left: nat, right: nat)
    returns (r': seq<Block>, ghost src': seq<int>, left': nat, right': nat)
    requires left < right && IdsLoop(orig, r, src, left, right)
    ensures IdsLoop(orig, r', src', left', right')
    ensures right' - left' < right - left ||
      (right' - left' == right - left && IdMovable(r, left, right) && !IdMovable(r', left', right'))
  {
    right' := SkipFreeDown(r, left, right);
    left' := SkipFilesUp(r, left, right');
    r', src' := r, src;
    if r[left'] == Free && r[right'] != Free {
      MoveKeeps(orig, orig, r, src, left', right');
      r', src' := Move(r, left', right'), src[left' := src[right']];
    }
  }

  /** `normalizeBlocksByIds`: the two cursors meet in the middle; each round
      moves the rightmost file block into the leftmost free block. The
      result is the pass from the outermost cursors, a compact permutation
      whose blocks only moved left. */
  method NormalizeByIds(blocks: seq<Block>) returns (r: seq<Block>)
    ensures r == IdPass(blocks, 0, |blocks| - 1)
    ensures |r| == |blocks| && multiset(r) == multiset(blocks)
    ensures Compact(r)
    ensures MovedLeft(blocks, r)
    ensures Checksum(r) <= Checksum(blocks)
  {
    r := blocks;
    ghost var src := seq(|blocks|, i => i);
    SourcesRefl(blocks);
    var left := 0;
    var right := |r| - 1;
    while left < right
      invariant IdsLoop(blocks, r, src, left, right)
      decreases right - left, if IdMovable(r, left, right) then 1 else 0
    {
      r, src, left, right := IdRound(blocks, r, src, left, right);
    }
    SourcesMovedLeft(blocks, r, src);
  }

  /** On the layout `0 . 1 2` the pass moves the last block, file 2, into
      the gap: the result is `0 2 1 .`, checksum 4, and not the sorted
      `0 1 2 .`, checksum 5. */
  lemma IdPassExample()
    ensures IdPass([File(0), Free, File(1), File(2)], 0, 3) == [File(0), File(2), File(1), Free]
    ensures Checksum([File(0), File(2), File(1), Free]) == 4
  {
    var b := [File(0), Free, File(1), File(2)];
    var b' := [File(0), File(2), File(1), Free];
    assert FreeDown(b, 0, 3) == 3;
    assert FilesUp(b, 1, 3) == 1 && FilesUp(b, 0, 3) == 1;
    assert Move(b, 1, 3) == b';
    assert FreeDown(b', 1, 2) == 2 && FilesUp(b', 2, 2) == 2 && FilesUp(b', 1, 2) == 2;
    assert IdPass(b', 2, 2) == b';
    assert Checksum(b'[..1]) == 0 by { assert b'[..1][..0] == []; }
    assert Checksum(b'[..2]) == 2 by { assert b'[..2][..1] == b'[..1]; }
    assert Checksum(b'[..3]) == 4 by { assert b'[..3][..2] == b'[..2]; }
    assert b'[..4][..3] == b'[..3] && b'[..4] == b';
  }

  /** `solvePart1`: the checksum after compacting a copy of the blocks with
      the block-by-block pass; never more than the checksum before. */
  method SolvePart1(initial: seq<Block>) returns (sum: nat)
    ensures sum == Checksum(IdPass(initial, 0, |initial| - 1))
    ensures exists r :: |r| == |initial| && multiset(r) == multiset(initial) && Compact(r) && sum == Checksum(r)
    ensures sum <= Checksum(initial)
  {
    var blocks := NormalizeByIds(initial);
    sum := GetCheckSum(blocks);
  }

  // ---------------------------------------------------------------------
  // Searching for free space
  // ---------------------------------------------------------------------

  /** Block `t` exists and is free. */
  predicate FreeAt(blocks: seq<Block>, t: int) {
    0 <= t < |blocks| && blocks[t] == Free
  }

  /** Blocks `s .. s + len - 1` exist and are free, and end by `end`. */
  predicate Window(blocks: seq<Block>, s: int, len: nat, end: int) {
    0 <= s && s + len <= end && forall t :: s <= t < s + len ==> FreeAt(blocks, t)
  }

  /** The length of the run of free blocks that ends just before `i`; a
      position past the end reads as `undefined`, which is not free. */
  function RunEnding(blocks: seq<Block>, i: int): (n: nat)
    ensures n <= if i < 0 then 0 else i
    decreases i
  {
    if i <= 0 then 0
    else if i - 1 < |blocks| && blocks[i - 1] == Free then RunEnding(blocks, i - 1) + 1
    else 0
  }

  /** A run of at least `len` free blocks ends just before `e` exactly when
      the `len` blocks before `e` are free. */
  lemma {:induction false} RunWindow(blocks: seq<Block>, e: int, len: nat)
    requires 0 <= e
    ensures RunEnding(blocks, e) >= len <==> Window(blocks, e - len, len, e)
    decreases len
  {
    if len > 0 && e > 0 {
      RunWindow(blocks, e - 1, len - 1);
      var s := e - len;
      if Window(blocks, s, len, e) {
        assert FreeAt(blocks, e - 1);
        assert Window(blocks, s, len - 1, e - 1);
      }
      if RunEnding(blocks, e) >= len {
        assert FreeAt(blocks, e - 1);
      }
    }
  }

  /** The loop of `findLeftmostEmptySpaceStart` from index `i`, with `count`
      the length of the free run before `i`: it returns the start of the run
      as soon as the run is `minLength` long, and -1 once `i` reaches `end`. */
  function ScanFrom(blocks: seq<Block>, minLength: nat, end: int, i: nat, count: nat): int
    decreases end - i
  {
    if i >= end then -1
    else
      var count' := if i < |blocks| && blocks[i] == Free then count + 1 else 0;
      if count' >= minLength then i - count' + 1
      else ScanFrom(blocks, minLength, end, i + 1, count')
  }

  /** Whatever the scan returns other than -1 is a free window of the
      requested length ending by `end`. */
  lemma {:induction false} ScanSound(blocks: seq<Block>, minLength: nat, end: int, i: nat, count: nat)
    requires count == RunEnding(blocks, i)
    ensures var s := ScanFrom(blocks, minLength, end, i, count); s != -1 ==> Window(blocks, s, minLength, end)
    decreases end - i
  {
    if i < end {
      var count' := if i < |blocks| && blocks[i] == Free then count + 1 else 0;
      assert count' == RunEnding(blocks, i + 1);
      if count' >= minLength {
        RunWindow(blocks, i + 1, count');
        var s := i - count' + 1;
        assert Window(blocks, s, count', i + 1);
        forall t | s <= t < s + minLength ensures FreeAt(blocks, t) {
          assert s <= t < s + count';
        }
      } else {
        ScanSound(blocks, minLength, end, i + 1, count');
      }
    }
  }

  /** From `i` on, with no window ending before `i`, the scan finds the
      leftmost window, and -1 exactly when there is none. */
  lemma {:induction false} ScanLeftmost(blocks: seq<Block>, minLength: nat, end: int, i: nat, count: nat)
    requires minLength >= 1
    requires count == RunEnding(blocks, i) && count < minLength
    requires forall s :: 0 <= s && s + minLength <= i ==> !Window(blocks, s, minLength, end)
    ensures var s := ScanFrom(blocks, minLength, end, i, count);
      (s == -1 <==> forall s' :: !Window(blocks, s', minLength, end)) &&
      (s != -1 ==> Window(blocks, s, minLength, end) && forall s' :: s' < s ==> !Window(blocks, s', minLength, end))
    decreases end - i
  {
    var s := ScanFrom(blocks, minLength, end, i, count);
    if i >= end {
      forall s' ensures !Window(blocks, s', minLength, end) {
        assert Window(blocks, s', minLength, end) ==> s' + minLength <= i;
      }
    } else {
      var count' := if i < |blocks| && blocks[i] == Free then count + 1 else 0;
      assert count' == RunEnding(blocks, i + 1);
      RunWindow(blocks, i + 1, minLength);
      if count' >= minLength {
        ScanSound(blocks, minLength, end, i, count);
        assert count' == minLength;
        forall s' | s' < s ensures !Window(blocks, s', minLength, end) {
          assert Window(blocks, s', minLength, end) ==> s' + minLength <= i;
        }
      } else {
        assert !Window(blocks, i + 1 - minLength, minLength, i + 1);
        forall s' | 0 <= s' && s' + minLength <= i + 1 ensures !Window(blocks, s', minLength, end) {
        }
        ScanLeftmost(blocks, minLength, end, i + 1, count');
      }
    }
  }

  /** `findLeftmostEmptySpaceStart` as written: the count is seeded with
      block 0, but the loop and its length test start at index 1, so a
      one-block window at index 0 is reported only if block 1 is free too. */
  function FindLeftmostAsWritten(blocks: seq<Block>, minLength: nat, end: int): (s: int)
    ensures s != -1 ==> Window(blocks, s, minLength, end)
  {
    ScanSound(blocks, minLength, end, 1, RunEnding(blocks, 1));
    ScanFrom(blocks, minLength, end, 1, if |blocks| > 0 && blocks[0] == Free then 1 else 0)
  }

  /** The search with the length test applied from index 0 on: the start of
      the leftmost free window of `minLength` blocks ending by `end`, or -1
      when there is none. */
  function FindLeftmost(blocks: seq<Block>, minLength: nat, end: int): (s: int)
    ensures s != -1 ==> Window(blocks, s, minLength, end)
    ensures minLength >= 1 ==> (s == -1 <==> forall s' :: !Window(blocks, s', minLength, end))
    ensures minLength >= 1 && s != -1 ==> forall s' :: s' < s ==> !Window(blocks, s', minLength, end)
  {
    ScanSound(blocks, minLength, end, 0, 0);
    if minLength >= 1 then
      ScanLeftmost(blocks, minLength, end, 0, 0);
      ScanFrom(blocks, minLength, end, 0, 0)
    else
      ScanFrom(blocks, minLength, end, 0, 0)
  }

  /** The two searches agree except for a one-block window at index 0. */
  lemma SearchesAgree(blocks: seq<Block>, minLength: nat, end: int)
    requires end <= 0 || minLength >= 2 || (minLength == 1 && (blocks == [] || blocks[0] != Free))
    ensures FindLeftmostAsWritten(blocks, minLength, end) == FindLeftmost(blocks, minLength, end)
  {
  }

  /** On the disk map "0113" the expanded disk is free, file 1, free, free,
      free; the first search `normalizeBlocksByFiles` makes, for the
      one-block file 1 left of index 1, misses the free block at index 0. */
  lemma LeftmostMissesStart()
    ensures Layout("0113") == [Free, File(1), Free, Free, Free]
    ensures FindLeftmostAsWritten(Layout("0113"), 1, 1) == -1
    ensures Window(Layout("0113"), 0, 1, 1) && FindLeftmost(Layout("0113"), 1, 1) == 0
  {
    LayoutExample();
    var blocks := [Free, File(1), Free, Free, Free];
    assert FindLeftmostAsWritten(blocks, 1, 1) == -1;
    assert FindLeftmost(blocks, 1, 1) == 0;
  }

  lemma LayoutExample()
    ensures Layout("0113") == [Free, File(1), Free, Free, Free]
  {
    LayoutSnoc("", '0');
    assert "" + ['0'] == "0";
    LayoutSnoc("0", '1');
    assert "0" + ['1'] == "01";
    assert Repeat(Free, 1) == [Free];
    LayoutSnoc("01", '1');
    assert "01" + ['1'] == "011";
    assert Repeat(File(1), 1) == [File(1)];
    LayoutSnoc("011", '3');
    assert "011" + ['3'] == "0113";
    assert Repeat(Free, 3) == [Free, Free, Free];
  }

  lemma LayoutSnoc(disk: string, c: char)
    ensures Layout(disk + [c]) == Layout(disk) + Segment(|disk|, c)
  {
    assert (disk + [c])[..|disk|] == disk;
  }

  // ---------------------------------------------------------------------
  // Part 2: whole files
  // ---------------------------------------------------------------------

  /** Which free-space search the file pass uses: `findLeftmostEmptySpaceStart`
      as written, or the corrected search. */
  datatype Search = AsWritten | Corrected

  function Find(search: Search, blocks: seq<Block>, minLength: nat, end: int): (s: int)
    ensures s != -1 ==> Window(blocks, s, minLength, end)
  {
    match search
    case AsWritten => FindLeftmostAsWritten(blocks, minLength, end)
    case Corrected => FindLeftmost(blocks, minLength, end)
  }

  /** The cursor after moving down from `right` over blocks equal to `b`:
      the highest position at or below `right` that does not hold `b`, or
      -1. Both inner loops of `normalizeBlocksByFiles` are such a walk, the
      first over free blocks, the second over the run of one file. */
  function RunBelow(blocks: seq<Block>, b: Block, right: int): (l: int)
    requires -1 <= right < |blocks|
    ensures -1 <= l <= right
    ensures l >= 0 ==> blocks[l] != b
    ensures forall q :: l < q <= right ==> blocks[q] == b
    decreases right + 1
  {
    if right < 0 || blocks[right] != b then right else RunBelow(blocks, b, right - 1)
  }

  /** The blocks once the last `done` blocks of the run `right + 1 ..
      right + count` are copied, last block first, to the front of the
      free window starting at `start`, with free space left behind. */
  function PartlyPlaced(blocks: seq<Block>, start: int, right: int, count: nat, done: nat): (r: seq<Block>)
    requires Window(blocks, start, count, right + 1) && right + count < |blocks| && done <= count
    ensures |r| == |blocks|
  {
    seq(|blocks|, t requires 0 <= t < |blocks| =>
      if start <= t < start + done then blocks[right + count - (t - start)]
      else if right + count - done < t <= right + count then Free
      else blocks[t])
  }

  /** The whole run copied into the window. */
  function Placed(blocks: seq<Block>, start: int, right: int, count: nat): (r: seq<Block>)
    requires Window(blocks, start, count, right + 1) && right + count < |blocks|
    ensures |r| == |blocks|
  {
    PartlyPlaced(blocks, start, right, count, count)
  }

  /** One more block of the run copied. */
  lemma PlaceOne(blocks: seq<Block>, start: int, right: int, count: nat, done: nat)
    requires Window(blocks, start, count, right + 1) && right + count < |blocks| && done < count
    ensures start + done != right + count - done
    ensures Move(PartlyPlaced(blocks, start, right, count, done), start + done, right + count - done) ==
      PartlyPlaced(blocks, start, right, count, done + 1)
  {
  }

  /** Where the blocks of a placed run end up. */
  lemma PlacedMeaning(blocks: seq<Block>, start: int, right: int, count: nat)
    requires Window(blocks, start, count, right + 1) && right + count < |blocks|
    ensures var r := Placed(blocks, start, right, count);
      (forall t :: start <= t < start + count ==> r[t] == blocks[right + count - (t - start)]) &&
      (forall t :: right < t <= right + count ==> r[t] == Free) &&
      (forall t :: 0 <= t < |blocks| && !(start <= t < start + count) && !(right < t <= right + count) ==>
         r[t] == blocks[t])
  {
  }

  /** The file pass of `normalizeBlocksByFiles` from the cursor `right`
      down: skip the free blocks, measure the run of equal blocks below
      them, and when `search` finds a window for the run left of it, place
      the run there; then carry on below the run. */
  function FilePass(search: Search, blocks: seq<Block>, right: int): (r: seq<Block>)
    requires -1 <= right < |blocks|
    ensures |r| == |blocks|
    decreases right + 1
  {
    if right < 0 then blocks
    else
      var top := RunBelow(blocks, Free, right);
      var below := if top >= 0 then RunBelow(blocks, blocks[top], top) else top;
      var s := Find(search, blocks, top - below, below + 1);
      FilePass(search, if s != -1 then Placed(blocks, s, below, top - below) else blocks, below)
  }

  /** One step of the file pass, for the cursor positions and the window
      the round computes. */
  lemma FilePassStep(search: Search, blocks: seq<Block>, right: int, top: int, below: int, s: int)
    requires 0 <= right < |blocks| && top == RunBelow(blocks, Free, right)
    requires below == if top >= 0 then RunBelow(blocks, blocks[top], top) else top
    requires s == Find(search, blocks, top - below, below + 1)
    ensures FilePass(search, blocks, right) ==
      FilePass(search, if s != -1 then Placed(blocks, s, below, top - below) else blocks, below)
  {
  }

  /** The next window block the copy loop writes is still free. */
  lemma PartlyPlacedFree(blocks: seq<Block>, start: int, right: int, count: nat, j: nat)
    requires Window(blocks, start, count, right + 1) && right + count < |blocks| && j < count
    ensures PartlyPlaced(blocks, start, right, count, j)[start + j] == Free
  {
    assert FreeAt(blocks, start + j);
  }

  /** Moving a block left into free space keeps a permutation of `blocks`,
      the sources and the checksum bound. */
  lemma MoveKeeps(orig: seq<Block>, blocks: seq<Block>, r: seq<Block>, src: seq<int>, a: nat, b: nat)
    requires a < b < |r| && r[a] == Free
    requires multiset(r) == multiset(blocks) && Sources(orig, r, src) && Checksum(r) <= Checksum(blocks)
    ensures multiset(Move(r, a, b)) == multiset(blocks) && Sources(orig, Move(r, a, b), src[a := src[b]])
    ensures Checksum(Move(r, a, b)) <= Checksum(blocks)
  {
    MovePermutes(r, a, b);
    MoveSources(orig, r, src, a, b);
    MoveChecksum(r, a, b);
  }

  /** The copy loop of `normalizeBlocksByFiles`: the run `right + 1 ..
      right + count` moves, last block first, into the free window starting
      at `start`. The window receives the run, the run's blocks become
      free, and every other block stays as it was. */
  method MoveRun(ghost orig: seq<Block>, blocks: seq<Block>, ghost src: seq<int>, start: nat, right: int, count: nat)
    returns (r: seq<Block>, ghost src': seq<int>)
    requires Window(blocks, start, count, right + 1) && right + count < |blocks|
    requires Sources(orig, blocks, src)
    ensures |r| == |blocks| && multiset(r) == multiset(blocks)
    ensures forall t :: start <= t < start + count ==> r[t] == blocks[right + count - (t - start)]
    ensures forall t :: right < t <= right + count ==> r[t] == Free
    ensures forall t :: 0 <= t < |blocks| && !(start <= t < start + count) && !(right < t <= right + count) ==>
      r[t] == blocks[t]
    ensures r == Placed(blocks, start, right, count)
    ensures Sources(orig, r, src') && Checksum(r) <= Checksum(blocks)
  {
    r, src' := blocks, src;
    assert r == PartlyPlaced(blocks, start, right, count, 0);
    for j := 0 to count
      invariant r == PartlyPlaced(blocks, start, right, count, j)
      invariant multiset(r) == multiset(blocks)
      invariant Sources(orig, r, src') && Checksum(r) <= Checksum(blocks)
    {
      var a, b := start + j, right + count - j;
      PartlyPlacedFree(blocks, start, right, count, j);
      MoveKeeps(orig, blocks, r, src', a, b);
      PlaceOne(blocks, start, right, count, j);
      r, src' := Move(r, a, b), src'[a := src'[b]];
    }
    PlacedMeaning(blocks, start, right, count);
  }

  /** An inner loop of `normalizeBlocksByFiles`: move the cursor down
      while it points at a block equal to `b`. */
  method WalkDown(blocks: seq<Block>, b: Block, right: int) returns (l: int)
    requires -1 <= right < |blocks|
    ensures l == RunBelow(blocks, b, right)
  {
    l := right;
    while l >= 0 && blocks[l] == b
      invariant -1 <= l <= right
      invariant RunBelow(blocks, b, l) == RunBelow(blocks, b, right)
    {
      l := l - 1;
    }
  }

  /** What `normalizeBlocksByFiles` keeps true with the cursor at
      `right`: the pass from here ends where the pass over `orig` does,
      and `r` is a permutation of `orig` whose file blocks come from at or
      right of their positions, with a checksum no higher. */
  ghost predicate FilesLoop(search: Search, orig: seq<Block>, r: seq<Block>, src: seq<int>, right: int) {
    -1 <= right < |r| == |orig| &&
    FilePass(search, r, right) == FilePass(search, orig, |orig| - 1) &&
    multiset(r) == multiset(orig) && Sources(orig, r, src) && Checksum(r) <= Checksum(orig)
  }

  /** `normalizeBlocksByFiles`, with the free-space search as a parameter:
      from the right, take the next run of equal blocks and move it into
      the window the search finds before it. The result is the file pass
      from the last block, a permutation that moves blocks only left. */
  method NormalizeByFiles(search: Search, blocks: seq<Block>) returns (r: seq<Block>)
    ensures r == FilePass(search, blocks, |blocks| - 1)
    ensures |r| == |blocks| && multiset(r) == multiset(blocks)
    ensures MovedLeft(blocks, r)
    ensures Checksum(r) <= Checksum(blocks)
  {
    r := blocks;
    ghost var src := FilesLoopStart(search, blocks);
    var right := |r| - 1;
    while right >= 0
      invariant FilesLoop(search, blocks, r, src, right)
      decreases right
    {
      r, src, right := FileRound(search, blocks, r, src, right);
    }
    FilesLoopDone(search, blocks, r, src, right);
    SourcesMovedLeft(blocks, r, src);
  }

  /** Before the first round nothing has moved. */
  lemma FilesLoopStart(search: Search, blocks: seq<Block>) returns (src: seq<int>)
    ensures FilesLoop(search, blocks, blocks, src, |blocks| - 1)
  {
    src := seq(|blocks|, i => i);
    SourcesRefl(blocks);
  }

  /** Once the cursor is off the left end, the pass is over. */
  lemma FilesLoopDone(search: Search, orig: seq<Block>, r: seq<Block>, src: seq<int>, right: int)
    requires FilesLoop(search, orig, r, src, right) && right < 0
    ensures r == FilePass(search, orig, |orig| - 1)
    ensures |r| == |orig| && multiset(r) == multiset(orig)
    ensures Sources(orig, r, src) && Checksum(r) <= Checksum(orig)
  {
  }

  /** One round of the outer loop of `normalizeBlocksByFiles`: skip the
      free blocks, measure the run below them, and move it into the window
      the search finds, if any. */
  method FileRound(search: Search, ghost orig: seq<Block>, r: seq<Block>, ghost src: seq<int>, right: int)
    returns (r': seq<Block>, ghost src': seq<int>, right': int)
    requires 0 <= right && FilesLoop(search, orig, r, src, right)
    ensures right' < right && FilesLoop(search, orig, r', src', right')
  {
    var top := WalkDown(r, Free, right);
    var below := top;
    if top >= 0 {
      below := WalkDown(r, r[top], top);
    }
    var rightCount := top - below;
    var leftStart := Find(search, r, rightCount, below + 1);
    FilePassStep(search, r, right, top, below, leftStart);
    r', src', right' := r, src, below;
    if leftStart != -1 {
      r', src' := MoveRun(orig, r, src, leftStart, below, rightCount);
    }
  }

  /** On the disk map "131", file 1 fits in the free space after file 0,
      so the pass moves it there; nothing else moves. */
  lemma FilePassMoves()
    ensures Layout("131") == [File(0), Free, Free, Free, File(1)]
    ensures FilePass(AsWritten, Layout("131"), 4) == [File(0), File(1), Free, Free, Free]
  {
    LayoutMoves();
    var b := [File(0), Free, Free, Free, File(1)];
    var b' := [File(0), File(1), Free, Free, Free];
    assert RunBelow(b, File(1), 4) == 3;
    assert Find(AsWritten, b, 1, 4) == 1;
    FilePassStep(AsWritten, b, 4, 4, 3, 1);
    assert Placed(b, 1, 3, 1) == b';
    assert RunBelow(b', Free, 3) == 1 && RunBelow(b', File(1), 1) == 0;
    assert Find(AsWritten, b', 1, 1) == -1;
    FilePassStep(AsWritten, b', 3, 1, 0, -1);
    assert RunBelow(b', File(0), 0) == -1;
    assert Find(AsWritten, b', 1, 0) == -1;
    FilePassStep(AsWritten, b', 0, 0, -1, -1);
  }

  lemma LayoutMoves()
    ensures Layout("131") == [File(0), Free, Free, Free, File(1)]
  {
    LayoutSnoc("", '1');
    assert "" + ['1'] == "1";
    assert Repeat(File(0), 1) == [File(0)];
    LayoutSnoc("1", '3');
    assert "1" + ['3'] == "13";
    assert Repeat(Free, 3) == [Free, Free, Free];
    LayoutSnoc("13", '1');
    assert "13" + ['1'] == "131";
    assert Repeat(File(1), 1) == [File(1)];
  }

  /** Part two on the disk map "0113" as written: the search misses the
      free block at index 0, so file 1 stays at index 1 and the checksum
      is 1. */
  lemma PartTwoAsWritten()
    ensures Layout("0113") == [Free, File(1), Free, Free, Free]
    ensures FilePass(AsWritten, Layout("0113"), 4) == Layout("0113")
    ensures Checksum(FilePass(AsWritten, Layout("0113"), 4)) == 1
  {
    LayoutExample();
    var b := [Free, File(1), Free, Free, Free];
    assert RunBelow(b, Free, 4) == 1 && RunBelow(b, File(1), 1) == 0;
    assert Find(AsWritten, b, 1, 1) == -1;
    FilePassStep(AsWritten, b, 4, 1, 0, -1);
    assert RunBelow(b, Free, 0) == -1;
    assert Find(AsWritten, b, 0, 0) == -1;
    FilePassStep(AsWritten, b, 0, -1, -1, -1);
    ChecksumExample(b, 1);
  }

  /** Part two on the disk map "0113" with the corrected search: file 1
      moves to index 0 and the checksum is 0. */
  lemma PartTwoCorrected()
    ensures Layout("0113") == [Free, File(1), Free, Free, Free]
    ensures FilePass(Corrected, Layout("0113"), 4) == [File(1), Free, Free, Free, Free]
    ensures Checksum(FilePass(Corrected, Layout("0113"), 4)) == 0
  {
    LayoutExample();
    var b := [Free, File(1), Free, Free, Free];
    var c := [File(1), Free, Free, Free, Free];
    CorrectedMovesFile(b);
    CorrectedThenStops(c);
    ChecksumExample(c, 0);
  }

  lemma CorrectedMovesFile(b: seq<Block>)
    requires b == [Free, File(1), Free, Free, Free]
    ensures FilePass(Corrected, b, 4) == FilePass(Corrected, [File(1), Free, Free, Free, Free], 0)
  {
    assert RunBelow(b, Free, 4) == 1 && RunBelow(b, File(1), 1) == 0;
    assert FindLeftmost(b, 1, 1) == 0;
    FilePassStep(Corrected, b, 4, 1, 0, 0);
    assert Placed(b, 0, 0, 1) == [File(1), Free, Free, Free, Free];
  }

  lemma CorrectedThenStops(c: seq<Block>)
    requires c == [File(1), Free, Free, Free, Free]
    ensures FilePass(Corrected, c, 0) == c
  {
    assert RunBelow(c, Free, 0) == 0 && RunBelow(c, File(1), 0) == -1;
    assert FindLeftmost(c, 1, 0) == -1;
    FilePassStep(Corrected, c, 0, 0, -1, -1);
  }

  /** The checksum of five blocks holding file 1 at index `p` and free
      space elsewhere. */
  lemma ChecksumExample(b: seq<Block>, p: nat)
    requires |b| == 5 && p < 5 && b[p] == File(1) && forall t :: 0 <= t < 5 && t != p ==> b[t] == Free
    ensures Checksum(b) == p
  {
    assert Checksum(b[..1]) == 0 by { assert b[..1][..0] == []; }
    assert Checksum(b[..2]) == if p < 2 then p else 0 by { assert b[..2][..1] == b[..1]; }
    assert Checksum(b[..3]) == if p < 3 then p else 0 by { assert b[..3][..2] == b[..2]; }
    assert Checksum(b[..4]) == if p < 4 then p else 0 by { assert b[..4][..3] == b[..3]; }
    assert b[..5][..4] == b[..4] && b[..5] == b;
  }

  /** `solvePart2`: the checksum after moving whole files in a copy of the
      blocks with the search as written. */
  method SolvePart2(initial: seq<Block>) returns (sum: nat)
    ensures sum == Checksum(FilePass(AsWritten, initial, |initial| - 1))
    ensures exists r :: |r| == |initial| && multiset(r) == multiset(initial) && MovedLeft(initial, r) && sum == Checksum(r)
    ensures sum <= Checksum(initial)
  {
    var blocks := NormalizeByFiles(AsWritten, initial);
    sum := GetCheckSum(blocks);
  }

  /** Part two as evidently intended: the same pass with the corrected
      search. */
  method SolvePart2Corrected(initial: seq<Block>) returns (sum: nat)
    ensures sum == Checksum(FilePass(Corrected, initial, |initial| - 1))
    ensures exists r :: |r| == |initial| && multiset(r) == multiset(initial) && MovedLeft(initial, r) && sum == Checksum(r)
    ensures sum <= Checksum(initial)
  {
    var blocks := NormalizeByFiles(Corrected, initial);
    sum := GetCheckSum(blocks);
  }
}

=== FILE: day10_trail_counting.dfy ===
/** Day 10 of 2024, "Hoof It": a topographic map of heights. A hiking trail
    starts at height 0 and climbs by exactly 1 per orthogonal step; a
    trailhead's score is the number of height-9 cells its trails reach
    (part 1), its rating the number of distinct trails to height 9
    (part 2). */
module TrailCounting {
  import opened Options
  import opened Text
  import Grids

  type Cell = (int, int)

  /** A route: the cells visited so far, the trailhead first. The source
      spells a route as the string "i:j;i:j;..."; distinct routes give
      distinct strings, so a sequence of cells stands for it. */
  type Route = seq<Cell>

  /** The height map. `Number` of a digit is its value, of a whitespace
      character 0, and of anything else NaN, which is None here. */
  type Heights = seq<seq<Option<nat>>>

  // ---------------------------------------------------------------------
  // Input
  // ---------------------------------------------------------------------

  /** The characters `Number` reads as 0 besides "0": whitespace and line
      terminators. */
  predicate IsSpace(c: char) {
    c in {' ', '\t', '\n', '\r', '\U{000B}', '\U{000C}', '\U{00A0}', '\U{1680}', '\U{2000}', '\U{2001}', '\U{2002}',
          '\U{2003}', '\U{2004}', '\U{2005}', '\U{2006}', '\U{2007}', '\U{2008}', '\U{2009}', '\U{200A}', '\U{2028}',
          '\U{2029}', '\U{202F}', '\U{205F}', '\U{3000}', '\U{FEFF}'}
  }

  /** `Number(c)` for one character of the map. */
  function HeightOf(c: char): (h: Option<nat>)
    ensures h.Some? ==> h.value <= 9
    ensures IsDigitChar(c) ==> h == Some(DigitOf(c))
  {
    if IsDigitChar(c) then Some(DigitOf(c)) else if IsSpace(c) then Some(0) else None
  }

  function ParseRow(line: string): (row: seq<Option<nat>>)
    ensures |row| == |line|
    ensures forall k :: 0 <= k < |row| ==> row[k] == HeightOf(line[k])
  {
    if line == [] then [] else ParseRow(line[..|line| - 1]) + [HeightOf(line[|line| - 1])]
  }

  /** `parseInput`: one row per non-empty line, one height per character;
      every height it produces is a digit. */
  function ParseInput(input: string): (m: Heights)
    ensures |m| == |NonEmptyLines(input)|
    ensures forall i :: 0 <= i < |m| ==> |m[i]| == |NonEmptyLines(input)[i]|
    ensures MaxHeight(m) <= 9
  {
    var lines := NonEmptyLines(input);
    var m := seq(|lines|, i requires 0 <= i < |lines| => ParseRow(lines[i]));
    DigitsBounded(m);
    m
  }

  // ---------------------------------------------------------------------
  // The map
  // ---------------------------------------------------------------------

  /** `matrix[i][j]`: None where the source reads NaN or `undefined`. */
  function HeightAt(m: Heights, c: Cell): (h: Option<nat>)
    ensures h.Some? ==> 0 <= c.0 < |m| && 0 <= c.1 < |m[c.0]|
  {
    if 0 <= c.0 < |m| && 0 <= c.1 < |m[c.0]| then m[c.0][c.1] else None
  }

  /** The bounds test of the search: rows of the map, columns of row 0. */
  predicate InBounds(m: Heights, c: Cell) {
    0 <= c.0 < |m| && 0 <= c.1 < |m[0]|
  }

  /** The largest height on the map (0 for a map without heights). */
  function MaxHeight(m: Heights): (h: nat)
    ensures forall c :: HeightAt(m, c).Some? ==> HeightAt(m, c).value <= h
    decreases |m|
  {
    if m == [] then 0
    else
      var rest := MaxHeight(m[..|m| - 1]);
      var top := MaxInRow(m[|m| - 1]);
      var h := if rest < top then top else rest;
      assert forall c :: HeightAt(m, c).Some? && c.0 < |m| - 1 ==> HeightAt(m, c) == HeightAt(m[..|m| - 1], c);
      h
  }

  /** The levels of the search: trails of 0 to `MaxHeight` steps. */
  function Levels(m: Heights): nat {
    MaxHeight(m) + 1
  }

  function MaxInRow(row: seq<Option<nat>>): (h: nat)
    ensures forall k :: 0 <= k < |row| && row[k].Some? ==> row[k].value <= h
    decreases |row|
  {
    if row == [] then 0
    else
      var rest := MaxInRow(row[..|row| - 1]);
      var last := row[|row| - 1];
      if last.Some? && last.value > rest then last.value else rest
  }

  lemma {:induction false} DigitsBounded(m: Heights)
    requires forall i, j :: 0 <= i < |m| && 0 <= j < |m[i]| && m[i][j].Some? ==> m[i][j].value <= 9
    ensures MaxHeight(m) <= 9
    decreases |m|
  {
    if m != [] {
      DigitsBounded(m[..|m| - 1]);
      RowBounded(m[|m| - 1]);
    }
  }

  lemma {:induction false} RowBounded(row: seq<Option<nat>>)
    requires forall j :: 0 <= j < |row| && row[j].Some? ==> row[j].value <= 9
    ensures MaxInRow(row) <= 9
    decreases |row|
  {
    if row != [] {
      RowBounded(row[..|row| - 1]);
    }
  }

  // ---------------------------------------------------------------------
  // Steps and trails
  // ---------------------------------------------------------------------

  /** `dirs`, in the order the search tries them. */
  const Dirs: seq<Cell> := [(0, 1), (1, 0), (0, -1), (-1, 0)]

  /** The cell one step from `c` in direction `dirs[d]`. */
  function Neighbour(c: Cell, d: nat): (n: Cell)
    requires d < 4
    ensures n == (c.0 + Dirs[d].0, c.1 + Dirs[d].1)
  {
    if d == 0 then (c.0, c.1 + 1)
    else if d == 1 then (c.0 + 1, c.1)
    else if d == 2 then (c.0, c.1 - 1)
    else (c.0 - 1, c.1)
  }

  /** The four neighbours are four different cells. */
  lemma NeighboursDiffer(c: Cell, d: nat, e: nat)
    requires d < 4 && e < 4 && d != e
    ensures Neighbour(c, d) != Neighbour(c, e)
  {
  }

  /** The test of the search: `b` is on the map and exactly one higher than
      `a`. */
  predicate Step(m: Heights, a: Cell, b: Cell) {
    InBounds(m, b) && HeightAt(m, a).Some? && HeightAt(m, b) == Some(HeightAt(m, a).value + 1)
  }

  function Last(r: Route): Cell
    requires |r| > 0
  {
    r[|r| - 1]
  }

  /** The route extended by one step in direction `d`. */
  function Extend(r: Route, d: nat): Route
    requires |r| > 0 && d < 4
  {
    r + [Neighbour(Last(r), d)]
  }

  /** The routes one step longer than `r`, trying directions before `d`. */
  ghost function ChildrenBefore(m: Heights, r: Route, d: nat): set<Route>
    requires |r| > 0 && d <= 4
  {
    set k | 0 <= k < d && Step(m, Last(r), Neighbour(Last(r), k)) :: Extend(r, k)
  }

  ghost function Children(m: Heights, r: Route): set<Route>
    requires |r| > 0
  {
    ChildrenBefore(m, r, 4)
  }

  /** Every route of `ts` extended by each climbing step from its end. */
  ghost function Grow(m: Heights, ts: set<Route>): set<Route> {
    set r, k | r in ts && |r| > 0 && 0 <= k < 4 && Step(m, Last(r), Neighbour(Last(r), k)) :: Extend(r, k)
  }

  /** The trails of `n` steps from `start`, as an unordered set. */
  ghost function Trails(m: Heights, start: Cell, n: nat): set<Route> {
    if n == 0 then {[start]} else Grow(m, Trails(m, start, n - 1))
  }

  /** Two cells one orthogonal step apart. */
  predicate Adjacent(a: Cell, b: Cell) {
    (a.0 == b.0 && (a.1 - b.1 == 1 || b.1 - a.1 == 1)) || (a.1 == b.1 && (a.0 - b.0 == 1 || b.0 - a.0 == 1))
  }

  lemma AdjacentNeighbour(a: Cell, b: Cell)
    ensures Adjacent(a, b) <==> exists d :: 0 <= d < 4 && b == Neighbour(a, d)
  {
    if Adjacent(a, b) {
      if b == Neighbour(a, 0) {
      } else if b == Neighbour(a, 1) {
      } else if b == Neighbour(a, 2) {
      } else {
        assert b == Neighbour(a, 3);
      }
    }
  }

  /** A walk from `start` in which every step is to an adjacent cell on the
      map exactly one higher. */
  ghost predicate IsTrail(m: Heights, start: Cell, r: Route) {
    |r| > 0 && r[0] == start && forall k :: 0 <= k < |r| - 1 ==> Adjacent(r[k], r[k + 1]) && Step(m, r[k], r[k + 1])
  }

  /** One more level: a trail of `n` steps is a trail of `n - 1` steps
      followed by one climbing orthogonal step. */
  lemma GrowMember(m: Heights, ts: set<Route>, r: Route)
    ensures r in Grow(m, ts) <==>
      |r| >= 2 && r[..|r| - 1] in ts && Adjacent(r[|r| - 2], r[|r| - 1]) && Step(m, r[|r| - 2], r[|r| - 1])
  {
    if r in Grow(m, ts) {
      var p, k :| p in ts && |p| > 0 && 0 <= k < 4 && Step(m, Last(p), Neighbour(Last(p), k)) && r == Extend(p, k);
      assert r[..|r| - 1] == p;
      AdjacentNeighbour(Last(p), Last(r));
    }
    if |r| >= 2 && r[..|r| - 1] in ts && Adjacent(r[|r| - 2], r[|r| - 1]) && Step(m, r[|r| - 2], r[|r| - 1]) {
      var p := r[..|r| - 1];
      AdjacentNeighbour(Last(p), Last(r));
      var k :| 0 <= k < 4 && Last(r) == Neighbour(Last(p), k);
      assert r == Extend(p, k);
    }
  }

  /** A trail of `n` steps has `n + 1` cells and starts at `start`. */
  lemma {:induction false} TrailShape(m: Heights, start: Cell, n: nat, r: Route)
    requires r in Trails(m, start, n)
    ensures |r| == n + 1 && r[0] == start
  {
    if n > 0 {
      GrowMember(m, Trails(m, start, n - 1), r);
      TrailShape(m, start, n - 1, r[..|r| - 1]);
    }
  }

  /** One more level: a trail of `n` steps is a trail of `n - 1` steps
      followed by one climbing orthogonal step. */
  lemma TrailsStep(m: Heights, start: Cell, n: nat, r: Route)
    requires n > 0
    ensures r in Trails(m, start, n) <==>
      |r| == n + 1 && r[..n] in Trails(m, start, n - 1) && Adjacent(r[n - 1], r[n]) && Step(m, r[n - 1], r[n])
  {
    GrowMember(m, Trails(m, start, n - 1), r);
    if r in Trails(m, start, n) {
      TrailShape(m, start, n, r);
    }
  }

  lemma IsTrailStep(m: Heights, start: Cell, r: Route)
    requires |r| >= 2
    ensures IsTrail(m, start, r) <==>
      IsTrail(m, start, r[..|r| - 1]) && Adjacent(r[|r| - 2], r[|r| - 1]) && Step(m, r[|r| - 2], r[|r| - 1])
  {
    var p := r[..|r| - 1];
    assert forall k :: 0 <= k < |p| ==> p[k] == r[k];
  }

  /** The search's trails of `n` steps are exactly the walks of `n + 1`
      cells climbing by one per orthogonal step. */
  lemma {:induction false} TrailsMeaning(m: Heights, start: Cell, n: nat, r: Route)
    ensures r in Trails(m, start, n) <==> IsTrail(m, start, r) && |r| == n + 1
  {
    if n == 0 {
      if |r| == 1 && r[0] == start {
        assert r == [start];
      }
    } else {
      TrailsStep(m, start, n, r);
      if |r| == n + 1 {
        TrailsMeaning(m, start, n - 1, r[..n]);
        IsTrailStep(m, start, r);
      }
    }
  }

  /** Along a trail of `n` steps the height has risen by `n`. */
  lemma {:induction false} TrailHeight(m: Heights, start: Cell, n: nat, r: Route)
    requires r in Trails(m, start, n) && HeightAt(m, start).Some?
    ensures HeightAt(m, Last(r)) == Some(HeightAt(m, start).value + n)
  {
    if n > 0 {
      TrailsStep(m, start, n, r);
      TrailHeight(m, start, n - 1, r[..n]);
    }
  }

  /** No trail is longer than the largest height allows: past `MaxHeight`
      steps there are none, so on a parsed map a trail has at most 10
      cells. */
  lemma TrailsBounded(m: Heights, start: Cell, n: nat)
    requires n > MaxHeight(m)
    ensures Trails(m, start, n) == {}
  {
    if r :| r in Trails(m, start, n) {
      TrailsMeaning(m, start, n, r);
      assert Step(m, r[0], r[1]);
      TrailHeight(m, start, n, r);
      assert false;
    }
  }

  /** Once a level is empty, every later level is empty too. */
  lemma {:induction false} TrailsStayEmpty(m: Heights, start: Cell, n: nat, n': nat)
    requires Trails(m, start, n) == {} && n <= n'
    ensures Trails(m, start, n') == {}
    decreases n' - n
  {
    if n < n' {
      TrailsStayEmpty(m, start, n, n' - 1);
    }
  }

  // ---------------------------------------------------------------------
  // Counting
  // ---------------------------------------------------------------------

  /** The routes of `s` that end at height 9. */
  ghost function PeaksIn(m: Heights, s: set<Route>): set<Route> {
    set r | r in s && |r| > 0 && HeightAt(m, Last(r)) == Some(9)
  }

  /** The cells the routes of `s` end at. */
  ghost function Ends(s: set<Route>): set<Cell> {
    set r | r in s && |r| > 0 :: Last(r)
  }

  /** The trails of 1 to `n` steps that end at height 9. */
  ghost function PathCount(m: Heights, start: Cell, n: nat): nat {
    if n == 0 then 0 else PathCount(m, start, n - 1) + |PeaksIn(m, Trails(m, start, n))|
  }

  /** The height-9 cells those trails end at. */
  ghost function Summits(m: Heights, start: Cell, n: nat): set<Cell> {
    if n == 0 then {} else Summits(m, start, n - 1) + Ends(PeaksIn(m, Trails(m, start, n)))
  }

  /** How many trails to height 9 start at `start`. */
  ghost function Rating(m: Heights, start: Cell): nat {
    PathCount(m, start, Levels(m))
  }

  /** How many height-9 cells trails from `start` reach. */
  ghost function Score(m: Heights, start: Cell): nat {
    |Summits(m, start, Levels(m))|
  }

  /** Counting more levels than the trails reach changes nothing. */
  lemma CountsStable(m: Heights, start: Cell, n: nat, n': nat)
    requires Trails(m, start, n) == {} && n <= n'
    ensures PathCount(m, start, n') == PathCount(m, start, n)
    ensures Summits(m, start, n') == Summits(m, start, n)
  {
    forall k | n < k <= n'
      ensures PathCount(m, start, k) == PathCount(m, start, k - 1) && Summits(m, start, k) == Summits(m, start, k - 1)
    {
      TrailsStayEmpty(m, start, n, k);
      EmptyLevel(m, start, k);
    }
    Unchanged(m, start, n, n');
  }

  lemma {:induction false} Unchanged(m: Heights, start: Cell, n: nat, n': nat)
    requires n <= n'
    requires forall k :: n < k <= n' ==> PathCount(m, start, k) == PathCount(m, start, k - 1) && Summits(m, start, k) == Summits(m, start, k - 1)
    ensures PathCount(m, start, n') == PathCount(m, start, n) && Summits(m, start, n') == Summits(m, start, n)
    decreases n' - n
  {
    if n < n' {
      Unchanged(m, start, n, n' - 1);
    }
  }

  /** An empty level adds nothing to either count. */
  lemma EmptyLevel(m: Heights, start: Cell, k: nat)
    requires k > 0 && Trails(m, start, k) == {}
    ensures PathCount(m, start, k) == PathCount(m, start, k - 1)
    ensures Summits(m, start, k) == Summits(m, start, k - 1)
  {
    NoPeaks(m, Trails(m, start, k));
  }

  lemma NoPeaks(m: Heights, s: set<Route>)
    requires s == {}
    ensures PeaksIn(m, s) == {} && Ends(PeaksIn(m, s)) == {}
  {
  }

  lemma {:induction false} EndsCard(s: set<Route>)
    ensures |Ends(s)| <= |s|
    decreases |s|
  {
    if s != {} {
      var r :| r in s;
      EndsCard(s - {r});
      var rest := Ends(s - {r});
      if |r| > 0 {
        assert Ends(s) <= rest + {Last(r)};
        Grids.SubsetCard(Ends(s), rest + {Last(r)});
      } else {
        assert Ends(s) == rest;
      }
    }
  }

  /** Adding the ends of `s` to `a` adds at most `|s|` cells. */
  lemma AddEndsCard(a: set<Cell>, s: set<Route>)
    ensures |a + Ends(s)| <= |a| + |s|
  {
    EndsCard(s);
    assert |a + Ends(s)| <= |a| + |Ends(s)| by {
      assert a + Ends(s) == a + (Ends(s) - a);
    }
  }

  /** One level adds no more summits than it adds trails. */
  lemma LevelBound(m: Heights, start: Cell, k: nat)
    requires k > 0
    ensures |Summits(m, start, k)| + PathCount(m, start, k - 1) <= |Summits(m, start, k - 1)| + PathCount(m, start, k)
  {
    var peaks := PeaksIn(m, Trails(m, start, k));
    AddEndsCard(Summits(m, start, k - 1), peaks);
  }

  lemma {:induction false} BoundChain(m: Heights, start: Cell, n: nat)
    requires forall k :: 0 < k <= n ==> |Summits(m, start, k)| + PathCount(m, start, k - 1) <= |Summits(m, start, k - 1)| + PathCount(m, start, k)
    ensures |Summits(m, start, n)| <= PathCount(m, start, n)
  {
    if n > 0 {
      BoundChain(m, start, n - 1);
    }
  }

  /** A trailhead reaches no more summits than it has trails to them. */
  lemma SummitsAtMostPaths(m: Heights, start: Cell, n: nat)
    ensures |Summits(m, start, n)| <= PathCount(m, start, n)
  {
    forall k | 0 < k <= n
      ensures |Summits(m, start, k)| + PathCount(m, start, k - 1) <= |Summits(m, start, k - 1)| + PathCount(m, start, k)
    {
      LevelBound(m, start, k);
    }
    BoundChain(m, start, n);
  }

  /** The height-9 cells counted by `Summits` are exactly the ends of the
      walks of 2 to `n + 1` cells climbing by one per step. */
  lemma SummitsMeaning(m: Heights, start: Cell, n: nat, c: Cell)
    ensures c in Summits(m, start, n) <==>
      HeightAt(m, c) == Some(9) && exists r :: IsTrail(m, start, r) && 2 <= |r| <= n + 1 && Last(r) == c
  {
    if c in Summits(m, start, n) {
      var r := SummitsSound(m, start, n, c);
    }
    if HeightAt(m, c) == Some(9) && exists r :: IsTrail(m, start, r) && 2 <= |r| <= n + 1 && Last(r) == c {
      var r :| IsTrail(m, start, r) && 2 <= |r| <= n + 1 && Last(r) == c;
      SummitsComplete(m, start, n, c, r);
    }
  }

  /** Every cell counted by `Summits` ends a trail to height 9: `r`. */
  lemma {:induction false} SummitsSound(m: Heights, start: Cell, n: nat, c: Cell) returns (r: Route)
    requires c in Summits(m, start, n)
    ensures HeightAt(m, c) == Some(9) && IsTrail(m, start, r) && 2 <= |r| <= n + 1 && Last(r) == c
  {
    var top := PeaksIn(m, Trails(m, start, n));
    if c in Ends(top) {
      r :| r in top && |r| > 0 && Last(r) == c;
      TrailsMeaning(m, start, n, r);
    } else {
      r := SummitsSound(m, start, n - 1, c);
    }
  }

  /** The end of every trail to height 9 of at most `n` steps is counted. */
  lemma {:induction false} SummitsComplete(m: Heights, start: Cell, n: nat, c: Cell, r: Route)
    requires HeightAt(m, c) == Some(9) && IsTrail(m, start, r) && 2 <= |r| <= n + 1 && Last(r) == c
    ensures c in Summits(m, start, n)
  {
    var top := Ends(PeaksIn(m, Trails(m, start, n)));
    if |r| == n + 1 {
      SummitsTop(m, start, n, c, r);
    } else {
      SummitsComplete(m, start, n - 1, c, r);
    }
    InUnion(Summits(m, start, n - 1), top, c);
  }

  lemma InUnion<T>(a: set<T>, b: set<T>, x: T)
    requires x in a || x in b
    ensures x in a + b
  {
  }

  /** The end of a trail to height 9 of exactly `n` steps is among the
      summits the last level adds. */
  lemma SummitsTop(m: Heights, start: Cell, n: nat, c: Cell, r: Route)
    requires HeightAt(m, c) == Some(9) && IsTrail(m, start, r) && |r| == n + 1 && Last(r) == c
    ensures c in Ends(PeaksIn(m, Trails(m, start, n)))
  {
    TrailsMeaning(m, start, n, r);
    assert r in PeaksIn(m, Trails(m, start, n));
  }

  /** A trail never has more than `MaxHeight + 1` steps. */
  lemma TrailLength(m: Heights, start: Cell, r: Route)
    requires IsTrail(m, start, r)
    ensures |r| <= MaxHeight(m) + 2
  {
    TrailsMeaning(m, start, |r| - 1, r);
    if |r| > MaxHeight(m) + 2 {
      TrailsBounded(m, start, |r| - 1);
    }
  }

  /** The score of a trailhead counts the height-9 cells some trail from
      it ends at. */
  lemma ScoreMeaning(m: Heights, start: Cell, c: Cell)
    ensures c in Summits(m, start, Levels(m)) <==>
      HeightAt(m, c) == Some(9) && exists r :: IsTrail(m, start, r) && |r| >= 2 && Last(r) == c
  {
    SummitsMeaning(m, start, Levels(m), c);
    if exists r :: IsTrail(m, start, r) && |r| >= 2 && Last(r) == c {
      var r :| IsTrail(m, start, r) && |r| >= 2 && Last(r) == c;
      TrailLength(m, start, r);
    }
  }

  /** The trails of 1 to `n` steps that end at height 9, as one set. */
  ghost function PeakTrails(m: Heights, start: Cell, n: nat): set<Route> {
    if n == 0 then {} else PeakTrails(m, start, n - 1) + PeaksIn(m, Trails(m, start, n))
  }

  /** `PathCount` counts `PeakTrails`, which are exactly the walks of 2 to
      `n + 1` cells climbing by one per step to height 9. */
  lemma {:induction false} PathCountMeaning(m: Heights, start: Cell, n: nat)
    ensures PathCount(m, start, n) == |PeakTrails(m, start, n)|
    ensures forall r :: r in PeakTrails(m, start, n) <==>
      IsTrail(m, start, r) && 2 <= |r| <= n + 1 && HeightAt(m, Last(r)) == Some(9)
  {
    if n > 0 {
      PathCountMeaning(m, start, n - 1);
      var before := PeakTrails(m, start, n - 1);
      var top := PeaksIn(m, Trails(m, start, n));
      forall r | r in top ensures |r| == n + 1 && IsTrail(m, start, r) {
        TrailsMeaning(m, start, n, r);
      }
      assert before !! top;
      forall r ensures r in PeakTrails(m, start, n) <==>
        IsTrail(m, start, r) && 2 <= |r| <= n + 1 && HeightAt(m, Last(r)) == Some(9)
      {
        TrailsMeaning(m, start, n, r);
      }
    }
  }

  /** `PathCountMeaning` for one route. */
  lemma PeakTrailsMember(m: Heights, start: Cell, n: nat, r: Route)
    ensures r in PeakTrails(m, start, n) <==>
      IsTrail(m, start, r) && 2 <= |r| <= n + 1 && HeightAt(m, Last(r)) == Some(9)
  {
    PathCountMeaning(m, start, n);
  }

  /** `PathCountMeaning` for the count alone. */
  lemma PathCountSize(m: Heights, start: Cell, n: nat)
    ensures PathCount(m, start, n) == |PeakTrails(m, start, n)|
  {
    PathCountMeaning(m, start, n);
  }

  /** The rating of a trailhead counts the trails from it to height 9. */
  lemma RatingMeaning(m: Heights, start: Cell, r: Route)
    ensures Rating(m, start) == |PeakTrails(m, start, Levels(m))|
    ensures r in PeakTrails(m, start, Levels(m)) <==>
      IsTrail(m, start, r) && |r| >= 2 && HeightAt(m, Last(r)) == Some(9)
  {
    var n := Levels(m);
    RatingCount(m, start, n);
    RatingMember(m, start, n, r);
  }

  /** The count half of `RatingMeaning`, with the number of levels as a
      parameter. */
  lemma RatingCount(m: Heights, start: Cell, n: nat)
    requires n == Levels(m)
    ensures Rating(m, start) == |PeakTrails(m, start, n)|
  {
    PathCountSize(m, start, n);
  }

  /** The membership half of `RatingMeaning`. */
  lemma RatingMember(m: Heights, start: Cell, n: nat, r: Route)
    requires n == Levels(m)
    ensures r in PeakTrails(m, start, n) <==>
      IsTrail(m, start, r) && |r| >= 2 && HeightAt(m, Last(r)) == Some(9)
  {
    PeakTrailsMember(m, start, n, r);
    if IsTrail(m, start, r) {
      TrailLength(m, start, r);
    }
  }

  // ---------------------------------------------------------------------
  // The search
  // ---------------------------------------------------------------------

  /** `QueueNode`: the cell reached and the route to it. */
  datatype QueueNode = QueueNode(cell: Cell, route: Route)

  /** Every node's cell ends its route, and no route is queued twice. */
  ghost predicate GoodQueue(queue: seq<QueueNode>) {
    (forall p :: 0 <= p < |queue| ==> |queue[p].route| > 0 && queue[p].cell == Last(queue[p].route)) &&
    (forall p, q :: 0 <= p < q < |queue| ==> queue[p].route != queue[q].route)
  }

  ghost function RoutesOf(queue: seq<QueueNode>): set<Route> {
    set p | 0 <= p < |queue| :: queue[p].route
  }

  /** Every visited route is at most `len` cells long or is queued in
      `next`. */
  ghost predicate VisitedShape(visited: set<Route>, len: nat, next: seq<QueueNode>) {
    forall r :: r in visited ==> |r| <= len || r in RoutesOf(next)
  }

  /** Adding one route to a set of routes adds it to the peaks and ends as
      it should. */
  lemma AddRoute(m: Heights, s: set<Route>, r: Route)
    requires |r| > 0 && r !in s
    ensures |PeaksIn(m, s + {r})| == |PeaksIn(m, s)| + if HeightAt(m, Last(r)) == Some(9) then 1 else 0
    ensures Ends(PeaksIn(m, s + {r})) == Ends(PeaksIn(m, s)) + if HeightAt(m, Last(r)) == Some(9) then {Last(r)} else {}
  {
    if HeightAt(m, Last(r)) == Some(9) {
      assert PeaksIn(m, s + {r}) == PeaksIn(m, s) + {r};
    } else {
      assert PeaksIn(m, s + {r}) == PeaksIn(m, s);
    }
  }

  lemma RoutesOfSnoc(queue: seq<QueueNode>, node: QueueNode)
    ensures RoutesOf(queue + [node]) == RoutesOf(queue) + {node.route}
  {
    var q' := queue + [node];
    assert q'[|queue|].route == node.route;
    forall r | r in RoutesOf(queue) ensures r in RoutesOf(q') {
      var p :| 0 <= p < |queue| && queue[p].route == r;
      assert q'[p] == queue[p];
    }
  }

  /** The children found by trying one more direction. */
  lemma ChildrenNext(m: Heights, r: Route, d: nat)
    requires |r| > 0 && d < 4
    ensures ChildrenBefore(m, r, d + 1) ==
      ChildrenBefore(m, r, d) + if Step(m, Last(r), Neighbour(Last(r), d)) then {Extend(r, d)} else {}
  {
  }

  /** A child found before direction `d` is not the child in direction
      `d`. */
  lemma ChildNew(m: Heights, r: Route, d: nat)
    requires |r| > 0 && d < 4
    ensures Extend(r, d) !in ChildrenBefore(m, r, d)
  {
    if Extend(r, d) in ChildrenBefore(m, r, d) {
      var k :| 0 <= k < d && Step(m, Last(r), Neighbour(Last(r), k)) && Extend(r, d) == Extend(r, k);
      assert Extend(r, d)[|r|] == Extend(r, k)[|r|];
      NeighboursDiffer(Last(r), d, k);
      assert false;
    }
  }

  /** The state the inner loop keeps for `node` after trying the
      directions before `d`. */
  ghost predicate Expanded(m: Heights, node: QueueNode, len: nat, d: nat, next: seq<QueueNode>, next': seq<QueueNode>,
                           visited': set<Route>, paths': nat, reached': set<Cell>, paths0: int, reached0: set<Cell>)
    requires |node.route| > 0 && d <= 4
  {
    GoodQueue(next') && RoutesOf(next') == RoutesOf(next) + ChildrenBefore(m, node.route, d) &&
    VisitedShape(visited', len, next') &&
    paths' == paths0 + |PeaksIn(m, RoutesOf(next'))| && reached' == reached0 + Ends(PeaksIn(m, RoutesOf(next')))
  }

  /** The child in direction `d` is neither queued nor visited yet. */
  lemma ChildFresh(m: Heights, node: QueueNode, len: nat, d: nat, next: seq<QueueNode>,
                   next': seq<QueueNode>, visited': set<Route>, paths': nat, reached': set<Cell>,
                   paths0: int, reached0: set<Cell>)
    requires len > 0 && |node.route| == len && d < 4
    requires forall r :: r in RoutesOf(next) ==> |r| == len + 1 && r[..len] != node.route
    requires Expanded(m, node, len, d, next, next', visited', paths', reached', paths0, reached0)
    ensures Extend(node.route, d) !in RoutesOf(next') && Extend(node.route, d) !in visited'
  {
    var route := Extend(node.route, d);
    assert route !in RoutesOf(next) by {
      assert route[..len] == node.route;
    }
    ChildNew(m, node.route, d);
  }

  /** A direction that is not a climbing step leaves the state as it is. */
  lemma NoChild(m: Heights, node: QueueNode, len: nat, d: nat, next: seq<QueueNode>,
                next': seq<QueueNode>, visited': set<Route>, paths': nat, reached': set<Cell>,
                paths0: int, reached0: set<Cell>)
    requires |node.route| > 0 && d < 4 && !Step(m, Last(node.route), Neighbour(Last(node.route), d))
    requires Expanded(m, node, len, d, next, next', visited', paths', reached', paths0, reached0)
    ensures Expanded(m, node, len, d + 1, next, next', visited', paths', reached', paths0, reached0)
  {
    ChildrenNext(m, node.route, d);
  }

  /** Queueing the child in direction `d` and counting it when it is at
      height 9. */
  method Enqueue(m: Heights, node: QueueNode, ghost len: nat, d: nat, ghost next: seq<QueueNode>,
                 next': seq<QueueNode>, visited': set<Route>, paths': nat, reached': set<Cell>,
                 ghost paths0: int, ghost reached0: set<Cell>)
    returns (next'': seq<QueueNode>, visited'': set<Route>, paths'': nat, reached'': set<Cell>)
    requires len > 0 && |node.route| == len && node.cell == Last(node.route) && d < 4
    requires Step(m, Last(node.route), Neighbour(Last(node.route), d))
    requires Extend(node.route, d) !in RoutesOf(next')
    requires Expanded(m, node, len, d, next, next', visited', paths', reached', paths0, reached0)
    ensures Expanded(m, node, len, d + 1, next, next'', visited'', paths'', reached'', paths0, reached0)
  {
    var nextI, nextJ := node.cell.0 + Dirs[d].0, node.cell.1 + Dirs[d].1;
    var route := node.route + [(nextI, nextJ)];
    var child := QueueNode((nextI, nextJ), route);
    var top := HeightAt(m, (nextI, nextJ)) == Some(9);
    EnqueueKeeps(m, node, len, d, next, next', visited', paths', reached', paths0, reached0, child, top);
    next'' := next' + [child];
    visited'' := visited' + {route};
    paths'' := if top then paths' + 1 else paths';
    reached'' := if top then reached' + {(nextI, nextJ)} else reached';
  }

  lemma EnqueueKeeps(m: Heights, node: QueueNode, len: nat, d: nat, next: seq<QueueNode>,
                     next': seq<QueueNode>, visited': set<Route>, paths': nat, reached': set<Cell>,
                     paths0: int, reached0: set<Cell>, child: QueueNode, top: bool)
    requires len > 0 && |node.route| == len && node.cell == Last(node.route) && d < 4
    requires Step(m, Last(node.route), Neighbour(Last(node.route), d))
    requires Extend(node.route, d) !in RoutesOf(next')
    requires Expanded(m, node, len, d, next, next', visited', paths', reached', paths0, reached0)
    requires child.route == Extend(node.route, d) && child.cell == Neighbour(node.cell, d)
    requires top == (HeightAt(m, child.cell) == Some(9))
    ensures Expanded(m, node, len, d + 1, next, next' + [child], visited' + {child.route},
                     if top then paths' + 1 else paths', if top then reached' + {child.cell} else reached', paths0, reached0)
  {
    var queued := RoutesOf(next');
    RoutesOfSnoc(next', child);
    ChildrenNext(m, node.route, d);
    assert RoutesOf(next' + [child]) == RoutesOf(next) + ChildrenBefore(m, node.route, d + 1);
    CountRoute(m, queued, child.route, paths', reached', paths0, reached0, top);
    GoodQueueSnoc(next', child);
    VisitedSnoc(visited', len, next', child);
  }

  /** The counts after adding one route to the routes counted so far. */
  lemma CountRoute(m: Heights, s: set<Route>, r: Route, paths': nat, reached': set<Cell>,
                   paths0: int, reached0: set<Cell>, top: bool)
    requires |r| > 0 && r !in s && top == (HeightAt(m, Last(r)) == Some(9))
    requires paths' == paths0 + |PeaksIn(m, s)| && reached' == reached0 + Ends(PeaksIn(m, s))
    ensures (if top then paths' + 1 else paths') == paths0 + |PeaksIn(m, s + {r})|
    ensures (if top then reached' + {Last(r)} else reached') == reached0 + Ends(PeaksIn(m, s + {r}))
  {
    AddRoute(m, s, r);
  }

  lemma GoodQueueSnoc(queue: seq<QueueNode>, node: QueueNode)
    requires GoodQueue(queue) && |node.route| > 0 && node.cell == Last(node.route) && node.route !in RoutesOf(queue)
    ensures GoodQueue(queue + [node])
  {
    var q' := queue + [node];
    forall p | 0 <= p < |queue| ensures q'[p].route != node.route {
      assert queue[p].route in RoutesOf(queue);
    }
  }

  lemma VisitedSnoc(visited: set<Route>, len: nat, queue: seq<QueueNode>, node: QueueNode)
    requires VisitedShape(visited, len, queue)
    ensures VisitedShape(visited + {node.route}, len, queue + [node])
  {
    RoutesOfSnoc(queue, node);
  }

  /** The bounds and height test of the inner loop is `Step`, and the
      route it builds is `Extend`. */
  lemma DirectionStep(m: Heights, node: QueueNode, d: nat, nextI: int, nextJ: int)
    requires |node.route| > 0 && node.cell == Last(node.route) && d < 4
    requires nextI == node.cell.0 + Dirs[d].0 && nextJ == node.cell.1 + Dirs[d].1
    ensures node.route + [(nextI, nextJ)] == Extend(node.route, d)
    ensures (0 <= nextI < |m| && 0 <= nextJ < |m[0]| && HeightAt(m, node.cell).Some? &&
             HeightAt(m, (nextI, nextJ)) == Some(HeightAt(m, node.cell).value + 1)) ==
            Step(m, Last(node.route), Neighbour(Last(node.route), d))
  {
  }

  /** One pass of the inner `for (const dir of dirs)` loop: the neighbour
      in direction `d`, when it is on the map and one higher, is queued
      with its route and marked visited. The visited test never fails,
      because no queued or visited route is this node's route plus that
      neighbour. */
  method TryDirection(m: Heights, node: QueueNode, ghost len: nat, d: nat, ghost next: seq<QueueNode>,
                      next': seq<QueueNode>, visited': set<Route>, paths': nat, reached': set<Cell>,
                      ghost paths0: int, ghost reached0: set<Cell>)
    returns (next'': seq<QueueNode>, visited'': set<Route>, paths'': nat, reached'': set<Cell>)
    requires len > 0 && |node.route| == len && node.cell == Last(node.route) && d < 4
    requires forall r :: r in RoutesOf(next) ==> |r| == len + 1 && r[..len] != node.route
    requires Expanded(m, node, len, d, next, next', visited', paths', reached', paths0, reached0)
    ensures Expanded(m, node, len, d + 1, next, next'', visited'', paths'', reached'', paths0, reached0)
  {
    var i, j := node.cell.0, node.cell.1;
    var nextI, nextJ := i + Dirs[d].0, j + Dirs[d].1;
    var route := node.route + [(nextI, nextJ)];
    var step := 0 <= nextI < |m| && 0 <= nextJ < |m[0]| && HeightAt(m, (i, j)).Some? &&
      HeightAt(m, (nextI, nextJ)) == Some(HeightAt(m, (i, j)).value + 1);
    DirectionStep(m, node, d, nextI, nextJ);
    ChildFresh(m, node, len, d, next, next', visited', paths', reached', paths0, reached0);
    if step && route !in visited' {
      next'', visited'', paths'', reached'' := Enqueue(m, node, len, d, next, next', visited', paths', reached', paths0, reached0);
    } else {
      NoChild(m, node, len, d, next, next', visited', paths', reached', paths0, reached0);
      next'', visited'', paths'', reached'' := next', visited', paths', reached';
    }
  }

  /** The inner `for (const dir of dirs)` loop for one node: the node's
      children are queued and counted. */
  method ExpandNode(m: Heights, node: QueueNode, ghost len: nat, next: seq<QueueNode>, visited: set<Route>,
                    paths: nat, reached: set<Cell>, ghost paths0: int, ghost reached0: set<Cell>)
    returns (next': seq<QueueNode>, visited': set<Route>, paths': nat, reached': set<Cell>)
    requires len > 0 && |node.route| == len && node.cell == Last(node.route)
    requires GoodQueue(next) && forall r :: r in RoutesOf(next) ==> |r| == len + 1 && r[..len] != node.route
    requires VisitedShape(visited, len, next)
    requires paths == paths0 + |PeaksIn(m, RoutesOf(next))| && reached == reached0 + Ends(PeaksIn(m, RoutesOf(next)))
    ensures GoodQueue(next') && RoutesOf(next') == RoutesOf(next) + Children(m, node.route)
    ensures VisitedShape(visited', len, next')
    ensures paths' == paths0 + |PeaksIn(m, RoutesOf(next'))| && reached' == reached0 + Ends(PeaksIn(m, RoutesOf(next')))
  {
    next', visited', paths', reached' := next, visited, paths, reached;
    assert ChildrenBefore(m, node.route, 0) == {};
    for d := 0 to 4
      invariant Expanded(m, node, len, d, next, next', visited', paths', reached', paths0, reached0)
    {
      next', visited', paths', reached' := TryDirection(m, node, len, d, next, next', visited', paths', reached', paths0, reached0);
    }
  }

  /** Growing one more route adds exactly that route's children. */
  lemma GrowSnoc(m: Heights, s: set<Route>, r: Route)
    requires |r| > 0
    ensures Grow(m, s + {r}) == Grow(m, s) + Children(m, r)
  {
  }

  lemma RoutesOfPrefix(queue: seq<QueueNode>, q: nat)
    requires q < |queue|
    ensures RoutesOf(queue[..q + 1]) == RoutesOf(queue[..q]) + {queue[q].route}
  {
    assert queue[..q + 1] == queue[..q] + [queue[q]];
    RoutesOfSnoc(queue[..q], queue[q]);
  }

  /** The children of the routes before position `q` are one cell longer
      than those routes and extend none of the later ones. */
  lemma ChildrenElsewhere(m: Heights, start: Cell, level: nat, queue: seq<QueueNode>, q: nat)
    requires GoodQueue(queue) && RoutesOf(queue) == Trails(m, start, level) && q < |queue|
    ensures |queue[q].route| == level + 1
    ensures forall r :: r in Grow(m, RoutesOf(queue[..q])) ==> |r| == level + 2 && r[..level + 1] != queue[q].route
  {
    assert queue[q].route in RoutesOf(queue);
    TrailShape(m, start, level, queue[q].route);
    forall r | r in Grow(m, RoutesOf(queue[..q]))
      ensures |r| == level + 2 && r[..level + 1] != queue[q].route
    {
      GrowMember(m, RoutesOf(queue[..q]), r);
      var p :| 0 <= p < q && queue[..q][p].route == r[..|r| - 1];
      assert queue[p].route in RoutesOf(queue);
      TrailShape(m, start, level, queue[p].route);
    }
  }

  /** A visited set whose long routes are all queued in `next` holds no
      route longer than `len + 1` cells once `next` has routes of exactly
      `len + 1` cells. */
  lemma VisitedNextLevel(visited: set<Route>, len: nat, next: seq<QueueNode>)
    requires VisitedShape(visited, len, next) && forall r :: r in RoutesOf(next) ==> |r| == len + 1
    ensures VisitedShape(visited, len + 1, [])
  {
  }

  /** The `for (const { i, j, route } of queue)` loop: every node of the
      level is expanded into `nextQueue`. */
  method ExpandAll(m: Heights, ghost start: Cell, ghost level: nat, queue: seq<QueueNode>, visited: set<Route>,
                   paths: nat, reached: set<Cell>)
    returns (next: seq<QueueNode>, visited': set<Route>, paths': nat, reached': set<Cell>)
    requires GoodQueue(queue) && RoutesOf(queue) == Trails(m, start, level)
    requires VisitedShape(visited, level + 1, [])
    ensures GoodQueue(next) && RoutesOf(next) == Grow(m, RoutesOf(queue))
    ensures VisitedShape(visited', level + 1, next)
    ensures paths' == paths + |PeaksIn(m, RoutesOf(next))| && reached' == reached + Ends(PeaksIn(m, RoutesOf(next)))
  {
    next, visited', paths', reached' := [], visited, paths, reached;
    assert RoutesOf(queue[..0]) == {};
    assert Grow(m, {}) == {};
    for q := 0 to |queue|
      invariant GoodQueue(next) && RoutesOf(next) == Grow(m, RoutesOf(queue[..q]))
      invariant VisitedShape(visited', level + 1, next)
      invariant paths' == paths + |PeaksIn(m, RoutesOf(next))| && reached' == reached + Ends(PeaksIn(m, RoutesOf(next)))
    {
      ChildrenElsewhere(m, start, level, queue, q);
      next, visited', paths', reached' := ExpandNode(m, queue[q], level + 1, next, visited', paths', reached', paths, reached);
      RoutesOfPrefix(queue, q);
      GrowSnoc(m, RoutesOf(queue[..q]), queue[q].route);
    }
    assert queue[..|queue|] == queue;
  }

  /** One pass of `while (queue.length)`: `nextQueue` then holds exactly
      the trails one step longer, and the counts gain that level's trails
      to height 9. */
  method ExpandLevel(m: Heights, ghost start: Cell, ghost level: nat, queue: seq<QueueNode>, visited: set<Route>,
                     paths: nat, reached: set<Cell>)
    returns (next: seq<QueueNode>, visited': set<Route>, paths': nat, reached': set<Cell>)
    requires GoodQueue(queue) && RoutesOf(queue) == Trails(m, start, level)
    requires VisitedShape(visited, level + 1, [])
    ensures GoodQueue(next) && RoutesOf(next) == Trails(m, start, level + 1)
    ensures VisitedShape(visited', level + 2, [])
    ensures paths' == paths + |PeaksIn(m, Trails(m, start, level + 1))|
    ensures reached' == reached + Ends(PeaksIn(m, Trails(m, start, level + 1)))
  {
    next, visited', paths', reached' := ExpandAll(m, start, level, queue, visited, paths, reached);
    NextLevel(m, start, level, RoutesOf(next));
    VisitedNextLevel(visited', level + 1, next);
  }

  /** The children of the trails of `level` steps are the trails of one
      more step, each of `level + 2` cells. */
  lemma NextLevel(m: Heights, start: Cell, level: nat, s: set<Route>)
    requires s == Grow(m, Trails(m, start, level))
    ensures s == Trails(m, start, level + 1)
    ensures forall r :: r in s ==> |r| == level + 2
  {
    forall r | r in s ensures |r| == level + 2 {
      TrailShape(m, start, level + 1, r);
    }
  }

  /** A level that still holds a trail lies within the map's heights. */
  lemma LevelWithinHeight(m: Heights, start: Cell, level: nat, r: Route)
    requires r in Trails(m, start, level)
    ensures level <= MaxHeight(m)
  {
    if level > MaxHeight(m) {
      TrailsBounded(m, start, level);
      assert false;
    }
  }

  /** The state of the search at the start of a level: the queue holds
      the trails of `level` steps, and the counts cover the levels before. */
  ghost predicate AtLevel(m: Heights, start: Cell, level: nat, queue: seq<QueueNode>, visited: set<Route>,
                          paths: nat, reached: set<Cell>)
  {
    GoodQueue(queue) && RoutesOf(queue) == Trails(m, start, level) &&
    VisitedShape(visited, level + 1, []) &&
    paths == PathCount(m, start, level) && reached == Summits(m, start, level)
  }

  /** One pass of the outer loop of `bfs` over a non-empty level. */
  method BfsLevel(m: Heights, ghost start: Cell, ghost level: nat, queue: seq<QueueNode>, visited: set<Route>,
                  paths: nat, reached: set<Cell>)
    returns (queue': seq<QueueNode>, visited': set<Route>, paths': nat, reached': set<Cell>)
    requires AtLevel(m, start, level, queue, visited, paths, reached) && |queue| > 0
    ensures AtLevel(m, start, level + 1, queue', visited', paths', reached')
    ensures level + 1 <= Levels(m)
  {
    assert queue[0].route in Trails(m, start, level);
    LevelWithinHeight(m, start, level, queue[0].route);
    queue', visited', paths', reached' := ExpandLevel(m, start, level, queue, visited, paths, reached);
  }

  /** `bfs`: the number of trails from `start` to height 9 (`paths`) and
      the number of height-9 cells they reach (`reached`). The levels of
      the queue are the trails of 0, 1, 2, ... steps, and the search stops
      at the first empty level. */
  method Bfs(m: Heights, start: Cell) returns (paths: nat, reachedCount: nat)
    ensures paths == Rating(m, start)
    ensures reachedCount == Score(m, start)
  {
    var queue := [QueueNode(start, [start])];
    var visited: set<Route> := {[start]};
    var reached: set<Cell> := {};
    paths := 0;
    ghost var level: nat := 0;
    assert RoutesOf(queue) == {[start]} by {
      assert queue[0].route == [start];
    }
    while |queue| > 0
      invariant AtLevel(m, start, level, queue, visited, paths, reached)
      invariant level <= Levels(m)
      decreases Levels(m) - level
    {
      queue, visited, paths, reached := BfsLevel(m, start, level, queue, visited, paths, reached);
      level := level + 1;
    }
    reachedCount := |reached|;
    FinalLevel(m, start, level, queue, paths, reached);
  }

  /** Once a level is empty the counts so far are the rating and the score. */
  lemma FinalLevel(m: Heights, start: Cell, level: nat, queue: seq<QueueNode>, paths: nat, reached: set<Cell>)
    requires RoutesOf(queue) == Trails(m, start, level) && |queue| == 0
    requires level <= Levels(m)
    requires paths == PathCount(m, start, level) && reached == Summits(m, start, level)
    ensures paths == Rating(m, start) && |reached| == Score(m, start)
  {
    assert Trails(m, start, level) == {};
    CountsStable(m, start, level, Levels(m));
  }

  // ---------------------------------------------------------------------
  // Summing over the trailheads
  // ---------------------------------------------------------------------

  /** What one cell adds to the answer: its rating (part 2) or score
      (part 1) when it is a trailhead, nothing otherwise. */
  ghost function TrailheadValue(m: Heights, c: Cell, rating: bool): nat {
    if HeightAt(m, c) != Some(0) then 0 else if rating then Rating(m, c) else Score(m, c)
  }

  /** The values of the cells `(i, 0)` to `(i, j - 1)`. */
  ghost function RowTotal(m: Heights, i: int, j: nat, rating: bool): nat {
    if j == 0 then 0 else RowTotal(m, i, j - 1, rating) + TrailheadValue(m, (i, j - 1), rating)
  }

  /** `matrix[0].length`, 0 for an empty map. */
  function Width(m: Heights): nat {
    if |m| == 0 then 0 else |m[0]|
  }

  /** The values of rows 0 to `i - 1`, each as wide as row 0. */
  ghost function GridTotal(m: Heights, i: nat, rating: bool): nat {
    if i == 0 then 0 else GridTotal(m, i - 1, rating) + RowTotal(m, i - 1, Width(m), rating)
  }

  /** The loops shared by `solvePart1` and `solvePart2`: a search from
      every cell of height 0, within the rows of the map and the columns
      of row 0. */
  method SumTrailheads(m: Heights, rating: bool) returns (result: nat)
    ensures result == GridTotal(m, |m|, rating)
  {
    result := 0;
    for i := 0 to |m|
      invariant result == GridTotal(m, i, rating)
    {
      ghost var before := result;
      for j := 0 to |m[0]|
        invariant result == before + RowTotal(m, i, j, rating)
      {
        if HeightAt(m, (i, j)) == Some(0) {
          var paths, reached := Bfs(m, (i, j));
          result := result + if rating then paths else reached;
        }
      }
    }
  }

  /** `solvePart1`: the sum of the trailheads' scores. */
  method SolvePart1(m: Heights) returns (result: nat)
    ensures result == GridTotal(m, |m|, false)
  {
    result := SumTrailheads(m, false);
  }

  /** `solvePart2`: the sum of the trailheads' ratings. */
  method SolvePart2(m: Heights) returns (result: nat)
    ensures result == GridTotal(m, |m|, true)
  {
    result := SumTrailheads(m, true);
  }

  lemma ValueOrder(m: Heights, c: Cell)
    ensures TrailheadValue(m, c, false) <= TrailheadValue(m, c, true)
  {
    SummitsAtMostPaths(m, c, Levels(m));
  }

  lemma {:induction false} RowOrder(m: Heights, i: int, j: nat)
    ensures RowTotal(m, i, j, false) <= RowTotal(m, i, j, true)
  {
    if j > 0 {
      RowOrder(m, i, j - 1);
      ValueOrder(m, (i, j - 1));
    }
  }

  /** Part 1 never exceeds part 2: a trailhead reaches no more summits
      than it has trails. */
  lemma {:induction false} PartsOrder(m: Heights, i: nat)
    ensures GridTotal(m, i, false) <= GridTotal(m, i, true)
  {
    if i > 0 {
      PartsOrder(m, i - 1);
      RowOrder(m, i - 1, Width(m));
    }
  }
}

=== FILE: day11_stone_blinks.dfy ===
/** Day 11 of 2024, "Plutonian Pebbles": a row of engraved stones changes
    at every blink. A stone engraved 0 becomes 1; a stone with an even
    number of digits splits into its two halves; any other stone's number
    is multiplied by 2024. The order of the stones never matters, so the
    solver keeps a count per engraving instead of the row. */
module StoneBlinks {
  import opened Options
  import opened Text
  import opened OrderedMaps
  import Arith

  /** `Map<string, number>`: how many stones carry each engraving, in
      first-seen order. */
  type Counts = Entries<string, nat>

  // ---------------------------------------------------------------------
  // Input
  // ---------------------------------------------------------------------

  /** `input.split('\n')[0].split(' ')`: the engravings on the first line. */
  function ParseInput(input: string): (stones: seq<string>)
    ensures |stones| >= 1
    ensures forall s :: s in stones ==> ' ' !in s
  {
    var line := Split(input, '\n')[0];
    SplitPiecesLack(line, ' ');
    Split(line, ' ')
  }

  /** Writing the engravings on one line, space-separated, and parsing that
      line gives them back. */
  lemma ParseJoin(stones: seq<string>)
    requires |stones| >= 1
    requires forall s :: s in stones ==> ' ' !in s && '\n' !in s
    ensures ParseInput(Join(stones, " ")) == stones
  {
    JoinFree(stones, " ", '\n');
    SplitOnFree(Join(stones, " "), "\n");
    SplitJoin(stones, ' ');
  }

  // ---------------------------------------------------------------------
  // One stone
  // ---------------------------------------------------------------------

  /** `String(x)` for a result of `Number`: "NaN" for NaN. */
  function NumberText(v: Option<int>): string {
    match v
    case None => "NaN"
    case Some(x) => ShowInt(x)
  }

  /** `String(Number(stone) * 2024)`. */
  function Times2024(v: Option<int>): string {
    match v
    case None => "NaN"
    case Some(x) => ShowInt(x * 2024)
  }

  /** The stones one stone becomes, in the order `makeActionWithStone`
      counts them. */
  function Successors(stone: string): (r: seq<string>)
    ensures |r| == if |stone| % 2 == 0 then 2 else 1
    ensures stone == "0" ==> r == ["1"]
  {
    if stone == "0" then ["1"]
    else if |stone| % 2 == 0 then
      var middle := |stone| / 2;
      [NumberText(ParseNumber(stone[..middle])), NumberText(ParseNumber(stone[middle..]))]
    else [Times2024(ParseNumber(stone))]
  }

  /** `String(Number(h))` of a digit string drops its leading zeros. */
  lemma NumberTextOfDigits(h: string)
    requires IsDigits(h)
    ensures NumberText(ParseNumber(h)) == Renumber(h)
  {
  }

  /** On a numeral with an even number of digits the two new stones read,
      side by side, as the old number: the left half's value shifted past
      the right half's digits plus the right half's value, each written
      without leading zeros ("1000" becomes "10" and "0"). */
  lemma SplitHalves(stone: string)
    requires IsDigits(stone) && |stone| % 2 == 0
    ensures var r := Successors(stone); var middle := |stone| / 2;
      IsCanonical(r[0]) && IsCanonical(r[1]) &&
      DigitsValue(r[1]) < Pow10(middle) &&
      DigitsValue(stone) == DigitsValue(r[0]) * Pow10(middle) + DigitsValue(r[1])
  {
    var middle := |stone| / 2;
    var left, right := stone[..middle], stone[middle..];
    assert |stone| - middle == middle;
    HalvesValue(stone, middle);
    NumberTextOfDigits(left);
    NumberTextOfDigits(right);
    var r := Successors(stone);
    assert r[0] == Renumber(left) && r[1] == Renumber(right);
  }

  /** A digit string read as its two parts around `middle`. */
  lemma HalvesValue(stone: string, middle: nat)
    requires IsDigits(stone) && middle <= |stone|
    ensures IsDigits(stone[..middle]) && IsDigits(stone[middle..])
    ensures DigitsValue(stone[middle..]) < Pow10(|stone| - middle)
    ensures DigitsValue(stone) == DigitsValue(stone[..middle]) * Pow10(|stone| - middle) + DigitsValue(stone[middle..])
  {
    var left, right := stone[..middle], stone[middle..];
    assert stone == left + right;
    assert IsDigits(left) && IsDigits(right) by {
      assert forall k :: 0 <= k < |left| ==> left[k] == stone[k];
      assert forall k :: 0 <= k < |right| ==> right[k] == stone[middle + k];
    }
    DigitsValueAppend(left, right);
    DigitsValueBound(right);
  }

  /** On any other numeral but "0" the new stone is the number times 2024,
      written without leading zeros. */
  lemma Multiplied(stone: string)
    requires IsDigits(stone) && |stone| % 2 == 1 && stone != "0"
    ensures IsCanonical(Successors(stone)[0])
    ensures DigitsValue(Successors(stone)[0]) == 2024 * DigitsValue(stone)
  {
    var v := DigitsValue(stone) * 2024;
    ShowNatCanonical(v);
    ValueOfShowNat(v);
  }

  /** Canonical numerals only ever turn into canonical numerals. */
  lemma StaysCanonical(stone: string)
    requires IsCanonical(stone)
    ensures forall s :: s in Successors(stone) ==> IsCanonical(s)
  {
    if stone == "0" {
      assert IsCanonical("1");
    } else if |stone| % 2 == 0 {
      SplitHalves(stone);
    } else {
      Multiplied(stone);
    }
  }

  // ---------------------------------------------------------------------
  // The row of stones the counts stand for
  // ---------------------------------------------------------------------

  /** The row after one blink: every stone replaced by its successors. */
  function Expand(row: seq<string>): (r: seq<string>)
    ensures |r| >= |row|
  {
    if row == [] then [] else Successors(row[0]) + Expand(row[1..])
  }

  /** The row after `n` blinks. */
  function Row(stones: seq<string>, n: nat): seq<string> {
    if n == 0 then stones else Expand(Row(stones, n - 1))
  }

  lemma {:induction false} ExpandAppend(a: seq<string>, b: seq<string>)
    ensures Expand(a + b) == Expand(a) + Expand(b)
  {
    if a == [] {
      assert a + b == b;
    } else {
      assert (a + b)[0] == a[0] && (a + b)[1..] == a[1..] + b;
      ExpandAppend(a[1..], b);
    }
  }

  /** Every stone of `row` replaced by `f` of it: a blink with the rule
      left abstract, so that reasoning about order does not look inside a
      rule. */
  function FlatMap(f: string -> seq<string>, row: seq<string>): seq<string> {
    if row == [] then [] else f(row[0]) + FlatMap(f, row[1..])
  }

  lemma {:induction false} ExpandFlatMap(row: seq<string>)
    ensures Expand(row) == FlatMap(Successors, row)
  {
    if row != [] {
      ExpandFlatMap(row[1..]);
    }
  }

  lemma {:induction false} FlatMapAppend(f: string -> seq<string>, a: seq<string>, b: seq<string>)
    ensures FlatMap(f, a + b) == FlatMap(f, a) + FlatMap(f, b)
  {
    if a == [] {
      assert a + b == b;
    } else {
      assert (a + b)[0] == a[0] && (a + b)[1..] == a[1..] + b;
      FlatMapAppend(f, a[1..], b);
    }
  }

  lemma RemoveAt(b: seq<string>, i: int)
    requires 0 <= i < |b|
    ensures multiset(b[..i] + b[i + 1..]) == multiset(b) - multiset{b[i]}
  {
    assert b[i..] == [b[i]] + b[i + 1..];
    assert b == b[..i] + b[i..];
  }

  lemma FlatMapSplit(f: string -> seq<string>, left: seq<string>, x: string, right: seq<string>)
    ensures FlatMap(f, left + [x] + right) == FlatMap(f, left) + f(x) + FlatMap(f, right)
  {
    FlatMapAppend(f, left + [x], right);
    FlatMapAppend(f, left, [x]);
    assert FlatMap(f, [x]) == f(x) by {
      assert [x][1..] == [];
    }
  }

  lemma SplitAt(b: seq<string>, i: int)
    requires 0 <= i < |b|
    ensures b == b[..i] + [b[i]] + b[i + 1..]
  {
    assert b[i..] == [b[i]] + b[i + 1..];
    assert b == b[..i] + b[i..];
    assert b[..i] + [b[i]] + b[i + 1..] == b[..i] + ([b[i]] + b[i + 1..]);
  }

  /** Mapping a row is mapping one of its stones and the rest. */
  lemma FlatMapAround(f: string -> seq<string>, b: seq<string>, i: int)
    requires 0 <= i < |b|
    ensures multiset(FlatMap(f, b)) == multiset(FlatMap(f, b[..i] + b[i + 1..])) + multiset(f(b[i]))
  {
    var left, x, right := b[..i], b[i], b[i + 1..];
    SplitAt(b, i);
    FlatMapSplit(f, left, x, right);
    FlatMapAppend(f, left, right);
    var fl, fx, fr := FlatMap(f, left), f(x), FlatMap(f, right);
    assert multiset(fl + fx + fr) == multiset(fl) + multiset(fx) + multiset(fr);
  }

  lemma IndexOf(x: string, b: seq<string>) returns (i: int)
    requires x in multiset(b)
    ensures 0 <= i < |b| && b[i] == x
  {
    i :| 0 <= i < |b| && b[i] == x;
  }

  lemma FlatMapCons(f: string -> seq<string>, a: seq<string>)
    requires a != []
    ensures multiset(FlatMap(f, a)) == multiset(f(a[0])) + multiset(FlatMap(f, a[1..]))
  {
  }

  lemma MultisetTail(a: seq<string>)
    requires a != []
    ensures multiset(a[1..]) == multiset(a) - multiset{a[0]}
  {
    SplitAt(a, 0);
    assert a[..0] == [];
  }

  lemma {:induction false} FlatMapPermutes(f: string -> seq<string>, a: seq<string>, b: seq<string>)
    requires multiset(a) == multiset(b)
    ensures multiset(FlatMap(f, a)) == multiset(FlatMap(f, b))
    decreases |a|
  {
    if a != [] {
      var i := IndexOf(a[0], b);
      var rest := b[..i] + b[i + 1..];
      RemoveAt(b, i);
      MultisetTail(a);
      FlatMapPermutes(f, a[1..], rest);
      FlatMapAround(f, b, i);
      FlatMapCons(f, a);
    }
  }

  /** The stones after a blink depend only on which stones there were, not
      on their order. */
  lemma ExpandPermutes(a: seq<string>, b: seq<string>)
    requires multiset(a) == multiset(b)
    ensures multiset(Expand(a)) == multiset(Expand(b))
  {
    ExpandFlatMap(a);
    ExpandFlatMap(b);
    FlatMapPermutes(Successors, a, b);
  }

  /** `count` copies of one engraving. */
  function Repeat(s: string, count: nat): (r: seq<string>)
    ensures |r| == count && multiset(r)[s] == count
    ensures forall t :: t != s ==> multiset(r)[t] == 0
  {
    if count == 0 then [] else [s] + Repeat(s, count - 1)
  }

  lemma CountStep(a: int, b: int, x: int, count: int)
    requires a == x + b && b == (count - 1) * x
    ensures a == count * x
  {
    Arith.MulSucc(x, count - 1);
  }

  lemma ExpandRepeatStep(s: string, count: nat)
    requires count > 0
    ensures Expand(Repeat(s, count)) == Successors(s) + Expand(Repeat(s, count - 1))
  {
    assert Repeat(s, count)[1..] == Repeat(s, count - 1);
  }

  lemma {:induction false} ExpandRepeat(s: string, count: nat, k: string)
    ensures multiset(Expand(Repeat(s, count)))[k] == count * multiset(Successors(s))[k]
    ensures |Expand(Repeat(s, count))| == count * |Successors(s)|
  {
    if count > 0 {
      ExpandRepeat(s, count - 1, k);
      ExpandRepeatStep(s, count);
      var e, succ, rest := Expand(Repeat(s, count)), Successors(s), Expand(Repeat(s, count - 1));
      assert multiset(e)[k] == multiset(succ)[k] + multiset(rest)[k];
      CountStep(multiset(e)[k], multiset(rest)[k], multiset(succ)[k], count);
      CountStep(|e|, |rest|, |succ|, count);
    }
  }

  /** The row a table of counts stands for: each engraving as many times as
      it is counted, in the table's order. */
  function Unroll(m: Counts): seq<string> {
    if m == [] then [] else Repeat(m[0].0, m[0].1) + Unroll(m[1..])
  }

  lemma {:induction false} UnrollCounts(m: Counts, k: string)
    requires KeysDistinct(m)
    ensures multiset(Unroll(m))[k] == GetOrZero(m, k)
    ensures |Unroll(m)| == SumValues(m)
  {
    if m != [] {
      assert KeysDistinct(m[1..]) by {
        assert forall i, j :: 0 <= i < j < |m| - 1 ==> m[1..][i] == m[i + 1] && m[1..][j] == m[j + 1];
      }
      UnrollCounts(m[1..], k);
      if m[0].0 == k {
        assert k !in KeySet(m[1..]) by {
          assert forall i :: 0 <= i < |m| - 1 ==> m[1..][i] == m[i + 1];
        }
      }
    }
  }

  /** A table of counts stands for a row when it counts every engraving as
      often as the row holds it. */
  ghost predicate Represents(m: Counts, row: seq<string>) {
    KeysDistinct(m) && forall k :: GetOrZero(m, k) == multiset(row)[k]
  }

  lemma RepresentsRow(m: Counts, row: seq<string>)
    requires Represents(m, row)
    ensures multiset(Unroll(m)) == multiset(row)
    ensures SumValues(m) == |row|
  {
    forall k ensures multiset(Unroll(m))[k] == multiset(row)[k] {
      UnrollCounts(m, k);
    }
    assert multiset(Unroll(m)) == multiset(row);
    UnrollCounts(m, "");
    assert |multiset(Unroll(m))| == |multiset(row)|;
  }

  // ---------------------------------------------------------------------
  // Counting
  // ---------------------------------------------------------------------

  /** `result.set(key, (result.get(key) ?? 0) + count)` for each key in
      turn. */
  function BumpAll(m: Counts, keys: seq<string>, count: nat): Counts
    decreases |keys|
  {
    if keys == [] then m else BumpAll(Bump(m, keys[0], count), keys[1..], count)
  }

  lemma {:induction false} BumpAllDistinct(m: Counts, keys: seq<string>, count: nat)
    requires KeysDistinct(m)
    ensures KeysDistinct(BumpAll(m, keys, count))
    decreases |keys|
  {
    if keys != [] {
      BumpKeepsKeysDistinct(m, keys[0], count);
      BumpAllDistinct(Bump(m, keys[0], count), keys[1..], count);
    }
  }

  lemma {:induction false} BumpAllCount(m: Counts, keys: seq<string>, count: nat, k: string)
    ensures GetOrZero(BumpAll(m, keys, count), k) == GetOrZero(m, k) + count * multiset(keys)[k]
    decreases |keys|
  {
    if keys != [] {
      BumpAllCount(Bump(m, keys[0], count), keys[1..], count, k);
      assert keys == [keys[0]] + keys[1..];
      var x := multiset(keys[1..])[k];
      if keys[0] == k {
        assert multiset(keys)[k] == x + 1;
        Arith.MulSucc(count, x);
      } else {
        assert multiset(keys)[k] == x;
      }
    }
  }

  lemma {:induction false} BumpAllSum(m: Counts, keys: seq<string>, count: nat)
    requires KeysDistinct(m)
    ensures SumValues(BumpAll(m, keys, count)) == SumValues(m) + count * |keys|
    decreases |keys|
  {
    if keys != [] {
      BumpKeepsKeysDistinct(m, keys[0], count);
      SumValuesBump(m, keys[0], count);
      BumpAllSum(Bump(m, keys[0], count), keys[1..], count);
      Arith.MulSucc(count, |keys[1..]|);
    }
  }

  lemma {:induction false} BumpAllKeys(m: Counts, keys: seq<string>, count: nat)
    ensures KeySet(BumpAll(m, keys, count)) == KeySet(m) + set s | s in keys
    decreases |keys|
  {
    if keys != [] {
      BumpAllKeys(Bump(m, keys[0], count), keys[1..], count);
      ElementsCons(keys);
    }
  }

  lemma ElementsCons(keys: seq<string>)
    requires keys != []
    ensures (set s | s in keys) == {keys[0]} + set s | s in keys[1..]
  {
    forall x ensures x in keys <==> x == keys[0] || x in keys[1..] {
      if x in keys {
        var k :| 0 <= k < |keys| && keys[k] == x;
        if k > 0 {
          assert keys[1..][k - 1] == x;
        }
      }
    }
  }

  /** `makeActionWithStone(stone, count, result)`: every successor of the
      stone is counted `count` more times. */
  function Act(result: Counts, stone: string, count: nat): Counts {
    BumpAll(result, Successors(stone), count)
  }

  /** The first loop of `makeBlink`: every entry acted on, in order. */
  function BlinkInto(m: Counts, result: Counts): Counts {
    if m == [] then result else BlinkInto(m[1..], Act(result, m[0].0, m[0].1))
  }

  /** The new table `makeBlink` leaves behind. */
  function Blink(m: Counts): Counts {
    BlinkInto(m, [])
  }

  /** Σ count × (2 for an engraving of even length, else 1). */
  function Weighted(m: Counts): nat {
    if m == [] then 0 else m[0].1 * (if |m[0].0| % 2 == 0 then 2 else 1) + Weighted(m[1..])
  }

  /** The engravings the stones of `m` turn into. */
  function Produced(m: Counts): set<string> {
    if m == [] then {} else (set s | s in Successors(m[0].0)) + Produced(m[1..])
  }

  lemma {:induction false} BlinkIntoMeaning(m: Counts, result: Counts, k: string)
    requires KeysDistinct(result)
    ensures KeysDistinct(BlinkInto(m, result))
    ensures GetOrZero(BlinkInto(m, result), k) == GetOrZero(result, k) + multiset(Expand(Unroll(m)))[k]
    ensures SumValues(BlinkInto(m, result)) == SumValues(result) + Weighted(m)
    ensures KeySet(BlinkInto(m, result)) == KeySet(result) + Produced(m)
  {
    if m != [] {
      var (stone, count) := m[0];
      BumpAllDistinct(result, Successors(stone), count);
      BumpAllCount(result, Successors(stone), count, k);
      BumpAllSum(result, Successors(stone), count);
      BumpAllKeys(result, Successors(stone), count);
      BlinkIntoMeaning(m[1..], Act(result, stone, count), k);
      ExpandAppend(Repeat(stone, count), Unroll(m[1..]));
      ExpandRepeat(stone, count, k);
    }
  }

  /** A blink of the table is a blink of the row it stands for. */
  lemma BlinkRepresents(m: Counts, row: seq<string>)
    requires Represents(m, row)
    ensures Represents(Blink(m), Expand(row))
  {
    RepresentsRow(m, row);
    ExpandPermutes(Unroll(m), row);
    forall k ensures GetOrZero(Blink(m), k) == multiset(Expand(row))[k] {
      BlinkIntoMeaning(m, [], k);
    }
    BlinkIntoMeaning(m, [], "");
  }

  /** After a blink the total is Σ count × (2 for an even-length
      engraving, else 1): never less than before. */
  lemma BlinkTotal(m: Counts)
    requires KeysDistinct(m)
    ensures SumValues(Blink(m)) == Weighted(m)
    ensures SumValues(Blink(m)) >= SumValues(m)
  {
    BlinkIntoMeaning(m, [], "");
    WeightedAtLeast(m);
  }

  lemma {:induction false} WeightedAtLeast(m: Counts)
    ensures Weighted(m) >= SumValues(m)
  {
    if m != [] {
      WeightedAtLeast(m[1..]);
    }
  }

  // ---------------------------------------------------------------------
  // The solver
  // ---------------------------------------------------------------------

  /** The tally of a blink, in terms of the row the table stands for. */
  lemma BlinkMeaning(m: Counts)
    requires KeysDistinct(m)
    ensures KeysDistinct(Blink(m))
    ensures forall k :: GetOrZero(Blink(m), k) == multiset(Expand(Unroll(m)))[k]
    ensures KeySet(Blink(m)) == Produced(m)
  {
    forall k ensures GetOrZero(Blink(m), k) == multiset(Expand(Unroll(m)))[k] {
      BlinkIntoMeaning(m, [], k);
    }
    BlinkIntoMeaning(m, [], "");
  }

  /** The first loop of `makeBlink`: `makeActionWithStone` on every entry
      into a fresh map. */
  method ActOnAll(stoneCounts: Counts) returns (result: Counts)
    ensures result == Blink(stoneCounts)
  {
    result := [];
    for i := 0 to |stoneCounts|
      invariant BlinkInto(stoneCounts[i..], result) == Blink(stoneCounts)
    {
      assert stoneCounts[i..][1..] == stoneCounts[i + 1..];
      result := Act(result, stoneCounts[i].0, stoneCounts[i].1);
    }
  }

  /** `stoneCounts.clear()` followed by the copying loop: with distinct
      keys every `set` appends, so the copy equals the source, order
      included. */
  method CopyEntries(result: Counts) returns (r: Counts)
    requires KeysDistinct(result)
    ensures r == result
  {
    r := [];
    for i := 0 to |result|
      invariant r == result[..i]
    {
      assert result[i].0 !in KeySet(result[..i]);
      SetNew(r, result[i].0, result[i].1);
      assert result[..i + 1] == result[..i] + [result[i]];
      r := Set(r, result[i].0, result[i].1);
    }
    assert result[..|result|] == result;
  }

  /** `makeBlink`: the table afterwards holds exactly the successors of the
      stones it held, each counted once per stone it came from; nothing of
      the old contents is kept. */
  method MakeBlink(stoneCounts: Counts) returns (r: Counts)
    requires KeysDistinct(stoneCounts)
    ensures r == Blink(stoneCounts) && KeysDistinct(r)
    ensures forall k :: GetOrZero(r, k) == multiset(Expand(Unroll(stoneCounts)))[k]
    ensures KeySet(r) == Produced(stoneCounts)
  {
    var result := ActOnAll(stoneCounts);
    BlinkMeaning(stoneCounts);
    r := CopyEntries(result);
  }

  /** `getTotalCount`: the sum of the counts. */
  method GetTotalCount(stoneCounts: Counts) returns (total: nat)
    ensures total == SumValues(stoneCounts)
  {
    total := 0;
    for i := 0 to |stoneCounts|
      invariant total + SumValues(stoneCounts[i..]) == SumValues(stoneCounts)
    {
      assert stoneCounts[i..][1..] == stoneCounts[i + 1..];
      total := total + stoneCounts[i].1;
    }
  }

  /** The first loop of `solvePart1`/`solvePart2`: one count per input
      token. The table stands for the input row, so its total is the
      number of tokens. */
  method CountStones(stones: seq<string>) returns (m: Counts)
    ensures Represents(m, stones)
    ensures SumValues(m) == |stones|
  {
    m := [];
    for i := 0 to |stones|
      invariant Represents(m, stones[..i])
    {
      BumpKeepsKeysDistinct(m, stones[i], 1);
      assert stones[..i + 1] == stones[..i] + [stones[i]];
      m := Bump(m, stones[i], 1);
    }
    assert stones[..|stones|] == stones;
    RepresentsRow(m, stones);
  }

  /** Count the tokens, blink `blinks` times, and total the counts: the
      number of stones in the row after that many blinks. */
  method Solve(stones: seq<string>, blinks: nat) returns (total: nat)
    ensures total == |Row(stones, blinks)|
    ensures total >= |stones|
  {
    var m := CountStones(stones);
    for i := 0 to blinks
      invariant Represents(m, Row(stones, i))
      invariant |Row(stones, i)| >= |stones|
    {
      BlinkRepresents(m, Row(stones, i));
      m := MakeBlink(m);
    }
    total := GetTotalCount(m);
    RepresentsRow(m, Row(stones, blinks));
  }

  /** `solvePart1`: the stones after 25 blinks. */
  method SolvePart1(stones: seq<string>) returns (total: nat)
    ensures total == |Row(stones, 25)|
  {
    total := Solve(stones, 25);
  }

  /** `solvePart2`: the stones after 75 blinks. */
  method SolvePart2(stones: seq<string>) returns (total: nat)
    ensures total == |Row(stones, 75)|
  {
    total := Solve(stones, 75);
  }
}

=== FILE: day12_garden_fences.dfy ===
/** Day 12 of 2024, "Garden Groups", the fences: a plot needs a fence on
    each side where the map ends or a plot of another plant begins. The
    perimeter of a region counts fenced sides of its plots; the number of
    sides counts the straight fence segments they form. */
module GardenFences {
  import opened Options
  import opened Grids
  import Sorting

  type Cell = (int, int)

  // ---------------------------------------------------------------------
  // One plot
  // ---------------------------------------------------------------------

  /** `hasUpFence`. */
  predicate HasUpFence(g: Grid, i: int, j: int) {
    i == 0 || (i - 1 >= 0 && At(g, i, j) != At(g, i - 1, j))
  }

  /** `hasDownFence`. */
  predicate HasDownFence(g: Grid, i: int, j: int) {
    i == |g| - 1 || (i + 1 < |g| && At(g, i, j) != At(g, i + 1, j))
  }

  /** `hasLeftFence`. */
  predicate HasLeftFence(g: Grid, i: int, j: int) {
    j == 0 || (j - 1 >= 0 && At(g, i, j) != At(g, i, j - 1))
  }

  /** `hasRightFence`: the right edge is the end of row 0. */
  predicate HasRightFence(g: Grid, i: int, j: int) {
    j == Width(g) - 1 || (j + 1 < Width(g) && At(g, i, j) != At(g, i, j + 1))
  }

  predicate HasFence(g: Grid, c: Cell, h: Heading) {
    match h
    case Up => HasUpFence(g, c.0, c.1)
    case Down => HasDownFence(g, c.0, c.1)
    case Left => HasLeftFence(g, c.0, c.1)
    case Right => HasRightFence(g, c.0, c.1)
  }

  /** The cell one step from `c` towards `h`. */
  function Toward(c: Cell, h: Heading): Cell {
    (c.0 + Offset(h).0, c.1 + Offset(h).1)
  }

  /** On a rectangular map a plot has a fence on a side exactly when the
      map ends there or the neighbouring plot holds another plant. */
  lemma FenceMeaning(g: Grid, c: Cell, h: Heading)
    requires Rectangular(g) && InGrid(g, c.0, c.1)
    ensures HasFence(g, c, h) <==> At(g, Toward(c, h).0, Toward(c, h).1) != At(g, c.0, c.1)
  {
  }

  /** The fenced sides of one plot, each as (plot, side). */
  function FencesAt(g: Grid, c: Cell): set<(Cell, Heading)> {
    (if HasFence(g, c, Up) then {(c, Up)} else {}) +
    (if HasFence(g, c, Down) then {(c, Down)} else {}) +
    (if HasFence(g, c, Left) then {(c, Left)} else {}) +
    (if HasFence(g, c, Right) then {(c, Right)} else {})
  }

  lemma FencesAtMembers(g: Grid, c: Cell)
    ensures forall e :: e in FencesAt(g, c) <==> e.0 == c && HasFence(g, c, e.1)
  {
  }

  /** `calcFence`'s result. The source leaves the flags it does not set
      `undefined`, which is false here. */
  datatype FenceFlags = FenceFlags(left: bool, right: bool, up: bool, down: bool, count: nat)

  /** `calcFence`: which sides of the plot are fenced, and how many. */
  function CalcFence(g: Grid, i: int, j: int): (r: FenceFlags)
    ensures r.up == HasFence(g, (i, j), Up) && r.down == HasFence(g, (i, j), Down)
    ensures r.left == HasFence(g, (i, j), Left) && r.right == HasFence(g, (i, j), Right)
    ensures r.count == |FencesAt(g, (i, j))| <= 4
  {
    var up := HasUpFence(g, i, j);
    var down := HasDownFence(g, i, j);
    var left := HasLeftFence(g, i, j);
    var right := HasRightFence(g, i, j);
    var count := (if up then 1 else 0) + (if down then 1 else 0) + (if left then 1 else 0) + (if right then 1 else 0);
    FencesAtCard(g, (i, j));
    FenceFlags(left, right, up, down, count)
  }

  lemma FencesAtCard(g: Grid, c: Cell)
    ensures |FencesAt(g, c)| ==
      (if HasFence(g, c, Up) then 1 else 0) + (if HasFence(g, c, Down) then 1 else 0) +
      (if HasFence(g, c, Left) then 1 else 0) + (if HasFence(g, c, Right) then 1 else 0)
  {
    var a: set<(Cell, Heading)> := if HasFence(g, c, Up) then {(c, Up)} else {};
    var b: set<(Cell, Heading)> := if HasFence(g, c, Down) then {(c, Down)} else {};
    var l: set<(Cell, Heading)> := if HasFence(g, c, Left) then {(c, Left)} else {};
    var r: set<(Cell, Heading)> := if HasFence(g, c, Right) then {(c, Right)} else {};
    var ab := a + b;
    assert a !! b;
    assert |ab| == |a| + |b|;
    var abl := ab + l;
    assert ab !! l;
    assert |abl| == |ab| + |l|;
    assert abl !! r;
    assert |abl + r| == |abl| + |r|;
    assert FencesAt(g, c) == abl + r;
  }

  // ---------------------------------------------------------------------
  // A region's fences
  // ---------------------------------------------------------------------

  /** Every fenced side of the plots of `region`. */
  ghost function FenceSides(g: Grid, region: set<Cell>): set<(Cell, Heading)> {
    set c, h | c in region && h in AllHeadings() && HasFence(g, c, h) :: (c, h)
  }

  /** The plots of `region` fenced on side `h`. */
  ghost function FencedCells(g: Grid, region: set<Cell>, h: Heading): set<Cell> {
    set c | c in region && HasFence(g, c, h)
  }

  /** One more plot adds exactly its own fenced sides. */
  lemma AddPlotFences(g: Grid, region: set<Cell>, c: Cell)
    requires c !in region
    ensures |FenceSides(g, region + {c})| == |FenceSides(g, region)| + |FencesAt(g, c)|
    ensures forall h :: (FencedCells(g, region + {c}, h) ==
      FencedCells(g, region, h) + if HasFence(g, c, h) then {c} else {})
  {
    AddPlotSides(g, region, c);
    forall h ensures FencedCells(g, region + {c}, h) == FencedCells(g, region, h) + if HasFence(g, c, h) then {c} else {} {
    }
  }

  lemma FenceSidesMembers(g: Grid, region: set<Cell>, e: (Cell, Heading))
    ensures e in FenceSides(g, region) <==> e.0 in region && HasFence(g, e.0, e.1)
  {
    AllHeadingsCard();
    if e.0 in region && HasFence(g, e.0, e.1) {
      assert e == (e.0, e.1);
    }
  }

  /** The fenced sides of one more plot are its own, and they are new. */
  lemma AddPlotSides(g: Grid, region: set<Cell>, c: Cell)
    requires c !in region
    ensures FenceSides(g, region + {c}) == FenceSides(g, region) + FencesAt(g, c)
    ensures FenceSides(g, region) !! FencesAt(g, c)
  {
    FencesAtMembers(g, c);
    forall e ensures e in FenceSides(g, region + {c}) <==> e in FenceSides(g, region) + FencesAt(g, c) {
      FenceSidesMembers(g, region + {c}, e);
      FenceSidesMembers(g, region, e);
    }
    forall e | e in FencesAt(g, c) ensures e !in FenceSides(g, region) {
      FenceSidesMembers(g, region, e);
    }
  }

  /** The `fences` record of `findRegion`: the plots fenced on each side, in
      the order they were visited, and the number of fenced sides. */
  datatype Fences = Fences(left: seq<Cell>, right: seq<Cell>, up: seq<Cell>, down: seq<Cell>, count: nat)

  predicate Distinct(s: seq<Cell>) {
    forall a, b :: 0 <= a < b < |s| ==> s[a] != s[b]
  }

  function Elements(s: seq<Cell>): set<Cell> {
    set c | c in s
  }

  lemma ElementsSnoc(s: seq<Cell>, x: Cell)
    ensures Elements(s + [x]) == Elements(s) + {x}
  {
  }

  /** `fences` records exactly the fenced sides of `region`: each side's
      list holds each fenced plot once, and `count` is the perimeter. */
  ghost predicate Records(g: Grid, region: set<Cell>, f: Fences) {
    f.count == |FenceSides(g, region)| &&
    Distinct(f.left) && Elements(f.left) == FencedCells(g, region, Left) &&
    Distinct(f.right) && Elements(f.right) == FencedCells(g, region, Right) &&
    Distinct(f.up) && Elements(f.up) == FencedCells(g, region, Up) &&
    Distinct(f.down) && Elements(f.down) == FencedCells(g, region, Down)
  }

  function AppendIf(s: seq<Cell>, b: bool, c: Cell): seq<Cell> {
    if b then s + [c] else s
  }

  lemma AppendIfKeeps(s: seq<Cell>, b: bool, c: Cell, cells: set<Cell>)
    requires Distinct(s) && Elements(s) == cells && c !in cells
    ensures Distinct(AppendIf(s, b, c)) && Elements(AppendIf(s, b, c)) == cells + if b then {c} else {}
  {
  }

  /** `setFencesForPlot`: each fenced side of the plot is pushed to its list
      and the plot's fence count is added. */
  function SetFencesForPlot(g: Grid, i: int, j: int, f: Fences): (r: Fences)
    ensures r.count == f.count + |FencesAt(g, (i, j))|
  {
    var flags := CalcFence(g, i, j);
    Fences(AppendIf(f.left, flags.left, (i, j)), AppendIf(f.right, flags.right, (i, j)),
           AppendIf(f.up, flags.up, (i, j)), AppendIf(f.down, flags.down, (i, j)), f.count + flags.count)
  }

  /** Recording a new plot of the region keeps the record exact. */
  lemma SetFencesRecords(g: Grid, region: set<Cell>, f: Fences, c: Cell)
    requires Records(g, region, f) && c !in region
    ensures Records(g, region + {c}, SetFencesForPlot(g, c.0, c.1, f))
  {
    AddPlotFences(g, region, c);
    var flags := CalcFence(g, c.0, c.1);
    AppendIfKeeps(f.left, flags.left, c, FencedCells(g, region, Left));
    AppendIfKeeps(f.right, flags.right, c, FencedCells(g, region, Right));
    AppendIfKeeps(f.up, flags.up, c, FencedCells(g, region, Up));
    AppendIfKeeps(f.down, flags.down, c, FencedCells(g, region, Down));
  }

  // ---------------------------------------------------------------------
  // Sides
  // ---------------------------------------------------------------------

  /** The sort key: left and right fences by (column, row), up and down
      fences by (row, column). A fence segment of a vertical side runs
      down a column, of a horizontal side along a row. */
  function Key(c: Cell, vertical: bool): seq<int> {
    if vertical then [c.1, c.0] else [c.0, c.1]
  }

  /** The plot before `c` on the same fence line. */
  function Pred(c: Cell, vertical: bool): Cell {
    if vertical then (c.0 - 1, c.1) else (c.0, c.1 - 1)
  }

  /** The plots of `cells` that begin a fence segment: their predecessor on
      the line is not fenced on that side. */
  ghost function Starts(cells: set<Cell>, vertical: bool): set<Cell> {
    set c | c in cells && Pred(c, vertical) !in cells
  }

  /** The sorting loop's count: positions whose plot does not continue the
      segment of the plot before it. */
  function Breaks(s: seq<Cell>, vertical: bool): nat {
    if |s| <= 1 then 0
    else Breaks(s[..|s| - 1], vertical) + if s[|s| - 2] != Pred(s[|s| - 1], vertical) then 1 else 0
  }

  lemma KeyOrder(a: Cell, b: Cell, vertical: bool)
    ensures Sorting.LexLe(Key(a, vertical), Key(b, vertical)) <==>
      if vertical then a.1 < b.1 || (a.1 == b.1 && a.0 <= b.0) else a.0 < b.0 || (a.0 == b.0 && a.1 <= b.1)
  {
    var ka, kb := Key(a, vertical), Key(b, vertical);
    LexPair(ka[0], ka[1], kb[0], kb[1]);
    assert ka == [ka[0], ka[1]] && kb == [kb[0], kb[1]];
  }

  lemma LexPair(x0: int, x1: int, y0: int, y1: int)
    ensures Sorting.LexLe([x0, x1], [y0, y1]) <==> x0 < y0 || (x0 == y0 && x1 <= y1)
  {
    assert [x0, x1][1..] == [x1] && [y0, y1][1..] == [y1];
    assert [x1][1..] == [] && [y1][1..] == [];
    assert Sorting.LexLe([], []);
    assert Sorting.LexLe([x1], [y1]) <==> x1 <= y1;
  }

  ghost predicate SortedCells(s: seq<Cell>, vertical: bool) {
    Sorting.SortedBy(s, c => Key(c, vertical))
  }

  /** In a sorted list every plot comes after every earlier one. */
  lemma {:induction false} SortedPairs(s: seq<Cell>, vertical: bool, a: int, b: int)
    requires SortedCells(s, vertical) && 0 <= a <= b < |s|
    ensures Sorting.LexLe(Key(s[a], vertical), Key(s[b], vertical))
    decreases b - a
  {
    if a == b {
      Sorting.LexLeTotal(Key(s[a], vertical), Key(s[a], vertical));
    } else {
      SortedPairs(s, vertical, a, b - 1);
      assert Sorting.LexLe(Key(s[b - 1], vertical), Key(s[b], vertical));
      Sorting.LexLeTransitive(Key(s[a], vertical), Key(s[b - 1], vertical), Key(s[b], vertical));
    }
  }

  /** Adding a plot that sorts after every plot of `cells` adds it as a
      segment start exactly when its predecessor is not `prev`, the last
      plot before it; no other start changes. */
  lemma StartsSnoc(cells: set<Cell>, x: Cell, prev: Cell, vertical: bool)
    requires x !in cells && prev in cells
    requires forall y :: y in cells ==> Sorting.LexLe(Key(y, vertical), Key(prev, vertical))
    requires Sorting.LexLe(Key(prev, vertical), Key(x, vertical))
    ensures |Starts(cells + {x}, vertical)| == |Starts(cells, vertical)| + if prev != Pred(x, vertical) then 1 else 0
  {
    var before, after := Starts(cells, vertical), Starts(cells + {x}, vertical);
    StartsKept(cells, x, prev, vertical);
    if Pred(x, vertical) in cells {
      var p := Pred(x, vertical);
      KeyOrder(p, prev, vertical);
      KeyOrder(prev, x, vertical);
      assert p == prev;
      assert x !in after;
      assert after == before;
    } else {
      assert x in after;
      assert after == before + {x};
    }
  }

  /** The plots of `cells` start a segment after `x` is added exactly when
      they did before, and `x` did not. */
  lemma StartsKept(cells: set<Cell>, x: Cell, prev: Cell, vertical: bool)
    requires x !in cells && prev in cells
    requires forall y :: y in cells ==> Sorting.LexLe(Key(y, vertical), Key(prev, vertical))
    requires Sorting.LexLe(Key(prev, vertical), Key(x, vertical))
    ensures forall y :: y in cells ==> (y in Starts(cells + {x}, vertical) <==> y in Starts(cells, vertical))
    ensures x !in Starts(cells, vertical)
  {
    KeyOrder(prev, x, vertical);
    forall y | y in cells ensures y in Starts(cells + {x}, vertical) <==> y in Starts(cells, vertical) {
      KeyOrder(y, prev, vertical);
      assert Pred(y, vertical) != x;
    }
  }

  lemma PrefixFacts(s: seq<Cell>, vertical: bool)
    requires SortedCells(s, vertical) && Distinct(s) && |s| > 1
    ensures var p := s[..|s| - 1];
      SortedCells(p, vertical) && Distinct(p) && Elements(s) == Elements(p) + {s[|s| - 1]} &&
      s[|s| - 1] !in Elements(p) &&
      (forall y :: y in Elements(p) ==> Sorting.LexLe(Key(y, vertical), Key(p[|p| - 1], vertical))) &&
      Sorting.LexLe(Key(p[|p| - 1], vertical), Key(s[|s| - 1], vertical))
  {
    var p, x := s[..|s| - 1], s[|s| - 1];
    assert s == p + [x];
    forall y | y in Elements(p) ensures Sorting.LexLe(Key(y, vertical), Key(p[|p| - 1], vertical)) {
      var a :| 0 <= a < |p| && p[a] == y;
      SortedPairs(s, vertical, a, |p| - 1);
    }
  }

  /** For a sorted list of distinct plots, one more than the number of
      breaks is the number of fence segments. */
  lemma {:induction false} BreaksCountSegments(s: seq<Cell>, vertical: bool)
    requires SortedCells(s, vertical) && Distinct(s) && |s| > 0
    ensures Breaks(s, vertical) + 1 == |Starts(Elements(s), vertical)|
  {
    if |s| == 1 {
      assert Elements(s) == {s[0]};
      assert Starts(Elements(s), vertical) == {s[0]};
    } else {
      var p, x := s[..|s| - 1], s[|s| - 1];
      PrefixFacts(s, vertical);
      BreaksCountSegments(p, vertical);
      StartsSnoc(Elements(p), x, p[|p| - 1], vertical);
    }
  }

  /** What one sorted list adds beyond its one assumed side: a segment
      for every break. */
  ghost function ExtraSides(cells: set<Cell>, vertical: bool): nat {
    if |Starts(cells, vertical)| == 0 then 0 else |Starts(cells, vertical)| - 1
  }

  /** The side count of a region: four, plus every fence segment beyond
      the first on each side. When each side has a fence this is the
      number of fence segments. */
  ghost function SidesOf(g: Grid, region: set<Cell>): nat {
    4 + ExtraSides(FencedCells(g, region, Left), true) + ExtraSides(FencedCells(g, region, Right), true) +
    ExtraSides(FencedCells(g, region, Up), false) + ExtraSides(FencedCells(g, region, Down), false)
  }

  lemma {:induction false} DistinctCount(a: seq<Cell>, x: Cell)
    requires Distinct(a)
    ensures multiset(a)[x] <= 1
  {
    if a != [] {
      var p := a[..|a| - 1];
      assert a == p + [a[|a| - 1]];
      DistinctCount(p, x);
      if a[|a| - 1] == x {
        assert x !in p;
      }
    }
  }

  lemma TwiceCounted(b: seq<Cell>, i: int, j: int)
    requires 0 <= i < j < |b|
    ensures b[i] == b[j] ==> multiset(b)[b[i]] >= 2
  {
    assert b == b[..j] + b[j..];
    assert b[i] in b[..j] && b[j] in b[j..];
    assert multiset(b)[b[i]] == multiset(b[..j])[b[i]] + multiset(b[j..])[b[i]];
  }

  /** A permutation of distinct plots holds the same plots, again
      distinct. */
  lemma DistinctPermutation(a: seq<Cell>, b: seq<Cell>)
    requires multiset(a) == multiset(b)
    ensures Elements(a) == Elements(b)
    ensures Distinct(a) ==> Distinct(b)
  {
    assert forall x :: x in a <==> x in multiset(a);
    assert forall x :: x in b <==> x in multiset(b);
    if Distinct(a) {
      forall i, j | 0 <= i < j < |b| ensures b[i] != b[j] {
        DistinctCount(a, b[i]);
        TwiceCounted(b, i, j);
      }
    }
  }

  /** One of `calcSides`'s passes: sort one list, then count the breaks. */
  method CountBreaks(fences: seq<Cell>, vertical: bool) returns (breaks: nat)
    ensures Distinct(fences) ==> breaks == ExtraSides(Elements(fences), vertical)
  {
    var sorted := Sorting.SortBy(fences, c => Key(c, vertical));
    breaks := BreaksLoop(sorted, vertical);
    SortedBreaks(fences, sorted, vertical);
  }

  /** The counting loop over a sorted list. */
  method BreaksLoop(sorted: seq<Cell>, vertical: bool) returns (breaks: nat)
    ensures breaks == Breaks(sorted, vertical)
  {
    breaks := 0;
    if |sorted| > 0 {
      for i := 1 to |sorted|
        invariant breaks == Breaks(sorted[..i], vertical)
      {
        assert sorted[..i + 1][..i] == sorted[..i];
        var broken := if vertical then sorted[i].1 != sorted[i - 1].1 || sorted[i].0 != sorted[i - 1].0 + 1
                      else sorted[i].0 != sorted[i - 1].0 || sorted[i].1 != sorted[i - 1].1 + 1;
        if broken {
          breaks := breaks + 1;
        }
      }
      assert sorted[..|sorted|] == sorted;
    }
  }

  lemma SortedBreaks(fences: seq<Cell>, sorted: seq<Cell>, vertical: bool)
    requires multiset(sorted) == multiset(fences) && SortedCells(sorted, vertical)
    ensures Distinct(fences) ==> Breaks(sorted, vertical) == ExtraSides(Elements(fences), vertical)
  {
    DistinctPermutation(fences, sorted);
    if Distinct(fences) && |sorted| > 0 {
      BreaksCountSegments(sorted, vertical);
    }
  }

  /** `calcSides`: four, plus the breaks of each sorted side list. For
      lists without repeated plots that is four plus every fence segment
      beyond the first on each side. */
  method CalcSides(f: Fences) returns (sides: nat)
    ensures Distinct(f.left) && Distinct(f.right) && Distinct(f.up) && Distinct(f.down) ==>
      sides == 4 + ExtraSides(Elements(f.left), true) + ExtraSides(Elements(f.right), true) +
               ExtraSides(Elements(f.up), false) + ExtraSides(Elements(f.down), false)
  {
    var left := CountBreaks(f.left, true);
    var right := CountBreaks(f.right, true);
    var up := CountBreaks(f.up, false);
    var down := CountBreaks(f.down, false);
    sides := 4 + left + right + up + down;
  }

  /** For an exact record of a region's fences `calcSides` counts the
      region's sides. */
  lemma CalcSidesOfRecord(g: Grid, region: set<Cell>, f: Fences)
    requires Records(g, region, f)
    ensures 4 + ExtraSides(Elements(f.left), true) + ExtraSides(Elements(f.right), true) +
            ExtraSides(Elements(f.up), false) + ExtraSides(Elements(f.down), false) == SidesOf(g, region)
  {
  }

  // ---------------------------------------------------------------------
  // Every region is fenced on all four sides
  // ---------------------------------------------------------------------

  /** How far `c` lies towards `h`: one step towards `h` adds one. */
  function Reach(c: Cell, h: Heading): int {
    match h
    case Up => -c.0
    case Down => c.0
    case Left => -c.1
    case Right => c.1
  }

  /** A plot of `cells` lying farthest towards `h`. */
  lemma {:induction false} Farthest(cells: set<Cell>, h: Heading) returns (c: Cell)
    requires cells != {}
    ensures c in cells && forall d :: d in cells ==> Reach(d, h) <= Reach(c, h)
    decreases |cells|
  {
    var x :| x in cells;
    if cells == {x} {
      c := x;
    } else {
      var c' := Farthest(cells - {x}, h);
      c := if Reach(x, h) >= Reach(c', h) then x else c';
    }
  }

  /** A region as the puzzle means it: its plots are on the map, and a
      neighbouring plot of the same plant belongs to it. */
  ghost predicate Closed(g: Grid, region: set<Cell>) {
    (forall c :: c in region ==> InGrid(g, c.0, c.1)) &&
    forall c, h :: c in region && At(g, Toward(c, h).0, Toward(c, h).1) == At(g, c.0, c.1) ==> Toward(c, h) in region
  }

  /** The plot of a region farthest towards a side has a fence on that
      side: the next plot is off the map or grows another plant. */
  lemma FencedOnEverySide(g: Grid, region: set<Cell>, h: Heading)
    requires Rectangular(g) && Closed(g, region) && region != {}
    ensures FencedCells(g, region, h) != {}
  {
    var c := Farthest(region, h);
    var n := Toward(c, h);
    assert Reach(n, h) == Reach(c, h) + 1;
    FenceMeaning(g, c, h);
    assert c in FencedCells(g, region, h);
  }

  /** A non-empty set of fenced plots begins at least one segment: its
      first plot along the line. */
  lemma StartsExist(cells: set<Cell>, vertical: bool)
    requires cells != {}
    ensures Starts(cells, vertical) != {}
  {
    var h := if vertical then Up else Left;
    var c := Farthest(cells, h);
    assert Reach(Pred(c, vertical), h) == Reach(c, h) + 1;
    assert c in Starts(cells, vertical);
  }

  /** On a rectangular map the side count of a region is exactly the
      number of its straight fence segments: the 4 that `calcSides` starts
      from is one segment on each side. */
  lemma SidesAreSegments(g: Grid, region: set<Cell>)
    requires Rectangular(g) && Closed(g, region) && region != {}
    ensures SidesOf(g, region) ==
      |Starts(FencedCells(g, region, Left), true)| + |Starts(FencedCells(g, region, Right), true)| +
      |Starts(FencedCells(g, region, Up), false)| + |Starts(FencedCells(g, region, Down), false)|
  {
    FencedOnEverySide(g, region, Left);
    FencedOnEverySide(g, region, Right);
    FencedOnEverySide(g, region, Up);
    FencedOnEverySide(g, region, Down);
    StartsExist(FencedCells(g, region, Left), true);
    StartsExist(FencedCells(g, region, Right), true);
    StartsExist(FencedCells(g, region, Up), false);
    StartsExist(FencedCells(g, region, Down), false);
  }
}

=== FILE: day12_garden_regions.dfy ===
/** Day 12 of 2024, "Garden Groups", the regions: a flood fill from each
    plot not yet visited collects the plots of the same plant it can reach,
    and the price of the garden is the sum over regions of area times
    perimeter (part one) or area times number of sides (part two). */
module GardenRegions {
  import opened Options
  import opened Grids
  import opened GardenFences

  /** The four steps `findRegion` tries, in its order. */
  const Dirs: seq<Cell> := [(0, 1), (0, -1), (1, 0), (-1, 0)]

  // ---------------------------------------------------------------------
  // What a region is
  // ---------------------------------------------------------------------

  /** One step of the flood fill: `b` is a neighbour of `a` inside the
      bounds the search checks (the rows of the grid, the width of its
      first row) and it grows `plant`. */
  ghost predicate Link(g: Grid, plant: char, a: Cell, b: Cell) {
    (b.0 - a.0, b.1 - a.1) in Dirs && 0 <= b.0 < |g| && 0 <= b.1 < Width(g) && At(g, b.0, b.1) == Some(plant)
  }

  /** A walk of steps none of which enters a plot of `avoid`. */
  ghost predicate IsWalk(g: Grid, plant: char, avoid: set<Cell>, p: seq<Cell>) {
    |p| > 0 && forall k :: 0 < k < |p| ==> p[k] !in avoid && Link(g, plant, p[k - 1], p[k])
  }

  ghost predicate WalkFrom(g: Grid, plant: char, avoid: set<Cell>, p: seq<Cell>, start: Cell, c: Cell) {
    IsWalk(g, plant, avoid, p) && p[0] == start && p[|p| - 1] == c
  }

  ghost predicate Reachable(g: Grid, plant: char, avoid: set<Cell>, start: Cell, c: Cell) {
    exists p :: WalkFrom(g, plant, avoid, p, start, c)
  }

  /** The region grown from `start` when the plots of `avoid` are already
      visited: the start and every plot a walk from it reaches without
      entering a visited plot. */
  ghost function Region(g: Grid, start: Cell, avoid: set<Cell>): set<Cell>
    requires InGrid(g, start.0, start.1)
  {
    {start} + set c | c in CellsOf(g) && Reachable(g, g[start.0][start.1], avoid, start, c)
  }

  /** A set holding the start and closed under the steps is all of the
      region, and a set whose every plot has a walk from the start is part
      of it. */
  lemma RegionIs(g: Grid, plant: char, start: Cell, avoid: set<Cell>, r: set<Cell>, paths: map<Cell, seq<Cell>>)
    requires InGrid(g, start.0, start.1) && plant == g[start.0][start.1]
    requires start in r && r <= CellsOf(g) + {start}
    requires forall c :: c in r ==> c in paths && WalkFrom(g, plant, avoid, paths[c], start, c)
    requires forall c, n :: c in r && Link(g, plant, c, n) && n !in avoid ==> n in r
    ensures r == Region(g, start, avoid)
  {
    forall c | c in Region(g, start, avoid) ensures c in r {
      if c != start {
        var p :| WalkFrom(g, plant, avoid, p, start, c);
        WalkStaysIn(g, plant, avoid, r, p);
      }
    }
    forall c | c in r ensures c in Region(g, start, avoid) {
      assert WalkFrom(g, plant, avoid, paths[c], start, c);
    }
  }

  lemma {:induction false} WalkStaysIn(g: Grid, plant: char, avoid: set<Cell>, r: set<Cell>, p: seq<Cell>)
    requires IsWalk(g, plant, avoid, p) && p[0] in r
    requires forall c, n :: c in r && Link(g, plant, c, n) && n !in avoid ==> n in r
    ensures p[|p| - 1] in r
  {
    if |p| > 1 {
      var q := p[..|p| - 1];
      assert IsWalk(g, plant, avoid, q) by {
        forall k | 0 < k < |q| ensures q[k] !in avoid && Link(g, plant, q[k - 1], q[k]) {
          assert q[k] == p[k] && q[k - 1] == p[k - 1];
        }
      }
      WalkStaysIn(g, plant, avoid, r, q);
      assert Link(g, plant, p[|p| - 2], p[|p| - 1]);
    }
  }

  /** No plot of a region grown from an unvisited start is visited
      already, and every plot of it is a plot of the grid. */
  lemma RegionFresh(g: Grid, start: Cell, avoid: set<Cell>)
    requires InGrid(g, start.0, start.1) && start !in avoid
    ensures Region(g, start, avoid) !! avoid
    ensures Region(g, start, avoid) <= CellsOf(g)
  {
    var plant := g[start.0][start.1];
    forall c | c in Region(g, start, avoid) ensures c !in avoid {
      if c != start {
        var p :| WalkFrom(g, plant, avoid, p, start, c);
        assert |p| > 1;
      }
    }
    assert start in CellsOf(g);
  }

  /** Every plot of a region grows the start's plant. */
  lemma RegionPlant(g: Grid, start: Cell, avoid: set<Cell>)
    requires InGrid(g, start.0, start.1)
    ensures forall c :: c in Region(g, start, avoid) ==> At(g, c.0, c.1) == Some(g[start.0][start.1])
  {
    var plant := g[start.0][start.1];
    forall c | c in Region(g, start, avoid) ensures At(g, c.0, c.1) == Some(plant) {
      if c != start {
        var p :| WalkFrom(g, plant, avoid, p, start, c);
        assert Link(g, plant, p[|p| - 2], p[|p| - 1]);
      }
    }
  }

  /** A step out of the region either lands in it or on a plot visited
      before. */
  lemma RegionClosed(g: Grid, start: Cell, avoid: set<Cell>, c: Cell, n: Cell)
    requires InGrid(g, start.0, start.1) && c in Region(g, start, avoid)
    requires Link(g, g[start.0][start.1], c, n)
    ensures n in Region(g, start, avoid) || n in avoid
  {
    var plant := g[start.0][start.1];
    if n !in avoid {
      var p: seq<Cell>;
      if c == start {
        p := [start];
      } else {
        p :| WalkFrom(g, plant, avoid, p, start, c);
      }
      var p' := p + [n];
      assert WalkFrom(g, plant, avoid, p', start, n) by {
        forall k | 0 < k < |p'| ensures p'[k] !in avoid && Link(g, plant, p'[k - 1], p'[k]) {
          if k < |p| {
            assert p'[k] == p[k] && p'[k - 1] == p[k - 1];
          }
        }
      }
      assert n in CellsOf(g);
    }
  }

  // ---------------------------------------------------------------------
  // The flood fill
  // ---------------------------------------------------------------------

  /** The state of `findRegion` part way: `r` is the set of plots found so
      far, each reached by the walk `paths` holds for it, `visited` is the
      visited set on entry plus `r`, `square` counts `r` and `fences`
      records the fences of `r`. */
  ghost predicate Explored(g: Grid, plant: char, start: Cell, visited0: set<Cell>, visited: set<Cell>,
                           r: set<Cell>, paths: map<Cell, seq<Cell>>, square: int, f: Fences) {
    start in r && r <= CellsOf(g) + {start} && visited == visited0 + r && square == |r| && Records(g, r, f) &&
    Walks(g, plant, start, visited0, r, paths)
  }

  /** `paths` holds a walk from `start` avoiding `visited0` for every plot of `r`. */
  ghost predicate Walks(g: Grid, plant: char, start: Cell, visited0: set<Cell>, r: set<Cell>, paths: map<Cell, seq<Cell>>) {
    forall c :: c in r ==> c in paths && WalkFrom(g, plant, visited0, paths[c], start, c)
  }

  /** A walk to `c` followed by a step to `n` is a walk to `n`. */
  lemma WalkSnoc(g: Grid, plant: char, avoid: set<Cell>, p: seq<Cell>, start: Cell, c: Cell, n: Cell)
    requires WalkFrom(g, plant, avoid, p, start, c) && Link(g, plant, c, n) && n !in avoid
    ensures WalkFrom(g, plant, avoid, p + [n], start, n)
  {
    var p' := p + [n];
    forall k | 0 < k < |p'| ensures p'[k] !in avoid && Link(g, plant, p'[k - 1], p'[k]) {
      if k < |p| {
        assert p'[k] == p[k] && p'[k - 1] == p[k - 1];
      }
    }
  }

  lemma WalksAdd(g: Grid, plant: char, start: Cell, visited0: set<Cell>, r: set<Cell>, paths: map<Cell, seq<Cell>>,
                 n: Cell, p: seq<Cell>)
    requires Walks(g, plant, start, visited0, r, paths) && WalkFrom(g, plant, visited0, p, start, n)
    ensures Walks(g, plant, start, visited0, r + {n}, paths[n := p])
  {
  }

  lemma AddPlot(g: Grid, plant: char, start: Cell, visited0: set<Cell>, visited: set<Cell>,
                r: set<Cell>, paths: map<Cell, seq<Cell>>, square: int, f: Fences, c: Cell, n: Cell)
    requires Explored(g, plant, start, visited0, visited, r, paths, square, f) && c in r
    requires Link(g, plant, c, n) && n !in visited
    ensures Explored(g, plant, start, visited0, visited + {n}, r + {n}, paths[n := paths[c] + [n]],
                     square + 1, SetFencesForPlot(g, n.0, n.1, f))
  {
    SetFencesRecords(g, r, f, n);
    assert n in CellsOf(g);
    assert n !in r && |r + {n}| == |r| + 1;
    WalkSnoc(g, plant, visited0, paths[c], start, c, n);
    WalksAdd(g, plant, start, visited0, r, paths, n, paths[c] + [n]);
  }

  /** One direction from plot `c`: the neighbour is visited, counted and
      fenced and joins the next queue when it is in bounds, unvisited and
      of the region's plant. */
  method TryStep(g: Grid, plant: char, start: Cell, visited0: set<Cell>, c: Cell, dir: Cell,
                 visited: set<Cell>, square: nat, fences: Fences, next: seq<Cell>,
                 ghost r: set<Cell>, ghost paths: map<Cell, seq<Cell>>)
    returns (visited': set<Cell>, square': nat, fences': Fences, next': seq<Cell>,
             ghost r': set<Cell>, ghost paths': map<Cell, seq<Cell>>)
    requires Explored(g, plant, start, visited0, visited, r, paths, square, fences) && c in r && dir in Dirs
    ensures Explored(g, plant, start, visited0, visited', r', paths', square', fences')
    ensures r <= r' && Elements(next') == Elements(next) + (r' - r)
    ensures Link(g, plant, c, (c.0 + dir.0, c.1 + dir.1)) && (c.0 + dir.0, c.1 + dir.1) !in visited0 ==>
              (c.0 + dir.0, c.1 + dir.1) in r'
  {
    var n := (c.0 + dir.0, c.1 + dir.1);
    if 0 <= n.0 < |g| && 0 <= n.1 < Width(g) && n !in visited && At(g, n.0, n.1) == Some(plant) {
      AddPlot(g, plant, start, visited0, visited, r, paths, square, fences, c, n);
      ElementsSnoc(next, n);
      assert (r + {n}) - r == {n};
      visited' := visited + {n};
      next' := next + [n];
      square' := square + 1;
      fences' := SetFencesForPlot(g, n.0, n.1, fences);
      r' := r + {n};
      paths' := paths[n := paths[c] + [n]];
    } else {
      visited', square', fences', next', r', paths' := visited, square, fences, next, r, paths;
    }
  }

  /** All four directions from plot `c`: afterwards every step out of `c`
      to a plot not visited on entry lands in the region found so far. */
  method ExpandPlot(g: Grid, plant: char, start: Cell, visited0: set<Cell>, c: Cell,
                    visited: set<Cell>, square: nat, fences: Fences, next: seq<Cell>,
                    ghost r: set<Cell>, ghost paths: map<Cell, seq<Cell>>)
    returns (visited': set<Cell>, square': nat, fences': Fences, next': seq<Cell>,
             ghost r': set<Cell>, ghost paths': map<Cell, seq<Cell>>)
    requires Explored(g, plant, start, visited0, visited, r, paths, square, fences) && c in r
    ensures Explored(g, plant, start, visited0, visited', r', paths', square', fences')
    ensures r <= r' && Elements(next') == Elements(next) + (r' - r)
    ensures forall n :: Link(g, plant, c, n) && n !in visited0 ==> n in r'
  {
    visited', square', fences', next', r', paths' := visited, square, fences, next, r, paths;
    for d := 0 to |Dirs|
      invariant Explored(g, plant, start, visited0, visited', r', paths', square', fences')
      invariant r <= r' && Elements(next') == Elements(next) + (r' - r)
      invariant Covered(g, plant, c, visited0, r', d)
    {
      ghost var before, found := r', next';
      var dir := Dirs[d];
      visited', square', fences', next', r', paths' :=
        TryStep(g, plant, start, visited0, c, dir, visited', square', fences', next', r', paths');
      CoveredStep(g, plant, c, visited0, before, r', d, dir);
      assert Elements(next') == Elements(found) + (r' - before);
    }
    AllDirections(g, plant, c, visited0, r');
  }

  /** Every step out of `c` in the first `d` directions to a plot not
      visited on entry lands in `r`. */
  ghost predicate Covered(g: Grid, plant: char, c: Cell, visited0: set<Cell>, r: set<Cell>, d: nat) {
    forall k :: 0 <= k < d && k < |Dirs| ==>
      (Link(g, plant, c, (c.0 + Dirs[k].0, c.1 + Dirs[k].1)) && (c.0 + Dirs[k].0, c.1 + Dirs[k].1) !in visited0 ==>
        (c.0 + Dirs[k].0, c.1 + Dirs[k].1) in r)
  }

  lemma CoveredStep(g: Grid, plant: char, c: Cell, visited0: set<Cell>, r: set<Cell>, r': set<Cell>, d: nat, dir: Cell)
    requires d < |Dirs| && dir == Dirs[d] && Covered(g, plant, c, visited0, r, d) && r <= r'
    requires Link(g, plant, c, (c.0 + dir.0, c.1 + dir.1)) && (c.0 + dir.0, c.1 + dir.1) !in visited0 ==>
      (c.0 + dir.0, c.1 + dir.1) in r'
    ensures Covered(g, plant, c, visited0, r', d + 1)
  {
  }

  lemma AllDirections(g: Grid, plant: char, c: Cell, visited0: set<Cell>, r: set<Cell>)
    requires Covered(g, plant, c, visited0, r, |Dirs|)
    ensures forall n :: Link(g, plant, c, n) && n !in visited0 ==> n in r
  {
    forall n | Link(g, plant, c, n) && n !in visited0 ensures n in r {
      var k :| 0 <= k < |Dirs| && Dirs[k] == (n.0 - c.0, n.1 - c.1);
      assert n == (c.0 + Dirs[k].0, c.1 + Dirs[k].1);
    }
  }

  /** One pass over the queue: every plot found before it is closed under
      the steps afterwards, and the next queue holds exactly the plots the
      pass found. */
  method ExpandQueue(g: Grid, plant: char, start: Cell, visited0: set<Cell>, queue: seq<Cell>,
                     visited: set<Cell>, square: nat, fences: Fences,
                     ghost r: set<Cell>, ghost paths: map<Cell, seq<Cell>>)
    returns (next: seq<Cell>, visited': set<Cell>, square': nat, fences': Fences,
             ghost r': set<Cell>, ghost paths': map<Cell, seq<Cell>>)
    requires Explored(g, plant, start, visited0, visited, r, paths, square, fences) && Elements(queue) <= r
    requires forall c, n :: c in r && c !in queue && Link(g, plant, c, n) && n !in visited0 ==> n in r
    ensures Explored(g, plant, start, visited0, visited', r', paths', square', fences')
    ensures r <= r' && Elements(next) == r' - r
    ensures forall c, n :: c in r' && c !in next && Link(g, plant, c, n) && n !in visited0 ==> n in r'
  {
    next := [];
    visited', square', fences', r', paths' := visited, square, fences, r, paths;
    for q := 0 to |queue|
      invariant Explored(g, plant, start, visited0, visited', r', paths', square', fences')
      invariant r <= r' && Elements(next) == r' - r
      invariant forall c, n :: c in r && c !in queue[q..] && Link(g, plant, c, n) && n !in visited0 ==> n in r'
    {
      assert queue[q..] == [queue[q]] + queue[q + 1..];
      assert queue[q] in Elements(queue);
      visited', square', fences', next, r', paths' :=
        ExpandPlot(g, plant, start, visited0, queue[q], visited', square', fences', next, r', paths');
    }
    assert queue[|queue|..] == [];
  }

  lemma Shrinks(u: set<Cell>, a: set<Cell>, b: set<Cell>, found: seq<Cell>)
    requires a <= b <= u && Elements(found) == b - a
    ensures |u - b| <= |u - a|
    ensures |found| > 0 ==> |u - b| < |u - a|
  {
    assert u - a == (u - b) + (b - a);
    if |found| > 0 {
      assert found[0] in b - a;
    }
  }

  lemma StartExplored(g: Grid, plant: char, start: Cell, visited: set<Cell>)
    requires InGrid(g, start.0, start.1)
    ensures Explored(g, plant, start, visited, visited + {start}, {start}, map[start := [start]], 1,
                     SetFencesForPlot(g, start.0, start.1, Fences([], [], [], [], 0)))
  {
    assert FenceSides(g, {}) == {};
    SetFencesRecords(g, {}, Fences([], [], [], [], 0), start);
    assert WalkFrom(g, plant, visited, [start], start, start);
  }

  /** `findRegion`: the plots it visits, counts and fences are exactly the
      region of the start plot avoiding the plots visited before, and the
      visited set grows by that region. */
  method FindRegion(g: Grid, start: Cell, visited: set<Cell>) returns (square: nat, fences: Fences, visited': set<Cell>)
    requires InGrid(g, start.0, start.1)
    ensures visited' == visited + Region(g, start, visited)
    ensures square == |Region(g, start, visited)|
    ensures Records(g, Region(g, start, visited), fences)
  {
    var plant := g[start.0][start.1];
    fences := SetFencesForPlot(g, start.0, start.1, Fences([], [], [], [], 0));
    StartExplored(g, plant, start, visited);
    ghost var r, paths;
    visited', square, fences, r, paths :=
      Flood(g, plant, start, visited, [start], visited + {start}, 1, fences, {start}, map[start := [start]]);
    RegionIs(g, plant, start, visited, r, paths);
  }

  /** The `while` loop of `findRegion`, level by level until the queue is
      empty; then every plot found is closed under the steps. */
  method Flood(g: Grid, plant: char, start: Cell, visited0: set<Cell>, queue: seq<Cell>,
               visited: set<Cell>, square: nat, fences: Fences,
               ghost r: set<Cell>, ghost paths: map<Cell, seq<Cell>>)
    returns (visited': set<Cell>, square': nat, fences': Fences,
             ghost r': set<Cell>, ghost paths': map<Cell, seq<Cell>>)
    requires Explored(g, plant, start, visited0, visited, r, paths, square, fences) && Elements(queue) <= r
    requires forall c, n :: c in r && c !in queue && Link(g, plant, c, n) && n !in visited0 ==> n in r
    ensures Explored(g, plant, start, visited0, visited', r', paths', square', fences')
    ensures forall c, n :: c in r' && Link(g, plant, c, n) && n !in visited0 ==> n in r'
  {
    var queue := queue;
    visited', square', fences', r', paths' := visited, square, fences, r, paths;
    ghost var u := CellsOf(g) + {start};
    while |queue| > 0
      invariant Explored(g, plant, start, visited0, visited', r', paths', square', fences') && Elements(queue) <= r'
      invariant forall c, n :: c in r' && c !in queue && Link(g, plant, c, n) && n !in visited0 ==> n in r'
      invariant r' <= u
      decreases |u - r'|, |queue|
    {
      ghost var r0 := r';
      queue, visited', square', fences', r', paths' :=
        ExpandQueue(g, plant, start, visited0, queue, visited', square', fences', r', paths');
      Shrinks(u, r0, r', queue);
    }
  }

  // ---------------------------------------------------------------------
  // The scan and the price
  // ---------------------------------------------------------------------

  /** The regions the row-by-row scan of `solvePart1` and `solvePart2`
      finds from plot (i, j) on, given the plots already visited. */
  ghost function Sweep(g: Grid, i: nat, j: nat, visited: set<Cell>): seq<set<Cell>>
    decreases |g| - i, if i < |g| then |g[i]| - j else 0
  {
    if i >= |g| then []
    else if j >= |g[i]| then Sweep(g, i + 1, 0, visited)
    else if (i, j) in visited then Sweep(g, i, j + 1, visited)
    else var region := Region(g, (i, j), visited); [region] + Sweep(g, i, j + 1, visited + region)
  }

  /** The regions of the garden, in the order the scan finds them. */
  ghost function Regions(g: Grid): seq<set<Cell>> {
    Sweep(g, 0, 0, {})
  }

  /** A region's price: area times perimeter, or area times number of
      sides when `bulk`. */
  ghost function RegionPrice(g: Grid, region: set<Cell>, bulk: bool): nat {
    |region| * if bulk then SidesOf(g, region) else |FenceSides(g, region)|
  }

  ghost function Price(g: Grid, regions: seq<set<Cell>>, bulk: bool): nat {
    if regions == [] then 0 else RegionPrice(g, regions[0], bulk) + Price(g, regions[1..], bulk)
  }

  /** The loops of `solvePart1` (`bulk` false) and `solvePart2` (`bulk`
      true): the garden's price, summed over its regions. */
  method TotalPrice(g: Grid, bulk: bool) returns (score: nat)
    ensures score == Price(g, Regions(g), bulk)
  {
    score := 0;
    var visited: set<Cell> := {};
    for i := 0 to |g|
      invariant score + Price(g, Sweep(g, i, 0, visited), bulk) == Price(g, Regions(g), bulk)
    {
      for j := 0 to |g[i]|
        invariant score + Price(g, Sweep(g, i, j, visited), bulk) == Price(g, Regions(g), bulk)
      {
        if (i, j) !in visited {
          var square, fences, visited' := FindRegion(g, (i, j), visited);
          ghost var region := Region(g, (i, j), visited);
          var perimeter: nat;
          if bulk {
            perimeter := CalcSides(fences);
            CalcSidesOfRecord(g, region, fences);
          } else {
            perimeter := fences.count;
          }
          assert Sweep(g, i, j, visited) == [region] + Sweep(g, i, j + 1, visited');
          score := score + square * perimeter;
          visited := visited';
        }
      }
    }
  }

  method SolvePart1(g: Grid) returns (score: nat)
    ensures score == Price(g, Regions(g), false)
  {
    score := TotalPrice(g, false);
  }

  method SolvePart2(g: Grid) returns (score: nat)
    ensures score == Price(g, Regions(g), true)
  {
    score := TotalPrice(g, true);
  }

  // ---------------------------------------------------------------------
  // The regions partition the garden
  // ---------------------------------------------------------------------

  ghost function Union(regions: seq<set<Cell>>): set<Cell> {
    if regions == [] then {} else regions[0] + Union(regions[1..])
  }

  ghost predicate Disjoint(regions: seq<set<Cell>>) {
    regions == [] || (regions[0] !! Union(regions[1..]) && Disjoint(regions[1..]))
  }

  ghost function Area(regions: seq<set<Cell>>): nat {
    if regions == [] then 0 else |regions[0]| + Area(regions[1..])
  }

  /** The plots from (i, j) on in row-major order. */
  ghost function Later(g: Grid, i: int, j: int): set<Cell> {
    set c | c in CellsOf(g) && (c.0 > i || (c.0 == i && c.1 >= j))
  }

  lemma {:induction false} SweepCovers(g: Grid, i: nat, j: nat, visited: set<Cell>)
    ensures Union(Sweep(g, i, j, visited)) <= CellsOf(g) && Union(Sweep(g, i, j, visited)) !! visited
    ensures Later(g, i, j) <= Union(Sweep(g, i, j, visited)) + visited
    ensures Disjoint(Sweep(g, i, j, visited))
    ensures forall k :: 0 <= k < |Sweep(g, i, j, visited)| ==> Sweep(g, i, j, visited)[k] != {}
    decreases |g| - i, if i < |g| then |g[i]| - j else 0
  {
    if i >= |g| {
      assert Later(g, i, j) == {};
    } else if j >= |g[i]| {
      SweepCovers(g, i + 1, 0, visited);
      assert Later(g, i, j) <= Later(g, i + 1, 0);
    } else if (i, j) in visited {
      SweepCovers(g, i, j + 1, visited);
      assert Later(g, i, j) <= Later(g, i, j + 1) + {(i, j)};
    } else {
      var region := Region(g, (i, j), visited);
      RegionFresh(g, (i, j), visited);
      SweepCovers(g, i, j + 1, visited + region);
      var rest := Sweep(g, i, j + 1, visited + region);
      assert Sweep(g, i, j, visited) == [region] + rest;
      assert ([region] + rest)[1..] == rest;
      assert Later(g, i, j) <= Later(g, i, j + 1) + {(i, j)};
    }
  }

  lemma {:induction false} AreaOfDisjoint(regions: seq<set<Cell>>)
    requires Disjoint(regions)
    ensures Area(regions) == |Union(regions)|
  {
    if regions != [] {
      AreaOfDisjoint(regions[1..]);
    }
  }

  lemma {:induction false} UnionHolds(regions: seq<set<Cell>>, k: int)
    requires 0 <= k < |regions|
    ensures regions[k] <= Union(regions)
  {
    if k > 0 {
      UnionHolds(regions[1..], k - 1);
    }
  }

  lemma {:induction false} DisjointPairs(regions: seq<set<Cell>>, a: int, b: int)
    requires Disjoint(regions) && 0 <= a < b < |regions|
    ensures regions[a] !! regions[b]
  {
    if a > 0 {
      DisjointPairs(regions[1..], a - 1, b - 1);
    } else {
      UnionHolds(regions[1..], b - 1);
    }
  }

  /** The regions the scan finds are non-empty, pairwise disjoint and
      together cover the garden, so their areas add up to its plot count. */
  lemma RegionsPartition(g: Grid)
    ensures forall k :: 0 <= k < |Regions(g)| ==> Regions(g)[k] != {}
    ensures forall a, b :: 0 <= a < b < |Regions(g)| ==> Regions(g)[a] !! Regions(g)[b]
    ensures Union(Regions(g)) == CellsOf(g)
    ensures Area(Regions(g)) == |CellsOf(g)|
  {
    SweepCovers(g, 0, 0, {});
    assert Later(g, 0, 0) == CellsOf(g);
    AreaOfDisjoint(Regions(g));
    forall a, b | 0 <= a < b < |Regions(g)| ensures Regions(g)[a] !! Regions(g)[b] {
      DisjointPairs(Regions(g), a, b);
    }
  }

  // ---------------------------------------------------------------------
  // Every region the scan finds is closed
  // ---------------------------------------------------------------------

  /** A step to a side that stays on a rectangular map and keeps the
      plant is one of the four steps of the fill. */
  lemma TowardIsLink(g: Grid, plant: char, c: Cell, h: Heading)
    requires Rectangular(g) && At(g, Toward(c, h).0, Toward(c, h).1) == Some(plant)
    ensures Link(g, plant, c, Toward(c, h))
  {
    var n := Toward(c, h);
    assert |g[n.0]| == |g[0]|;
    match h
    case Up => assert Dirs[3] == (n.0 - c.0, n.1 - c.1);
    case Right => assert Dirs[0] == (n.0 - c.0, n.1 - c.1);
    case Down => assert Dirs[2] == (n.0 - c.0, n.1 - c.1);
    case Left => assert Dirs[1] == (n.0 - c.0, n.1 - c.1);
  }

  /** A same-plant step never enters a closed set from outside it: the
      step back would lead out of the set again. */
  lemma StepOutOfClosed(g: Grid, closed: set<Cell>, c: Cell, h: Heading)
    requires Closed(g, closed) && c !in closed
    requires At(g, Toward(c, h).0, Toward(c, h).1) == At(g, c.0, c.1)
    ensures Toward(c, h) !in closed
  {
    var n := Toward(c, h);
    assert Toward(n, TurnRight(TurnRight(h))) == c by {
      match h case Up => case Right => case Down => case Left =>
    }
  }

  /** A region grown around the visited plots is closed under same-plant
      neighbours, and so is the visited set once it is added: a neighbour
      outside the region would have to be visited already, and then the
      visited set, being closed, would hold the region's plot too. */
  lemma RegionIsClosed(g: Grid, start: Cell, avoid: set<Cell>)
    requires Rectangular(g) && InGrid(g, start.0, start.1) && start !in avoid && Closed(g, avoid)
    ensures Closed(g, Region(g, start, avoid))
    ensures Closed(g, avoid + Region(g, start, avoid))
  {
    var region := Region(g, start, avoid);
    var plant := g[start.0][start.1];
    RegionFresh(g, start, avoid);
    RegionPlant(g, start, avoid);
    forall c, h | c in region && At(g, Toward(c, h).0, Toward(c, h).1) == At(g, c.0, c.1)
      ensures Toward(c, h) in region
    {
      var n := Toward(c, h);
      TowardIsLink(g, plant, c, h);
      RegionClosed(g, start, avoid, c, n);
      StepOutOfClosed(g, avoid, c, h);
    }
    forall c | c in region ensures InGrid(g, c.0, c.1) {
      assert c in CellsOf(g);
    }
  }

  /** The scan only ever finds closed regions, as long as the plots it has
      visited are closed. */
  lemma {:induction false} SweepClosed(g: Grid, i: nat, j: nat, visited: set<Cell>)
    requires Rectangular(g) && Closed(g, visited)
    ensures forall k :: 0 <= k < |Sweep(g, i, j, visited)| ==> Closed(g, Sweep(g, i, j, visited)[k])
    decreases |g| - i, if i < |g| then |g[i]| - j else 0
  {
    if i >= |g| {
    } else if j >= |g[i]| {
      SweepClosed(g, i + 1, 0, visited);
    } else if (i, j) in visited {
      SweepClosed(g, i, j + 1, visited);
    } else {
      var region := Region(g, (i, j), visited);
      RegionIsClosed(g, (i, j), visited);
      SweepClosed(g, i, j + 1, visited + region);
      var rest := Sweep(g, i, j + 1, visited + region);
      assert Sweep(g, i, j, visited) == [region] + rest;
      forall k | 0 <= k < |Sweep(g, i, j, visited)| ensures Closed(g, Sweep(g, i, j, visited)[k]) {
        if k > 0 {
          assert Sweep(g, i, j, visited)[k] == rest[k - 1];
        }
      }
    }
  }

  /** Every region of a rectangular garden is closed under same-plant
      neighbours and not empty, so its count of sides is the number of
      straight fence segments around it. */
  lemma RegionsClosed(g: Grid)
    requires Rectangular(g)
    ensures forall k :: 0 <= k < |Regions(g)| ==> Closed(g, Regions(g)[k])
    ensures forall k :: 0 <= k < |Regions(g)| ==>
      SidesOf(g, Regions(g)[k]) ==
        |Starts(FencedCells(g, Regions(g)[k], Left), true)| + |Starts(FencedCells(g, Regions(g)[k], Right), true)| +
        |Starts(FencedCells(g, Regions(g)[k], Up), false)| + |Starts(FencedCells(g, Regions(g)[k], Down), false)|
  {
    SweepClosed(g, 0, 0, {});
    RegionsPartition(g);
    forall k | 0 <= k < |Regions(g)|
      ensures SidesOf(g, Regions(g)[k]) ==
        |Starts(FencedCells(g, Regions(g)[k], Left), true)| + |Starts(FencedCells(g, Regions(g)[k], Right), true)| +
        |Starts(FencedCells(g, Regions(g)[k], Up), false)| + |Starts(FencedCells(g, Regions(g)[k], Down), false)|
    {
      SidesAreSegments(g, Regions(g)[k]);
    }
  }
}

=== FILE: day13_claw_machines.dfy ===
/** Day 13 of 2024, "Claw Contraption": each machine has two buttons that
    move the claw by fixed offsets and a prize position; the cost of a
    win is three tokens per press of A and one per press of B. The solver
    finds the presses by Cramer's rule and charges nothing when they are
    not whole numbers. */
module ClawMachines {
  import opened Options
  import opened Text
  import opened Arith

  // ---------------------------------------------------------------------
  // Input
  // ---------------------------------------------------------------------

  /** A coordinate pair; a coordinate whose text is not a number is NaN,
      modelled as None. */
  datatype Coordinates = Coordinates(x: Option<int>, y: Option<int>)

  datatype Puzzle = Puzzle(buttonA: Coordinates, buttonB: Coordinates, prize: Coordinates)

  /** The common shape of `getButtonCoordinates` (prefix 10, "Button A: ")
      and `getPrizeCoordinates` (prefix 7, "Prize: "): drop the prefix,
      split at ", " and read each part after its two-character label.
      None when there is no second part: `y.slice` of `undefined` throws. */
  function GetCoordinates(line: string, prefix: nat): (r: Option<Coordinates>)
    ensures r.None? <==> |SplitOn(Slice(line, prefix), ", ")| < 2
  {
    var parts := SplitOn(Slice(line, prefix), ", ");
    if |parts| < 2 then None
    else Some(Coordinates(ParseNumber(Slice(parts[0], 2)), ParseNumber(Slice(parts[1], 2))))
  }

  function GetButtonCoordinates(line: string): Option<Coordinates> {
    GetCoordinates(line, 10)
  }

  function GetPrizeCoordinates(line: string): Option<Coordinates> {
    GetCoordinates(line, 7)
  }

  /** One block of three lines; None when a line is missing or malformed
      in a way that makes the source throw. */
  function ParsePuzzle(block: string): (r: Option<Puzzle>)
    ensures r.None? <==> var lines := Split(block, '\n');
      |lines| < 3 || |SplitOn(Slice(lines[0], 10), ", ")| < 2 ||
      |SplitOn(Slice(lines[1], 10), ", ")| < 2 || |SplitOn(Slice(lines[2], 7), ", ")| < 2
  {
    var lines := Split(block, '\n');
    if |lines| < 3 then None
    else match (GetButtonCoordinates(lines[0]), GetButtonCoordinates(lines[1]), GetPrizeCoordinates(lines[2]))
      case (Some(a), Some(b), Some(p)) => Some(Puzzle(a, b, p))
      case _ => None
  }

  function ParseBlocks(blocks: seq<string>): (r: Option<seq<Puzzle>>)
    ensures r.Some? ==> |r.value| == |blocks|
    ensures r.Some? ==> forall k :: 0 <= k < |blocks| ==> ParsePuzzle(blocks[k]) == Some(r.value[k])
    ensures r.None? <==> exists k :: 0 <= k < |blocks| && ParsePuzzle(blocks[k]).None?
  {
    if blocks == [] then Some([])
    else match (ParsePuzzle(blocks[0]), ParseBlocks(blocks[1..]))
      case (Some(p), Some(rest)) => Some([p] + rest)
      case _ => None
  }

  /** `parseInput`: one puzzle per blank-line separated block. */
  function ParseInput(input: string): (r: Option<seq<Puzzle>>)
    ensures r.Some? ==> |r.value| == |SplitOn(input, "\n\n")|
    ensures r.None? <==> exists b :: b in SplitOn(input, "\n\n") && ParsePuzzle(b).None?
  {
    ParseBlocks(SplitOn(input, "\n\n"))
  }

  /** The lines of a machine as the puzzle text writes them. */
  function ButtonLine(name: char, x: int, y: int): string {
    "Button " + [name] + ": X+" + ShowInt(x) + ", Y+" + ShowInt(y)
  }

  function PrizeLine(x: int, y: int): string {
    "Prize: X=" + ShowInt(x) + ", Y=" + ShowInt(y)
  }

  function ShowPuzzle(aX: int, aY: int, bX: int, bY: int, pX: int, pY: int): string {
    ButtonLine('A', aX, aY) + "\n" + ButtonLine('B', bX, bY) + "\n" + PrizeLine(pX, pY)
  }

  lemma NoCommaNoNewline(x: int)
    ensures ',' !in ShowInt(x) && '\n' !in ShowInt(x)
  {
    ShowIntChars(x);
  }

  /** The coordinates of a line "<prefix>L1" + x + ", L2" + y read back as
      x and y. */
  lemma {:induction false} CoordinatesRoundTrip(head: string, l1: string, l2: string, x: int, y: int)
    requires |l1| == 2 && |l2| == 2 && ',' !in l1 && ',' !in l2
    ensures GetCoordinates(head + l1 + ShowInt(x) + ", " + l2 + ShowInt(y), |head|) ==
            Some(Coordinates(Some(x), Some(y)))
  {
    var line := head + l1 + ShowInt(x) + ", " + l2 + ShowInt(y);
    var p, q := l1 + ShowInt(x), l2 + ShowInt(y);
    NoCommaNoNewline(x);
    NoCommaNoNewline(y);
    assert Slice(line, |head|) == p + ", " + q;
    SplitOnTwo(p, q, ", ");
    assert Slice(p, 2) == ShowInt(x);
    assert Slice(q, 2) == ShowInt(y);
    ParseShowInt(x);
    ParseShowInt(y);
  }

  lemma ButtonLineReads(name: char, x: int, y: int)
    ensures GetButtonCoordinates(ButtonLine(name, x, y)) == Some(Coordinates(Some(x), Some(y)))
  {
    var head := "Button " + [name] + ": ";
    assert ButtonLine(name, x, y) == head + "X+" + ShowInt(x) + ", " + "Y+" + ShowInt(y);
    CoordinatesRoundTrip(head, "X+", "Y+", x, y);
  }

  lemma PrizeLineReads(x: int, y: int)
    ensures GetPrizeCoordinates(PrizeLine(x, y)) == Some(Coordinates(Some(x), Some(y)))
  {
    assert PrizeLine(x, y) == "Prize: " + "X=" + ShowInt(x) + ", " + "Y=" + ShowInt(y);
    CoordinatesRoundTrip("Prize: ", "X=", "Y=", x, y);
  }

  lemma LinesOfPuzzle(aX: int, aY: int, bX: int, bY: int, pX: int, pY: int)
    ensures Split(ShowPuzzle(aX, aY, bX, bY, pX, pY), '\n') == [ButtonLine('A', aX, aY), ButtonLine('B', bX, bY), PrizeLine(pX, pY)]
  {
    var a, b, p := ButtonLine('A', aX, aY), ButtonLine('B', bX, bY), PrizeLine(pX, pY);
    ButtonLineFree('A', aX, aY);
    ButtonLineFree('B', bX, bY);
    PrizeLineFree(pX, pY);
    ThreeFree(a, b, p, '\n');
    JoinThree(a, b, p, "\n");
    SplitJoin([a, b, p], '\n');
  }

  lemma ButtonLineFree(name: char, x: int, y: int)
    requires name != '\n'
    ensures '\n' !in ButtonLine(name, x, y)
  {
    NoCommaNoNewline(x);
    NoCommaNoNewline(y);
  }

  lemma PrizeLineFree(x: int, y: int)
    ensures '\n' !in PrizeLine(x, y)
  {
    NoCommaNoNewline(x);
    NoCommaNoNewline(y);
  }

  lemma ThreeFree(a: string, b: string, p: string, c: char)
    requires c !in a && c !in b && c !in p
    ensures forall q :: q in [a, b, p] ==> c !in q
  {
  }

  lemma JoinThree(a: string, b: string, p: string, sep: string)
    ensures Join([a, b, p], sep) == a + sep + b + sep + p
  {
    var t := [a, b, p][1..];
    assert |t| == 2 && t[0] == b && t[1] == p;
    assert |t[1..]| == 1 && t[1..][0] == p;
    assert Join(t, sep) == b + sep + p;
  }

  /** Parsing the text of a machine gives back its six numbers. */
  lemma ParsePuzzleRoundTrip(aX: int, aY: int, bX: int, bY: int, pX: int, pY: int)
    ensures ParsePuzzle(ShowPuzzle(aX, aY, bX, bY, pX, pY)) ==
            Some(Puzzle(Coordinates(Some(aX), Some(aY)), Coordinates(Some(bX), Some(bY)), Coordinates(Some(pX), Some(pY))))
  {
    LinesOfPuzzle(aX, aY, bX, bY, pX, pY);
    ButtonLineReads('A', aX, aY);
    ButtonLineReads('B', bX, bY);
    PrizeLineReads(pX, pY);
  }

  // ---------------------------------------------------------------------
  // One machine
  // ---------------------------------------------------------------------

  /** A machine whose six numbers are all numbers. */
  datatype Machine = Machine(aX: int, aY: int, bX: int, bY: int, pX: int, pY: int)

  function Numbers(p: Puzzle): Option<Machine> {
    if p.buttonA.x.Some? && p.buttonA.y.Some? && p.buttonB.x.Some? && p.buttonB.y.Some? &&
       p.prize.x.Some? && p.prize.y.Some?
    then Some(Machine(p.buttonA.x.value, p.buttonA.y.value, p.buttonB.x.value, p.buttonB.y.value,
                      p.prize.x.value, p.prize.y.value))
    else None
  }

  /** `x` presses of A and `y` presses of B land the claw on the prize. */
  predicate Solves(m: Machine, x: int, y: int) {
    m.aX * x + m.bX * y == m.pX && m.aY * x + m.bY * y == m.pY
  }

  function Det(m: Machine): int {
    m.aX * m.bY - m.bX * m.aY
  }

  /** `findMinSolution` on a machine whose numbers are all numbers: three
      times the A presses plus the B presses when Cramer's rule gives whole
      numbers, else 0. A zero divisor gives NaN in JavaScript, and NaN is
      not 0, so that machine costs 0 as well. */
  function MinSolution(m: Machine): (r: int)
    ensures r != 0 ==> Det(m) != 0 && m.aX != 0 && exists x, y :: Solves(m, x, y) && r == 3 * x + y
    ensures forall x, y :: Det(m) != 0 && m.aX != 0 && Solves(m, x, y) ==> r == 3 * x + y
  {
    CramerComplete(m);
    match MinSolutionOf(m)
    case None => 0
    case Some((x, y)) =>
      CramerSoundOf(m);
      x * 3 + y
  }

  lemma CramerSoundOf(m: Machine)
    ensures MinSolutionOf(m).Some? ==> Solves(m, MinSolutionOf(m).value.0, MinSolutionOf(m).value.1)
  {
    if MinSolutionOf(m).Some? {
      var n := m.pY * m.aX - m.pX * m.aY;
      var y := n / Det(m);
      CramerSound(m, (m.pX - m.bX * y) / m.aX, y);
    }
  }

  /** The presses the solver computes do win the prize. */
  lemma CramerSound(m: Machine, x: int, y: int)
    requires Det(m) != 0 && m.aX != 0
    requires JsRem(m.pY * m.aX - m.pX * m.aY, Det(m)) == 0 && y == (m.pY * m.aX - m.pX * m.aY) / Det(m)
    requires JsRem(m.pX - m.bX * y, m.aX) == 0 && x == (m.pX - m.bX * y) / m.aX
    ensures Solves(m, x, y)
  {
    var n := m.pY * m.aX - m.pX * m.aY;
    JsRemZero(n, Det(m));
    JsRemZero(m.pX - m.bX * y, m.aX);
    assert n == Det(m) * y;
    assert m.pX - m.bX * y == m.aX * x;
    SoundCore(m.aX, m.aY, m.bX, m.bY, m.pX, m.pY, x, y);
  }

  lemma SoundCore(aX: int, aY: int, bX: int, bY: int, pX: int, pY: int, x: int, y: int)
    requires aX != 0
    requires pY * aX - pX * aY == (aX * bY - bX * aY) * y
    requires pX - bX * y == aX * x
    ensures aX * x + bX * y == pX && aY * x + bY * y == pY
  {
    SoundIdentity(aX, aY, bX, bY, pX, x, y);
    assert aX * (aY * x + bY * y) == aX * pY;
    Cancel(aX, aY * x + bY * y, pY);
  }

  lemma SoundIdentity(aX: int, aY: int, bX: int, bY: int, pX: int, x: int, y: int)
    requires pX - bX * y == aX * x
    ensures aX * (aY * x + bY * y) == aY * pX + (aX * bY - bX * aY) * y
  {
    calc {
      aX * (aY * x + bY * y);
      aY * (aX * x) + aX * bY * y;
      aY * (pX - bX * y) + aX * bY * y;
    }
  }

  /** Every winning pair of presses is the one the solver computes, when
      the divisors are non-zero. */
  lemma CramerComplete(m: Machine)
    ensures forall x, y :: Det(m) != 0 && m.aX != 0 && Solves(m, x, y) ==> MinSolutionOf(m) == Some((x, y))
  {
    forall x, y | Det(m) != 0 && m.aX != 0 && Solves(m, x, y) ensures MinSolutionOf(m) == Some((x, y)) {
      CramerUnique(m, x, y);
    }
  }

  /** The presses Cramer's rule gives, when both divisions are exact. */
  function MinSolutionOf(m: Machine): (r: Option<(int, int)>)
    ensures r.Some? ==> Det(m) != 0 && m.aX != 0
  {
    var d := Det(m);
    var n := m.pY * m.aX - m.pX * m.aY;
    if d == 0 || JsRem(n, d) != 0 then None
    else
      var y := n / d;
      if m.aX == 0 || JsRem(m.pX - m.bX * y, m.aX) != 0 then None
      else Some(((m.pX - m.bX * y) / m.aX, y))
  }

  lemma CramerUnique(m: Machine, x: int, y: int)
    requires Det(m) != 0 && m.aX != 0 && Solves(m, x, y)
    ensures MinSolutionOf(m) == Some((x, y))
  {
    var n := m.pY * m.aX - m.pX * m.aY;
    calc {
      n;
      (m.aY * x + m.bY * y) * m.aX - (m.aX * x + m.bX * y) * m.aY;
      y * Det(m);
    }
    ExactDivision(y, Det(m));
    JsRemZero(n, Det(m));
    assert m.pX - m.bX * y == x * m.aX;
    ExactDivision(x, m.aX);
    JsRemZero(m.pX - m.bX * y, m.aX);
  }

  /** `findMinSolution`: NaN anywhere in the numbers makes every remainder
      NaN, so such a machine costs 0. */
  function FindMinSolution(p: Puzzle): (r: int)
    ensures r != 0 ==> Numbers(p).Some? && exists x, y :: Solves(Numbers(p).value, x, y) && r == 3 * x + y
  {
    match Numbers(p)
    case None => 0
    case Some(m) => MinSolution(m)
  }

  /** The cost of a machine by the puzzle's rules, restricted to what the
      solver can see: a machine with all numbers, non-zero divisors and
      a winning pair of presses costs three per A press plus one per B
      press; any other machine costs nothing. */
  ghost function Cost(p: Puzzle): int {
    if Numbers(p).Some? && Det(Numbers(p).value) != 0 && Numbers(p).value.aX != 0 &&
       exists x, y :: Solves(Numbers(p).value, x, y)
    then var x, y :| Solves(Numbers(p).value, x, y); 3 * x + y
    else 0
  }

  /** `findMinSolution` charges each machine its cost. */
  lemma FindMinIsCost(p: Puzzle)
    ensures FindMinSolution(p) == Cost(p)
  {
    if Numbers(p).Some? {
      var m := Numbers(p).value;
      if Det(m) != 0 && m.aX != 0 && exists x, y :: Solves(m, x, y) {
        var x, y :| Solves(m, x, y);
        assert MinSolution(m) == 3 * x + y;
      }
    }
  }

  /** With a non-zero determinant there is at most one winning pair. */
  lemma WinUnique(m: Machine, x: int, y: int, x': int, y': int)
    requires Det(m) != 0 && m.aX != 0 && Solves(m, x, y) && Solves(m, x', y')
    ensures x == x' && y == y'
  {
    CramerUnique(m, x, y);
    CramerUnique(m, x', y');
  }

  /** Negative press counts are not rejected: a prize behind the start is
      charged a negative cost. */
  lemma NegativePressesCount(m: Machine)
    requires m.aX == 1 && m.aY == 0 && m.bX == 0 && m.bY == 1 && m.pX == -2 && m.pY == 5
    ensures MinSolution(m) == -1
  {
    assert m.aX * -2 == -2 && m.bX * 5 == 0 && m.aY * -2 == 0 && m.bY * 5 == 5;
    assert m.aX * m.bY == 1 && m.bX * m.aY == 0;
    CramerUnique(m, -2, 5);
  }

  // ---------------------------------------------------------------------
  // The answers
  // ---------------------------------------------------------------------

  ghost function TotalCost(puzzles: seq<Puzzle>): int {
    if puzzles == [] then 0 else Cost(puzzles[0]) + TotalCost(puzzles[1..])
  }

  /** The loop of `solvePart1`: the sum of the machines' costs. */
  method SolvePart1(puzzles: seq<Puzzle>) returns (result: int)
    ensures result == TotalCost(puzzles)
  {
    result := 0;
    for k := 0 to |puzzles|
      invariant result + TotalCost(puzzles[k..]) == TotalCost(puzzles)
    {
      assert puzzles[k..][1..] == puzzles[k + 1..];
      FindMinIsCost(puzzles[k]);
      result := result + FindMinSolution(puzzles[k]);
    }
  }

  const Offset: int := 10000000000000

  /** The prize moved by 10^13 on both axes; NaN stays NaN. */
  function Far(p: Puzzle): (r: Puzzle)
    ensures r.buttonA == p.buttonA && r.buttonB == p.buttonB
    ensures r.prize.x.Some? == p.prize.x.Some? && r.prize.y.Some? == p.prize.y.Some?
    ensures p.prize.x.Some? ==> r.prize.x.value - p.prize.x.value == 10000000000000
    ensures p.prize.y.Some? ==> r.prize.y.value - p.prize.y.value == 10000000000000
  {
    var x := if p.prize.x.Some? then Some(p.prize.x.value + Offset) else None;
    var y := if p.prize.y.Some? then Some(p.prize.y.value + Offset) else None;
    Puzzle(p.buttonA, p.buttonB, Coordinates(x, y))
  }

  function FarAll(puzzles: seq<Puzzle>): (r: seq<Puzzle>)
    ensures |r| == |puzzles| && forall k :: 0 <= k < |puzzles| ==> r[k] == Far(puzzles[k])
  {
    if puzzles == [] then [] else [Far(puzzles[0])] + FarAll(puzzles[1..])
  }

  /** `solvePart2`: the same machines with every prize moved by 10^13. */
  method SolvePart2(puzzles: seq<Puzzle>) returns (result: int)
    ensures result == TotalCost(FarAll(puzzles))
  {
    result := 0;
    for k := 0 to |puzzles|
      invariant result + TotalCost(FarAll(puzzles)[k..]) == TotalCost(FarAll(puzzles))
    {
      assert FarAll(puzzles)[k..][1..] == FarAll(puzzles)[k + 1..];
      FindMinIsCost(Far(puzzles[k]));
      var prize := Far(puzzles[k]);
      result := result + FindMinSolution(prize);
    }
  }
}

=== FILE: day14_robot_motion.dfy ===
/** Day 14 of 2024, "Restroom Redoubt": robots move in straight lines at
    constant velocity on a grid that wraps around at its edges. Part one
    counts the robots in each quadrant after 100 seconds on the 101 by 103
    room and multiplies the four counts. */
module RobotMotion {
  import opened Options
  import opened Text
  import opened Arith

  datatype Robot = Robot(x: int, y: int, vx: int, vy: int)

  // ---------------------------------------------------------------------
  // Input
  // ---------------------------------------------------------------------

  /** "p=x,y" or "v=x,y": the two numbers after the two-character tag.
      None when the second number is missing (`undefined`) or either is
      not a number (NaN). */
  function ParsePair(field: string): (r: Option<(int, int)>)
    ensures r.Some? ==> |Split(Slice(field, 2), ',')| >= 2
  {
    var parts := Split(Slice(field, 2), ',');
    if |parts| < 2 then None
    else match (ParseNumber(parts[0]), ParseNumber(parts[1]))
      case (Some(a), Some(b)) => Some((a, b))
      case _ => None
  }

  /** A line as `parseInput` keeps it: a robot with four numbers, or one
      with a coordinate that is `undefined` or NaN. JavaScript still pushes
      the latter; its finish position is NaN and it lands in no quadrant. */
  datatype Parsed = Known(robot: Robot) | NotANumber

  /** One line "p=x,y v=vx,vy". None when there is no second field, where
      `v.slice` throws; `NotANumber` when a number is missing or not a
      number. */
  function ParseRobot(line: string): (r: Option<Parsed>)
    ensures r.None? <==> |Split(line, ' ')| < 2
  {
    var fields := Split(line, ' ');
    if |fields| < 2 then None
    else match (ParsePair(fields[0]), ParsePair(fields[1]))
      case (Some(p), Some(v)) => Some(Known(Robot(p.0, p.1, v.0, v.1)))
      case _ => Some(NotANumber)
  }

  function ParseRobots(lines: seq<string>): (r: Option<seq<Parsed>>)
    ensures r.None? <==> exists k :: 0 <= k < |lines| && |Split(lines[k], ' ')| < 2
    ensures r.Some? ==> |r.value| == |lines|
    ensures r.Some? ==> forall k :: 0 <= k < |lines| ==> ParseRobot(lines[k]) == Some(r.value[k])
  {
    if lines == [] then Some([])
    else match (ParseRobot(lines[0]), ParseRobots(lines[1..]))
      case (Some(r), Some(rest)) => Some([r] + rest)
      case (None, _) => None
      case (_, None) =>
        assert forall k :: 0 <= k < |lines| - 1 ==> lines[1..][k] == lines[k + 1];
        None
  }

  /** `parseInput`: one entry per non-empty line. */
  function ParseInput(input: string): (r: Option<seq<Parsed>>)
    ensures r.Some? ==> |r.value| == |NonEmptyLines(input)|
    ensures r.None? <==> exists line :: line in NonEmptyLines(input) && |Split(line, ' ')| < 2
  {
    ParseRobots(NonEmptyLines(input))
  }

  /** A line whose position lacks its second number is kept as a robot
      that lands nowhere; a line with no velocity field is an error. */
  lemma UnreadableLines()
    ensures ParseRobot("p=3 v=1,2") == Some(NotANumber)
    ensures ParseRobot("p=3,4") == None
  {
    assert "p=3 v=1,2" == "p=3" + [' '] + "v=1,2";
    SplitOnTwo("p=3", "v=1,2", [' ']);
    assert Slice("p=3", 2) == "3";
    SplitOnFree("3", [',']);
    SplitOnFree("p=3,4", [' ']);
  }

  /** The robots read back from their rendering. */
  function Knowns(rs: seq<Robot>): (ps: seq<Parsed>)
    ensures |ps| == |rs| && forall k :: 0 <= k < |rs| ==> ps[k] == Known(rs[k])
  {
    seq(|rs|, k requires 0 <= k < |rs| => Known(rs[k]))
  }

  function ShowRobot(r: Robot): string {
    "p=" + ShowInt(r.x) + "," + ShowInt(r.y) + " v=" + ShowInt(r.vx) + "," + ShowInt(r.vy)
  }

  function ShowRobots(rs: seq<Robot>): (lines: seq<string>)
    ensures |lines| == |rs| && forall k :: 0 <= k < |rs| ==> lines[k] == ShowRobot(rs[k])
  {
    if rs == [] then [] else [ShowRobot(rs[0])] + ShowRobots(rs[1..])
  }

  lemma ShowIntLacks(x: int)
    ensures ' ' !in ShowInt(x) && ',' !in ShowInt(x) && '\n' !in ShowInt(x)
  {
    ShowIntChars(x);
  }

  lemma PairRoundTrip(tag: string, a: int, b: int)
    requires |tag| == 2 && ',' !in tag
    ensures ParsePair(tag + ShowInt(a) + "," + ShowInt(b)) == Some((a, b))
  {
    ShowIntLacks(a);
    ShowIntLacks(b);
    assert Slice(tag + ShowInt(a) + "," + ShowInt(b), 2) == ShowInt(a) + [','] + ShowInt(b);
    SplitOnTwo(ShowInt(a), ShowInt(b), [',']);
    ParseShowInt(a);
    ParseShowInt(b);
  }

  /** Reading a rendered robot gives the robot back. */
  lemma ParseRobotRoundTrip(r: Robot)
    ensures ParseRobot(ShowRobot(r)) == Some(Known(r))
  {
    var p := "p=" + ShowInt(r.x) + "," + ShowInt(r.y);
    var v := "v=" + ShowInt(r.vx) + "," + ShowInt(r.vy);
    ShowIntLacks(r.x); ShowIntLacks(r.y); ShowIntLacks(r.vx); ShowIntLacks(r.vy);
    assert ShowRobot(r) == p + [' '] + v;
    assert ' ' !in p && ' ' !in v;
    SplitOnTwo(p, v, [' ']);
    PairRoundTrip("p=", r.x, r.y);
    PairRoundTrip("v=", r.vx, r.vy);
  }

  lemma {:induction false} ParseRobotsOf(lines: seq<string>, rs: seq<Parsed>)
    requires |lines| == |rs| && forall k :: 0 <= k < |rs| ==> ParseRobot(lines[k]) == Some(rs[k])
    ensures ParseRobots(lines) == Some(rs)
  {
    if rs != [] {
      ParseRobotsOf(lines[1..], rs[1..]);
      assert [rs[0]] + rs[1..] == rs;
    }
  }

  lemma ParseRobotsRoundTrip(rs: seq<Robot>)
    ensures ParseRobots(ShowRobots(rs)) == Some(Knowns(rs))
  {
    forall k | 0 <= k < |rs| ensures ParseRobot(ShowRobots(rs)[k]) == Some(Knowns(rs)[k]) {
      ParseRobotRoundTrip(rs[k]);
    }
    ParseRobotsOf(ShowRobots(rs), Knowns(rs));
  }

  lemma RobotLine(r: Robot)
    ensures '\n' !in ShowRobot(r) && ShowRobot(r) != []
  {
    ShowIntLacks(r.x); ShowIntLacks(r.y); ShowIntLacks(r.vx); ShowIntLacks(r.vy);
    assert ShowRobot(r)[0] == 'p';
  }

  /** Reading the rendered list of robots, one per line, gives the list
      back. */
  lemma ParseInputRoundTrip(rs: seq<Robot>)
    requires |rs| > 0
    ensures ParseInput(Join(ShowRobots(rs), "\n")) == Some(Knowns(rs))
  {
    var lines := ShowRobots(rs);
    forall p | p in lines ensures '\n' !in p && p != [] {
      var k :| 0 <= k < |lines| && lines[k] == p;
      RobotLine(rs[k]);
    }
    SplitJoin(lines, '\n');
    DropEmptyKeeps(lines);
    ParseRobotsRoundTrip(rs);
  }

  // ---------------------------------------------------------------------
  // Motion
  // ---------------------------------------------------------------------

  /** `calcRobotFinishPosition`: the position after `time` seconds, each
      coordinate reduced by JavaScript's `%` and moved into range when the
      remainder is negative: the mathematical remainder, within the room. */
  function FinishPosition(r: Robot, width: int, height: int, time: int): (p: (int, int))
    requires width > 0 && height > 0
    ensures 0 <= p.0 < width && 0 <= p.1 < height
    ensures p.0 == (r.x + r.vx * time) % width && p.1 == (r.y + r.vy * time) % height
  {
    (WrapRem(r.x + r.vx * time, width), WrapRem(r.y + r.vy * time, height))
  }

  /** The robot after `time` seconds with its velocity carried over, as
      `solvePart2` rebuilds it. */
  function Advance(r: Robot, width: int, height: int, time: int): (r': Robot)
    requires width > 0 && height > 0
    ensures r'.vx == r.vx && r'.vy == r.vy
    ensures (r'.x, r'.y) == FinishPosition(r, width, height, time)
  {
    var p := FinishPosition(r, width, height, time);
    Robot(p.0, p.1, r.vx, r.vy)
  }

  /** Moving for `s` seconds and then for `t` is moving for `s + t`. */
  lemma AdvanceCompose(r: Robot, width: int, height: int, s: int, t: int)
    requires width > 0 && height > 0
    ensures Advance(Advance(r, width, height, s), width, height, t) == Advance(r, width, height, s + t)
  {
    ModAdd(r.x + r.vx * s, r.vx * t, width);
    ModAdd(r.y + r.vy * s, r.vy * t, height);
    assert r.vx * s + r.vx * t == r.vx * (s + t);
    assert r.vy * s + r.vy * t == r.vy * (s + t);
  }

  /** `k` one-second steps, the way part two moves the robots. */
  function Steps(r: Robot, width: int, height: int, k: nat): Robot
    requires width > 0 && height > 0
  {
    if k == 0 then r else Advance(Steps(r, width, height, k - 1), width, height, 1)
  }

  /** `k` one-second steps land where one call with `time = k` does. */
  lemma {:induction false} StepsAdvance(r: Robot, width: int, height: int, k: nat)
    requires width > 0 && height > 0 && k >= 1
    ensures Steps(r, width, height, k) == Advance(r, width, height, k)
  {
    if k > 1 {
      StepsAdvance(r, width, height, k - 1);
      AdvanceCompose(r, width, height, k - 1, 1);
    }
  }

  // ---------------------------------------------------------------------
  // Quadrants
  // ---------------------------------------------------------------------

  /** `getQuadrant`: 0 top left, 1 top right, 2 bottom left, 3 bottom
      right, and -1 on a middle line or outside the room. `Math.floor` of
      half a whole number is Dafny's `/ 2`. */
  function Quadrant(x: int, y: int, width: int, height: int): (q: int)
    ensures -1 <= q <= 3
    ensures q != -1 ==> 0 <= x < width && 0 <= y < height && x != width / 2 && y != height / 2
    ensures 0 <= x < width && 0 <= y < height ==> (q == -1 <==> x == width / 2 || y == height / 2)
    ensures q != -1 ==> q == (if x > width / 2 then 1 else 0) + (if y > height / 2 then 2 else 0)
  {
    var middleWidth := width / 2;
    var middleHeight := height / 2;
    if x >= 0 && x < middleWidth && y >= 0 && y < middleHeight then 0
    else if x >= middleWidth + 1 && x < width && y >= 0 && y < middleHeight then 1
    else if x >= 0 && x < middleWidth && y >= middleHeight + 1 && y < height then 2
    else if x >= middleWidth + 1 && x < width && y >= middleHeight + 1 && y < height then 3
    else -1
  }

  const Width: int := 101
  const Height: int := 103
  const Seconds: int := 100

  /** The quadrant a robot ends in after 100 seconds. */
  function FinalQuadrant(r: Robot): int {
    var p := FinishPosition(r, Width, Height, Seconds);
    Quadrant(p.0, p.1, Width, Height)
  }

  /** Where a parsed entry lands: a robot with a NaN coordinate fails
      every comparison in `getQuadrant` and gets -1. */
  function Landing(e: Parsed): int {
    match e
    case Known(r) => FinalQuadrant(r)
    case NotANumber => -1
  }

  /** The number of robots ending in quadrant `q`. */
  function CountIn(robots: seq<Parsed>, q: int): nat {
    if robots == [] then 0
    else (if Landing(robots[0]) == q then 1 else 0) + CountIn(robots[1..], q)
  }

  /** The number of robots ending on a middle line or at NaN. */
  function OnMiddle(robots: seq<Parsed>): nat {
    if robots == [] then 0
    else (if Landing(robots[0]) == -1 then 1 else 0) + OnMiddle(robots[1..])
  }

  /** Every robot is in exactly one quadrant, or on a middle line or at
      NaN. */
  lemma {:induction false} EveryRobotCounted(robots: seq<Parsed>)
    ensures CountIn(robots, 0) + CountIn(robots, 1) + CountIn(robots, 2) + CountIn(robots, 3) +
            OnMiddle(robots) == |robots|
  {
    if robots != [] {
      EveryRobotCounted(robots[1..]);
    }
  }

  /** The robots on a middle line are those whose final column is 50 or
      whose final row is 51. */
  lemma MiddleLines(r: Robot)
    ensures FinalQuadrant(r) == -1 <==>
      FinishPosition(r, Width, Height, Seconds).0 == 50 || FinishPosition(r, Width, Height, Seconds).1 == 51
  {
  }

  /** `solvePart1`: the product of the four quadrant counts. */
  method SolvePart1(robots: seq<Parsed>) returns (safety: int)
    ensures safety == CountIn(robots, 0) * CountIn(robots, 1) * CountIn(robots, 2) * CountIn(robots, 3)
  {
    var result := [0, 0, 0, 0];
    for k := 0 to |robots|
      invariant |result| == 4
      invariant forall q :: 0 <= q < 4 ==> result[q] + CountIn(robots[k..], q) == CountIn(robots, q)
    {
      assert robots[k..][1..] == robots[k + 1..];
      var quadrant := -1;
      if robots[k].Known? {
        var p := FinishPosition(robots[k].robot, Width, Height, Seconds);
        quadrant := Quadrant(p.0, p.1, Width, Height);
      }
      if quadrant != -1 {
        result := result[quadrant := result[quadrant] + 1];
      }
    }
    assert robots[|robots|..] == [];
    safety := result[0] * result[1] * result[2] * result[3];
  }
}

=== FILE: day15_warehouse_robot.dfy ===
/** Day 15 of 2024, "Warehouse Woes", part one: a robot '@' walks a walled
    warehouse map following a list of move characters and pushes the line
    of boxes 'O' in front of it, unless a wall '#' stops the line. The
    answer is the GPS sum of the boxes: 100 times the row plus the column
    of every box. */
module WarehouseRobot {
  import opened Options
  import opened Grids

  type Cell = (int, int)

  // ---------------------------------------------------------------------
  // Moves
  // ---------------------------------------------------------------------

  /** The heading of a move character: '>' right, '<' left, 'v' down, and
      any other character up, since `calcNext` falls through to its last
      case. */
  function HeadingOf(move: char): (h: Heading)
    ensures h == Up <==> move != '>' && move != '<' && move != 'v'
  {
    if move == '>' then Right
    else if move == '<' then Left
    else if move == 'v' then Down
    else Up
  }

  /** `calcNext`: the neighbour one step away in the move's direction. */
  function Next(p: Cell, move: char): (q: Cell)
    ensures (q.0 - p.0, q.1 - p.1) == Offset(HeadingOf(move))
  {
    if move == '>' then (p.0, p.1 + 1)
    else if move == '<' then (p.0, p.1 - 1)
    else if move == 'v' then (p.0 + 1, p.1)
    else (p.0 - 1, p.1)
  }

  /** The move that walks back. */
  function Back(move: char): char {
    if move == '>' then '<' else if move == '<' then '>' else if move == 'v' then '^' else 'v'
  }

  /** Stepping forward and then back returns to the start. */
  lemma NextBack(p: Cell, move: char)
    ensures Next(Next(p, move), Back(move)) == p
  {
  }

  /** The cell `k` steps ahead of `p`. */
  function Ahead(p: Cell, move: char, k: int): Cell {
    match HeadingOf(move)
    case Up => (p.0 - k, p.1)
    case Down => (p.0 + k, p.1)
    case Left => (p.0, p.1 - k)
    case Right => (p.0, p.1 + k)
  }

  /** `isInBounds`: strictly inside the outer ring of the map, with the
      column bound taken from the first row. */
  predicate InBounds(g: Grid, p: Cell) {
    0 < p.0 < |g| - 1 && 0 < p.1 < Width(g) - 1
  }

  /** The cell lies on the outer ring of the map. */
  predicate OnRing(g: Grid, i: int, j: int) {
    i == 0 || i == |g| - 1 || j == 0 || j == Width(g) - 1
  }

  /** A rectangular map whose outer ring is all wall, as the puzzle input
      promises. */
  predicate Walled(g: Grid) {
    Rectangular(g) && forall i, j :: 0 <= i < |g| && 0 <= j < |g[i]| && OnRing(g, i, j) ==> g[i][j] == '#'
  }

  /** On a walled map, a cell that is not a wall is strictly inside the
      ring, and so is every neighbour of it on the map. */
  lemma Inside(g: Grid, p: Cell)
    requires Walled(g) && InGrid(g, p.0, p.1) && g[p.0][p.1] != '#'
    ensures InBounds(g, p)
    ensures forall move :: InGrid(g, Next(p, move).0, Next(p, move).1)
  {
  }

  /** On a rectangular map, `isInBounds` holds exactly for the cells off the
      ring. */
  lemma InBoundsOffRing(g: Grid, p: Cell)
    requires Rectangular(g)
    ensures InBounds(g, p) <==> InGrid(g, p.0, p.1) && !OnRing(g, p.0, p.1)
  {
  }

  // ---------------------------------------------------------------------
  // Pushing a line of boxes
  // ---------------------------------------------------------------------

  /** How far `p` is from the edge the move heads for. */
  function Room(g: Grid, p: Cell, move: char): int {
    match HeadingOf(move)
    case Up => p.0
    case Down => |g| - p.0
    case Left => p.1
    case Right => Width(g) - p.1
  }

  /** The number of boxes in an unbroken line straight ahead of `p` inside
      the ring: the boxes `makeMove` collects. */
  function RunLength(g: Grid, p: Cell, move: char): nat
    decreases Room(g, p, move)
  {
    var q := Next(p, move);
    if InBounds(g, q) && At(g, q.0, q.1) == Some('O') then 1 + RunLength(g, q, move) else 0
  }

  /** Every cell of the line is a box inside the ring, and the cell after
      the line is not. */
  lemma {:induction false} RunIsMaximal(g: Grid, p: Cell, move: char)
    ensures var n := RunLength(g, p, move);
      forall k :: 1 <= k <= n ==>
        InBounds(g, Ahead(p, move, k)) && At(g, Ahead(p, move, k).0, Ahead(p, move, k).1) == Some('O')
    ensures var n := RunLength(g, p, move);
      !(InBounds(g, Ahead(p, move, n + 1)) && At(g, Ahead(p, move, n + 1).0, Ahead(p, move, n + 1).1) == Some('O'))
    decreases Room(g, p, move)
  {
    var q := Next(p, move);
    assert Ahead(p, move, 1) == q;
    if InBounds(g, q) && At(g, q.0, q.1) == Some('O') {
      RunIsMaximal(g, q, move);
      assert forall k :: Ahead(p, move, k) == Ahead(q, move, k - 1);
    }
  }

  /** `moveBlocks`: when there is a line of boxes and the cell past it is
      not a wall, every box of the line moves one step, which leaves the
      first box's cell empty and puts a box in the cell past the line. */
  function Push(g: Grid, robot: Cell, move: char): (g': Grid)
    ensures |g'| == |g|
  {
    var n := RunLength(g, robot, move);
    if n == 0 then g
    else
      var last := Ahead(robot, move, n + 1);
      if At(g, last.0, last.1) == Some('#') then g
      else
        var first := Ahead(robot, move, 1);
        Store(SetCell(g, first.0, first.1, '.'), last.0, last.1, 'O')
  }

  /** `getRobotNext`: the robot steps onto the neighbouring cell exactly
      when it holds '.', writing '.' where it stood and '@' where it
      arrives; otherwise nothing changes. */
  function RobotStep(g: Grid, robot: Cell, move: char): (r: (Grid, Cell))
    ensures r.1 == Next(robot, move) <==> At(g, Next(robot, move).0, Next(robot, move).1) == Some('.')
    ensures r.1 != Next(robot, move) ==> r == (g, robot)
    ensures |r.0| == |g|
  {
    var q := Next(robot, move);
    if At(g, q.0, q.1) == Some('.') then
      (Store(Store(g, robot.0, robot.1, '.'), q.0, q.1, '@'), q)
    else (g, robot)
  }

  /** `makeMove`: push the line of boxes ahead, then try to step. */
  function MoveRobot(g: Grid, robot: Cell, move: char): (r: (Grid, Cell))
    ensures |r.0| == |g|
    ensures r.1 == robot || r.1 == Next(robot, move)
  {
    RobotStep(Push(g, robot, move), robot, move)
  }


  /** One more step ahead is the neighbour of the cell `k` steps ahead. */
  lemma AheadNext(p: Cell, move: char, k: int)
    ensures Next(Ahead(p, move, k), move) == Ahead(p, move, k + 1)
    ensures Ahead(p, move, 0) == p
  {
  }

  /** The cells `lo` to `hi` steps ahead of `p`. */
  predicate OnLine(p: Cell, move: char, lo: int, hi: int, q: Cell) {
    match HeadingOf(move)
    case Up => q.1 == p.1 && p.0 - hi <= q.0 <= p.0 - lo
    case Down => q.1 == p.1 && p.0 + lo <= q.0 <= p.0 + hi
    case Left => q.0 == p.0 && p.1 - hi <= q.1 <= p.1 - lo
    case Right => q.0 == p.0 && p.1 + lo <= q.1 <= p.1 + hi
  }

  /** A cell on the line is some number of steps ahead. */
  lemma StepsTo(p: Cell, move: char, lo: int, hi: int, q: Cell) returns (k: int)
    requires OnLine(p, move, lo, hi, q)
    ensures lo <= k <= hi && q == Ahead(p, move, k)
  {
    k := match HeadingOf(move)
      case Up => p.0 - q.0
      case Down => q.0 - p.0
      case Left => p.1 - q.1
      case Right => q.1 - p.1;
  }

  /** The robot stands on its '@' on a walled map. */
  ghost predicate Warehouse(g: Grid, robot: Cell) {
    Walled(g) && InGrid(g, robot.0, robot.1) && g[robot.0][robot.1] == '@'
  }

  /** Two maps of the same shape with walls in the same cells. */
  ghost predicate SameWalls(g: Grid, h: Grid) {
    |h| == |g| && (forall i :: 0 <= i < |g| ==> |h[i]| == |g[i]|) &&
    forall i, j :: InGrid(g, i, j) ==> (h[i][j] == '#' <==> g[i][j] == '#')
  }

  /** Writing something other than a wall over a cell that is not a wall
      keeps a walled map walled, and keeps its shape and its walls. */
  lemma Overwrite(g: Grid, i: int, j: int, c: char)
    requires Walled(g) && InGrid(g, i, j) && g[i][j] != '#' && c != '#'
    ensures Walled(SetCell(g, i, j, c)) && SameWalls(g, SetCell(g, i, j, c))
  {
    var h := SetCell(g, i, j, c);
    assert Width(h) == Width(g);
  }

  lemma SameWallsTrans(a: Grid, b: Grid, c: Grid)
    requires SameWalls(a, b) && SameWalls(b, c)
    ensures SameWalls(a, c)
  {
  }

  /** On a walled map with the robot on it, the cell past the line of
      boxes ahead is on the map, and so is every box of the line. */
  lemma LineOnMap(g: Grid, robot: Cell, move: char)
    requires Warehouse(g, robot)
    ensures var n := RunLength(g, robot, move);
      InGrid(g, Ahead(robot, move, n + 1).0, Ahead(robot, move, n + 1).1)
  {
    var n := RunLength(g, robot, move);
    RunIsMaximal(g, robot, move);
    AheadNext(robot, move, n);
    Inside(g, robot);
    if n > 0 {
      Inside(g, Ahead(robot, move, n));
    }
  }

  /** The line moves: there is one and the cell past it is not a wall. */
  predicate Moves(g: Grid, robot: Cell, move: char) {
    var n := RunLength(g, robot, move);
    n > 0 && At(g, Ahead(robot, move, n + 1).0, Ahead(robot, move, n + 1).1) != Some('#')
  }

  /** When the line cannot move, pushing leaves the map as it was. */
  lemma PushBlocked(g: Grid, robot: Cell, move: char)
    requires !Moves(g, robot, move)
    ensures Push(g, robot, move) == g
  {
  }

  /** The two writes of a push, on abstract cells: a box cell becomes '.'
      and a further cell that is not a wall becomes a box. */
  lemma TwoWrites(g: Grid, first: Cell, last: Cell)
    requires Walled(g) && InGrid(g, first.0, first.1) && InGrid(g, last.0, last.1)
    requires g[first.0][first.1] == 'O' && g[last.0][last.1] != '#' && first != last
    ensures var h := SetCell(SetCell(g, first.0, first.1, '.'), last.0, last.1, 'O');
      Walled(h) && SameWalls(g, h) && h[first.0][first.1] == '.' && h[last.0][last.1] == 'O' &&
      forall i, j :: InGrid(g, i, j) && (i, j) != first && (i, j) != last ==> h[i][j] == g[i][j]
  {
    Overwrite(g, first.0, first.1, '.');
    var h := SetCell(g, first.0, first.1, '.');
    Overwrite(h, last.0, last.1, 'O');
    SameWallsTrans(g, h, SetCell(h, last.0, last.1, 'O'));
  }

  /** Pushing a line that moves is those two writes, at the line's first
      cell and at the cell past it. */
  lemma PushWrites(g: Grid, robot: Cell, move: char)
    requires Warehouse(g, robot) && Moves(g, robot, move)
    ensures var n := RunLength(g, robot, move);
      var first := Ahead(robot, move, 1);
      var last := Ahead(robot, move, n + 1);
      InGrid(g, first.0, first.1) && InGrid(g, last.0, last.1) && first != last &&
      g[first.0][first.1] == 'O' && g[last.0][last.1] != '#' &&
      Push(g, robot, move) == SetCell(SetCell(g, first.0, first.1, '.'), last.0, last.1, 'O')
  {
    LineOnMap(g, robot, move);
    RunIsMaximal(g, robot, move);
  }

  /** The cells strictly between the line's first cell and the cell past it
      hold boxes. */
  lemma LineBoxes(g: Grid, robot: Cell, move: char, i: int, j: int)
    requires OnLine(robot, move, 2, RunLength(g, robot, move), (i, j))
    ensures InGrid(g, i, j) && g[i][j] == 'O'
  {
    var k := StepsTo(robot, move, 2, RunLength(g, robot, move), (i, j));
    RunIsMaximal(g, robot, move);
  }

  /** Pushing a line that moves, on a walled map: the line's first cell
      becomes '.', the cells from two steps ahead of the robot to the one
      past the line hold boxes, and every other cell keeps its character.
      The map stays walled with the robot on its '@' and the same walls. */
  lemma PushShifts(g: Grid, robot: Cell, move: char)
    requires Warehouse(g, robot) && Moves(g, robot, move)
    ensures var n := RunLength(g, robot, move);
      var g' := Push(g, robot, move);
      var first := Next(robot, move);
      Warehouse(g', robot) && SameWalls(g, g') &&
      g'[first.0][first.1] == '.' &&
      (forall i, j :: InGrid(g, i, j) && OnLine(robot, move, 2, n + 1, (i, j)) ==> g'[i][j] == 'O') &&
      (forall i, j :: InGrid(g, i, j) && !OnLine(robot, move, 1, n + 1, (i, j)) ==> g'[i][j] == g[i][j])
  {
    var n := RunLength(g, robot, move);
    var first := Ahead(robot, move, 1);
    var last := Ahead(robot, move, n + 1);
    PushWrites(g, robot, move);
    var g' := SetCell(SetCell(g, first.0, first.1, '.'), last.0, last.1, 'O');
    LineEnds(robot, move, n);
    ShiftedLine(g, robot, move, n, first, last, g');
  }

  /** The facts of `PushShifts` about the two writes, with the line's
      length and ends given. */
  lemma ShiftedLine(g: Grid, robot: Cell, move: char, n: nat, first: Cell, last: Cell, g': Grid)
    requires Warehouse(g, robot) && n == RunLength(g, robot, move)
    requires first == Ahead(robot, move, 1) && last == Ahead(robot, move, n + 1)
    requires InGrid(g, first.0, first.1) && InGrid(g, last.0, last.1) && first != last
    requires g[first.0][first.1] == 'O' && g[last.0][last.1] != '#'
    requires OnLine(robot, move, 1, n + 1, first) && OnLine(robot, move, 1, n + 1, last) && !OnLine(robot, move, 1, n + 1, robot)
    requires g' == SetCell(SetCell(g, first.0, first.1, '.'), last.0, last.1, 'O')
    ensures Warehouse(g', robot) && SameWalls(g, g') && g'[first.0][first.1] == '.'
    ensures forall i, j :: InGrid(g, i, j) && OnLine(robot, move, 2, n + 1, (i, j)) ==> g'[i][j] == 'O'
    ensures forall i, j :: InGrid(g, i, j) && !OnLine(robot, move, 1, n + 1, (i, j)) ==> g'[i][j] == g[i][j]
  {
    TwoWrites(g, first, last);
    forall i, j | InGrid(g, i, j) && OnLine(robot, move, 2, n + 1, (i, j)) ensures g'[i][j] == 'O' {
      ShiftedCell(g, robot, move, n, first, last, g', i, j);
    }
  }

  lemma ShiftedCell(g: Grid, robot: Cell, move: char, n: nat, first: Cell, last: Cell, g': Grid, i: int, j: int)
    requires Warehouse(g, robot) && n == RunLength(g, robot, move)
    requires first == Ahead(robot, move, 1) && last == Ahead(robot, move, n + 1)
    requires InGrid(g, first.0, first.1) && InGrid(g, last.0, last.1) && first != last
    requires g[first.0][first.1] == 'O' && g[last.0][last.1] != '#'
    requires g' == SetCell(SetCell(g, first.0, first.1, '.'), last.0, last.1, 'O')
    requires InGrid(g, i, j) && OnLine(robot, move, 2, n + 1, (i, j))
    ensures g'[i][j] == 'O'
  {
    TwoWrites(g, first, last);
    if (i, j) != last {
      LineBoxes(g, robot, move, i, j);
    }
  }

  /** The line from one step to `n + 1` steps ahead holds its two ends and
      not the robot's own cell. */
  lemma LineEnds(robot: Cell, move: char, n: nat)
    ensures Ahead(robot, move, 1) == Next(robot, move)
    ensures OnLine(robot, move, 1, n + 1, Ahead(robot, move, 1)) && OnLine(robot, move, 1, n + 1, Ahead(robot, move, n + 1))
    ensures !OnLine(robot, move, 1, n + 1, robot)
  {
  }

  // ---------------------------------------------------------------------
  // Counting boxes and GPS sums
  // ---------------------------------------------------------------------

  /** The weight of cell `(i, j)` in a sum over cells. */
  datatype Weight = Weight(perRow: int, perColumn: int, each: int)

  function WeightOf(w: Weight, i: int, j: int): int {
    w.perRow * i + w.perColumn * j + w.each
  }

  /** The GPS coordinate of a box: 100 times its row plus its column. */
  const GpsWeight := Weight(100, 1, 0)

  /** Every cell weighs one: the sum counts cells. */
  const Unit := Weight(0, 0, 1)

  /** The sum of the weights of the cells of row `i` that hold `c`. */
  function RowTally(row: seq<char>, i: int, c: char, w: Weight): int {
    if row == [] then 0
    else RowTally(row[..|row| - 1], i, c, w) + (if row[|row| - 1] == c then WeightOf(w, i, |row| - 1) else 0)
  }

  /** The sum of the weights of the cells of the map that hold `c`. */
  function Tally(g: Grid, c: char, w: Weight): int {
    if g == [] then 0
    else Tally(g[..|g| - 1], c, w) + RowTally(g[|g| - 1], |g| - 1, c, w)
  }

  lemma {:induction false} RowTallySet(row: seq<char>, i: int, j: int, x: char, c: char, w: Weight)
    requires 0 <= j < |row|
    ensures RowTally(row[j := x], i, c, w) ==
      RowTally(row, i, c, w) - (if row[j] == c then WeightOf(w, i, j) else 0) + (if x == c then WeightOf(w, i, j) else 0)
  {
    var n := |row| - 1;
    if j == n {
      assert row[j := x][..n] == row[..n];
    } else {
      assert row[j := x][..n] == row[..n][j := x];
      RowTallySet(row[..n], i, j, x, c, w);
    }
  }

  /** Replacing one cell changes a sum over the cells holding `c` by that
      cell's weight: minus when it held `c`, plus when it now does. */
  lemma {:induction false} TallySetCell(g: Grid, i: int, j: int, x: char, c: char, w: Weight)
    requires InGrid(g, i, j)
    ensures Tally(SetCell(g, i, j, x), c, w) ==
      Tally(g, c, w) - (if g[i][j] == c then WeightOf(w, i, j) else 0) + (if x == c then WeightOf(w, i, j) else 0)
  {
    var n := |g| - 1;
    var h := SetCell(g, i, j, x);
    if i == n {
      assert h[..n] == g[..n];
      assert h[n] == g[n][j := x];
      RowTallySet(g[n], n, j, x, c, w);
    } else {
      assert h[..n] == SetCell(g[..n], i, j, x);
      TallySetCell(g[..n], i, j, x, c, w);
    }
  }

  /** `calcGPSCoordinates` (and `calcGPSDoubledCoordinates` of part two
      with `c = '['`): the GPS sum over the cells holding `c`, row by row. */
  method GpsSum(g: Grid, c: char) returns (result: int)
    ensures result == Tally(g, c, GpsWeight)
  {
    result := 0;
    for i := 0 to |g|
      invariant result == Tally(g[..i], c, GpsWeight)
    {
      for j := 0 to |g[i]|
        invariant result == Tally(g[..i], c, GpsWeight) + RowTally(g[i][..j], i, c, GpsWeight)
      {
        assert g[i][..j + 1][..j] == g[i][..j];
        if g[i][j] == c {
          result := result + i * 100 + j;
        }
      }
      assert g[i][..|g[i]|] == g[i];
      assert g[..i + 1][..i] == g[..i];
    }
    assert g[..|g|] == g;
  }

  /** How much one step in the move's direction adds to a GPS coordinate. */
  function Stride(move: char): int {
    100 * Offset(HeadingOf(move)).0 + Offset(HeadingOf(move)).1
  }

  /** The cell `n` steps further on weighs `n` strides more. */
  lemma StrideApart(p: Cell, move: char, n: int)
    ensures WeightOf(GpsWeight, Ahead(p, move, n + 1).0, Ahead(p, move, n + 1).1) ==
      WeightOf(GpsWeight, Ahead(p, move, 1).0, Ahead(p, move, 1).1) + n * Stride(move)
  {
  }

  /** A push keeps the number of boxes, and when the line moves the GPS
      sum grows by one stride for each of its boxes. */
  lemma PushCounts(g: Grid, robot: Cell, move: char)
    requires Warehouse(g, robot)
    ensures Tally(Push(g, robot, move), 'O', Unit) == Tally(g, 'O', Unit)
    ensures Tally(Push(g, robot, move), 'O', GpsWeight) ==
      Tally(g, 'O', GpsWeight) + (if Moves(g, robot, move) then RunLength(g, robot, move) * Stride(move) else 0)
  {
    if Moves(g, robot, move) {
      var n := RunLength(g, robot, move);
      var first := Ahead(robot, move, 1);
      var last := Ahead(robot, move, n + 1);
      PushWrites(g, robot, move);
      LineOnMap(g, robot, move);
      RunIsMaximal(g, robot, move);
      Inside(g, last);
      assert g[last.0][last.1] != 'O';
      TwoTallies(g, first, last, Unit);
      TwoTallies(g, first, last, GpsWeight);
      StrideApart(robot, move, n);
    }
  }

  /** The two writes of a push move one box's weight from one cell to the
      other. */
  lemma TwoTallies(g: Grid, first: Cell, last: Cell, w: Weight)
    requires InGrid(g, first.0, first.1) && InGrid(g, last.0, last.1) && first != last
    requires g[first.0][first.1] == 'O' && g[last.0][last.1] != 'O'
    ensures Tally(SetCell(SetCell(g, first.0, first.1, '.'), last.0, last.1, 'O'), 'O', w) ==
      Tally(g, 'O', w) - WeightOf(w, first.0, first.1) + WeightOf(w, last.0, last.1)
  {
    var h := SetCell(g, first.0, first.1, '.');
    TallySetCell(g, first.0, first.1, '.', 'O', w);
    TallySetCell(h, last.0, last.1, 'O', 'O', w);
  }

  /** The robot's own step on a walled map, from its '@' onto a '.': the
      map stays walled with the robot on its new '@', keeps its walls, and
      neither the number of boxes nor the GPS sum changes. */
  lemma StepKeeps(g: Grid, robot: Cell, move: char)
    requires Warehouse(g, robot)
    ensures var r := RobotStep(g, robot, move);
      Warehouse(r.0, r.1) && SameWalls(g, r.0) &&
      Tally(r.0, 'O', Unit) == Tally(g, 'O', Unit) &&
      Tally(r.0, 'O', GpsWeight) == Tally(g, 'O', GpsWeight)
  {
    var q := Next(robot, move);
    Inside(g, robot);
    if g[q.0][q.1] == '.' {
      Overwrite(g, robot.0, robot.1, '.');
      var h := SetCell(g, robot.0, robot.1, '.');
      Overwrite(h, q.0, q.1, '@');
      SameWallsTrans(g, h, SetCell(h, q.0, q.1, '@'));
      assert RobotStep(g, robot, move).0 == SetCell(h, q.0, q.1, '@');
      TallySetCell(g, robot.0, robot.1, '.', 'O', Unit);
      TallySetCell(h, q.0, q.1, '@', 'O', Unit);
      TallySetCell(g, robot.0, robot.1, '.', 'O', GpsWeight);
      TallySetCell(h, q.0, q.1, '@', 'O', GpsWeight);
    }
  }

  /** One move on a walled map keeps it walled with the robot on its '@',
      keeps every wall and the number of boxes; the robot advances exactly
      when the cell ahead holds '.' once the boxes have been pushed, and
      otherwise stays. */
  lemma MoveKeeps(g: Grid, robot: Cell, move: char)
    requires Warehouse(g, robot)
    ensures var p := Push(g, robot, move);
      var q := Next(robot, move);
      var r := MoveRobot(g, robot, move);
      Warehouse(r.0, r.1) && SameWalls(g, r.0) &&
      (r.1 == q <==> At(p, q.0, q.1) == Some('.')) && (r.1 != q ==> r.1 == robot) &&
      Tally(r.0, 'O', Unit) == Tally(g, 'O', Unit)
  {
    var p := Push(g, robot, move);
    if Moves(g, robot, move) {
      PushShifts(g, robot, move);
    } else {
      PushBlocked(g, robot, move);
    }
    PushCounts(g, robot, move);
    StepKeeps(p, robot, move);
    SameWallsTrans(g, p, MoveRobot(g, robot, move).0);
  }

  // ---------------------------------------------------------------------
  // The move as the source makes it
  // ---------------------------------------------------------------------

  /** The `while` loop of `makeMove`: the cells of the line of boxes ahead
      of the robot, nearest first. */
  method CollectRun(g: Grid, robot: Cell, move: char) returns (blocks: seq<Cell>)
    ensures |blocks| == RunLength(g, robot, move)
    ensures forall k :: 0 <= k < |blocks| ==> blocks[k] == Ahead(robot, move, k + 1)
  {
    blocks := [];
    var p := Next(robot, move);
    AheadNext(robot, move, 0);
    while InBounds(g, p) && At(g, p.0, p.1) == Some('O')
      invariant RunSoFar(g, robot, move, blocks, p)
      decreases RunLength(g, robot, move) - |blocks|
    {
      blocks, p := CollectOne(g, robot, move, blocks, p);
    }
    RunUnfolds(g, robot, move, |blocks|);
  }

  /** The loop of `CollectRun` after collecting `blocks`, with `p` the cell
      it looks at next. */
  ghost predicate RunSoFar(g: Grid, robot: Cell, move: char, blocks: seq<Cell>, p: Cell) {
    p == Ahead(robot, move, |blocks| + 1) &&
    (forall k :: 0 <= k < |blocks| ==> blocks[k] == Ahead(robot, move, k + 1)) &&
    RunLength(g, robot, move) == |blocks| + RunLength(g, Ahead(robot, move, |blocks|), move)
  }

  /** One pass of the loop of `CollectRun`. */
  method CollectOne(g: Grid, robot: Cell, move: char, blocks: seq<Cell>, p: Cell) returns (blocks': seq<Cell>, p': Cell)
    requires RunSoFar(g, robot, move, blocks, p) && InBounds(g, p) && At(g, p.0, p.1) == Some('O')
    ensures RunSoFar(g, robot, move, blocks', p') && |blocks'| == |blocks| + 1
    ensures |blocks'| <= RunLength(g, robot, move)
  {
    RunUnfolds(g, robot, move, |blocks|);
    blocks' := blocks + [p];
    p' := Next(p, move);
    AheadNext(robot, move, |blocks'|);
  }

  /** One step of `RunLength` from the cell `b` steps ahead. */
  lemma RunUnfolds(g: Grid, robot: Cell, move: char, b: int)
    ensures var p := Ahead(robot, move, b + 1);
      Next(Ahead(robot, move, b), move) == p &&
      RunLength(g, Ahead(robot, move, b), move) ==
        if InBounds(g, p) && At(g, p.0, p.1) == Some('O') then 1 + RunLength(g, p, move) else 0
  {
    AheadNext(robot, move, b);
    AheadNext(robot, move, b + 1);
  }

  /** The map while `moveBlocks` runs: after `t` passes the far `t` boxes of
      the line of `n` have moved. */
  ghost function Partial(g: Grid, robot: Cell, move: char, n: nat, t: nat): Grid
    requires n == RunLength(g, robot, move) && t <= n
  {
    RunIsMaximal(g, robot, move);
    if t == 0 then g
    else
      var a := Ahead(robot, move, n - t + 1);
      var last := Ahead(robot, move, n + 1);
      Store(SetCell(g, a.0, a.1, '.'), last.0, last.1, 'O')
  }

  /** One pass of the loop of `moveBlocks`: moving the box `t` places from
      the far end of the line. */
  lemma ShiftStep(g: Grid, robot: Cell, move: char, n: nat, t: nat)
    requires n == RunLength(g, robot, move) && t < n
    ensures var b := Ahead(robot, move, n - t);
      var q := Next(b, move);
      Store(Store(Partial(g, robot, move, n, t), q.0, q.1, 'O'), b.0, b.1, '.') == Partial(g, robot, move, n, t + 1)
  {
    var b := Ahead(robot, move, n - t);
    var q := Next(b, move);
    var last := Ahead(robot, move, n + 1);
    AheadNext(robot, move, n - t);
    RunIsMaximal(g, robot, move);
    var before := Partial(g, robot, move, n, t);
    var after := Partial(g, robot, move, n, t + 1);
    assert after == Store(SetCell(g, b.0, b.1, '.'), last.0, last.1, 'O');
    if t == 0 {
      assert before == g && q == last;
      StoreSwap(g, b, last, '.', 'O');
    } else {
      assert before == Store(SetCell(g, q.0, q.1, '.'), last.0, last.1, 'O');
      assert InGrid(g, b.0, b.1) && InGrid(g, q.0, q.1) && g[q.0][q.1] == 'O';
      MoveOneBox(g, b, q, last);
    }
  }

  /** With the boxes past `q` already moved, moving the box at `b` onto `q`
      leaves the line moved from `b` on. */
  lemma MoveOneBox(g: Grid, b: Cell, q: Cell, last: Cell)
    requires InGrid(g, b.0, b.1) && InGrid(g, q.0, q.1) && g[q.0][q.1] == 'O'
    requires b != last && q != last && b != q
    ensures Store(Store(Store(SetCell(g, q.0, q.1, '.'), last.0, last.1, 'O'), q.0, q.1, 'O'), b.0, b.1, '.') ==
      Store(SetCell(g, b.0, b.1, '.'), last.0, last.1, 'O')
  {
    var x := SetCell(g, q.0, q.1, '.');
    StoreSwap(x, q, last, 'O', 'O');
    SetCellRestore(g, q.0, q.1, '.');
    StoreSwap(g, b, last, '.', 'O');
  }

  /** `moveBlocks`: the line is walked from its far end, each box written
      one step further on and its old cell cleared, unless a wall stands
      past the far end. */
  method MoveBlocks(g: Grid, ghost robot: Cell, blocks: seq<Cell>, move: char) returns (g': Grid)
    requires |blocks| == RunLength(g, robot, move) > 0
    requires forall k :: 0 <= k < |blocks| ==> blocks[k] == Ahead(robot, move, k + 1)
    ensures g' == Push(g, robot, move)
  {
    var n := |blocks|;
    var last := Next(blocks[n - 1], move);
    AheadNext(robot, move, n);
    g' := g;
    if At(g, last.0, last.1) != Some('#') {
      for t := 0 to n
        invariant g' == Partial(g, robot, move, n, t)
      {
        var b := blocks[n - 1 - t];
        var q := Next(b, move);
        ShiftStep(g, robot, move, n, t);
        g' := Store(g', q.0, q.1, 'O');
        g' := Store(g', b.0, b.1, '.');
      }
      PartialDone(g, robot, move, n);
    }
  }

  /** Once every box of the line has moved, the map is the pushed one. */
  lemma PartialDone(g: Grid, robot: Cell, move: char, n: nat)
    requires 0 < n == RunLength(g, robot, move)
    requires At(g, Ahead(robot, move, n + 1).0, Ahead(robot, move, n + 1).1) != Some('#')
    ensures Partial(g, robot, move, n, n) == Push(g, robot, move)
  {
    assert n - n + 1 == 1;
  }

  /** `makeMove`: collect the line, push it, then step. */
  method MakeMove(g: Grid, move: char, robot: Cell) returns (g': Grid, robot': Cell)
    ensures (g', robot') == MoveRobot(g, robot, move)
  {
    var blocks := CollectRun(g, robot, move);
    g' := g;
    if |blocks| > 0 {
      g' := MoveBlocks(g, robot, blocks, move);
    }
    var r := RobotStep(g', robot, move);
    g', robot' := r.0, r.1;
  }

  // ---------------------------------------------------------------------
  // Part one
  // ---------------------------------------------------------------------

  /** `findRobotPosition`: the first '@' in row-major order, or (-1, -1)
      when the map has none. */
  function FindRobot(g: Grid): (p: Cell)
    ensures p != (-1, -1) ==> InGrid(g, p.0, p.1) && g[p.0][p.1] == '@'
    ensures p != (-1, -1) ==> forall i, j :: InGrid(g, i, j) && RowMajorBefore(i, j, p.0, p.1) ==> g[i][j] != '@'
    ensures p == (-1, -1) ==> forall i, j :: InGrid(g, i, j) ==> g[i][j] != '@'
  {
    match FindFirst(g, '@')
    case Some(c) => c
    case None => (-1, -1)
  }

  /** The map after the robot has made every move in turn. */
  function Simulate(g: Grid, robot: Cell, moves: seq<char>): (r: Grid)
    ensures |r| == |g|
    decreases |moves|
  {
    if moves == [] then g
    else
      var s := MoveRobot(g, robot, moves[0]);
      Simulate(s.0, s.1, moves[1..])
  }

  /** Over a whole run on a walled map the walls stay where they are and
      the number of boxes does not change. */
  lemma {:induction false} SimulateKeeps(g: Grid, robot: Cell, moves: seq<char>)
    requires Warehouse(g, robot)
    ensures var h := Simulate(g, robot, moves);
      Walled(h) && SameWalls(g, h) && Tally(h, 'O', Unit) == Tally(g, 'O', Unit)
    decreases |moves|
  {
    if moves != [] {
      MoveKeeps(g, robot, moves[0]);
      var s := MoveRobot(g, robot, moves[0]);
      SimulateKeeps(s.0, s.1, moves[1..]);
      SameWallsTrans(g, s.0, Simulate(g, robot, moves));
    }
  }

  /** A walled map with a robot on it is a warehouse from the start. */
  lemma StartsAsWarehouse(g: Grid)
    requires Walled(g) && FindRobot(g) != (-1, -1)
    ensures Warehouse(g, FindRobot(g))
  {
  }

  /** `solvePart1`: every move in turn from the first '@', then the GPS sum
      of the boxes. */
  method SolvePart1(g: Grid, moves: seq<char>) returns (gps: int)
    ensures gps == Tally(Simulate(g, FindRobot(g), moves), 'O', GpsWeight)
  {
    var cur := g;
    var robot := FindRobot(g);
    for k := 0 to |moves|
      invariant Simulate(cur, robot, moves[k..]) == Simulate(g, FindRobot(g), moves)
    {
      assert moves[k..][1..] == moves[k + 1..];
      cur, robot := MakeMove(cur, moves[k], robot);
    }
    gps := GpsSum(cur, 'O');
  }
}

=== FILE: day15_wide_warehouse.dfy ===
/** Day 15 of 2024, part two: the warehouse map is first doubled in width,
    so every box becomes a two-cell box "[]", and a push can now move a
    widening front of boxes, level by level. The answer is the GPS sum of
    the boxes' left cells. */
module WideWarehouse {
  import opened Options
  import opened Grids
  import opened Arith
  import opened WarehouseRobot

  /** A two-cell box, or the robot's own cell twice: a left and a right
      cell. */
  type Pair = (Cell, Cell)

  // ---------------------------------------------------------------------
  // Doubling the map
  // ---------------------------------------------------------------------

  /** The two characters a cell becomes: walls and floor doubled, a box
      "[]", and anything else, the robot included, "@.". */
  function Widen(c: char): (s: string)
    ensures |s| == 2
    ensures s[0] == '[' <==> c == 'O'
    ensures s[1] == ']' <==> c == 'O'
    ensures s[0] != ']' && s[1] != '['
  {
    if c == '#' || c == '.' then [c, c]
    else if c == 'O' then "[]"
    else "@."
  }

  function WidenRow(row: seq<char>): (r: seq<char>)
    ensures |r| == 2 * |row|
    ensures forall j :: 0 <= j < |row| ==> r[2 * j] == Widen(row[j])[0] && r[2 * j + 1] == Widen(row[j])[1]
  {
    if row == [] then []
    else WidenRow(row[..|row| - 1]) + Widen(row[|row| - 1])
  }

  /** One row of `buildDoubledMatrix`: the widened cells, then the cells of
      the row array that were never written, which keep the number 0 they
      were filled with. */
  function DoubleRow(row: seq<char>, width: nat): (r: seq<char>)
    ensures |r| == 2 * Max(|row|, width) && 2 * |row| <= |r|
    ensures forall j :: 0 <= j < |row| ==> r[2 * j] == Widen(row[j])[0] && r[2 * j + 1] == Widen(row[j])[1]
    ensures forall j :: 2 * |row| <= j < |r| ==> r[j] == Hole
  {
    WidenRow(row) + seq(if |row| < width then 2 * (width - |row|) else 0, _ => Hole)
  }

  function DoubleRows(g: Grid, width: nat): (d: Grid)
    ensures |d| == |g| && forall i :: 0 <= i < |g| ==> d[i] == DoubleRow(g[i], width)
  {
    seq(|g|, i requires 0 <= i < |g| => DoubleRow(g[i], width))
  }

  /** `buildDoubledMatrix`: every row doubled and at least twice as long as
      the first row. An empty map stays empty (the row builder never runs,
      so the first row is never read). */
  function Double(g: Grid): (d: Grid)
    ensures |d| == |g|
    ensures forall i :: 0 <= i < |g| ==> |d[i]| == 2 * Max(|g[i]|, Width(g))
  {
    DoubleRows(g, Width(g))
  }

  /** One cell of the doubled map, read off the original map. */
  lemma DoubleCell(g: Grid, i: int, j: int)
    requires 0 <= i < |g| && 0 <= j < |Double(g)[i]|
    ensures Double(g)[i][j] == if j < 2 * |g[i]| then Widen(g[i][j / 2])[j % 2] else Hole
  {
    var row := DoubleRow(g[i], Width(g));
    assert Double(g)[i] == row;
    if j < 2 * |g[i]| {
      var m := j / 2;
      assert row[2 * m] == Widen(g[i][m])[0] && row[2 * m + 1] == Widen(g[i][m])[1];
    }
  }

  /** The character of part one that a left cell of part two stands for. */
  function Unwiden(c: char): char {
    if c == '[' then 'O' else c
  }

  /** Every other column of a doubled map, read back as part one's map. */
  function Narrow(d: Grid): (g: Grid)
    ensures |g| == |d|
  {
    seq(|d|, i requires 0 <= i < |d| => seq(|d[i]| / 2, j requires 0 <= j < |d[i]| / 2 => Unwiden(d[i][2 * j])))
  }

  lemma NarrowRow(g: Grid, i: int)
    requires Rectangular(g) && 0 <= i < |g|
    requires forall j :: 0 <= j < |g[i]| ==> g[i][j] in "#.O@"
    ensures Narrow(Double(g))[i] == g[i]
  {
    var d := Double(g);
    var row := DoubleRow(g[i], Width(g));
    assert d[i] == row && |row| == 2 * |g[i]|;
    forall j | 0 <= j < |g[i]| ensures Narrow(d)[i][j] == g[i][j] {
      assert row[2 * j] == Widen(g[i][j])[0];
    }
  }

  /** A rectangular map made of walls, floor, boxes and the robot is
      recovered from its doubled map. */
  lemma DoubleNarrow(g: Grid)
    requires Rectangular(g)
    requires forall i, j :: InGrid(g, i, j) ==> g[i][j] in "#.O@"
    ensures Narrow(Double(g)) == g
  {
    forall i | 0 <= i < |g| ensures Narrow(Double(g))[i] == g[i] {
      NarrowRow(g, i);
    }
  }

  /** Every '[' has its ']' right after it and every ']' its '[' right
      before it. */
  ghost predicate Paired(d: Grid) {
    (forall i, j :: InGrid(d, i, j) && d[i][j] == '[' ==> j + 1 < |d[i]| && d[i][j + 1] == ']') &&
    (forall i, j :: InGrid(d, i, j) && d[i][j] == ']' ==> j >= 1 && d[i][j - 1] == '[')
  }

  lemma PairedOpenRow(row: seq<char>, width: nat, j: int)
    requires 0 <= j < |DoubleRow(row, width)| && DoubleRow(row, width)[j] == '['
    ensures j + 1 < |DoubleRow(row, width)| && DoubleRow(row, width)[j + 1] == ']'
  {
    var r := DoubleRow(row, width);
    assert j < 2 * |row|;
    var m := j / 2;
    assert j == 2 * m || j == 2 * m + 1;
    assert r[2 * m] == Widen(row[m])[0] && r[2 * m + 1] == Widen(row[m])[1];
  }

  lemma PairedCloseRow(row: seq<char>, width: nat, j: int)
    requires 0 <= j < |DoubleRow(row, width)| && DoubleRow(row, width)[j] == ']'
    ensures j >= 1 && DoubleRow(row, width)[j - 1] == '['
  {
    var r := DoubleRow(row, width);
    assert j < 2 * |row|;
    var m := j / 2;
    assert j == 2 * m || j == 2 * m + 1;
    assert r[2 * m] == Widen(row[m])[0] && r[2 * m + 1] == Widen(row[m])[1];
  }

  lemma PairedCell(g: Grid, i: int, j: int)
    requires InGrid(Double(g), i, j)
    ensures Double(g)[i][j] == '[' ==> j + 1 < |Double(g)[i]| && Double(g)[i][j + 1] == ']'
    ensures Double(g)[i][j] == ']' ==> j >= 1 && Double(g)[i][j - 1] == '['
  {
    assert Double(g)[i] == DoubleRow(g[i], Width(g));
    if Double(g)[i][j] == '[' {
      PairedOpenRow(g[i], Width(g), j);
    }
    if Double(g)[i][j] == ']' {
      PairedCloseRow(g[i], Width(g), j);
    }
  }

  /** A doubled map holds whole boxes only, whatever the original held. */
  lemma DoublePaired(g: Grid)
    ensures Paired(Double(g))
  {
    forall i, j | InGrid(Double(g), i, j) {
      PairedCell(g, i, j);
    }
  }

  // ---------------------------------------------------------------------
  // GPS of the doubled map
  // ---------------------------------------------------------------------

  /** The GPS weight of a box of part one at its doubled column. */
  const WideGps := Weight(100, 2, 0)

  lemma {:induction false} RowTallyHoles(s: seq<char>, t: seq<char>, i: int, c: char, w: Weight)
    requires c !in t
    ensures RowTally(s + t, i, c, w) == RowTally(s, i, c, w)
  {
    if t != [] {
      var n := |t| - 1;
      assert (s + t)[..|s + t| - 1] == s + t[..n];
      assert (s + t)[|s + t| - 1] == t[n] && t[n] in t;
      assert c !in t[..n];
      RowTallyHoles(s, t[..n], i, c, w);
      assert RowTally(s + t, i, c, w) == RowTally(s + t[..n], i, c, w);
    } else {
      assert s + t == s;
    }
  }

  lemma {:induction false} RowTallyWiden(row: seq<char>, i: int)
    ensures RowTally(WidenRow(row), i, '[', GpsWeight) == RowTally(row, i, 'O', WideGps)
  {
    if row != [] {
      var n := |row| - 1;
      var a := WidenRow(row[..n]);
      var x := Widen(row[n]);
      assert WidenRow(row) == a + x;
      assert (a + x)[..|a| + 1] == a + [x[0]];
      assert (a + [x[0]])[..|a|] == a;
      RowTallyWiden(row[..n], i);
    }
  }

  lemma {:induction false} TallyDoubleRows(g: Grid, width: nat)
    ensures Tally(DoubleRows(g, width), '[', GpsWeight) == Tally(g, 'O', WideGps)
  {
    if g != [] {
      var n := |g| - 1;
      var d := DoubleRows(g, width);
      assert d[..n] == DoubleRows(g[..n], width);
      TallyDoubleRows(g[..n], width);
      RowTallyHoles(WidenRow(g[n]), seq(if |g[n]| < width then 2 * (width - |g[n]|) else 0, _ => Hole), n, '[', GpsWeight);
      RowTallyWiden(g[n], n);
    }
  }

  /** The GPS sum of the doubled map counts each box of the original map
      at twice its column: 100 times the row plus two times the column. */
  lemma DoubleGps(g: Grid)
    ensures Tally(Double(g), '[', GpsWeight) == Tally(g, 'O', WideGps)
  {
    TallyDoubleRows(g, Width(g));
  }

  // ---------------------------------------------------------------------
  // Finding the boxes to push
  // ---------------------------------------------------------------------

  predicate IsBox(x: Option<char>) {
    x == Some('[') || x == Some(']')
  }

  /** Both cells of a pair lie side by side, left then right. */
  predicate Horizontal(p: Pair) {
    p.1 == (p.0.0, p.0.1 + 1)
  }

  /** `getDoubledBox`: the box a cell belongs to, taking a ']' as the right
      cell and anything else as the left cell. */
  function BoxAt(g: Grid, p: Cell): (b: Pair)
    ensures Horizontal(b) && b.0.0 == p.0
    ensures b.1 == p <==> At(g, p.0, p.1) == Some(']')
    ensures b.0 == p <==> At(g, p.0, p.1) != Some(']')
  {
    if At(g, p.0, p.1) == Some(']') then ((p.0, p.1 - 1), p) else (p, (p.0, p.1 + 1))
  }

  /** On a map of whole boxes, the box of a box cell is exactly its '[' and
      its ']'. */
  lemma BoxAtWhole(g: Grid, p: Cell)
    requires Paired(g) && IsBox(At(g, p.0, p.1))
    ensures var b := BoxAt(g, p);
      At(g, b.0.0, b.0.1) == Some('[') && At(g, b.1.0, b.1.1) == Some(']')
  {
  }

  /** The boxes one entry of the search queue pushes directly: for '<' the
      box left of its left cell, for '>' the box right of its right cell,
      for '^' and 'v' the boxes beyond either cell (once when both cells
      lead to the same cell). Any other move pushes nothing. */
  function Pushes(g: Grid, e: Pair, move: char): (r: seq<Pair>)
    ensures |r| <= 2 && forall k :: 0 <= k < |r| ==> Horizontal(r[k])
  {
    if move == '<' then
      var n := Next(e.0, move);
      if IsBox(At(g, n.0, n.1)) then [BoxAt(g, n)] else []
    else if move == '>' then
      var n := Next(e.1, move);
      if At(g, n.0, n.1) == Some('[') then [(n, Next(n, move))] else []
    else if move == '^' || move == 'v' then
      var l := Next(e.0, move);
      var r := Next(e.1, move);
      (if IsBox(At(g, l.0, l.1)) then [BoxAt(g, l)] else []) +
      (if l != r && IsBox(At(g, r.0, r.1)) then [BoxAt(g, r)] else [])
    else []
  }

  /** The next level of the search: the boxes pushed by the entries of the
      queue, in queue order. */
  function NextLevel(g: Grid, queue: seq<Pair>, move: char): (next: seq<Pair>)
    ensures forall k :: 0 <= k < |next| ==> Horizontal(next[k])
  {
    if queue == [] then [] else Pushes(g, queue[0], move) + NextLevel(g, queue[1..], move)
  }

  /** The length of the longest row. */
  function LongestRow(g: Grid): (n: nat)
    ensures forall i :: 0 <= i < |g| ==> |g[i]| <= n
  {
    if g == [] then 0 else Max(|g[0]|, LongestRow(g[1..]))
  }

  /** How far an entry can still go: the search only ever moves away from
      it, and only onto cells of the map. */
  function Key(g: Grid, e: Pair, move: char): int {
    if move == '<' then e.0.1 + 1
    else if move == '>' then LongestRow(g) - e.1.1
    else if move == '^' then Max(e.0.0, e.1.0) + 1
    else if move == 'v' then |g| - Min(e.0.0, e.1.0)
    else 0
  }

  function Bound(g: Grid, e: Pair, move: char): nat {
    1 + Max(0, Key(g, e, move))
  }

  /** The largest bound of a queue's entries; 0 for an empty queue. */
  function Reach(g: Grid, queue: seq<Pair>, move: char): nat {
    if queue == [] then 0 else Max(Bound(g, queue[0], move), Reach(g, queue[1..], move))
  }

  /** Every box an entry pushes lies strictly closer to the edge the move
      heads for. */
  lemma PushesCloser(g: Grid, e: Pair, move: char)
    ensures forall x :: x in Pushes(g, e, move) ==> Bound(g, x, move) < Bound(g, e, move)
  {
  }

  lemma {:induction false} ReachBelow(g: Grid, s: seq<Pair>, move: char, b: nat)
    requires b >= 1 && forall x :: x in s ==> Bound(g, x, move) < b
    ensures Reach(g, s, move) < b
  {
    if s != [] {
      assert s[0] in s;
      assert forall x :: x in s[1..] ==> x in s;
      ReachBelow(g, s[1..], move, b);
    }
  }

  lemma {:induction false} ReachConcat(g: Grid, a: seq<Pair>, b: seq<Pair>, move: char)
    ensures Reach(g, a + b, move) == Max(Reach(g, a, move), Reach(g, b, move))
  {
    if a != [] {
      assert (a + b)[1..] == a[1..] + b && (a + b)[0] == a[0];
      ReachConcat(g, a[1..], b, move);
      assert Reach(g, a + b, move) == Max(Bound(g, a[0], move), Reach(g, a[1..] + b, move));
    } else {
      assert a + b == b;
    }
  }

  /** Each level of the search reaches less far than the one before: the
      search ends on every map. */
  lemma {:induction false} NextLevelCloser(g: Grid, queue: seq<Pair>, move: char)
    requires queue != []
    ensures Reach(g, NextLevel(g, queue, move), move) < Reach(g, queue, move)
  {
    var p := Pushes(g, queue[0], move);
    PushesCloser(g, queue[0], move);
    ReachBelow(g, p, move, Bound(g, queue[0], move));
    ReachConcat(g, p, NextLevel(g, queue[1..], move), move);
    if queue[1..] != [] {
      NextLevelCloser(g, queue[1..], move);
    }
  }

  function Reversed<T>(s: seq<T>): (r: seq<T>)
    ensures |r| == |s| && forall k :: 0 <= k < |s| ==> r[k] == s[|s| - 1 - k]
  {
    if s == [] then [] else Reversed(s[1..]) + [s[0]]
  }

  /** The `while` loop of `getBlocksToMoveWithDoubleBoxes`: every non-empty
      level after the queue, each level in reverse. */
  function Levels(g: Grid, queue: seq<Pair>, move: char): (levels: seq<seq<Pair>>)
    ensures forall k :: 0 <= k < |levels| ==> levels[k] != [] && forall m :: 0 <= m < |levels[k]| ==> Horizontal(levels[k][m])
    decreases Reach(g, queue, move)
  {
    if queue == [] then []
    else
      var next := NextLevel(g, queue, move);
      NextLevelCloser(g, queue, move);
      (if next == [] then [] else [Reversed(next)]) + Levels(g, next, move)
  }

  /** `getBlocksToMoveWithDoubleBoxes`: the levels of boxes a move pushes,
      starting from the robot's cell, farthest level first. */
  function BlocksToMove(g: Grid, robot: Cell, move: char): (levels: seq<seq<Pair>>)
    ensures forall k :: 0 <= k < |levels| ==> levels[k] != [] && forall m :: 0 <= m < |levels[k]| ==> Horizontal(levels[k][m])
  {
    Reversed(Levels(g, [(robot, robot)], move))
  }

  /** A move character other than '<', '>', '^' and 'v' finds no boxes to
      push in part two, although part one pushes upwards for it. */
  lemma OtherMovePushesNothing(g: Grid, robot: Cell, move: char)
    requires move != '<' && move != '>' && move != '^' && move != 'v'
    ensures BlocksToMove(g, robot, move) == []
  {
    assert NextLevel(g, [(robot, robot)], move) == [];
    assert Levels(g, [(robot, robot)], move) == [];
  }

  // ---------------------------------------------------------------------
  // Moving the boxes of one level
  // ---------------------------------------------------------------------

  /** A wall stands in front of one of the box's cells. */
  predicate Blocked(g: Grid, b: Pair, move: char) {
    var l := Next(b.0, move);
    var r := Next(b.1, move);
    At(g, l.0, l.1) == Some('#') || At(g, r.0, r.1) == Some('#')
  }

  /** The writes of `moveBlocksByLevel` for one box: "[]" one step on, then
      '.' on the cells the box leaves. */
  function ShiftBox(g: Grid, b: Pair, move: char): Grid {
    var l := Next(b.0, move);
    var r := Next(b.1, move);
    var h := Store(Store(g, l.0, l.1, '['), r.0, r.1, ']');
    if move == '<' then Store(h, b.1.0, b.1.1, '.')
    else if move == '>' then Store(h, b.0.0, b.0.1, '.')
    else Store(Store(h, b.0.0, b.0.1, '.'), b.1.0, b.1.1, '.')
  }

  /** A box moves as a whole: its '[' and ']' stand one step on, the cells
      it left and did not move onto hold '.', and nothing else changes. */
  lemma ShiftBoxMoves(g: Grid, b: Pair, move: char)
    requires Horizontal(b) && InGrid(g, b.0.0, b.0.1) && InGrid(g, b.1.0, b.1.1)
    requires InGrid(g, Next(b.0, move).0, Next(b.0, move).1) && InGrid(g, Next(b.1, move).0, Next(b.1, move).1)
    ensures var h := ShiftBox(g, b, move);
      var l := Next(b.0, move);
      var r := Next(b.1, move);
      |h| == |g| && (forall i :: 0 <= i < |g| ==> |h[i]| == |g[i]|) &&
      forall i, j :: InGrid(g, i, j) ==>
        h[i][j] == if (i, j) == l then '[' else if (i, j) == r then ']'
          else if (i, j) == b.0 || (i, j) == b.1 then '.' else g[i][j]
  {
  }

  /** Every box of the list moved in turn, with no check for walls. */
  function ShiftAll(g: Grid, blocks: seq<Pair>, move: char): (r: Grid)
    ensures |r| == |g|
  {
    if blocks == [] then g
    else ShiftBox(ShiftAll(g, blocks[..|blocks| - 1], move), blocks[|blocks| - 1], move)
  }

  /** The index of the first box that has a wall in front of it once the
      boxes before it have moved, or the number of boxes. */
  function StopFrom(g: Grid, blocks: seq<Pair>, move: char, t: nat): (k: nat)
    requires t <= |blocks|
    ensures t <= k <= |blocks|
    ensures forall j :: t <= j < k ==> !Blocked(ShiftAll(g, blocks[..j], move), blocks[j], move)
    ensures k < |blocks| ==> Blocked(ShiftAll(g, blocks[..k], move), blocks[k], move)
    decreases |blocks| - t
  {
    if t == |blocks| then t
    else if Blocked(ShiftAll(g, blocks[..t], move), blocks[t], move) then t
    else StopFrom(g, blocks, move, t + 1)
  }

  /** `moveBlocksByLevel`: the boxes move in turn until one has a wall in
      front of it; then it reports false and leaves the boxes already moved
      where they are. It reports true exactly when no box was stopped. */
  function MoveLevel(g: Grid, blocks: seq<Pair>, move: char): (r: (bool, Grid))
    ensures r.0 <==> forall j :: 0 <= j < |blocks| ==> !Blocked(ShiftAll(g, blocks[..j], move), blocks[j], move)
    ensures r.0 ==> r.1 == ShiftAll(g, blocks, move)
    ensures !r.0 ==>
      exists k :: 0 <= k < |blocks| && r.1 == ShiftAll(g, blocks[..k], move) && Blocked(r.1, blocks[k], move)
  {
    var k := StopFrom(g, blocks, move, 0);
    assert blocks[..|blocks|] == blocks;
    (k == |blocks|, ShiftAll(g, blocks[..k], move))
  }

  /** The loop of `moveBlocksByLevel`, returning early at a wall. */
  method MoveBlocksByLevel(g: Grid, blocks: seq<Pair>, move: char) returns (ok: bool, g': Grid)
    ensures (ok, g') == MoveLevel(g, blocks, move)
  {
    g' := g;
    var t := 0;
    while t < |blocks|
      invariant 0 <= t <= |blocks| && g' == ShiftAll(g, blocks[..t], move)
      invariant StopFrom(g, blocks, move, 0) == StopFrom(g, blocks, move, t)
    {
      var b := blocks[t];
      var l := Next(b.0, move);
      var r := Next(b.1, move);
      if At(g', l.0, l.1) == Some('#') || At(g', r.0, r.1) == Some('#') {
        return false, g';
      }
      g' := Store(g', l.0, l.1, '[');
      g' := Store(g', r.0, r.1, ']');
      if move == '<' {
        g' := Store(g', b.1.0, b.1.1, '.');
      } else if move == '>' {
        g' := Store(g', b.0.0, b.0.1, '.');
      } else {
        g' := Store(g', b.0.0, b.0.1, '.');
        g' := Store(g', b.1.0, b.1.1, '.');
      }
      assert blocks[..t + 1][..t] == blocks[..t];
      t := t + 1;
    }
    assert blocks[..t] == blocks;
    ok := true;
  }

  // ---------------------------------------------------------------------
  // Part two
  // ---------------------------------------------------------------------

  /** The levels pushed in turn, stopping after the first level that
      reports a wall. */
  function PushLevels(g: Grid, levels: seq<seq<Pair>>, move: char): (r: Grid)
    ensures |r| == |g|
    decreases |levels|
  {
    if levels == [] then g
    else
      var r := MoveLevel(g, levels[0], move);
      if r.0 then PushLevels(r.1, levels[1..], move) else r.1
  }

  /** One move of part two: push the levels, then try to step. */
  function WideMove(g: Grid, robot: Cell, move: char): (r: (Grid, Cell))
    ensures |r.0| == |g|
    ensures r.1 == robot || r.1 == Next(robot, move)
  {
    RobotStep(PushLevels(g, BlocksToMove(g, robot, move), move), robot, move)
  }

  /** The doubled map after the robot has made every move in turn. */
  function WideSimulate(g: Grid, robot: Cell, moves: seq<char>): (r: Grid)
    ensures |r| == |g|
    decreases |moves|
  {
    if moves == [] then g
    else
      var s := WideMove(g, robot, moves[0]);
      WideSimulate(s.0, s.1, moves[1..])
  }

  /** The inner loop of `solvePart2`, leaving it at the first level that
      reports a wall. */
  method PushAll(g: Grid, levels: seq<seq<Pair>>, move: char) returns (g': Grid)
    ensures g' == PushLevels(g, levels, move)
  {
    g' := g;
    var t := 0;
    var going := true;
    while going && t < |levels|
      invariant 0 <= t <= |levels|
      invariant PushLevels(g, levels, move) == if going then PushLevels(g', levels[t..], move) else g'
      decreases |levels| - t
    {
      assert levels[t..][1..] == levels[t + 1..];
      var ok;
      ok, g' := MoveBlocksByLevel(g', levels[t], move);
      going := ok;
      t := t + 1;
    }
    if going {
      assert levels[t..] == [];
    }
  }

  /** `solvePart2`: every move in turn from the first '@' of the doubled
      map, then the GPS sum of the boxes' left cells. */
  method SolvePart2(g: Grid, moves: seq<char>) returns (gps: int)
    ensures gps == Tally(WideSimulate(g, FindRobot(g), moves), '[', GpsWeight)
  {
    var cur := g;
    var robot := FindRobot(g);
    for k := 0 to |moves|
      invariant WideSimulate(cur, robot, moves[k..]) == WideSimulate(g, FindRobot(g), moves)
    {
      assert moves[k..][1..] == moves[k + 1..];
      var levels := BlocksToMove(cur, robot, moves[k]);
      var pushed := PushAll(cur, levels, moves[k]);
      var r := RobotStep(pushed, robot, moves[k]);
      cur, robot := r.0, r.1;
    }
    gps := GpsSum(cur, '[');
  }
}

=== FILE: day16_maze_search.dfy ===
/** Day 16 of 2024, "Reindeer Maze": a reindeer starts on 'S' facing east
    and must reach 'E'. A step forward costs 1 and a quarter turn in place
    costs 1000. The search pops the cheapest state from a priority queue,
    never pushes the same (cell, heading) twice, and records the tile list
    of every 'E' it pops. Part one is the best score; part two counts the
    distinct tiles of the recorded lists. */
module MazeSearch {
  import opened Options
  import opened Grids
  import opened Arith

  /** A tile as the tile lists record it: the start as "row:col" and every
      later state as "row:col:score". Distinct strings are distinct tiles. */
  datatype Tile = Start(i: int, j: int) | Step(i: int, j: int, score: int)

  /** A queue entry: cell, score, heading and the tiles that led here. */
  datatype Node = Node(i: int, j: int, score: int, dir: Heading, tiles: seq<Tile>)

  /** A successor as `getNextDirs` gives it: cell, added cost, heading. */
  datatype Move = Move(i: int, j: int, cost: int, dir: Heading)

  /** A visited key "row:col:heading". */
  type State = ((int, int), Heading)

  const StepCost := 1
  const TurnCost := 1000

  // ---------------------------------------------------------------------
  // Successors and admission
  // ---------------------------------------------------------------------

  /** `getNextDirs`: one step forward, then the two quarter turns in
      place. */
  function NextDirs(h: Heading, i: int, j: int): (r: seq<Move>)
    ensures |r| == 3
    ensures r[0] == Move(i + Offset(h).0, j + Offset(h).1, StepCost, h)
    ensures r[1].i == i && r[1].j == j && r[1].cost == TurnCost
    ensures r[2].i == i && r[2].j == j && r[2].cost == TurnCost
    ensures {r[1].dir, r[2].dir} == {TurnLeft(h), TurnRight(h)}
  {
    match h
    case Up => [Move(i - 1, j, StepCost, Up), Move(i, j, TurnCost, Left), Move(i, j, TurnCost, Right)]
    case Down => [Move(i + 1, j, StepCost, Down), Move(i, j, TurnCost, Left), Move(i, j, TurnCost, Right)]
    case Left => [Move(i, j - 1, StepCost, Left), Move(i, j, TurnCost, Down), Move(i, j, TurnCost, Up)]
    case Right => [Move(i, j + 1, StepCost, Right), Move(i, j, TurnCost, Down), Move(i, j, TurnCost, Up)]
  }

  /** Every successor is a step to a neighbouring cell at cost 1 or a turn
      on the spot at cost 1000, and the three headings differ. */
  lemma NextDirsShape(h: Heading, i: int, j: int)
    ensures forall m :: m in NextDirs(h, i, j) ==>
      (m.cost == StepCost && Abs(m.i - i) + Abs(m.j - j) == 1) ||
      (m.cost == TurnCost && m.i == i && m.j == j)
    ensures NextDirs(h, i, j)[0].dir != NextDirs(h, i, j)[1].dir
    ensures NextDirs(h, i, j)[1].dir != NextDirs(h, i, j)[2].dir
    ensures NextDirs(h, i, j)[0].dir != NextDirs(h, i, j)[2].dir
  {
  }

  /** A cell the search may enter: inside the first row's width, on an
      existing row, and not a wall. A cell past the end of a shorter row
      reads as undefined, which is not a wall. */
  predicate Open(g: Grid, i: int, j: int) {
    0 <= i < |g| && 0 <= j < Width(g) && At(g, i, j) != Some('#')
  }

  function StateOf(m: Move): State {
    ((m.i, m.j), m.dir)
  }

  function NodeState(n: Node): State {
    ((n.i, n.j), n.dir)
  }

  function StatesOf(nodes: seq<Node>): (s: set<State>)
    ensures forall n :: n in nodes ==> NodeState(n) in s
  {
    set n | n in nodes :: NodeState(n)
  }

  /** The queue entry a successor of `node` becomes. */
  function ChildOf(node: Node, m: Move): Node {
    var score := node.score + m.cost;
    Node(m.i, m.j, score, m.dir, node.tiles + [Step(m.i, m.j, score)])
  }

  /** The inner loop of `findMinScore`: each successor is pushed when it
      is open and its state was never pushed, and its state is marked
      visited at once. */
  function Admit(g: Grid, node: Node, moves: seq<Move>, visited: set<State>): (r: (seq<Node>, set<State>))
    ensures r.1 == visited + StatesOf(r.0)
    ensures |r.1| == |visited| + |r.0|
    ensures forall c :: c in r.0 ==> NodeState(c) !in visited && Open(g, c.i, c.j)
    decreases |moves|
  {
    if moves == [] then ([], visited)
    else
      var m := moves[0];
      if Open(g, m.i, m.j) && StateOf(m) !in visited then
        var rest := Admit(g, node, moves[1..], visited + {StateOf(m)});
        var c := ChildOf(node, m);
        AdmitCons(g, visited, c, rest.0, rest.1);
        ([c] + rest.0, rest.1)
      else
        Admit(g, node, moves[1..], visited)
  }

  /** Pushing an open, unseen entry in front of what the later moves push. */
  lemma AdmitCons(g: Grid, visited: set<State>, c: Node, pushed: seq<Node>, seen: set<State>)
    requires NodeState(c) !in visited && Open(g, c.i, c.j)
    requires seen == visited + {NodeState(c)} + StatesOf(pushed)
    requires |seen| == |visited| + 1 + |pushed|
    requires forall c' :: c' in pushed ==> NodeState(c') !in visited + {NodeState(c)} && Open(g, c'.i, c'.j)
    ensures seen == visited + StatesOf([c] + pushed)
    ensures |seen| == |visited| + |[c] + pushed|
    ensures forall c' :: c' in [c] + pushed ==> NodeState(c') !in visited && Open(g, c'.i, c'.j)
  {
    StatesOfCons(c, pushed);
    forall c' | c' in [c] + pushed ensures NodeState(c') !in visited && Open(g, c'.i, c'.j) {
      if c' != c {
        assert c' in pushed;
      }
    }
  }

  lemma StatesOfCons(c: Node, nodes: seq<Node>)
    ensures StatesOf([c] + nodes) == {NodeState(c)} + StatesOf(nodes)
  {
    var all := [c] + nodes;
    forall x | x in StatesOf(all) ensures x in {NodeState(c)} + StatesOf(nodes) {
      var n :| n in all && NodeState(n) == x;
      if n != c {
        assert n in nodes;
      }
    }
    forall x | x in StatesOf(nodes) ensures x in StatesOf(all) {
      var n :| n in nodes && NodeState(n) == x;
      assert n in all;
    }
    assert c in all;
  }

  /** Every entry `Admit` pushes is the child of `node` along one of the
      moves. */
  lemma {:induction false} AdmitFrom(g: Grid, node: Node, moves: seq<Move>, visited: set<State>)
    ensures forall c :: c in Admit(g, node, moves, visited).0 ==>
      exists m :: m in moves && Open(g, m.i, m.j) && c == ChildOf(node, m)
    decreases |moves|
  {
    if moves != [] {
      var m := moves[0];
      var pushed := Open(g, m.i, m.j) && StateOf(m) !in visited;
      var v' := if pushed then visited + {StateOf(m)} else visited;
      AdmitFrom(g, node, moves[1..], v');
      forall c | c in Admit(g, node, moves, visited).0
        ensures exists m' :: m' in moves && Open(g, m'.i, m'.j) && c == ChildOf(node, m')
      {
        if pushed && c == ChildOf(node, m) {
          assert m in moves;
        } else {
          assert c in Admit(g, node, moves[1..], v').0;
          var m' :| m' in moves[1..] && Open(g, m'.i, m'.j) && c == ChildOf(node, m');
          assert m' in moves;
        }
      }
    }
  }

  /** After `Admit` the state of every open move is marked visited: either
      it was already, or it was pushed. */
  lemma {:induction false} AdmitCovers(g: Grid, node: Node, moves: seq<Move>, visited: set<State>, m: Move)
    requires m in moves && Open(g, m.i, m.j)
    ensures StateOf(m) in Admit(g, node, moves, visited).1
    decreases |moves|
  {
    var m0 := moves[0];
    var v' := if Open(g, m0.i, m0.j) && StateOf(m0) !in visited then visited + {StateOf(m0)} else visited;
    assert Admit(g, node, moves, visited).1 == Admit(g, node, moves[1..], v').1;
    if m != m0 {
      assert m in moves[1..];
      AdmitCovers(g, node, moves[1..], v', m);
    } else if StateOf(m) !in v' {
      assert false;
    } else {
      assert Admit(g, node, moves[1..], v').1 == v' + StatesOf(Admit(g, node, moves[1..], v').0);
    }
  }

  // ---------------------------------------------------------------------
  // Tile lists
  // ---------------------------------------------------------------------

  /** The score a tile records; the start records none and stands at 0. */
  function TileScore(t: Tile): int {
    if t.Start? then 0 else t.score
  }

  /** `b` follows `a` on a walk: a step to a neighbouring cell for 1 more,
      or a turn on the same cell for 1000 more. */
  predicate Link(a: Tile, b: Tile) {
    b.Step? &&
    ((Abs(b.i - a.i) + Abs(b.j - a.j) == 1 && b.score == TileScore(a) + StepCost) ||
     (b.i == a.i && b.j == a.j && b.score == TileScore(a) + TurnCost))
  }

  /** A walk from the start tile `o`: every later tile follows the one
      before it and lies on an open cell. */
  ghost predicate Walk(g: Grid, o: Tile, p: seq<Tile>) {
    o.Start? && |p| >= 1 && p[0] == o &&
    forall k :: 1 <= k < |p| ==> Link(p[k - 1], p[k]) && Open(g, p[k].i, p[k].j)
  }

  /** The score of a tile list: that of its last tile. */
  function PathScore(p: seq<Tile>): int {
    if p == [] then 0 else TileScore(p[|p| - 1])
  }

  /** The last tile of the list stands on a cell holding `c`. */
  predicate EndsOn(g: Grid, p: seq<Tile>, c: char) {
    p != [] && At(g, p[|p| - 1].i, p[|p| - 1].j) == Some(c)
  }

  /** A queue entry whose tiles are a walk from `o` to its own cell, at
      its own score. */
  ghost predicate Valid(g: Grid, o: Tile, n: Node) {
    Walk(g, o, n.tiles) && n.tiles[|n.tiles| - 1].i == n.i && n.tiles[|n.tiles| - 1].j == n.j &&
    PathScore(n.tiles) == n.score
  }

  /** Scores strictly increase along a walk. */
  lemma {:induction false} WalkIncreasing(g: Grid, o: Tile, p: seq<Tile>)
    requires Walk(g, o, p)
    ensures forall a, b :: 0 <= a < b < |p| ==> TileScore(p[a]) < TileScore(p[b])
  {
    if |p| > 1 {
      var n := |p| - 1;
      assert Walk(g, o, p[..n]);
      WalkIncreasing(g, o, p[..n]);
      forall a, b | 0 <= a < b < |p| ensures TileScore(p[a]) < TileScore(p[b]) {
        if b < n {
          assert p[a] == p[..n][a] && p[b] == p[..n][b];
        } else if a < n - 1 {
          assert p[a] == p[..n][a] && p[n - 1] == p[..n][n - 1];
        }
      }
    }
  }

  /** The tiles of one walk are pairwise distinct. */
  lemma WalkDistinct(g: Grid, o: Tile, p: seq<Tile>)
    requires Walk(g, o, p)
    ensures forall a, b :: 0 <= a < b < |p| ==> p[a] != p[b]
  {
    WalkIncreasing(g, o, p);
  }

  /** A walk scores at least as much as it starts with. */
  lemma WalkScore(g: Grid, o: Tile, p: seq<Tile>)
    requires Walk(g, o, p)
    ensures PathScore(p) >= 0
  {
    WalkIncreasing(g, o, p);
  }

  /** A child of a valid entry is valid: its new tile follows the
      entry's last one. */
  lemma ChildValid(g: Grid, o: Tile, node: Node, m: Move)
    requires Valid(g, o, node) && m in NextDirs(node.dir, node.i, node.j) && Open(g, m.i, m.j)
    ensures Valid(g, o, ChildOf(node, m))
    ensures ChildOf(node, m).score > node.score
  {
    NextDirsShape(node.dir, node.i, node.j);
    var c := ChildOf(node, m);
    var p := c.tiles;
    assert p[..|p| - 1] == node.tiles;
    forall k | 1 <= k < |p| ensures Link(p[k - 1], p[k]) && Open(g, p[k].i, p[k].j) {
      if k < |p| - 1 {
        assert p[k - 1] == node.tiles[k - 1] && p[k] == node.tiles[k];
      }
    }
  }

  // ---------------------------------------------------------------------
  // Routes through the maze
  // ---------------------------------------------------------------------

  /** The states the search may push after popping state `s`: those of
      its open successors. */
  function Succs(g: Grid, s: State): set<State> {
    set m | m in NextDirs(s.1, s.0.0, s.0.1) && Open(g, m.i, m.j) :: StateOf(m)
  }

  /** A way the reindeer can move: each state is an open successor of the
      one before, so it steps in the heading it faces or turns in place. */
  ghost predicate Route(g: Grid, p: seq<State>) {
    |p| >= 1 && forall k :: 0 <= k < |p| - 1 ==> p[k + 1] in Succs(g, p[k])
  }

  /** The state stands on an 'E'. */
  predicate OnE(g: Grid, s: State) {
    At(g, s.0.0, s.0.1) == Some('E')
  }

  /** A set of states closed under successors holds the whole of every
      route that starts in it. */
  lemma {:induction false} ClosedHoldsRoute(g: Grid, closed: set<State>, p: seq<State>)
    requires forall s :: s in closed ==> Succs(g, s) <= closed
    requires Route(g, p) && p[0] in closed
    ensures p[|p| - 1] in closed
    decreases |p|
  {
    if |p| > 1 {
      var q := p[..|p| - 1];
      assert Route(g, q) by {
        forall k | 0 <= k < |q| - 1 ensures q[k + 1] in Succs(g, q[k]) {
          assert q[k] == p[k] && q[k + 1] == p[k + 1];
        }
      }
      ClosedHoldsRoute(g, closed, q);
      assert p[|p| - 1] in Succs(g, p[|p| - 2]);
    }
  }

  lemma StatesOfAppend(a: seq<Node>, b: seq<Node>)
    ensures StatesOf(a + b) == StatesOf(a) + StatesOf(b)
  {
    forall x | x in StatesOf(a + b) ensures x in StatesOf(a) + StatesOf(b) {
      var n :| n in a + b && NodeState(n) == x;
      if n in a {
        assert x in StatesOf(a);
      } else {
        assert n in b;
      }
    }
  }

  /** What makes the search complete: every state it started from or
      marked is still queued or was popped, the open successors of every
      popped state are marked, and once an 'E' is popped there is a best
      score. */
  ghost predicate Coverage(g: Grid, nodes: seq<Node>, heap: seq<Node>, visited: set<State>,
                           popped: set<State>, best: Option<int>) {
    StatesOf(nodes) + visited <= popped + StatesOf(heap) &&
    (forall s :: s in popped ==> Succs(g, s) <= visited) &&
    (forall s :: s in popped && OnE(g, s) ==> best.Some?)
  }

  /** Taking entry `k` out of the queue loses no state but its own. */
  lemma PopStates(heap: seq<Node>, k: int)
    requires 0 <= k < |heap|
    ensures StatesOf(heap) <= {NodeState(heap[k])} + StatesOf(heap[..k] + heap[k + 1..])
  {
    var rest := heap[..k] + heap[k + 1..];
    forall x | x in StatesOf(heap) ensures x in {NodeState(heap[k])} + StatesOf(rest) {
      var q :| 0 <= q < |heap| && NodeState(heap[q]) == x;
      if q < k {
        assert heap[q] == rest[q];
      } else if q > k {
        assert heap[q] == rest[q - 1];
      }
    }
  }

  /** After a round the popped entry's open successors are all marked. */
  lemma SuccsMarked(g: Grid, node: Node, visited: set<State>)
    ensures Succs(g, NodeState(node)) <= Admit(g, node, NextDirs(node.dir, node.i, node.j), visited).1
  {
    forall x | x in Succs(g, NodeState(node))
      ensures x in Admit(g, node, NextDirs(node.dir, node.i, node.j), visited).1
    {
      var m :| m in NextDirs(node.dir, node.i, node.j) && Open(g, m.i, m.j) && StateOf(m) == x;
      AdmitCovers(g, node, NextDirs(node.dir, node.i, node.j), visited, m);
    }
  }

  /** One round keeps `Coverage`: the popped state `x` leaves the queue
      with its successors marked, what `Admit` marks is queued, and a
      popped 'E' leaves a best score behind. */
  lemma CoverageStep(g: Grid, nodes: seq<Node>, heap: seq<Node>, visited: set<State>, popped: set<State>,
                     best: Option<int>, x: State, rest: seq<Node>, pushed: seq<Node>, seen: set<State>,
                     best': Option<int>)
    requires Coverage(g, nodes, heap, visited, popped, best)
    requires StatesOf(heap) <= {x} + StatesOf(rest)
    requires seen == visited + StatesOf(pushed) && Succs(g, x) <= seen
    requires best.Some? || OnE(g, x) ==> best'.Some?
    ensures Coverage(g, nodes, rest + pushed, seen, popped + {x}, best')
  {
    StatesOfAppend(rest, pushed);
  }

  // ---------------------------------------------------------------------
  // The search
  // ---------------------------------------------------------------------

  /** What `findMinScore` does with a popped entry on an 'E': a strictly
      better score starts the list of tile lists afresh, any other score
      is appended. None stands for the initial `Infinity`. */
  function Record(g: Grid, best: Option<int>, paths: seq<seq<Tile>>, node: Node): (r: (Option<int>, seq<seq<Tile>>))
    ensures At(g, node.i, node.j) != Some('E') ==> r == (best, paths)
    ensures At(g, node.i, node.j) == Some('E') && (best.None? || node.score < best.value) ==>
      r == (Some(node.score), [node.tiles])
    ensures At(g, node.i, node.j) == Some('E') && best.Some? && best.value <= node.score ==>
      r == (best, paths + [node.tiles])
  {
    if At(g, node.i, node.j) == Some('E') then
      if best.None? || node.score < best.value then (Some(node.score), [node.tiles])
      else (best, paths + [node.tiles])
    else (best, paths)
  }

  /** Scores never decrease along the list. */
  ghost predicate SortedScores(paths: seq<seq<Tile>>) {
    forall a, b :: 0 <= a < b < |paths| ==> PathScore(paths[a]) <= PathScore(paths[b])
  }

  /** An entry of least score: the queue's extract-min. The search relies
      on this contract alone, so what it proves holds whichever of several
      equally cheap entries the queue hands back. */
  method PopMin(heap: seq<Node>) returns (k: nat)
    requires heap != []
    ensures k < |heap| && forall m :: 0 <= m < |heap| ==> heap[k].score <= heap[m].score
  {
    k := 0;
    for m := 1 to |heap|
      invariant k < m && forall q :: 0 <= q < m ==> heap[k].score <= heap[q].score
    {
      if heap[m].score < heap[k].score {
        k := m;
      }
    }
  }

  /** What the search keeps true of a queue of walks from `o`: every entry
      is valid and costs at least `floor`, the score of the last entry
      popped; every recorded list is a walk to an 'E' costing at most
      `floor`; the first recorded list is the best and the scores never
      decrease along the list. */
  ghost predicate Searching(g: Grid, o: Tile, heap: seq<Node>, best: Option<int>, paths: seq<seq<Tile>>, floor: int) {
    (forall n :: n in heap ==> Valid(g, o, n) && n.score >= floor) &&
    (forall k :: 0 <= k < |paths| ==> Walk(g, o, paths[k]) && EndsOn(g, paths[k], 'E') && PathScore(paths[k]) <= floor) &&
    (best.Some? ==> paths != [] && PathScore(paths[0]) == best.value && SortedScores(paths))
  }

  /** One round of the search keeps `Searching`: the popped entry is a
      cheapest one, so it costs at least every recorded list, and its
      children cost more than it does. */
  lemma SearchStep(g: Grid, o: Tile, heap: seq<Node>, best: Option<int>, paths: seq<seq<Tile>>, floor: int,
                   k: int, children: seq<Node>)
    requires Searching(g, o, heap, best, paths, floor)
    requires 0 <= k < |heap| && forall m :: 0 <= m < |heap| ==> heap[k].score <= heap[m].score
    requires forall c :: c in children ==>
      exists m :: m in NextDirs(heap[k].dir, heap[k].i, heap[k].j) && Open(g, m.i, m.j) && c == ChildOf(heap[k], m)
    ensures var r := Record(g, best, paths, heap[k]);
      Searching(g, o, heap[..k] + heap[k + 1..] + children, r.0, r.1, heap[k].score)
  {
    var node := heap[k];
    assert node in heap;
    var rest := heap[..k] + heap[k + 1..];
    forall n | n in rest ensures Valid(g, o, n) && n.score >= node.score {
      var q :| 0 <= q < |rest| && rest[q] == n;
      if q < k {
        assert n == heap[q];
      } else {
        assert n == heap[q + 1];
      }
    }
    forall c | c in children ensures Valid(g, o, c) && c.score >= node.score {
      var m :| m in NextDirs(node.dir, node.i, node.j) && Open(g, m.i, m.j) && c == ChildOf(node, m);
      ChildValid(g, o, node, m);
    }
    WalkScore(g, o, node.tiles);
  }

  /** `findMinScore` on a queue of entries whose tiles are walks from `o`.
      Every recorded list is a walk from `o` through open cells to an 'E';
      the first is the best score and the scores never decrease along the
      list, because the queue always hands back a cheapest entry and
      children cost more than their parent. The search ends because each
      push marks a fresh state of the map, and it reaches every state a
      route leads to from the starting entries, so it records a list as
      soon as some route ends on an 'E'. */
  method FindMinScore(g: Grid, nodes: seq<Node>, ghost o: Tile) returns (best: Option<int>, paths: seq<seq<Tile>>)
    ensures best.None? <==> paths == []
    ensures (forall n :: n in nodes ==> Valid(g, o, n)) ==>
      forall k :: 0 <= k < |paths| ==> Walk(g, o, paths[k]) && EndsOn(g, paths[k], 'E')
    ensures (forall n :: n in nodes ==> Valid(g, o, n)) && best.Some? ==>
      PathScore(paths[0]) == best.value && SortedScores(paths)
    ensures forall p :: Route(g, p) && p[0] in StatesOf(nodes) && OnE(g, p[|p| - 1]) ==> best.Some?
  {
    ghost var valid := forall n :: n in nodes ==> Valid(g, o, n);
    ghost var floor := 0;
    var heap := nodes;
    var visited: set<State> := {};
    best, paths := None, [];
    BoxStatesCard(|g|, Width(g));
    if valid {
      forall n | n in heap ensures n.score >= 0 {
        WalkScore(g, o, n.tiles);
      }
    }
    ghost var popped: set<State> := {};
    while heap != []
      invariant Round(g, o, valid, heap, visited, best, paths, floor)
      invariant Coverage(g, nodes, heap, visited, popped, best)
      decreases |heap| + (4 * |g| * Width(g) - |visited|)
    {
      SubsetCard(visited, BoxStates(|g|, Width(g)));
      heap, visited, best, paths, floor, popped := SearchRound(g, o, valid, nodes, heap, visited, best, paths, floor, popped);
    }
    forall p | Route(g, p) && p[0] in StatesOf(nodes) && OnE(g, p[|p| - 1]) ensures best.Some? {
      assert StatesOf(heap) == {};
      ClosedHoldsRoute(g, popped, p);
    }
  }

  /** What `findMinScore` keeps true from one round to the next. */
  ghost predicate Round(g: Grid, o: Tile, valid: bool, heap: seq<Node>, visited: set<State>,
                        best: Option<int>, paths: seq<seq<Tile>>, floor: int) {
    visited <= BoxStates(|g|, Width(g)) && (best.None? <==> paths == []) &&
    (valid ==> Searching(g, o, heap, best, paths, floor))
  }

  /** One round of `while (heap.length)`: pop a cheapest entry, record it
      when it stands on an 'E', and push its unseen open successors. */
  method SearchRound(g: Grid, ghost o: Tile, ghost valid: bool, ghost nodes: seq<Node>, heap: seq<Node>, visited: set<State>,
                     best: Option<int>, paths: seq<seq<Tile>>, ghost floor: int, ghost popped: set<State>)
    returns (heap': seq<Node>, visited': set<State>, best': Option<int>, paths': seq<seq<Tile>>, ghost floor': int,
             ghost popped': set<State>)
    requires heap != [] && Round(g, o, valid, heap, visited, best, paths, floor)
    requires Coverage(g, nodes, heap, visited, popped, best)
    ensures Round(g, o, valid, heap', visited', best', paths', floor')
    ensures Coverage(g, nodes, heap', visited', popped', best')
    ensures |heap'| - |visited'| < |heap| - |visited|
  {
    var k := PopMin(heap);
    var node := heap[k];
    var r := Admit(g, node, NextDirs(node.dir, node.i, node.j), visited);
    if valid {
      AdmitFrom(g, node, NextDirs(node.dir, node.i, node.j), visited);
      SearchStep(g, o, heap, best, paths, floor, k, r.0);
    }
    AdmitInBox(g, visited, r.0, r.1);
    var recorded := Record(g, best, paths, node);
    best', paths' := recorded.0, recorded.1;
    floor' := node.score;
    PopStates(heap, k);
    SuccsMarked(g, node, visited);
    CoverageStep(g, nodes, heap, visited, popped, best, NodeState(node), heap[..k] + heap[k + 1..], r.0, r.1, best');
    popped' := popped + {NodeState(node)};
    heap', visited' := heap[..k] + heap[k + 1..] + r.0, r.1;
  }

  /** The states `Admit` marks lie on the map, as its cells are open. */
  lemma AdmitInBox(g: Grid, visited: set<State>, pushed: seq<Node>, seen: set<State>)
    requires visited <= BoxStates(|g|, Width(g)) && seen == visited + StatesOf(pushed)
    requires forall c :: c in pushed ==> Open(g, c.i, c.j)
    ensures seen <= BoxStates(|g|, Width(g))
  {
    BoxStatesCard(|g|, Width(g));
    forall x | x in StatesOf(pushed) ensures x in BoxStates(|g|, Width(g)) {
      var n :| n in pushed && NodeState(n) == x;
    }
  }

  // ---------------------------------------------------------------------
  // The two parts
  // ---------------------------------------------------------------------

  /** `findStart`: the first 'S' in row-major order, or (-1, -1) when the
      maze has none. */
  function FindStart(g: Grid): (p: (int, int))
    ensures p != (-1, -1) ==> InGrid(g, p.0, p.1) && g[p.0][p.1] == 'S'
    ensures p != (-1, -1) ==> forall i, j :: InGrid(g, i, j) && RowMajorBefore(i, j, p.0, p.1) ==> g[i][j] != 'S'
    ensures p == (-1, -1) ==> forall i, j :: InGrid(g, i, j) ==> g[i][j] != 'S'
  {
    match FindFirst(g, 'S')
    case Some(c) => c
    case None => (-1, -1)
  }

  /** The queue both parts start from: the start cell facing east, with
      the tile list "row:col" and score 0. */
  function Initial(g: Grid): (n: Node)
    ensures Valid(g, Start(FindStart(g).0, FindStart(g).1), n)
  {
    var s := FindStart(g);
    Node(s.0, s.1, 0, Right, [Start(s.0, s.1)])
  }

  /** `solvePart1`: the best score of any walk the search records from the
      start to an 'E', None for `Infinity` when it records none. It records
      one whenever the reindeer, starting east on 'S', can reach an 'E'. */
  method SolvePart1(g: Grid) returns (score: Option<int>)
    ensures score.Some? ==>
      exists p :: Walk(g, Start(FindStart(g).0, FindStart(g).1), p) && EndsOn(g, p, 'E') && PathScore(p) == score.value
    ensures forall p :: Route(g, p) && p[0] == (FindStart(g), Right) && OnE(g, p[|p| - 1]) ==> score.Some?
  {
    var start := Initial(g);
    assert NodeState(start) == (FindStart(g), Right);
    var paths;
    score, paths := FindMinScore(g, [start], Start(FindStart(g).0, FindStart(g).1));
  }

  /** Every tile of every recorded list. */
  function AllTiles(paths: seq<seq<Tile>>): set<Tile> {
    set p, t | p in paths && t in p :: t
  }

  lemma AllTilesSnoc(paths: seq<seq<Tile>>, p: seq<Tile>)
    ensures AllTiles(paths + [p]) == AllTiles(paths) + (set t | t in p)
  {
    forall t | t in AllTiles(paths + [p]) ensures t in AllTiles(paths) + (set t | t in p) {
      var q :| q in paths + [p] && t in q;
      if q != p {
        assert q in paths;
      }
    }
  }

  /** The loops of `solvePart2` that gather the tiles into a set. */
  method CountTiles(paths: seq<seq<Tile>>) returns (count: nat)
    ensures count == |AllTiles(paths)|
  {
    var unique: set<Tile> := {};
    for k := 0 to |paths|
      invariant unique == AllTiles(paths[..k])
    {
      for m := 0 to |paths[k]|
        invariant unique == AllTiles(paths[..k]) + (set t | t in paths[k][..m])
      {
        assert paths[k][..m + 1] == paths[k][..m] + [paths[k][m]];
        unique := unique + {paths[k][m]};
      }
      assert paths[k][..|paths[k]|] == paths[k];
      assert paths[..k + 1] == paths[..k] + [paths[k]];
      AllTilesSnoc(paths[..k], paths[k]);
    }
    assert paths[..|paths|] == paths;
    count := |unique|;
  }

  /** A list of pairwise distinct tiles has as many distinct tiles as
      entries. */
  lemma {:induction false} DistinctCard(p: seq<Tile>)
    requires forall a, b :: 0 <= a < b < |p| ==> p[a] != p[b]
    ensures |set t | t in p| == |p|
  {
    if p != [] {
      var n := |p| - 1;
      DistinctCard(p[..n]);
      assert (set t | t in p) == (set t | t in p[..n]) + {p[n]};
      assert p[n] !in p[..n];
    }
  }

  /** The distinct tiles of the recorded lists number at least as many as
      the tiles of any one list. */
  lemma TilesAtLeast(g: Grid, o: Tile, paths: seq<seq<Tile>>, k: int)
    requires 0 <= k < |paths| && Walk(g, o, paths[k])
    ensures |AllTiles(paths)| >= |paths[k]|
  {
    WalkDistinct(g, o, paths[k]);
    DistinctCard(paths[k]);
    assert (set t | t in paths[k]) <= AllTiles(paths);
    SubsetCard((set t | t in paths[k]), AllTiles(paths));
  }

  /** `solvePart2`: the number of distinct tiles over the lists the search
      records, handed back together with those lists. The lists are the
      ones the search records, so there is one whenever a route leads to an
      'E'. The count is 0 when there are none and otherwise at least the
      length of the best walk. */
  method SolvePart2(g: Grid) returns (count: nat, paths: seq<seq<Tile>>)
    ensures count == |AllTiles(paths)|
    ensures forall k :: 0 <= k < |paths| ==>
      Walk(g, Start(FindStart(g).0, FindStart(g).1), paths[k]) && EndsOn(g, paths[k], 'E')
    ensures SortedScores(paths)
    ensures paths != [] ==> count >= |paths[0]|
    ensures paths == [] ==> count == 0
    ensures forall p :: Route(g, p) && p[0] == (FindStart(g), Right) && OnE(g, p[|p| - 1]) ==> paths != []
  {
    var start := Initial(g);
    assert NodeState(start) == (FindStart(g), Right);
    var best, found := FindMinScore(g, [start], Start(FindStart(g).0, FindStart(g).1));
    paths := found;
    count := CountTiles(found);
    if found != [] {
      TilesAtLeast(g, Start(FindStart(g).0, FindStart(g).1), found, 0);
    }
  }
}

=== FILE: grids.dfy ===
/** Character grids as the solvers index them: `matrix[i][j]`, rows of
    possibly different lengths, and `undefined` for a column past the end of
    its row. */
module Grids {
  import opened Options
  import Arith
  import Text

  type Grid = seq<seq<char>>

  /** `matrix[i]?.[j]`: the cell when both indices are in range, None where
      JavaScript would read `undefined`. */
  function At(g: Grid, i: int, j: int): (r: Option<char>)
    ensures r.Some? <==> 0 <= i < |g| && 0 <= j < |g[i]|
    ensures r.Some? ==> r.value == g[i][j]
  {
    if 0 <= i < |g| && 0 <= j < |g[i]| then Some(g[i][j]) else None
  }

  predicate InGrid(g: Grid, i: int, j: int) {
    0 <= i < |g| && 0 <= j < |g[i]|
  }

  /** The column count the bounds checks use: the length of the first row,
      0 for an empty grid. */
  function Width(g: Grid): nat {
    if |g| == 0 then 0 else |g[0]|
  }

  /** Every row as long as the first. */
  predicate Rectangular(g: Grid) {
    forall i :: 0 <= i < |g| ==> |g[i]| == |g[0]|
  }

  /** `(r, c)` comes before `(i, j)` in row-major order. */
  predicate RowMajorBefore(r: int, c: int, i: int, j: int) {
    r < i || (r == i && c < j)
  }

  /** The cells of a grid in row-major order. */
  function CellsOf(g: Grid): set<(int, int)> {
    set i, j | 0 <= i < |g| && 0 <= j < |g[i]| :: (i, j)
  }

  /** The grid with one cell replaced. */
  function SetCell(g: Grid, i: int, j: int, c: char): (r: Grid)
    requires InGrid(g, i, j)
    ensures |r| == |g|
    ensures forall k :: 0 <= k < |g| ==> |r[k]| == |g[k]|
    ensures forall r', c' :: InGrid(g, r', c') ==> r[r'][c'] == if (r', c') == (i, j) then c else g[r'][c']
  {
    g[i := g[i][j := c]]
  }

  /** The first cell holding `c` in row-major order, as the solvers' nested
      search loops find it; None when no cell holds it. */
  function FindFirst(g: Grid, c: char): (r: Option<(int, int)>)
    ensures r.None? <==> forall i, j :: InGrid(g, i, j) ==> g[i][j] != c
    ensures r.Some? ==> InGrid(g, r.value.0, r.value.1) && g[r.value.0][r.value.1] == c
    ensures r.Some? ==> forall i, j :: InGrid(g, i, j) && RowMajorBefore(i, j, r.value.0, r.value.1) ==> g[i][j] != c
  {
    FindFrom(g, c, 0)
  }

  function FindFrom(g: Grid, c: char, i: nat): (r: Option<(int, int)>)
    requires i <= |g|
    ensures r.None? <==> forall k, j :: i <= k < |g| && 0 <= j < |g[k]| ==> g[k][j] != c
    ensures r.Some? ==> i <= r.value.0 < |g| && InGrid(g, r.value.0, r.value.1) && g[r.value.0][r.value.1] == c
    ensures r.Some? ==> forall k, j :: i <= k < |g| && 0 <= j < |g[k]| && RowMajorBefore(k, j, r.value.0, r.value.1) ==> g[k][j] != c
    decreases |g| - i
  {
    if i == |g| then None
    else if c in g[i] then Some((i, Text.FirstIndex(g[i], c)))
    else FindFrom(g, c, i + 1)
  }

  // ---------------------------------------------------------------------
  // Writing cells
  // ---------------------------------------------------------------------

  /** The character standing for a cell that holds no string: a hole left
      when a row grows past its end, or a number a solver filled in. No
      comparison with a map character matches it. */
  const Hole: char := '\0'

  /** `matrix[i][j] = c` with JavaScript's array semantics. A write past
      the end of the row grows the row, leaving holes in between. A write
      to a missing row or a negative column is dropped: JavaScript throws
      for the first and stores a property outside the row's cells for the
      second. */
  function Store(g: Grid, i: int, j: int, c: char): (r: Grid)
    ensures |r| == |g|
    ensures forall k :: 0 <= k < |g| && k != i ==> r[k] == g[k]
    ensures 0 <= i < |g| && 0 <= j ==> |r[i]| == (if j < |g[i]| then |g[i]| else j + 1) && r[i][j] == c
    ensures 0 <= i < |g| && 0 <= j ==>
      forall k :: 0 <= k < |r[i]| && k != j ==> r[i][k] == if k < |g[i]| then g[i][k] else Hole
    ensures !(0 <= i < |g| && 0 <= j) ==> r == g
    ensures InGrid(g, i, j) ==> r == SetCell(g, i, j, c)
  {
    if 0 <= i < |g| && 0 <= j then
      if j < |g[i]| then SetCell(g, i, j, c)
      else g[i := g[i] + seq(j - |g[i]|, _ => Hole) + [c]]
    else g
  }

  /** A write to a cell of the map commutes with a write anywhere else. */
  lemma StoreSwap(g: Grid, p: (int, int), q: (int, int), c: char, d: char)
    requires InGrid(g, p.0, p.1) && p != q
    ensures InGrid(Store(g, q.0, q.1, d), p.0, p.1)
    ensures Store(Store(g, q.0, q.1, d), p.0, p.1, c) == Store(SetCell(g, p.0, p.1, c), q.0, q.1, d)
  {
    var a := Store(Store(g, q.0, q.1, d), p.0, p.1, c);
    var b := Store(SetCell(g, p.0, p.1, c), q.0, q.1, d);
    assert |a| == |b|;
    forall k | 0 <= k < |a| ensures a[k] == b[k] {
      if k == p.0 && k == q.0 && 0 <= q.1 {
        assert |a[k]| == |b[k]|;
        forall x | 0 <= x < |a[k]| ensures a[k][x] == b[k][x] {
        }
      }
    }
  }

  /** Writing a cell's old character back undoes a write to it. */
  lemma SetCellRestore(g: Grid, i: int, j: int, c: char)
    requires InGrid(g, i, j)
    ensures SetCell(SetCell(g, i, j, c), i, j, g[i][j]) == g
  {
    var a := SetCell(SetCell(g, i, j, c), i, j, g[i][j]);
    forall k | 0 <= k < |g| ensures a[k] == g[k] {
      if k == i {
        assert |a[k]| == |g[k]|;
      }
    }
  }

  // ---------------------------------------------------------------------
  // Headings
  // ---------------------------------------------------------------------

  datatype Heading = Up | Right | Down | Left

  /** The (row, column) offset of one step. */
  function Offset(h: Heading): (int, int) {
    match h
    case Up => (-1, 0)
    case Right => (0, 1)
    case Down => (1, 0)
    case Left => (0, -1)
  }

  /** A quarter turn clockwise. */
  function TurnRight(h: Heading): Heading {
    match h
    case Up => Right
    case Right => Down
    case Down => Left
    case Left => Up
  }

  /** A quarter turn counter-clockwise. */
  function TurnLeft(h: Heading): Heading {
    match h
    case Up => Left
    case Left => Down
    case Down => Right
    case Right => Up
  }

  /** Turning undoes the opposite turn, four turns restore the heading, and
      a turn always changes the offset to a perpendicular one. */
  lemma TurnLaws(h: Heading)
    ensures TurnLeft(TurnRight(h)) == h && TurnRight(TurnLeft(h)) == h
    ensures TurnRight(TurnRight(TurnRight(TurnRight(h)))) == h
    ensures TurnRight(h) != h && TurnLeft(h) != h && TurnRight(h) != TurnLeft(h)
    ensures Offset(h).0 * Offset(TurnRight(h)).0 + Offset(h).1 * Offset(TurnRight(h)).1 == 0
  {
  }

  lemma OffsetInjective(h: Heading, h': Heading)
    requires Offset(h) == Offset(h')
    ensures h == h'
  {
  }

  function AllHeadings(): set<Heading> {
    {Up, Right, Down, Left}
  }

  lemma AllHeadingsCard()
    ensures |AllHeadings()| == 4
    ensures forall h: Heading :: h in AllHeadings()
  {
    var s := {Up, Right, Down, Left};
    assert s - {Left} == {Up, Right, Down};
    assert {Up, Right, Down} - {Down} == {Up, Right};
    assert {Up, Right} - {Right} == {Up};
    forall h: Heading ensures h in s {
      match h
      case Up =>
      case Right =>
      case Down =>
      case Left =>
    }
  }

  // ---------------------------------------------------------------------
  // Counting cells and states
  // ---------------------------------------------------------------------

  /** The integers `0 <= i < n`. */
  function Range(n: int): (r: set<int>)
    ensures forall i :: i in r <==> 0 <= i < n
    decreases n
  {
    if n <= 0 then {} else Range(n - 1) + {n - 1}
  }

  lemma {:induction false} RangeCard(n: nat)
    ensures |Range(n)| == n
  {
    if n > 0 {
      RangeCard(n - 1);
    }
  }

  function Product<A, B>(sa: set<A>, sb: set<B>): set<(A, B)> {
    set a, b | a in sa && b in sb :: (a, b)
  }

  lemma {:induction false} SingletonProductCard<A, B>(a: A, sb: set<B>)
    ensures |Product({a}, sb)| == |sb|
    decreases |sb|
  {
    if sb != {} {
      var b :| b in sb;
      SingletonProductCard(a, sb - {b});
      assert Product({a}, sb) == Product({a}, sb - {b}) + {(a, b)};
    }
  }

  lemma {:induction false} ProductCard<A, B>(sa: set<A>, sb: set<B>)
    ensures |Product(sa, sb)| == |sa| * |sb|
    decreases |sa|
  {
    if sa != {} {
      var a :| a in sa;
      var rest := sa - {a};
      ProductCard(rest, sb);
      SingletonProductCard(a, sb);
      ProductSplit(sa, sb, a);
      DisjointUnionCard(Product(rest, sb), Product({a}, sb));
      Arith.MulSucc(|sb|, |rest|);
    }
  }

  lemma DisjointUnionCard<T>(a: set<T>, b: set<T>)
    requires a !! b
    ensures |a + b| == |a| + |b|
  {
    assert a * b == {};
  }

  /** Taking one element out of the left factor splits the product in two
      disjoint parts. */
  lemma ProductSplit<A, B>(sa: set<A>, sb: set<B>, a: A)
    requires a in sa
    ensures Product(sa, sb) == Product(sa - {a}, sb) + Product({a}, sb)
    ensures Product(sa - {a}, sb) !! Product({a}, sb)
  {
  }

  /** The cells of an R by C box. */
  function Box(rows: int, cols: int): set<(int, int)> {
    Product(Range(rows), Range(cols))
  }

  lemma BoxCard(rows: nat, cols: nat)
    ensures |Box(rows, cols)| == rows * cols
    ensures forall c :: c in Box(rows, cols) <==> 0 <= c.0 < rows && 0 <= c.1 < cols
  {
    RangeCard(rows);
    RangeCard(cols);
    ProductCard(Range(rows), Range(cols));
  }

  /** The (cell, heading) states of an R by C box. */
  function BoxStates(rows: int, cols: int): set<((int, int), Heading)> {
    Product(Box(rows, cols), AllHeadings())
  }

  lemma BoxStatesCard(rows: nat, cols: nat)
    ensures |BoxStates(rows, cols)| == 4 * rows * cols
    ensures forall s :: s in BoxStates(rows, cols) <==> 0 <= s.0.0 < rows && 0 <= s.0.1 < cols
  {
    BoxCard(rows, cols);
    AllHeadingsCard();
    ProductCard(Box(rows, cols), AllHeadings());
  }

  lemma SubsetCard<T>(a: set<T>, b: set<T>)
    requires a <= b
    ensures |a| <= |b|
  {
    assert b == a + (b - a);
  }
}

=== FILE: options.dfy ===
/** The optional value used wherever the source yields `undefined`, `NaN` or a
    "not found" sentinel. */
module Options {

  datatype Option<+T> = None | Some(value: T) {

    /** The carried value, or `default` when there is none. */
    function GetOr(default: T): T {
      match this
      case Some(v) => v
      case None => default
    }
  }
}

=== FILE: ordered_maps.dfy ===
/** A JavaScript `Map`: its entries in insertion order with distinct keys.
    `set` on a present key replaces the value where the entry stands, `set` on
    a new key appends, and iteration visits the entries in this order. */
module OrderedMaps {
  import opened Options

  type Entries<K, V> = seq<(K, V)>

  ghost predicate KeysDistinct<K, V>(m: Entries<K, V>) {
    forall i, j :: 0 <= i < j < |m| ==> m[i].0 != m[j].0
  }

  function KeySet<K, V>(m: Entries<K, V>): set<K> {
    set i | 0 <= i < |m| :: m[i].0
  }

  /** `m.get(k)`. */
  function Get<K(==,!new), V(==)>(m: Entries<K, V>, k: K): (r: Option<V>)
    ensures r.Some? <==> k in KeySet(m)
  {
    if m == [] then None
    else if m[0].0 == k then Some(m[0].1)
    else
      KeySetCons(m[0], m[1..]);
      Get(m[1..], k)
  }

  /** `m.set(k, v)`. */
  function Set<K(==,!new), V(==)>(m: Entries<K, V>, k: K, v: V): (r: Entries<K, V>)
    ensures Get(r, k) == Some(v)
    ensures forall k' :: k' != k ==> Get(r, k') == Get(m, k')
    ensures KeySet(r) == KeySet(m) + {k}
    ensures |r| == if k in KeySet(m) then |m| else |m| + 1
  {
    if m == [] then [(k, v)]
    else if m[0].0 == k then
      KeySetCons(m[0], m[1..]);
      KeySetCons((k, v), m[1..]);
      [(k, v)] + m[1..]
    else
      var rest := Set(m[1..], k, v);
      KeySetCons(m[0], m[1..]);
      KeySetCons(m[0], rest);
      [m[0]] + rest
  }

  lemma KeySetCons<K, V>(e: (K, V), m: Entries<K, V>)
    ensures KeySet([e] + m) == {e.0} + KeySet(m)
  {
    var em := [e] + m;
    forall x | x in KeySet(em) ensures x in {e.0} + KeySet(m) {
      var i :| 0 <= i < |em| && em[i].0 == x;
      if i > 0 {
        assert m[i - 1].0 == x;
      }
    }
    forall x | x in {e.0} + KeySet(m) ensures x in KeySet(em) {
      if x == e.0 {
        assert em[0].0 == x;
      } else {
        var i :| 0 <= i < |m| && m[i].0 == x;
        assert em[i + 1].0 == x;
      }
    }
  }

  /** Keys stay distinct under `set`. */
  lemma {:induction false} SetKeepsKeysDistinct<K(!new), V>(m: Entries<K, V>, k: K, v: V)
    requires KeysDistinct(m)
    ensures KeysDistinct(Set(m, k, v))
  {
    var r := Set(m, k, v);
    if m != [] && m[0].0 != k {
      var rest := Set(m[1..], k, v);
      SetKeepsKeysDistinct(m[1..], k, v);
      assert r == [m[0]] + rest;
      assert forall j :: 0 <= j < |m[1..]| ==> m[1..][j].0 == m[j + 1].0 != m[0].0;
      assert m[0].0 !in KeySet(rest);
      forall i, j | 0 <= i < j < |r| ensures r[i].0 != r[j].0 {
        if i == 0 {
          assert r[j] == rest[j - 1];
          assert rest[j - 1].0 in KeySet(rest);
        } else {
          assert r[i] == rest[i - 1] && r[j] == rest[j - 1];
        }
      }
      assert KeysDistinct(r);
    } else if m != [] {
      assert r == [(k, v)] + m[1..];
      forall i, j | 0 <= i < j < |r| ensures r[i].0 != r[j].0 {
        assert r[j] == m[j];
        if i > 0 {
          assert r[i] == m[i];
        }
      }
      assert KeysDistinct(r);
    } else {
      assert KeysDistinct(r);
    }
  }

  /** `set` on a new key appends the entry. */
  lemma {:induction false} SetNew<K(!new), V>(m: Entries<K, V>, k: K, v: V)
    requires k !in KeySet(m)
    ensures Set(m, k, v) == m + [(k, v)]
  {
    if m != [] {
      KeySetCons(m[0], m[1..]);
      assert m == [m[0]] + m[1..];
      SetNew(m[1..], k, v);
    }
  }

  /** With distinct keys, looking up the key of an entry finds that entry. */
  lemma {:induction false} GetAt<K(!new), V>(m: Entries<K, V>, i: int)
    requires KeysDistinct(m) && 0 <= i < |m|
    ensures Get(m, m[i].0) == Some(m[i].1)
  {
    if i > 0 {
      assert m[0].0 != m[i].0;
      assert forall a, b :: 0 <= a < b < |m| - 1 ==> m[1..][a] == m[a + 1] && m[1..][b] == m[b + 1];
      GetAt(m[1..], i - 1);
    }
  }

  /** `if (!m.has(k)) m.set(k, []); m.get(k).push(x)`: the grouping idiom. */
  function Push<K(==,!new), X(==)>(m: Entries<K, seq<X>>, k: K, x: X): (r: Entries<K, seq<X>>)
    ensures Get(r, k) == Some(Get(m, k).GetOr([]) + [x])
    ensures forall k' :: k' != k ==> Get(r, k') == Get(m, k')
    ensures KeySet(r) == KeySet(m) + {k}
  {
    Set(m, k, Get(m, k).GetOr([]) + [x])
  }

  /** `m.get(k) ?? 0`. */
  function GetOrZero<K(==,!new)>(m: Entries<K, nat>, k: K): nat {
    match Get(m, k)
    case Some(x) => x
    case None => 0
  }

  /** `m.set(k, (m.get(k) ?? 0) + c)`: the counting idiom of the solvers. */
  function Bump<K(==,!new)>(m: Entries<K, nat>, k: K, c: nat): (r: Entries<K, nat>)
    ensures Get(r, k) == Some(GetOrZero(m, k) + c)
    ensures forall k' :: k' != k ==> Get(r, k') == Get(m, k')
    ensures KeySet(r) == KeySet(m) + {k}
  {
    Set<K, nat>(m, k, GetOrZero(m, k) + c)
  }

  lemma BumpKeepsKeysDistinct<K(!new)>(m: Entries<K, nat>, k: K, c: nat)
    requires KeysDistinct(m)
    ensures KeysDistinct(Bump(m, k, c))
  {
    SetKeepsKeysDistinct<K, nat>(m, k, GetOrZero(m, k) + c);
  }

  /** The sum of the values, in iteration order. */
  function SumValues<K>(m: Entries<K, nat>): nat {
    if m == [] then 0 else m[0].1 + SumValues(m[1..])
  }

  /** Setting a key changes the sum by the difference between the new and the
      old value. */
  lemma {:induction false} SumValuesSet<K(!new)>(m: Entries<K, nat>, k: K, v: nat)
    requires KeysDistinct(m)
    ensures SumValues(Set(m, k, v)) == SumValues(m) - GetOrZero(m, k) + v
  {
    if m != [] && m[0].0 != k {
      SumValuesSet(m[1..], k, v);
      assert Set(m, k, v)[1..] == Set(m[1..], k, v);
    } else if m != [] {
      assert Set(m, k, v)[1..] == m[1..];
    }
  }

  /** Bumping a key adds exactly the bump to the sum. */
  lemma SumValuesBump<K(!new)>(m: Entries<K, nat>, k: K, c: nat)
    requires KeysDistinct(m)
    ensures SumValues(Bump(m, k, c)) == SumValues(m) + c
  {
    SumValuesSet(m, k, GetOrZero(m, k) + c);
  }
}

=== FILE: sorting.dfy ===
/** What the solvers ask of `Array.prototype.sort`: a permutation of the input
    that is ordered by a comparator. The engine's algorithm is not modelled;
    for a comparator that orders by an injective key (as every comparator
    here does except the rule-based one of the page-ordering solver), the
    sorted permutation is unique, so any correct engine returns `SortBy`. */
module Sorting {

  /** JavaScript string order lifted to code-unit sequences (and the
      lexicographic order on short integer tuples): element by element, a proper
      prefix first. */
  predicate LexLe(a: seq<int>, b: seq<int>) {
    if a == [] then true
    else if b == [] then false
    else if a[0] != b[0] then a[0] < b[0]
    else LexLe(a[1..], b[1..])
  }

  lemma LexLeTotal(a: seq<int>, b: seq<int>)
    ensures LexLe(a, b) || LexLe(b, a)
  {
  }

  lemma LexLeAntisymmetric(a: seq<int>, b: seq<int>)
    requires LexLe(a, b) && LexLe(b, a)
    ensures a == b
  {
  }

  lemma LexLeTransitive(a: seq<int>, b: seq<int>, c: seq<int>)
    requires LexLe(a, b) && LexLe(b, c)
    ensures LexLe(a, c)
  {
  }

  ghost predicate SortedBy<T>(s: seq<T>, key: T -> seq<int>) {
    forall i :: 0 < i < |s| ==> LexLe(key(s[i - 1]), key(s[i]))
  }

  ghost predicate Injective<T(!new)>(key: T -> seq<int>) {
    forall x, y :: key(x) == key(y) ==> x == y
  }

  function Insert<T>(x: T, s: seq<T>, key: T -> seq<int>): (r: seq<T>)
    requires SortedBy(s, key)
    ensures SortedBy(r, key)
    ensures multiset(r) == multiset(s) + multiset{x}
    ensures |r| == |s| + 1
    ensures r[0] == x || (|s| > 0 && r[0] == s[0])
  {
    if s == [] then [x]
    else if LexLe(key(x), key(s[0])) then [x] + s
    else
      LexLeTotal(key(x), key(s[0]));
      var rest := Insert(x, s[1..], key);
      assert s == [s[0]] + s[1..];
      [s[0]] + rest
  }

  /** An insertion sort: the reference sorted permutation. */
  function SortBy<T>(s: seq<T>, key: T -> seq<int>): (r: seq<T>)
    ensures SortedBy(r, key)
    ensures multiset(r) == multiset(s)
    ensures |r| == |s|
  {
    if s == [] then []
    else
      assert s == [s[0]] + s[1..];
      Insert(s[0], SortBy(s[1..], key), key)
  }

  /** The head of a sorted sequence is a least element. */
  lemma {:induction false} SortedHeadLeast<T>(s: seq<T>, key: T -> seq<int>, i: int)
    requires SortedBy(s, key) && 0 <= i < |s|
    ensures LexLe(key(s[0]), key(s[i]))
  {
    if i > 0 {
      SortedHeadLeast(s, key, i - 1);
      LexLeTransitive(key(s[0]), key(s[i - 1]), key(s[i]));
    } else {
      LexLeTotal(key(s[0]), key(s[0]));
    }
  }

  /** Two sorted permutations of the same elements coincide when the key
      tells elements apart. */
  lemma {:induction false} SortedUnique<T(!new)>(a: seq<T>, b: seq<T>, key: T -> seq<int>)
    requires Injective(key)
    requires SortedBy(a, key) && SortedBy(b, key)
    requires multiset(a) == multiset(b)
    ensures a == b
  {
    assert |a| == |multiset(a)| == |multiset(b)| == |b|;
    if a != [] {
      SortedHeadsEqual(a, b, key);
      MultisetTail(a, b);
      SortedTail(a, key);
      SortedTail(b, key);
      SortedUnique(a[1..], b[1..], key);
      assert a == [a[0]] + a[1..] && b == [b[0]] + b[1..];
    }
  }

  lemma SortedHeadsEqual<T(!new)>(a: seq<T>, b: seq<T>, key: T -> seq<int>)
    requires Injective(key)
    requires SortedBy(a, key) && SortedBy(b, key)
    requires multiset(a) == multiset(b) && |a| > 0
    ensures |b| > 0 && a[0] == b[0]
  {
    assert a[0] in multiset(b);
    var i :| 0 <= i < |b| && b[i] == a[0];
    assert b[0] in multiset(a);
    var j :| 0 <= j < |a| && a[j] == b[0];
    SortedHeadLeast(a, key, j);
    SortedHeadLeast(b, key, i);
    LexLeAntisymmetric(key(a[0]), key(b[0]));
  }

  lemma MultisetTail<T>(a: seq<T>, b: seq<T>)
    requires multiset(a) == multiset(b) && |a| > 0 && |b| > 0 && a[0] == b[0]
    ensures multiset(a[1..]) == multiset(b[1..])
  {
    assert a == [a[0]] + a[1..] && b == [b[0]] + b[1..];
    assert multiset(a) == multiset{a[0]} + multiset(a[1..]);
    assert multiset(b) == multiset{a[0]} + multiset(b[1..]);
    assert multiset(a[1..]) == multiset(a) - multiset{a[0]};
    assert multiset(b[1..]) == multiset(b) - multiset{a[0]};
  }

  lemma SortedTail<T>(s: seq<T>, key: T -> seq<int>)
    requires SortedBy(s, key) && |s| > 0
    ensures SortedBy(s[1..], key)
  {
    forall i | 0 < i < |s[1..]| ensures LexLe(key(s[1..][i - 1]), key(s[1..][i])) {
      assert s[1..][i - 1] == s[i] && s[1..][i] == s[i + 1];
    }
  }

  /** Any sorted permutation is the reference one. */
  lemma SortedIsSortBy<T(!new)>(s: seq<T>, r: seq<T>, key: T -> seq<int>)
    requires Injective(key)
    requires SortedBy(r, key) && multiset(r) == multiset(s)
    ensures r == SortBy(s, key)
  {
    SortedUnique(r, SortBy(s, key), key);
  }

  /** Sorting depends only on the elements, not on their input order. */
  lemma SortByPermutation<T(!new)>(s: seq<T>, t: seq<T>, key: T -> seq<int>)
    requires Injective(key)
    requires multiset(s) == multiset(t)
    ensures SortBy(s, key) == SortBy(t, key)
  {
    SortedUnique(SortBy(s, key), SortBy(t, key), key);
  }
}

=== FILE: text.dfy ===
/** Strings as the solvers see them: JavaScript's `split` on a separator, the
    decimal digits behind `Number(...)` and `String(...)`, and the few text
    conversions the parsers rely on. */
module Text {
  import opened Options

  // ---------------------------------------------------------------------
  // Decimal digits
  // ---------------------------------------------------------------------

  predicate IsDigitChar(c: char) {
    '0' <= c <= '9'
  }

  function DigitOf(c: char): nat
    requires IsDigitChar(c)
  {
    (c as int - '0' as int) as nat
  }

  function DigitChar(d: nat): (c: char)
    requires d < 10
    ensures IsDigitChar(c) && DigitOf(c) == d
  {
    ('0' as int + d) as char
  }

  predicate IsDigits(s: string) {
    forall k :: 0 <= k < |s| ==> IsDigitChar(s[k])
  }

  function Pow10(n: nat): (p: nat)
    ensures p >= 1
  {
    if n == 0 then 1 else 10 * Pow10(n - 1)
  }

  /** The value of a string of decimal digits, most significant first; leading
      zeros are allowed and the empty string is 0, as for `Number`. */
  function DigitsValue(s: string): nat
    requires IsDigits(s)
  {
    if s == [] then 0 else 10 * DigitsValue(s[..|s| - 1]) + DigitOf(s[|s| - 1])
  }

  /** Concatenating digit strings shifts the left part by the right part's length. */
  lemma {:induction false} DigitsValueAppend(a: string, b: string)
    requires IsDigits(a) && IsDigits(b)
    ensures IsDigits(a + b)
    ensures DigitsValue(a + b) == DigitsValue(a) * Pow10(|b|) + DigitsValue(b)
  {
    var ab := a + b;
    assert IsDigits(ab) by {
      forall k | 0 <= k < |ab| ensures IsDigitChar(ab[k]) {
        if k < |a| { assert ab[k] == a[k]; } else { assert ab[k] == b[k - |a|]; }
      }
    }
    if b == [] {
      assert ab == a;
    } else {
      var b' := b[..|b| - 1];
      assert ab[..|ab| - 1] == a + b';
      assert ab[|ab| - 1] == b[|b| - 1];
      DigitsValueAppend(a, b');
      var d := DigitOf(b[|b| - 1]);
      var x, y := DigitsValue(a), Pow10(|b'|);
      assert DigitsValue(ab) == 10 * DigitsValue(a + b') + d;
      assert DigitsValue(b) == 10 * DigitsValue(b') + d;
      assert Pow10(|b|) == 10 * y;
      ScaleByTen(x, y);
    }
  }

  lemma ScaleByTen(x: int, y: int)
    ensures 10 * (x * y) == x * (10 * y)
  {
  }

  /** A digit string is below ten to the power of its length. */
  lemma {:induction false} DigitsValueBound(s: string)
    requires IsDigits(s)
    ensures DigitsValue(s) < Pow10(|s|)
  {
    if s != [] {
      DigitsValueBound(s[..|s| - 1]);
    }
  }

  /** Canonical decimal rendering: no leading zero except for "0" itself. */
  predicate IsCanonical(s: string) {
    IsDigits(s) && |s| >= 1 && (s[0] == '0' ==> |s| == 1)
  }

  /** `String(n)` for a natural number. */
  function ShowNat(n: nat): (s: string)
    ensures IsDigits(s) && |s| >= 1
    decreases n
  {
    if n < 10 then [DigitChar(n)] else ShowNat(n / 10) + [DigitChar(n % 10)]
  }

  /** Rendering then reading back gives the number. */
  lemma {:induction false} ValueOfShowNat(n: nat)
    ensures DigitsValue(ShowNat(n)) == n
    decreases n
  {
    if n >= 10 {
      var s := ShowNat(n);
      assert s[..|s| - 1] == ShowNat(n / 10);
      ValueOfShowNat(n / 10);
    }
  }

  /** The rendering never starts with a superfluous zero. */
  lemma {:induction false} ShowNatCanonical(n: nat)
    ensures IsCanonical(ShowNat(n))
    ensures n >= 10 ==> ShowNat(n)[0] != '0'
    decreases n
  {
    if n >= 10 {
      ShowNatCanonical(n / 10);
      assert ShowNat(n)[0] == ShowNat(n / 10)[0];
    }
  }

  lemma {:induction false} LeadingDigitNonZero(s: string)
    requires IsDigits(s) && |s| >= 1 && s[0] != '0'
    ensures DigitsValue(s) >= 1
  {
    if |s| > 1 {
      assert s[..|s| - 1][0] == s[0];
      LeadingDigitNonZero(s[..|s| - 1]);
    }
  }

  /** Reading then rendering gives back any canonical digit string. */
  lemma {:induction false} ShowNatOfValue(s: string)
    requires IsCanonical(s)
    ensures ShowNat(DigitsValue(s)) == s
  {
    if |s| > 1 {
      var p := s[..|s| - 1];
      assert p[0] == s[0];
      LeadingDigitNonZero(p);
      ShowNatOfValue(p);
      var v := DigitsValue(s);
      assert v / 10 == DigitsValue(p) && v % 10 == DigitOf(s[|s| - 1]);
      assert DigitChar(DigitOf(s[|s| - 1])) == s[|s| - 1];
      assert s == p + [s[|s| - 1]];
    } else {
      assert DigitChar(DigitOf(s[0])) == s[0];
    }
  }

  /** Distinct numbers have distinct renderings. */
  lemma ShowNatInjective(a: nat, b: nat)
    requires ShowNat(a) == ShowNat(b)
    ensures a == b
  {
    ValueOfShowNat(a);
    ValueOfShowNat(b);
  }

  /** `String(x)` for any integer. */
  function ShowInt(x: int): string {
    if x < 0 then "-" + ShowNat(-x) else ShowNat(x)
  }

  lemma ShowIntInjective(a: int, b: int)
    requires ShowInt(a) == ShowInt(b)
    ensures a == b
  {
    ParseShowInt(a);
    ParseShowInt(b);
  }

  /** `String(Number(s))` for a digit string: the value without leading zeros. */
  function Renumber(s: string): (r: string)
    requires IsDigits(s)
    ensures IsCanonical(r)
    ensures DigitsValue(r) == DigitsValue(s)
  {
    ShowNatCanonical(DigitsValue(s));
    ValueOfShowNat(DigitsValue(s));
    ShowNat(DigitsValue(s))
  }

  /** `Number(s)` on the strings the inputs consist of: the empty string is 0,
      an optional sign followed by at least one digit is that integer, and
      everything else is NaN, modelled as None. */
  function ParseNumber(s: string): (r: Option<int>)
    ensures IsDigits(s) ==> r == Some(DigitsValue(s))
    ensures r.Some? && s != [] && s[0] == '-' ==> r.value <= 0
  {
    if s == [] then Some(0)
    else if IsDigits(s) then Some(DigitsValue(s))
    else if (s[0] == '-' || s[0] == '+') && |s| >= 2 && IsDigits(s[1..]) then
      var v: int := DigitsValue(s[1..]);
      Some(if s[0] == '-' then -v else v)
    else None
  }

  /** Parsing the rendering of an integer gives that integer back. */
  lemma ParseShowInt(x: int)
    ensures ParseNumber(ShowInt(x)) == Some(x)
  {
    if x < 0 {
      ValueOfShowNat(-x);
      var s := ShowInt(x);
      assert s[1..] == ShowNat(-x);
      assert !IsDigitChar(s[0]);
    } else {
      ValueOfShowNat(x);
    }
  }

  /** `pieces.map(Number)`, None as soon as one piece is not a number. */
  function ParseNumbers(pieces: seq<string>): (r: Option<seq<int>>)
    ensures r.Some? ==> |r.value| == |pieces|
  {
    if pieces == [] then Some([])
    else match (ParseNumber(pieces[0]), ParseNumbers(pieces[1..]))
      case (Some(x), Some(rest)) => Some([x] + rest)
      case _ => None
  }

  /** `xs.map(String)`. */
  function ShowAll(xs: seq<int>): (r: seq<string>)
    ensures |r| == |xs|
  {
    if xs == [] then [] else [ShowInt(xs[0])] + ShowAll(xs[1..])
  }

  lemma {:induction false} ParseShowAll(xs: seq<int>)
    ensures ParseNumbers(ShowAll(xs)) == Some(xs)
  {
    if xs != [] {
      ParseShowInt(xs[0]);
      ParseShowAll(xs[1..]);
      assert ShowAll(xs)[1..] == ShowAll(xs[1..]);
      assert xs == [xs[0]] + xs[1..];
    }
  }

  /** Rendered integers hold no character but digits and '-'. */
  lemma {:induction false} ShowAllLacks(xs: seq<int>, c: char)
    requires c != '-' && !IsDigitChar(c)
    ensures forall p :: p in ShowAll(xs) ==> c !in p
  {
    if xs != [] {
      ShowIntChars(xs[0]);
      ShowAllLacks(xs[1..], c);
      var s := ShowInt(xs[0]);
      assert c !in s by {
        forall k | 0 <= k < |s| ensures s[k] != c { }
      }
      forall p | p in ShowAll(xs) ensures c !in p {
        if p != s {
          assert p in ShowAll(xs[1..]);
        }
      }
    }
  }

  /** `s.indexOf(c)` for a character that occurs. */
  function FirstIndex(s: string, c: char): (r: nat)
    requires c in s
    ensures r < |s| && s[r] == c
    ensures forall k :: 0 <= k < r ==> s[k] != c
  {
    if s[0] == c then 0
    else
      assert c in s[1..] by {
        var k :| 0 <= k < |s| && s[k] == c;
        assert s[1..][k - 1] == c;
      }
      1 + FirstIndex(s[1..], c)
  }

  // ---------------------------------------------------------------------
  // String.prototype.split with a non-empty string separator
  // ---------------------------------------------------------------------

  predicate OccursAt(s: string, sep: string, i: int) {
    0 <= i && i + |sep| <= |s| && s[i..i + |sep|] == sep
  }

  /** The first occurrence of `sep` in `s` at or after `from`. */
  function IndexOfFrom(s: string, sep: string, from: nat): (r: Option<nat>)
    requires |sep| > 0
    ensures r.Some? ==> from <= r.value && OccursAt(s, sep, r.value)
    ensures r.Some? ==> forall k :: from <= k < r.value ==> !OccursAt(s, sep, k)
    ensures r.None? ==> forall k :: from <= k ==> !OccursAt(s, sep, k)
    decreases |s| - from
  {
    if from + |sep| > |s| then None
    else if s[from..from + |sep|] == sep then Some(from)
    else IndexOfFrom(s, sep, from + 1)
  }

  /** `s.split(sep)`: the pieces between the leftmost non-overlapping
      occurrences of `sep`; always at least one piece. */
  function SplitOn(s: string, sep: string): (parts: seq<string>)
    requires |sep| > 0
    ensures |parts| >= 1
    decreases |s|
  {
    match IndexOfFrom(s, sep, 0)
    case None => [s]
    case Some(i) => [s[..i]] + SplitOn(s[i + |sep|..], sep)
  }

  /** `parts.join(sep)`. */
  function Join(parts: seq<string>, sep: string): string {
    if parts == [] then []
    else if |parts| == 1 then parts[0]
    else parts[0] + sep + Join(parts[1..], sep)
  }

  /** A character in neither the pieces nor the separator is not in the joined string. */
  lemma JoinFree(parts: seq<string>, sep: string, c: char)
    requires forall p :: p in parts ==> c !in p
    requires c !in sep
    ensures c !in Join(parts, sep)
  {
    if |parts| > 1 {
      assert parts[0] in parts;
      assert forall p :: p in parts[1..] ==> p in parts;
      JoinFree(parts[1..], sep, c);
    }
  }

  /** Joining the pieces with the separator restores the original string. */
  lemma {:induction false} JoinSplitOn(s: string, sep: string)
    requires |sep| > 0
    ensures Join(SplitOn(s, sep), sep) == s
    decreases |s|
  {
    var r := IndexOfFrom(s, sep, 0);
    if r.Some? {
      var rest := s[r.value + |sep|..];
      JoinSplitOn(rest, sep);
      SplitOnCons(s, sep);
      JoinCons(s[..r.value], SplitOn(rest, sep), sep);
      Reassemble(s, sep, r.value);
    }
  }

  /** Splitting at the first occurrence: the piece before it, then the
      pieces of the rest. */
  lemma SplitOnCons(s: string, sep: string)
    requires |sep| > 0 && IndexOfFrom(s, sep, 0).Some?
    ensures SplitOn(s, sep) == [s[..IndexOfFrom(s, sep, 0).value]] + SplitOn(s[IndexOfFrom(s, sep, 0).value + |sep|..], sep)
  {
  }

  lemma JoinCons(p: string, tail: seq<string>, sep: string)
    requires |tail| >= 1
    ensures Join([p] + tail, sep) == p + sep + Join(tail, sep)
  {
    ConsTail(p, tail);
  }

  /** Stated for any element type, so that the elements are compared as
      values and not character by character. */
  lemma ConsTail<T>(x: T, t: seq<T>)
    ensures ([x] + t)[1..] == t
  {
  }

  lemma Reassemble(s: string, sep: string, i: int)
    requires OccursAt(s, sep, i)
    ensures s[..i] + sep + s[i + |sep|..] == s
  {
    assert s == s[..i] + s[i..i + |sep|] + s[i + |sep|..];
  }

  /** No piece contains the separator. */
  lemma {:induction false} SplitOnPiecesFree(s: string, sep: string)
    requires |sep| > 0
    ensures forall p, k :: p in SplitOn(s, sep) ==> !OccursAt(p, sep, k)
    decreases |s|
  {
    var r := IndexOfFrom(s, sep, 0);
    if r.Some? {
      var i := r.value;
      var rest := s[i + |sep|..];
      SplitOnPiecesFree(rest, sep);
      assert SplitOn(s, sep) == [s[..i]] + SplitOn(rest, sep);
      forall k | OccursAt(s[..i], sep, k)
        ensures false
      {
        assert s[..i][k..k + |sep|] == s[k..k + |sep|];
        assert OccursAt(s, sep, k);
      }
    }
  }

  /** `s.split(c)` for a one-character separator. */
  function Split(s: string, c: char): seq<string> {
    SplitOn(s, [c])
  }

  /** For a one-character separator, splitting undoes joining. */
  lemma {:induction false} SplitJoin(parts: seq<string>, c: char)
    requires |parts| >= 1
    requires forall p :: p in parts ==> c !in p
    ensures Split(Join(parts, [c]), c) == parts
    decreases |parts|
  {
    var s := Join(parts, [c]);
    if |parts| == 1 {
      assert s == parts[0];
      forall k | 0 <= k < |s| ensures !OccursAt(s, [c], k) {
        assert s[k] in parts[0];
        assert s[k..k + 1] == [s[k]];
      }
    } else {
      var p := parts[0];
      var rest := Join(parts[1..], [c]);
      assert s == p + [c] + rest;
      assert OccursAt(s, [c], |p|) by {
        assert s[|p|..|p| + 1] == [c];
      }
      forall k | 0 <= k < |p| ensures !OccursAt(s, [c], k) {
        assert s[k] == p[k] && p[k] in p;
        assert s[k..k + 1] == [s[k]];
      }
      assert IndexOfFrom(s, [c], 0) == Some(|p|);
      assert s[..|p|] == p;
      assert s[|p| + 1..] == rest;
      SplitJoin(parts[1..], c);
    }
  }

  /** `indexOf` from `from` finds the first occurrence at or after `from`. */
  lemma {:induction false} IndexOfFromFirst(s: string, sep: string, from: nat, i: nat)
    requires |sep| > 0 && from <= i && OccursAt(s, sep, i)
    requires forall k :: from <= k < i ==> !OccursAt(s, sep, k)
    ensures IndexOfFrom(s, sep, from) == Some(i)
    decreases i - from
  {
    if from < i {
      IndexOfFromFirst(s, sep, from + 1, i);
    }
  }

  /** A string free of the separator's first character splits into itself. */
  lemma SplitOnFree(q: string, sep: string)
    requires |sep| > 0 && sep[0] !in q
    ensures SplitOn(q, sep) == [q]
  {
    forall k | 0 <= k ensures !OccursAt(q, sep, k) {
      if k + |sep| <= |q| {
        assert q[k..k + |sep|][0] == q[k] && q[k] in q;
      }
    }
  }

  /** `(p + sep + q).split(sep)` is `[p, q]` when neither side holds the
      separator's first character. */
  lemma SplitOnTwo(p: string, q: string, sep: string)
    requires |sep| > 0 && sep[0] !in p && sep[0] !in q
    ensures SplitOn(p + sep + q, sep) == [p, q]
  {
    var s := p + sep + q;
    forall k | 0 <= k < |p| ensures !OccursAt(s, sep, k) {
      assert s[k] == p[k] && p[k] in p;
      if k + |sep| <= |s| {
        assert s[k..k + |sep|][0] == s[k];
      }
    }
    assert s[|p|..|p| + |sep|] == sep;
    IndexOfFromFirst(s, sep, 0, |p|);
    assert s[..|p|] == p;
    assert s[|p| + |sep|..] == q;
    SplitOnFree(q, sep);
  }

  /** The rendering of an integer holds digits and at most a minus sign. */
  lemma ShowIntChars(x: int)
    ensures forall k :: 0 <= k < |ShowInt(x)| ==> ShowInt(x)[k] == '-' || IsDigitChar(ShowInt(x)[k])
    ensures |ShowInt(x)| >= 1
  {
    if x < 0 {
      var s := ShowInt(x);
      forall k | 0 < k < |s| ensures IsDigitChar(s[k]) {
        assert s[k] == ShowNat(-x)[k - 1];
      }
    }
  }

  /** No piece of `s.split(c)` contains `c`. */
  lemma SplitPiecesLack(s: string, c: char)
    ensures forall p :: p in Split(s, c) ==> c !in p
  {
    SplitOnPiecesFree(s, [c]);
    forall p, m | p in Split(s, c) && 0 <= m < |p| ensures p[m] != c {
      assert p[m..m + 1] == [p[m]];
      assert !OccursAt(p, [c], m);
    }
  }

  /** `input.split('\n').filter((line) => line !== '')`. */
  function NonEmptyLines(s: string): (lines: seq<string>)
    ensures forall k :: 0 <= k < |lines| ==> lines[k] != [] && '\n' !in lines[k]
  {
    SplitPiecesLack(s, '\n');
    var r := DropEmpty(Split(s, '\n'));
    assert forall k :: 0 <= k < |r| ==> r[k] in r;
    r
  }

  function DropEmpty(parts: seq<string>): (r: seq<string>)
    ensures forall p :: p in r <==> p in parts && p != []
    ensures |r| <= |parts|
  {
    if parts == [] then []
    else if parts[0] == [] then DropEmpty(parts[1..])
    else [parts[0]] + DropEmpty(parts[1..])
  }

  /** Dropping empty pieces keeps a list that has none. */
  lemma DropEmptyKeeps(parts: seq<string>)
    requires forall p :: p in parts ==> p != []
    ensures DropEmpty(parts) == parts
  {
    if parts != [] {
      assert parts[0] in parts;
      assert forall p :: p in parts[1..] ==> p in parts;
      DropEmptyKeeps(parts[1..]);
    }
  }

  /** `s.slice(k)` for a non-negative `k`. */
  function Slice(s: string, k: nat): (r: string)
    ensures |r| == if k <= |s| then |s| - k else 0
    ensures forall i :: 0 <= i < |r| ==> r[i] == s[k + i]
  {
    if k <= |s| then s[k..] else ""
  }
}
